=== FILE: README.md ===
# A verified model of a deck-to-JavaScript compiler core

This project models, in Dafny, the core of a compiler that lowers a deck (a map
from roads to files holding imports, tasks, forms, hooks and calls) to
JavaScript syntax trees. It covers three parts of that compiler:

- The root compiler in `index.js`, modelled by these modules:
  - `TermStore`: the fork arena that hands out numbered `host_<n>` and `file_<n>` terms for names. Every fork either shares its parent's call counter or owns a fresh one.
  - `Translate`: the translator from bonds, zones, hooks, calls and tasks to syntax nodes. It threads the arena through each step.
  - `Dock`: the table of native "dock" transforms, one per built-in call.
  - `Transpile`: the file builders (base, dock and lace files) and the worklist that compiles a deck's files in the order `Object.values(deck.load)` lists them, the first file of each road winning.
- The library compiler:
  - `LibTranspile` models `lib/transpile/index.js`: the breadth-first worklist over imports (the `DeckWalk` module holds its invariants) and the task-file builders.
  - `Make` models `lib/make/index.js`: import flattening, `x<n>` load tags, and nest, link, sift, save and call lowering.
  - `Native` models `lib/transpile/native/index.js`: its transform table.
- The resolver `lib/resolve/index.js`, modelled by `Resolve`: the pass that walks each compiled file's top-level statements, then each task in a copy of their scope. It gives function parameters and identifiers that are assigned to per-file `x<n>` names, and renames identifier call arguments and the objects of member callees that already have one. Declarations and function names are left as they are, and a `return` of anything but a handled statement stops with `Missing method`.

`Ast` is the emitted syntax tree. `Wrappers` holds `Option`, `Result` and the faults the compiler stops with. `Decimal` renders the `x<n>` names. `Paths`, `Deck` and `SiftDeck` are the input records.

Each operation is a function or method whose contract states what the
compiled output is. Errors are values: a missing role, a binding of the
wrong form, or an undefined handler yields an `Err` naming it. Lemmas relate the operations to each
other and to independent definitions: injectivity of generated names,
first-wins compilation, renaming consistency, and the isolation of forks
and files.

## Model

| member | source | states |
|---|---|---|
| Decimal.ShowInjective | index.js:1067-1075 | the decimal text of a mark, as the generated `host_`/`file_` names print it, differs for different marks |
| Decimal.PrefixedInjective | index.js:1067-1075 | a name built from one prefix and a printed number determines the number |
| TermStore.Owner | index.js:1077-1094 | the fork whose call table `getForkTermBase` reaches is a root at or below the requesting fork that owns a call table |
| TermStore.CallCountOwner | index.js:1077-1094 | a fork's call count is the counter of the call table its chain ends at |
| TermStore.TermTree | index.js:1095-1116 | a name visible along the chain keeps its mark and leaves the arena unchanged; a new name gets the requesting fork's own counter in that fork's own table, the counter goes up by one and every other fork and every call table is untouched |
| TermStore.TermBase | index.js:1077-1094 | every request returns the owning root's call counter, records the name under it, advances that counter by one and changes no other fork |
| TermStore.NewFork | index.js:1037-1061 | the new fork is appended with an empty bond map and no `head`; a root gets fresh host, file and call tables; a child gets a copy of its parent's host table and counter, no call table, its parent as `base`, and becomes its parent's `head` |
| TermStore.SetBond | index.js:1118-1120 | the bond is stored under the key in the fork's own map and no other fork or key changes |
| TermStore.RootLookupInjective | index.js:1095-1116 | within a single root table two names that resolve never share a mark |
| TermStore.HostTermInjective | index.js:1067-1070 | host identifiers `host_<mark+1>` are equal exactly when their marks are |
| TermStore.FileTermInjective | index.js:1072-1075 | file identifiers `file_<mark+2>` are equal exactly when their marks are |
| TermStore.TermTreeIdempotent | index.js:1095-1116 | asking a second time for the same name returns the same mark and changes nothing |
| TermStore.LookupPersists | index.js:1095-1116 | allocating any name from any fork never changes what an already resolved name resolves to, from any fork |
| TermStore.LookupSameTables | index.js:1095-1116 | a lookup depends only on the parent links and the tables of the forks on its chain |
| TermStore.ChildSeesParent | index.js:1044-1061 | a new child scope resolves every host name exactly as its parent does |
| TermStore.OwnerKept | index.js:1077-1094 | growth of the arena that keeps parent links and call tables keeps every fork's owning root |
| TermStore.CallCountSame | index.js:1077-1094 | growth of the arena that leaves call tables alone leaves every call count alone |
| TermStore.ChildCallCount | index.js:1044-1061 | a child without its own call table shares its parent's call count |
| TermStore.CallSlotsNeverReused | index.js:1077-1094 | asking twice for the same call name yields two consecutive slots, never the same one |
| TermStore.CopiedCounterAliases | index.js:1044-1061 | the child's counter is a copy: after the child allocates `a` at mark 0 its parent hands mark 0 to `b`, and from the child both names resolve to mark 0 |
| TermStore.Store.CreateNewFork | index.js:1044-1061 | the arena and the returned id are those of `NewFork` on the old arena |
| TermStore.Store.CreateBaseFork | index.js:1037-1042 | a new root whose `file` bond holds the file and whose `base` bond is undefined, ready for file names, with call count zero |
| TermStore.Store.SetForkBond | index.js:1118-1120 | the arena becomes `SetBond` of the old arena |
| TermStore.Store.GetForkBond | index.js:1122-1131 | the loop up the parent chain returns the bond the nearest fork holding the key has, or none |
| TermStore.Store.GetForkTermTree | index.js:1095-1116 | the loop up the chain leaves the arena and mark `TermTree` specifies |
| TermStore.Store.GetForkTermBase | index.js:1077-1094 | the loop to the nearest call table leaves the arena and mark `TermBase` specifies |
| TermStore.Store.GetForkCallMark | index.js:1063-1065 | the mark is the old call count, and the arena is advanced as `TermBase` specifies |
| TermStore.Store.GetForkHostTerm | index.js:1067-1070 | returns `host_` followed by the name's mark, after which the name resolves from the fork to that mark |
| TermStore.Store.GetForkFileTerm | index.js:1072-1075 | returns `file_` followed by the name's file mark, after which the name resolves from the fork to that mark |
| TermStore.Store.constructor | index.js:1044-1061 | the store starts with no forks |
| Translate.Cord | index.js:696-698 | joining the text fragments yields a string whose length is the sum of the fragments' lengths |
| Translate.CordConcat | index.js:696-698 | joining distributes over concatenation of fragment lists |
| Translate.TaskFork | index.js:279-283 | the task's fork is a new child of the current fork whose `task` bond holds the task |
| Translate.MakeTerm | index.js:811-814 | the identifier is `host_` plus the mark the name now resolves to from the fork; no call slot is taken and the fork's names are preserved |
| Translate.MakeCallTerm | index.js:816-819 | the target is `call[m]` for the fork's current call count `m`, which goes up by exactly one |
| Translate.MakeNest | index.js:408-427 | a site in base position becomes the host term of its name, a site elsewhere a bare identifier; the result is a value expression and takes no call slot; a chain is exactly its steps folded over its base (`NestChain`) |
| Translate.NestChain | index.js:408-427 | a chain is the fold of its steps over the translation of its base, read as a base name, in the arena the base left |
| Translate.FoldSteps | index.js:418-425 | folding the steps of a chain yields member accesses whose computed flags are the old flags followed by one flag per step, true exactly for nested steps, around the same innermost object |
| Translate.FoldStepsSnoc | index.js:418-425 | one more step wraps what the other steps built in a member access of that step, computed exactly when the step is a nest, made in the arena they left |
| Translate.MakeLink | index.js:322-329 | a host link becomes the host term of its name; any other link is built as a nest; no call slot is taken; exactly one of the two (`LinkNode`) |
| Translate.LinkNode | index.js:322-329 | a host link is exactly `MakeTerm` of its name and a nest link exactly `MakeNest` of its nest in base position |
| Translate.MakeBond | index.js:274-320 | every bond form yields a value expression, and the call count grows by exactly the number of call targets inside the bond; the node of each form is given by `BondShapes` |
| Translate.BondShapes | index.js:274-320 | text is the joined string literal and size a number literal, each leaving the arena alone; a loan is the host term of its name; `make`, array and record bonds are exactly `MakeObject`, `MakeArray` and `MakeRecord`; a nest is `MakeNest` in base position; a call is `MakeCall`; a task is `MakeTaskBond` |
| Translate.MakeProps | index.js:284-292 | one property per bind, in order, keyed by the bind's name as a string literal |
| Translate.PropsCons | index.js:284-292 | the first bind gives the first property, keyed by its name, and the rest are made in the arena it left |
| Translate.PropsSnoc | index.js:284-292 | one more bind appends its property, made in the arena the other binds left |
| Translate.MakeEntries | index.js:306-315 | one property per record entry keyed by its name; a scalar entry becomes a literal of its value |
| Translate.EntriesCons | index.js:306-315 | the first entry gives the first property: a nested entry its translated bond, a scalar entry the literal of its value |
| Translate.EntriesSnoc | index.js:306-315 | one more entry appends its property, made in the arena the other entries left |
| Translate.MakeItems | index.js:300-303 | one element per array item |
| Translate.ItemsCons | index.js:300-303 | the first item is translated first and the rest in the arena it left |
| Translate.ItemsSnoc | index.js:300-303 | one more item appends its translation, made in the arena the other items left |
| Translate.MakeParams | index.js:356-362 | one parameter per link, each the host term its name resolves to in the fork |
| Translate.MakeHost | index.js:337-346 | a `let` declaration of the name's host term, whose initialiser is undefined exactly when the zone has no bond; the term is allocated before the bond is translated (`HostNode`) |
| Translate.HostNode | index.js:337-346 | exactly `let` of `MakeTerm` of the name, initialised by `MakeBond` of the bond made in the arena the term left, or by `undefined` |
| Translate.MakeSave | index.js:331-335 | an assignment whose left side is a value expression (a nest or a link); exactly the link, then the bond (`SaveNode`) |
| Translate.SaveNode | index.js:331-335 | exactly the assignment of `MakeBond` of the value to `MakeLink` of the target, the target translated first |
| Translate.MakeTurn | index.js:348-351 | a return statement of a value expression, exactly that of the bond's translation (`TurnNode`) |
| Translate.TurnNode | index.js:348-351 | exactly the return of `MakeBond` of the value |
| Translate.MakeZones | index.js:363-385 | one optional statement per zone, in order: host, save, turn and call zones give a declaration, an assignment, a return and a call; any other form gives none; each zone is made in the arena the zones before it left (`ZonesSnoc`) |
| Translate.ZonesCons | index.js:363-385 | the first zone gives the first statement and the rest are made in the arena it left |
| Translate.ZonesSnoc | index.js:363-385 | one more zone appends its optional statement, made in the arena the other zones left |
| Translate.Compact | index.js:386-391 | the body keeps only the statements that were produced, in order, and never grows |
| Translate.CompactSnoc | index.js:386-391 | one more zone adds its statement to the body if it produced one |
| Translate.TailRule | index.js:386-391 | only the last produced statement of a body may be wrapped in a return |
| Translate.MakeHook | index.js:360-399 | each hook becomes an anonymous, non-async function with one parameter per link and a block body; exactly as `HookNode` gives it |
| Translate.HookNode | index.js:360-399 | exactly a function in a new child fork: `MakeParams` of the links, then `MakeZones` of the zones, whose body returns its last statement |
| Translate.MakeHooks | index.js:358-400 | one function argument per hook, in order, each made in the arena the hooks before it left (`HooksSnoc`) |
| Translate.HooksCons | index.js:358-400 | the first hook gives the first function and the rest are made in the arena it left |
| Translate.HooksSnoc | index.js:358-400 | one more hook appends its function, made in the arena the other hooks left |
| Translate.MakeCall | index.js:353-406 | a call expression awaited exactly when the call waits, whose arguments are the built binds followed by one function per hook; the call count grows by the call's slots; the whole node is `CallNode` |
| Translate.CallNode | index.js:353-406 | exactly: the binds, then the hooks, then the callee, each made in the arena the one before left; the arguments are the binds' values followed by the hooks' functions |
| Translate.SlotCallee | index.js:353-406 | a named callee reads `call[m]`, where `m` counts the slots taken before the call and by its own binds and hooks |
| Translate.MakeTask | index.js:429-474 | a named function declaration, async exactly when the task waits, with one parameter per link and a block body; exactly as `TaskNode` gives it |
| Translate.TaskNode | index.js:429-474 | exactly: `MakeParams`, then `MakeZones`, then the task's own host term, as the function's name, parameters and tail-returned body |
| Translate.TaskBodyOf | index.js:439-464 | the task body is the produced statements with the last one returned unless the last zone is a `turn` |
| Translate.TaskTail | index.js:455-464 | after a final `turn` the body ends in that return; after a final zone of another form that yields nothing the body is the earlier statements; otherwise the last statement is wrapped in a return and was not a return itself |
| Translate.HookTurnReturnsTwice | index.js:386-391 | a hook whose last zone is a `turn` ends in `return return …`, a return wrapped in a return |
| Translate.HelloZones | index.js:348-351 | the zone `turn "hello"` yields `return "hello"` and leaves the arena unchanged |
| Translate.GreetExample | index.js:429-474 | the task `greet` whose only zone returns "hello" becomes `function host_1() { return "hello" }` |
| Translate.MakeObject | index.js:284-292 | a `make` bond becomes an object with one property per bind, exactly `MakeProps` (`ObjectNode`) |
| Translate.ObjectNode | index.js:284-292 | exactly the object of the properties `MakeProps` makes |
| Translate.MakeArray | index.js:299-303 | an array bond becomes an array expression of the same length, exactly `MakeItems` (`ArrayNode`) |
| Translate.ArrayNode | index.js:299-303 | exactly the array of the elements `MakeItems` makes |
| Translate.MakeRecord | index.js:306-316 | a record bond becomes an object with one property per entry, exactly `MakeEntries` (`RecordNode`) |
| Translate.RecordNode | index.js:306-316 | exactly the object of the properties `MakeEntries` makes |
| Translate.MakeTaskBond | index.js:279-283 | a task bond becomes a named function declaration, async exactly when the task waits, with one parameter per link, built in a new fork (`TaskBondNode`) |
| Translate.TaskBondNode | index.js:279-283 | exactly `MakeTask` in the new child fork `TaskFork` makes for the task |
| Translate.MakeArgs | index.js:356-358 | one argument per bind, in order, each made in the arena the binds before it left (`ArgsSnoc`) |
| Translate.ArgsCons | index.js:356-358 | the first bind gives the first argument and the rest are made in the arena it left |
| Translate.ArgsSnoc | index.js:356-358 | one more bind appends its value, made in the arena the other binds left |
| Translate.MakeZone | index.js:363-378 | each zone's statement has the shape its form calls for, and a zone of another form gives none; exactly the builder of its form (`ZoneNode`) |
| Translate.ZoneNode | index.js:363-378 | a host, save, turn or call zone is exactly `MakeHost`, `MakeSave`, `MakeTurn` or `MakeCall`; any other form gives nothing and leaves the arena alone |
| Dock.RoleIndex | index.js:713 | the index found is the first binding carrying the role, and none is found exactly when no binding carries it |
| Dock.Role | index.js:713 | `filter(bind => bind.name === role)[0]` succeeds exactly when some binding has the role, giving one that carries it, and otherwise fails naming the role |
| Dock.Position | index.js:896 | reading a binding by position succeeds exactly when the position is in range and gives that binding |
| Dock.TextOf | index.js:696-698 | a binding reads as text exactly when its bond is text, and then as its joined fragments |
| Dock.LinkOf | index.js:742-754 | a binding reads as a link exactly when its bond is a link |
| Dock.DockCall | index.js:704-710 | the call stops with "Missing implementation of <name>" exactly when its name is not in the transform table of index.js:660-680; every name of the table is lowered by exactly its own transform; a call that succeeds keeps the arena valid and only grows it |
| Dock.Transform | index.js:660-680 | the table selects an entry exactly for the nineteen names it holds |
| Dock.TransformTable | index.js:660-680 | each name of the table selects its own transform |
| Dock.CreateLiteral | index.js:712-715 | succeeds exactly when a `literal` binding holds text, and then returns that text as a string literal without touching the arena |
| Dock.Delete | index.js:717-728 | succeeds exactly when `object` and `aspect` bindings exist, and then yields the prefix `delete` of a computed access on two value expressions |
| Dock.DeleteNode | index.js:717-728 | with `object` and `aspect`, exactly `delete` of the computed access of the object's translation by the aspect's, the object translated first |
| Dock.DeleteExample | index.js:717-728 | `delete` of loan `r` and aspect "key" at a fresh root lowers to `delete host_1["key"]` |
| Dock.GetAspect | index.js:730-740 | succeeds exactly when `object` exists and `aspect` holds text, and then returns the plain access `object.aspect` with the aspect's text as the property |
| Dock.GetAspectNode | index.js:730-740 | with `object` and a text `aspect`, exactly the return of the object's translation accessed by the aspect's text |
| Dock.SetAspect | index.js:742-754 | as written it never succeeds: with an `object` binding it stops reading a `sift` that bindings never carry (see Findings) |
| Dock.SetAspectIntended | index.js:742-754 | succeeds exactly when `object` and `factor` are links and `aspect` is text, and then assigns the factor to the plain access `object.aspect` |
| Dock.SetAspectIntendedNode | index.js:742-754 | when it succeeds, exactly the assignment of the factor link's translation to the object link's translation accessed by the aspect's text, the object first |
| Dock.GetDynamicAspect | index.js:756-766 | succeeds exactly when `object` and `aspect` exist, and then returns the computed access `object[aspect]` |
| Dock.GetDynamicAspectNode | index.js:756-766 | with `object` and `aspect`, exactly the return of `object[aspect]` over their translations, the object first |
| Dock.SetDynamicAspect | index.js:768-780 | succeeds exactly when `object`, `aspect` and `factor` exist, and then assigns the factor to `object[aspect]` |
| Dock.SetDynamicAspectNode | index.js:768-780 | with `object`, `aspect` and `factor`, exactly the assignment of the factor's translation to `object[aspect]`, translated in that order |
| Dock.CallKeyword2 | index.js:782-793 | succeeds exactly when `left`, `right` and a text `keyword` exist, and then returns the binary expression with the keyword as operator |
| Dock.CallKeyword2Node | index.js:782-793 | with `left`, `right` and a text `keyword`, exactly the return of the binary expression of their translations, the left first |
| Dock.CallKeyword | index.js:795-805 | succeeds exactly when `value` and a text `keyword` exist, and then returns the prefix unary expression with the keyword as operator |
| Dock.CallKeywordNode | index.js:795-805 | with `value` and a text `keyword`, exactly the return of the prefix unary expression of the value's translation |
| Dock.Loop | index.js:821-832 | succeeds exactly when `check` and `block` exist, and then yields `while (check()) { block() }` over the host names that the two bonds' `name` properties (`Dock.BondName`) resolve to |
| Dock.BondName | index.js:826-829 | the `name` property of a bond as a property key: a loan's or task's name, a call's slot key, a nested callee as "[object Object]", a plain object's first `name` entry (`Dock.RecordName`), and "undefined" for every bond form without a `name` |
| Dock.RecordName | index.js:306-315 | a plain object's `name` is the key text of its first entry keyed `name`: a string as it is, an object as "[object Object]", an array joined with commas; "undefined" when no entry is keyed `name` |
| Dock.LoopRecordCheck | index.js:821-832 | a `loop` whose check is a plain object with a string `name` entry calls the host name that string resolves to |
| Dock.TestElse | index.js:834-853 | succeeds exactly when `check`, `block` and `else` exist, and then yields an `if` on a call with one call in each branch |
| Dock.TestElseNode | index.js:834-853 | with `check`, `block` and `else`, exactly the `if` calling the check's translation with one call of each branch, translated in that order |
| Dock.CallTry | index.js:855-866 | succeeds exactly when `block` and `error` exist, and then yields a `try` calling the block with a handler calling the error |
| Dock.CallTryNode | index.js:855-866 | with `block` and `error`, exactly the `try` calling the block's translation with a handler calling the error's |
| Dock.CallHead | index.js:868-878 | succeeds exactly when `value` and a text `operation` exist, and then returns the prefix update expression with that operator |
| Dock.CallHeadNode | index.js:868-878 | with `value` and a text `operation`, exactly the return of the prefix update of the value's translation |
| Dock.CallTwin | index.js:880-893 | succeeds exactly when `left`, `right` and a text `operation` exist, and then returns the binary expression; a text right operand becomes its literal text |
| Dock.CallTwinNode | index.js:880-893 | with `left`, `right` and a text `operation`, exactly the return of the binary expression; a text right operand is its literal text, any other its translation |
| Dock.CallMake | index.js:895-908 | succeeds exactly when the first binding is text, and then returns `new` of the class it names with one argument per remaining binding |
| Dock.CallMakeNode | index.js:895-908 | with a text first binding, exactly the return of `new` of that name over `MakeArgs` of the remaining bindings |
| Dock.NameTerms | index.js:910-946 | one host term per binding, each the term that the bond's `name` property (`Dock.BondName`, including a plain object's `name` entry) resolves to |
| Dock.Drop | index.js:910-946 | `slice(k)` keeps all but the first `k` bindings, or none |
| Dock.CallBase | index.js:910-946 | succeeds exactly when the second binding is text and the first is a loan or text, and then returns a non-computed method call of the second binding's name |
| Dock.CallBaseNode | index.js:910-946 | on a loan, exactly the method call on the loan's host term over the host terms of the loan and the bindings after the method; on text, exactly the call of `object.method` as identifiers over the host terms of the remaining bindings |
| Dock.CallBaseLoan | index.js:912-930 | on a loan object the receiver is the loan's host name and is also passed as the first of the remaining arguments |
| Dock.ReceiverIsFirst | index.js:912-930 | naming the loan again as receiver gives the same identifier as the first argument |
| Dock.CallBaseText | index.js:931-945 | on a text object the object and method are identifiers given as text, and the other bindings are the arguments, named by their bonds' `name` properties as `Dock.BondName` reads them |
| Dock.CallFunction | index.js:948-961 | succeeds exactly when the first binding is text, and then returns a call of the function it names with one argument per remaining binding |
| Dock.CallFunctionNode | index.js:948-961 | with a text first binding, exactly the return of the call of that name over `MakeArgs` of the remaining bindings |
| Dock.CallTest | index.js:963-976 | succeeds exactly when there are at least two bindings, and then yields an `if` on a call whose branch calls one value |
| Dock.CallTestNode | index.js:963-976 | with two bindings or more, exactly the `if` calling the first binding's translation with a block calling the second's |
| Dock.ThrowError | index.js:682-694 | succeeds exactly when a `factor` exists, and then throws `new Error(x)` where `x` is undefined exactly when the factor is text (the text helper only logs) |
| Dock.ThrowErrorNode | index.js:682-694 | with a `factor`, exactly `throw new Error(x)`, `x` being `undefined` for a text factor and the factor's translation otherwise |
| Dock.DockZone | index.js:635-649 | a call zone lowers through its transform and is the only zone that can fail; other zones produce what the translator produces; exactly as `DockZoneNode` gives it |
| Dock.DockZoneNode | index.js:635-649 | a host, save or turn zone is exactly the translator's `MakeHost`, `MakeSave` or `MakeTurn`; a call zone is exactly `DockCall` of its call, failing with its error; any other zone gives nothing and leaves the arena alone |
| Dock.DockZones | index.js:635-649 | one statement per zone, in order, with no return added; an error comes from some call zone; each zone is lowered in the arena the zones before it left (`DockZonesSnoc`) |
| Dock.DockZonesCons | index.js:635-649 | the first zone is lowered first, and its failure is the body's; the rest are lowered in the arena it left |
| Dock.DockZonesSnoc | index.js:635-649 | one more zone appends its statement, lowered in the arena the other zones left; a failure of the others, or of it, is the body's |
| Dock.MakeDockTask | index.js:622-658 | an anonymous function, async exactly when the task waits, with one parameter per link and no more statements than zones; an error comes from a call zone; exactly as `DockTaskNode` gives it |
| Dock.DockTaskNode | index.js:622-658 | exactly: `MakeParams` of the links, then `DockZones` of the zones, the produced statements forming the block, with the zones' failure as the task's |
| Dock.DockTaskNoTailReturn | index.js:622-658 | a native task whose last zone is an assignment ends in that assignment, not in a return |
| Dock.LoanAtRoot | index.js:293-294 | the first loan at a fresh file root becomes `host_1` and records its name at mark 0 |
| Transpile.BindBodyOf | index.js:213-222 | the function inside `base.file(line, function(file) {…})` holds exactly the statements the bind was made with |
| Transpile.ReplaceKeywords | index.js:538-543 | the result is never `case`; `case` becomes `_case` and every other string is kept |
| Transpile.KeywordsCollide | index.js:538-543 | the renaming is not injective: `case` and `_case` both become `_case` |
| Transpile.NonLoan | index.js:548 | keeps exactly the form's tasks that are not borrowed (`task-loan`), in order |
| Transpile.FormClass | index.js:545-598 | `file.form(name, class)` where the class is named by the Pascal case of the form's name, has no superclass, and has a constructor with one parameter and one `this` assignment per link, followed by one empty method per task that is not borrowed |
| Transpile.FormAvoidsKeyword | index.js:545-585 | no member of a generated class is named `case` |
| Transpile.MakeLoad | index.js:520-536 | `const file_<m> = base.file(road)`, where `m` is the file mark the road now resolves to at the root; file names resolved before stay put |
| Transpile.Loads | index.js:100-103 | one import per road, in order, taking no call slot |
| Transpile.LoadsSnoc | index.js:100-103 | one more road extends the imports before it with that road's import |
| Transpile.LoadsResolve | index.js:100-103 | once all imports are made, each declares the file name its road resolves to at the root |
| Transpile.LoadNamesDistinct | index.js:520-536 | two imports of one file declare the same name exactly when they import the same road |
| Transpile.Tasks | index.js:106-111 | one named function per task, each with the task's parameters and `wait` flag, translated in its own child fork of the root; each task is made in the arena the tasks before it left (`TasksSnoc`) |
| Transpile.TasksSnoc | index.js:106-111 | one more task appends exactly `MakeTaskBond` of that task, made in the arena the tasks before it left |
| Transpile.Forms | index.js:113-118 | one class per form, in order, each what `makeForm` gives; no call slot is taken |
| Transpile.MakeTop | index.js:120-127 | a top-level `save` zone becomes an assignment and any other a call expression awaited as the call waits; exactly `MakeSave` or `MakeCall` (`TopNode`) |
| Transpile.TopNode | index.js:120-127 | a top-level save is exactly the translator's `MakeSave` of that zone at the root, and any other zone exactly `MakeCall` of its call |
| Transpile.Tops | index.js:120-127 | one statement per top-level zone, in order, each made in the arena the zones before it left (`TopsSnoc`) |
| Transpile.TopsSnoc | index.js:120-127 | one more top-level zone appends exactly `MakeTop` of that zone, made in the arena the zones before it left |
| Transpile.Stems | index.js:129-133 | one `file.save('~stem/~<name>', bond)` per stem, in order |
| Transpile.FileTasks | index.js:174 | each task function registered as `file.task(name, fn)` under the task's own name, in order |
| Transpile.CallArray | index.js:139-160 | the call array and its `file.save('~call', call)` appear exactly when the file took a call slot |
| Transpile.BaseBound | index.js:168-181 | the first bind holds the base body; a second bind, holding the top-level statements, is added exactly when there are any |
| Transpile.BaseParts | index.js:91-133 | the call count grows by the file's call slots, and there is one translated task per task (async as it waits), one class per form and one statement per zone |
| Transpile.BodyLayout | index.js:168-175 | the base body is the call array, the two knits, the forms' classes, the registered tasks and the stems, in that order |
| Transpile.BaseFile | index.js:91-182 | the first bind has the base layout, with a call array sized by the root's call counter after everything is translated; a second bind with one statement per zone exists exactly when there are zones |
| Transpile.CallArraySized | index.js:136-160 | for a fresh file the call array is `new Array(n)` for exactly the number of call slots the file takes, and the body opens with the stem knit when it takes none |
| Transpile.LayoutHead | index.js:136-175 | a body with the base layout opens with the call array when there are slots and with the stem knit otherwise |
| Transpile.DockTaskBond | index.js:484-489 | a native task is lowered in its own child fork into a function async as it waits, and fails only if it has a call zone; exactly `MakeDockTask` in that fork (`DockTaskBondNode`) |
| Transpile.DockTaskBondNode | index.js:484-489 | exactly `MakeDockTask` in the child fork `TaskFork` makes for the task, with its error |
| Transpile.DockTasks | index.js:484-489 | one function per native task, in order; a failure comes from a call zone of some task; each task extends the ones before it (`DockTasksSnoc`) |
| Transpile.DockTasksSnoc | index.js:484-489 | one more native task extends the tasks before it, or stops the file with its error |
| Transpile.DockTasksPrefix | index.js:484-489 | once a prefix of the native tasks fails, the whole file fails with that error |
| Transpile.DockBound | index.js:505-517 | one bind whose body lists the imports, the forms, the registered tasks and the top-level statements, in that order |
| Transpile.DockFile | index.js:476-518 | a native file compiles to one bind with one statement per import, form, task and zone, opening with the imports themselves; a failure comes from a call zone; exactly `DockBound` of its parts (`DockFileNode`) |
| Transpile.DockFileNode | index.js:476-518 | the imports, tasks, forms and top-level statements are made in that order, each in the arena the part before it left, and the result is exactly `DockBound` of them, which lays them out as imports, forms, tasks, statements; a failing task stops the file with its error |
| Transpile.Laces | index.js:983-987 | one `file.save('~lace/~<name>', lace)` per lace, in order |
| Transpile.LaceFile | index.js:978-1001 | one bind (not a list) whose body is the knits `~lace` and `~form/~name` followed by the laces |
| Transpile.CompileFile | index.js:52-89 | fails exactly for a kind whose builder does not exist or a native file that fails; test files and unknown kinds compile to no bound, lace files to a single bind, base and native files to a list; exactly as `CompileFileNode` gives it |
| Transpile.CompileFileNode | index.js:52-89 | a base file is exactly `BaseFile`, a native file exactly `DockFile` with its error, a lace file exactly `LaceFile`; test and unknown kinds give no bound and leave the arena; an absent builder fails naming it |
| Transpile.FreshForks | index.js:1037-1042 | a fresh file's arena is one root that can name files and has taken no call slot |
| Transpile.FirstInRest | index.js:35-50 | a file after the head is the first of its road in the rest, with a road different from the head's, exactly when it is the first of its road in the whole list |
| Transpile.Roads | index.js:35-50 | the set of roads of the files in the list |
| Transpile.RunStep | index.js:40-48 | a successful worklist goes on from the next map: the head is skipped when its road is compiled and otherwise compiled |
| Transpile.RunKeys | index.js:35-50 | a successful run holds exactly the roads compiled before and the roads of the list |
| Transpile.RunKeeps | index.js:42-44 | a road already compiled keeps its output |
| Transpile.RunFirst | index.js:40-48 | each road not compiled before holds the output of the first file with that road |
| Transpile.RunFirstWins | index.js:35-50 | each road is compiled once, from its first file: exactly the old and new roads, old outputs kept, each new road's output that of its first file |
| Transpile.RunFails | index.js:35-50 | the worklist fails exactly when some file that is the first of its road, among roads not yet compiled, fails to compile |
| Transpile.MakeLoads | index.js:100-103 | the import loop leaves the store and imports `Loads` specifies |
| Transpile.AddTaskFork | index.js:107-109 | the store gains the task's child fork exactly as `TaskFork` specifies |
| Transpile.AddTask | index.js:106-111 | one task translated in its own fork, as `MakeTaskBond` specifies |
| Transpile.MakeTasks | index.js:106-111 | the task loop leaves the store and functions `Tasks` specifies |
| Transpile.AddFormFork | index.js:114-116 | the store gains the form's child fork as `FormFork` specifies |
| Transpile.MakeForms | index.js:113-118 | the form loop leaves the store and classes `Forms` specifies |
| Transpile.MakeTops | index.js:120-127 | the top-level loop leaves the store and statements `Tops` specifies |
| Transpile.MakeBaseFile | index.js:91-182 | builds, step by step on the store, exactly the arena and bound `BaseFile` specifies |
| Transpile.AddDockTask | index.js:484-489 | one native task lowered in its own fork, failing exactly when `DockTaskBond` does and with its error |
| Transpile.MakeDockTasks | index.js:484-489 | the native task loop stops at the first task that fails, and otherwise leaves what `DockTasks` specifies |
| Transpile.MakeDockFile | index.js:476-518 | builds, step by step on the store, what `DockFile` specifies, with the same error |
| Transpile.MakeFile | index.js:52-89 | the dispatch on the store succeeds or fails exactly as `CompileFile` and leaves its arena and bound |
| Transpile.CompileNew | index.js:44-46 | a file is compiled from a new root store holding only that file, as `Compile` specifies |
| Transpile.Transpile | index.js:35-50 | the worklist loop over the deck's files is `Run` from an empty map, so its outcome has the properties of `RunFirstWins` and `RunFails` |
| Make.TagInjective | lib/make/index.js:18 | two generated require names `x<n>` are equal only for equal numbers |
| Make.TagDistinct | lib/make/index.js:18 | distinct numbers give distinct require names |
| Make.FlattenAllAppend | lib/make/index.js:30-35 | the entries of a list of loads are those of its parts, concatenated |
| Make.FlattenAllSnoc | lib/make/index.js:31-33 | one more load appends its own entries |
| Make.FlattenTakes | lib/make/index.js:37-57 | every entry `makeLoadRoad` pushes takes at least one name |
| Make.FlattenAllTakes | lib/make/index.js:30-35 | every entry of a file's load list takes at least one name |
| Make.ScopedIgnoresBase | lib/make/index.js:38-46 | a package road (starting with `@`) is used as written: the road it is read from does not change what it contributes |
| Make.RoadList.MakeLoadRoad | lib/make/index.js:37-57 | the list becomes the old list followed by the load's entries, depth first |
| Make.RoadList.MakeRoad | lib/make/index.js:30-35 | the list becomes the old list followed by the entries of every load of the file, read from the file's own road |
| Make.TakenSpec | lib/make/index.js:22-27 | filing the taken names adds exactly their `host/savedName` keys, all naming the load, and keeps every other entry |
| Make.LoadedAllFrame | lib/make/index.js:17-28 | loading entries raises the index by one per entry and changes nothing but the names, the index and the requires |
| Make.RequiresRoads | lib/make/index.js:18-20 | entry `i` is required under `x<index+i>` and no later entry overwrites it |
| Make.LoadedAllRequires | lib/make/index.js:17-28 | loading files the entries' roads under consecutive require names |
| Make.LoadedAllRoads | lib/make/index.js:17-28 | loading `k` entries allocates `x<i>` … `x<i+k-1>`, each requiring the road of its entry |
| Make.CompiledFile.constructor | lib/transpile/index.js:31-38 | a compiled file opens with index 1, no names, bindings or requires, and nothing emitted |
| Make.CompiledFile.MakeLoad | lib/make/index.js:17-28 | allocates `x<index>`, raises the index by exactly one, files the road under the new name and every taken name under `host/savedName`; nothing else changes |
| Make.CompiledFile.MakeLoads | lib/make/index.js:17-28 | loading a run of entries leaves the state `LoadedAll` specifies |
| Make.MakeNest | lib/make/index.js:153-168 | a site is the identifier of its name; a chain is rooted at its base's name, and its last member accesses are computed exactly for the steps that are chains |
| Make.FoldNest | lib/make/index.js:161-166 | the reduce keeps the innermost object and appends one computed flag per property |
| Make.Computed | lib/make/index.js:165 | the flags of the properties, in order |
| Make.MakeLink | lib/make/index.js:145-151 | a host link is the identifier of its name as written; a nest is rooted at its site's name |
| Make.MakeSift | lib/make/index.js:135-143 | text and size become literals and a link its path; a call is exactly `MakeCall` of it; any other form yields `undefined`; with saves built as intended (see Findings), it fails exactly when a task sift is reached through a call binding |
| Make.BindArg | lib/make/index.js:94-99 | a binding's argument fails exactly when a task sift appears in it (`makeTask` does not exist in this module) |
| Make.MakeArgs | lib/make/index.js:94-99 | one argument per binding, in order, failing exactly when one of them fails |
| Make.Params | lib/make/index.js:103-106 | one identifier per parameter name, as written, in order |
| Make.Known | lib/make/index.js:107-122 | the zones of known form, in order |
| Make.MakeStatements | lib/make/index.js:107-122 | one statement per zone of known form, failing exactly when some zone fails |
| Make.StatementsOfKnown | lib/make/index.js:107-122 | statement `i` of a body is the statement of its `i`-th known zone |
| Make.MakeStatement | lib/make/index.js:108-121 | a zone gives no statement exactly when its form is unknown; a host, save, turn or call zone gives exactly `MakeHost`, `MakeSave`, `MakeTurn` or `MakeCall`, with its failure |
| Make.MakeHost | lib/make/index.js:75-83 | a `let` of the name as written, initialised by its value when it has one and by `undefined` otherwise |
| Make.MakeSave | lib/make/index.js:69-73 | as evidently intended: the assignment of the value to the link's path (see Findings) |
| Make.MakeSaveAsWritten | lib/make/index.js:69-73 | as written: a chain target fails because `makeNest` is handed the compiled file as its node; any other target behaves as `MakeSave` |
| Make.SaveIntoChain | lib/make/index.js:69-73 | saving `1` into `a.b` fails as written, while the intended builder gives `a.b = 1` |
| Make.ChainPath | lib/make/index.js:145-168 | the path of the nest link over the chain `a`, `b` is the member access `a.b` |
| Make.MakeTurn | lib/make/index.js:85-88 | the return of the value |
| Make.MakeHook | lib/make/index.js:101-127 | an anonymous non-async function of the parameter names whose body is the plain list of statements, with nothing returned implicitly |
| Make.MakeHooks | lib/make/index.js:101-128 | one function per hook, in order, failing exactly when one of them fails |
| Make.MakeCall | lib/make/index.js:90-133 | with saves built as intended (see Findings), fails exactly when a task sift is reached; otherwise it is exactly the call of the named identifier, awaited as the call waits, over `MakeArgs` of the bindings followed by `MakeHooks` of the hooks |
| Make.ArgsSnoc | lib/make/index.js:94-99 | one more binding appends its argument |
| Make.HooksSnoc | lib/make/index.js:101-128 | one more hook appends its function |
| Make.StatementsSnoc | lib/make/index.js:107-122 | one more zone appends its statement if it gives one |
| Make.BuildCall | lib/make/index.js:90-133 | the loops pushing arguments then hook functions build exactly `MakeCall` |
| Make.BuildHook | lib/make/index.js:101-128 | the loops over parameters and zones build exactly `MakeHook` |
| Make.BuildStatements | lib/make/index.js:107-122 | the loop over zones builds exactly `MakeStatements` |
| Make.MakeBaseBind | lib/make/index.js:59-67 | `base.bind(road, bind)`: a call of the plain member `base.bind` with the road literal and the bind |
| Make.RoadList.constructor | lib/make/index.js:30 | the list defaults to empty |
| LibTranspile.LibTask | lib/transpile/index.js:108-141 | a task's function fails exactly when one of its zones fails to build |
| LibTranspile.LibTaskShape | lib/transpile/index.js:108-141 | a function named after the task, its parameters as written and in order, async exactly when it waits, whose block holds, in order and with nothing returned implicitly, the statements of its known zones |
| LibTranspile.MakeTask | lib/transpile/index.js:108-141 | the loops pushing parameters and then statements build exactly `LibTask` |
| LibTranspile.Fresh | lib/transpile/index.js:31-38 | the record opened for a file holds the file and its imports, index 1, no names, bindings or requires, and nothing emitted |
| LibTranspile.Compile | lib/transpile/index.js:49-83 | a kind whose handler is never defined stops with `make<Kind>File` undefined; a test file and an unknown kind leave the record as it is; a success keeps the file and its imports |
| LibTranspile.CompiledTaskFile | lib/transpile/index.js:85-102 | a compiled task file keeps its file and flattened imports, loads import `i` under `x<1+i>`, ends with index `1 + |imports|`, and emits one function per task and no top-level statements |
| LibTranspile.MakeFile | lib/transpile/index.js:49-83 | the dispatch on the record fails exactly when `Compile` does, with its error, and otherwise leaves the record `Compile` gives |
| LibTranspile.PushTasks | lib/transpile/index.js:93-95 | the loop pushes one function per task, in order, stopping at the first failure |
| LibTranspile.MakeTaskFile | lib/transpile/index.js:85-102 | loads every flattened import in order, then emits the tasks, leaving the record `Compile` gives |
| LibTranspile.GetImportPaths | lib/transpile/index.js:143-148 | the flattening of every load of the file, read from the file's road; every entry takes at least one name |
| LibTranspile.OpenRecord | lib/transpile/index.js:31-39 | opening a fresh record for a file and compiling it is the run's compile step on that file |
| LibTranspile.QueueImports | lib/transpile/index.js:40-44 | appends to the back of the queue, in import order, the deck's files the imports name, passing over those the deck does not hold |
| LibTranspile.Admit | lib/transpile/index.js:31-44 | compiling a file of a new road files its record, and on success queues its imports and keeps the walk invariant |
| LibTranspile.MakeDeck | lib/transpile/index.js:18-47 | a missing lead file fails at once; a failure is the compile failure of some deck file; on success every road reached from the lead is compiled once from its first file, in order of first appearance, the queue was first-in first-out, and every import the deck holds is compiled |
| DeckWalk.Successors | lib/transpile/index.js:40-44 | the files queued after a record are deck files |
| DeckWalk.RoadsOf | lib/transpile/index.js:26-45 | the roads of a run of files, in order |
| DeckWalk.SuccessorIn | lib/transpile/index.js:40-44 | an import the deck holds queues that file |
| DeckWalk.PushedHas | lib/transpile/index.js:40-44 | every file a compiled record's imports name is queued |
| DeckWalk.Records | lib/transpile/index.js:31 | the records of the compiled files, in compile order |
| DeckWalk.InvStart | lib/transpile/index.js:19-25 | the walk invariant holds for the queue holding only the lead file |
| DeckWalk.FirstFilesSkip | lib/transpile/index.js:28-30 | shifting a file whose road is compiled leaves the first files as they are |
| DeckWalk.FirstFilesNew | lib/transpile/index.js:31-39 | shifting a file of a new road appends it to the first files |
| DeckWalk.SkipStep | lib/transpile/index.js:28-30 | skipping a file of a compiled road keeps the walk invariant |
| DeckWalk.FirstWinsSkip | lib/transpile/index.js:28-30 | skipping keeps each road compiled from its first file |
| DeckWalk.FifoShift | lib/transpile/index.js:27 | shifting the front of the queue keeps it first-in first-out |
| DeckWalk.SeenShift | lib/transpile/index.js:28-30 | skipping keeps every shifted file's road compiled |
| DeckWalk.QueuedTail | lib/transpile/index.js:27 | the rest of a queue of deck files holds deck files |
| DeckWalk.FifoStep | lib/transpile/index.js:31-44 | compiling a new road keeps the queue first-in first-out, what its record names going to the back |
| DeckWalk.FirstWinsStep | lib/transpile/index.js:31-39 | compiling a new road keeps each road compiled from its first file |
| DeckWalk.FiledStep | lib/transpile/index.js:31-39 | compiling a new road files its record under the road, once, after the others |
| DeckWalk.CompileStep | lib/transpile/index.js:31-44 | compiling a file of a new road keeps the walk invariant, with its record filed, its road appended and its imports queued |
| DeckWalk.QueuedAppend | lib/transpile/index.js:40-44 | appending what an import list names keeps a queue of deck files |
| DeckWalk.Closed | lib/transpile/index.js:26-45 | when the queue is empty every import the deck holds, of every compiled record, is compiled |
| DeckWalk.Finish | lib/transpile/index.js:26-46 | the invariant with an empty queue is a finished walk: compile order is the order of first appearance and nothing reachable is left |
| LibTranspile.CompiledDeck.constructor | lib/transpile/index.js:22-25 | the compiled deck holds the original deck, its files and their compile order |
| Native.RoleIndex | lib/transpile/native/index.js:148 | the index found is the first binding carrying the role, and none is found exactly when no binding carries it |
| Native.Role | lib/transpile/native/index.js:148 | the first binding with the role, found exactly when some binding has it; otherwise reading its `sift` fails naming the role |
| Native.Position | lib/transpile/native/index.js:254 | a positional binding is read exactly when the position is in range, and otherwise fails naming the position |
| Native.LinkOf | lib/transpile/native/index.js:318-324 | a binding reads as a link exactly when its sift is a link, giving the link as `makeLink` builds it, rooted at the link's name |
| Native.TextOf | lib/transpile/native/index.js:149 | a binding reads as text exactly when its sift is text, giving that text |
| Native.LinkRole | lib/transpile/native/index.js:153-156 | the role's link, failing on a missing role before failing on a binding that is not a link |
| Native.TextRole | lib/transpile/native/index.js:190-194 | the role's text, failing on a missing role before failing on a binding that is not text |
| Native.Drop | lib/transpile/native/index.js:255 | `slice(k)`: the bindings after the first `k`, in order, or none |
| Native.Factors | lib/transpile/native/index.js:256-259 | one link per binding, in order, succeeding exactly when every binding is a link |
| Native.FactorsPrefixErr | lib/transpile/native/index.js:256-259 | a failure among the first bindings is the failure of them all |
| Native.FactorsSnoc | lib/transpile/native/index.js:256-259 | one more binding appends its link |
| Native.PushFactors | lib/transpile/native/index.js:256-259 | the `forEach` pushing links builds exactly `Factors` |
| Native.DockCall | lib/transpile/native/index.js:142-145 | the call fails as "not a function" exactly when its name is not in the transform table of lines 122-140 |
| Native.DockCallShape | lib/transpile/native/index.js:122-145 | a transform in the table fails only on a binding it reads, and never yields a `return` |
| Native.RetiredTransforms | lib/transpile/native/index.js:122-140 | `get-aspect`, `set-aspect` and `throw-error` are not in this table, so each stops the compiler |
| Native.CreateLiteral | lib/transpile/native/index.js:147-150 | succeeds exactly when the `literal` binding is text, giving its bare literal |
| Native.Delete | lib/transpile/native/index.js:152-160 | succeeds exactly when `object` and `aspect` are links, giving the prefix `delete` of `object[aspect]`; otherwise the object's fault comes first |
| Native.DeleteReadsObjectFirst | lib/transpile/native/index.js:152-160 | with no bindings the fault names `object`, and an object that is not a link fails as such |
| Native.GetDynamicAspect | lib/transpile/native/index.js:162-166 | succeeds exactly when `object` and `aspect` are links, giving the bare `object[aspect]` |
| Native.SetDynamicAspect | lib/transpile/native/index.js:168-176 | succeeds exactly when `object`, `aspect` and `factor` are links, giving `object[aspect] = factor` |
| Native.CallKeyword2 | lib/transpile/native/index.js:178-187 | succeeds exactly when `left` and `right` are links and `keyword` is text, giving the binary expression |
| Native.CallKeyword | lib/transpile/native/index.js:189-196 | succeeds exactly when `value` is a link and `keyword` text, giving the unary expression with the prefix flag unset |
| Native.Loop | lib/transpile/native/index.js:203-210 | succeeds exactly when `check` and `block` are links, giving `while (check) [block]` |
| Native.TestElse | lib/transpile/native/index.js:212-221 | succeeds exactly when `check`, `block` and `else` are links, giving an `if` whose branches are one-element arrays |
| Native.CallTry | lib/transpile/native/index.js:223-230 | succeeds exactly when `block` and `error` are links, giving the `try` |
| Native.CallHead | lib/transpile/native/index.js:232-240 | succeeds exactly when `value` is a link and `operation` text, giving the prefix update expression |
| Native.CallTwin | lib/transpile/native/index.js:242-251 | succeeds exactly when `left` and `right` are links and `operation` text, giving the binary expression |
| Native.CallMake | lib/transpile/native/index.js:253-264 | succeeds exactly when the first binding is text and the rest are links, giving `new` of that bare string with the rest's links; no bindings fails on position 0 |
| Native.Receiver | lib/transpile/native/index.js:274-289 | a link object is built by `makeLink`; a text object is the identifier of its text; anything else fails |
| Native.CallBase | lib/transpile/native/index.js:266-290 | succeeds exactly when the object is a link or text, the method text and the rest links, giving the non-awaited call `receiver.method(links)` |
| Native.CallFunction | lib/transpile/native/index.js:292-303 | succeeds exactly when the first binding is text and the rest links, giving the call of that name with the links |
| Native.CallTest | lib/transpile/native/index.js:305-312 | succeeds exactly when the first two bindings are links, giving an `if` with a one-element branch and no `else` |
| Native.DockSift | lib/transpile/native/index.js:73-81 | text and size become literals and a link its path; a call goes through the transform table; any other form is `undefined`; only a call can fail |
| Native.DockStatement | lib/transpile/native/index.js:96-111 | a zone of unknown form gives nothing; a host or save zone gives exactly the library's `makeHost` or `makeSave`, a call zone exactly its transform, and a `turn` the return of its native sift, each with its failure; only a `turn` gives a return |
| Native.DockStatementsOfKnown | lib/transpile/native/index.js:94-111 | the body holds, in order, exactly one statement per known zone, each that zone's statement |
| Native.NoImplicitReturn | lib/transpile/native/index.js:94-111 | a statement of a native body is a return exactly when its zone is a `turn` |
| Native.DockTask | lib/transpile/native/index.js:87-120 | an anonymous function of the parameter names as written, whose block holds the zones' statements, async exactly when the task waits; it fails exactly when a zone fails |
| Native.MakeDockTask | lib/transpile/native/index.js:87-120 | the loops pushing parameters then statements build exactly `DockTask` |
| Native.PushDockStatements | lib/transpile/native/index.js:96-111 | the zone loop builds exactly the native body |
| Native.TopStatement | lib/transpile/native/index.js:25-31 | a top-level `save` goes through the library's `makeSave` and anything else through its `makeCall`, not the transform table |
| Native.FileObject | lib/transpile/native/index.js:44-52 | the assignment `file.<name> = {}` to a plain member |
| Native.FileTask | lib/transpile/native/index.js:54-66 | the assignment of the task to the computed member `file.task["<name>"]` |
| Native.FileTasks | lib/transpile/native/index.js:39 | one `file.task[name] = fn` per task, in order |
| Native.DockBound | lib/transpile/native/index.js:32-41 | `base.bind(road, function (file) {…})`, not awaited, around the bound body |
| Native.BoundLayout | lib/transpile/native/index.js:36-40 | the bound body is the top-level statements, then `file.task = {}`, then one registration per task in source order |
| Native.RawEntries | lib/transpile/native/index.js:17-19 | the file's loads taken as written, one entry per load, neither joined to the file's road nor flattened |
| Native.DockFile | lib/transpile/native/index.js:15-42 | succeeds exactly when every task and every top-level statement does, with one function per task |
| Native.PushDockTasks | lib/transpile/native/index.js:21-23 | the task loop builds exactly the tasks' functions |
| Native.PushTopStatements | lib/transpile/native/index.js:25-31 | the top-level loop builds exactly the top-level statements |
| Native.MakeDockTaskFile | lib/transpile/native/index.js:15-42 | loads every written load in order, then fails exactly when `DockFile` does, with its error; on success the record's output holds the tasks and top-level statements and its bound is `DockBound` |
| Resolve.StartValid | lib/resolve/index.js:12 | the fresh scope `{ index: 1 }` is valid |
| Resolve.ExtendsTrans | lib/resolve/index.js:84-92 | a scope that grew from a scope that grew from `t` grew from `t` |
| Resolve.Replace | lib/resolve/index.js:84-92 | the name is mapped to the result in the new scope, which holds exactly the old names plus this one and keeps every old mapping; a mapped name leaves the scope unchanged, a new one gets `x<index>` and raises the index by one; from a valid scope, a name the scope object can hold keeps it valid |
| Resolve.TagUnused | lib/resolve/index.js:88 | in a valid scope the next generated name is not yet given to any name |
| Resolve.ReplaceStable | lib/resolve/index.js:84-92 | replacing the same name twice gives the same new name and the scope the first replacement left |
| Resolve.ReplaceDistinct | lib/resolve/index.js:84-92 | in a valid scope two different names get two different new names |
| Resolve.OptionalName | lib/resolve/index.js:74-82 | a mapped name is replaced by its mapping and any other name is kept |
| Resolve.OptionalAgrees | lib/resolve/index.js:74-92 | optional renaming agrees with `replaceName` where a mapping exists, and otherwise keeps the name where `replaceName` would allocate |
| Resolve.Params | lib/resolve/index.js:52-56 | one result per parameter; the walk fails only on an `undefined` parameter, reading its type |
| Resolve.Renamed | lib/resolve/index.js:42-44 | an identifier stays an identifier and any other node is kept |
| Resolve.Arg | lib/resolve/index.js:41-45 | an argument fails exactly when it is `undefined`; an argument that is not an identifier is kept |
| Resolve.Callee | lib/resolve/index.js:46-48 | the callee keeps its type, and a callee that is not a member access is kept |
| Resolve.Call | lib/resolve/index.js:40-49 | a call stays a call with as many arguments and the same `await`; its only failures are reads on `undefined` |
| Resolve.Resolve | lib/resolve/index.js:66-72 | a node that resolves keeps its type |
| Resolve.Handle | lib/resolve/index.js:22-64 | a node a resolver handles keeps its type |
| Resolve.Run | lib/resolve/index.js:13-15 | a run of statements that resolves gives one statement per statement |
| Resolve.ParamsRenamed | lib/resolve/index.js:52-56 | every identifier parameter ends up under the name the final scope maps it to, every other parameter is kept, and the scope only grows |
| Resolve.ParamsValid | lib/resolve/index.js:52-56 | renaming parameters with names the scope object can hold keeps a valid scope valid |
| Resolve.ResolveKeeps | lib/resolve/index.js:22-72 | a walk only adds to its scope, and from a valid scope over names the scope object can hold it ends in a valid scope |
| Resolve.RunKeeps | lib/resolve/index.js:13-15 | the same over statements visited in order in one scope |
| Resolve.MissingOnlyUnhandled | lib/resolve/index.js:66-72 | `Missing method <type>` only ever names a type without a resolver, however deep the node carrying it |
| Resolve.RunMissingOnlyUnhandled | lib/resolve/index.js:13-15 | the same over statements visited in order |
| Resolve.ReturnLiteral | lib/resolve/index.js:36-38 | `return <literal>` stops with `Missing method Literal` |
| Resolve.ReadOnlyNodes | lib/resolve/index.js:40-64 | calls and declarations leave the scope unchanged, and declarations are left as they are |
| Resolve.CallRenames | lib/resolve/index.js:40-49 | a call renames each identifier argument and the identifier object of a member callee to its mapping if it has one, and changes nothing else |
| Resolve.AssignmentRenames | lib/resolve/index.js:30-34 | an assignment to an identifier renames it as `replaceName` does, allocating when the name is new |
| Resolve.FunctionOrder | lib/resolve/index.js:51-60 | a function's parameters are renamed first, and its body is then walked in the scope the parameters leave |
| Resolve.RunSnoc | lib/resolve/index.js:13-15 | one more statement adds its result |
| Resolve.RunPrefixErr | lib/resolve/index.js:13-15 | a failure among the first statements is the failure of them all |
| Resolve.RunStop | lib/resolve/index.js:13-15 | the first statement that fails decides the failure of the run |
| Resolve.ParamsSnoc | lib/resolve/index.js:52-56 | one more parameter fails on `undefined`, is renamed when an identifier, and is kept otherwise |
| Resolve.ParamsPrefixErr | lib/resolve/index.js:52-56 | a failure among the first parameters is the failure of them all |
| Resolve.Rewrite | lib/resolve/index.js:8-19 | the record keeps everything but its output's nodes, which become the walked ones; a native registration holding the output's nodes is rebuilt from the walked nodes |
| Resolve.ResolvedFile | lib/resolve/index.js:9-18 | a walked file keeps its original file, its imports and whether it has an output |
| Resolve.TasksIsolated | lib/resolve/index.js:16-18 | each task is walked from the scope the top-level statements leave, whatever its sibling tasks allocate |
| Resolve.FileScopesValid | lib/resolve/index.js:12-18 | the scope after the top-level statements, and each task's copy after its walk, map distinct names to distinct generated names |
| Resolve.ResolvedFiles | lib/resolve/index.js:8-19 | a walk of the files that succeeds keeps the same set of paths |
| Resolve.FilesIndependent | lib/resolve/index.js:8-19 | with each path listed once the walk succeeds exactly when every file does, and each file ends as its own walk leaves it |
| Resolve.FilesAdd | lib/resolve/index.js:8-19 | one more file adds its walked form |
| Resolve.FilesPrefixErr | lib/resolve/index.js:8-19 | a failure among the first files is the failure of them all |
| Resolve.FilesStop | lib/resolve/index.js:8-19 | the first file that fails decides the failure of the walk |
| Resolve.CompiledDeckIndependent | lib/resolve/index.js:8-19 | on a deck the library compiler produced every file is resolved on its own |
| Resolve.CompiledDockAliased | lib/transpile/native/index.js:32-41 | a compiled native file's registration holds the very nodes of its output |
| Resolve.Scope.constructor | lib/resolve/index.js:12 | the scope `{ index: 1 }` |
| Resolve.Scope.Copy | lib/resolve/index.js:17 | `{ ...scope }`: a copy with the same state that later changes do not share |
| Resolve.ReplaceName | lib/resolve/index.js:84-92 | gives the name and the new scope state `Replace` specifies |
| Resolve.OptionallyReplaceName | lib/resolve/index.js:74-82 | gives `OptionalName` of the name and changes nothing |
| Resolve.ResolveParams | lib/resolve/index.js:52-56 | the parameter loop gives the parameters and scope `Params` specifies |
| Resolve.ResolveCall | lib/resolve/index.js:40-49 | gives exactly `Call` on the scope's names, and cannot change the scope |
| Resolve.ResolveFunction | lib/resolve/index.js:51-60 | the parameters then the body, as `Handle` specifies for a function |
| Resolve.ResolveNode | lib/resolve/index.js:66-72 | the dispatch gives the node and scope `Resolve` specifies |
| Resolve.HandleNode | lib/resolve/index.js:22-64 | the resolver table gives the node and scope `Handle` specifies |
| Resolve.ResolveRun | lib/resolve/index.js:13-15 | the statement loop gives the statements and scope `Run` specifies |
| Resolve.ResolveFile | lib/resolve/index.js:9-18 | the per-file callback gives exactly `ResolvedFile` |
| Resolve.ResolveDeck | lib/resolve/index.js:7-20 | the walk over the compiled files, in compile order, fails exactly when `ResolvedFiles` does and otherwise leaves the files it gives, with the order and deck unchanged |

## Left out

- The entry point `make` and its `print` in `index.js` (lines 11-31) are not modelled. They concatenate the compiled files' bound statements and read the runtime head file. They write a debug dump and render the tree to text. All of this is I/O and rendering by an external printer.
- The syntax-tree library (`createIdentifier`, `createCallExpression` and the rest) is modelled by the `Ast.Node` datatype. Each helper becomes the constructor holding the helper's arguments. AST flags the compiler leaves out read as `false`.
- `path.join` from `lib/make` is the parameter `Make.Join`, and `to.camel`/`to.pascal` in `index.js` are the parameter `Transpile.Casing`. The model makes no assumption about either beyond being a function.
- `_.clone` of a fork's tables in `index.js` (lines 1049-1052) is a value copy of the map, which is what a shallow clone of a flat table gives.
- Translate: the translator passes the fork arena from call to call as a value, and hands back the grown arena, instead of mutating the shared forks. The `TermStore.Store` class models the arena's update in place. The lemmas `TermStore.LookupPersists` and `TermStore.CopiedCounterAliases` state what the value model must keep: the arena never shrinks, and a shared call counter is shared.
- TermStore.TermTree: lookups in the file space are only modelled at root forks (`Walkable`). The source calls them nowhere else.
- `makeLaceFile` and `makeTestFile` in `index.js` return before the rest of their bodies, so that dead code is not modelled. `makeTest` is never reached either.
- The handlers the source calls but never defines are modelled as `UndefinedFunction` errors: the `form`, `mine`, `mill`, `call` and `feed` mints in `index.js`, the `make<Kind>File` handlers in `lib/transpile`, and `makeTask` in `lib/make`. These are the places where JavaScript would throw a `ReferenceError`.
- `console.log` in `makeText` (`index.js` line 701) is left out. The model keeps only its result: a text factor of `throw-error` becomes `undefined`.
- Native.TextOf: a binding read as text that holds another form is reported as `NotText`. In the source, reading `.text` there gives `undefined`, which is placed in the tree unchanged. This covers the text reads of `create-literal`, `call-keyword`, `call-keyword-2`, `call-head`, `call-twin`, `make`, `call-base` and `call-function`.
- Native.Receiver: an object binding that is neither a link nor a text is reported as `NotText`, where the source builds `Identifier(undefined)`.
- Native.DockCall: the `look` transform is modelled as the raw string `debugger` that the source returns in place of a node.
- Resolve: scope tables are modelled only for names the scope object can hold as its own entries (`Plain`, outside `Resolve.HostKeys`). The inherited members of a JavaScript object, such as `constructor` or `toString`, would collide with them, and `Valid` is only claimed for `Renamable` trees.
- Resolve: syntax nodes are values, so the rewriting in place is modelled by returning the rewritten tree. `Resolve.Rewrite` and `Resolve.CompiledDockAliased` state which nodes the source shares between files.
- Resolve.Run: the scope's state after an error is not specified, because the source throws there and the state is never read again.
- Resolve.ResolveFunction: a function whose body is not a block fails with `NotANode("body")`. The source would fail on reading its statements.
- Resolve.ResolveDeck: `Object.keys` order over the compiled files is modelled as compile order (`order`). It requires `DeckWalk.Keyed`, which `LibTranspile.MakeDeck` establishes.
- LibTranspile.MakeDeck: the files map and the compile order are built locally, and the `CompiledDeck` object is allocated at the end. The source puts each record into the deck before compiling it. The difference cannot be observed, because a failed compilation aborts the whole run.
- Native.MakeDockTaskFile: the output record is set after the loads, where the source empties it before them. Loads never read the output, so the final record is the same.
- JavaScript object key order for a file's stems and laces, and for the roads of the compiled files, is modelled as insertion order. `Object.keys` lists integer-like keys first, in ascending numeric order, and only then the other keys in insertion order; a stem, lace or road named like an integer is therefore listed earlier in the source than in the model.
- Numbers: a `size` and every numeric literal are modelled as exact reals, copied unchanged as the source copies them. JavaScript numbers are 64-bit floating point; their rounding, `NaN` and the infinities are not modelled.
- Dock.NumberKey, Dock.BondName: a plain object's numeric `name` entry is keyed by its decimal text only when it is an integer below 10^21; JavaScript prints a fractional or larger number in its shortest or exponent form, which the model does not render (it prints the number's floor). An object entry whose own `toString` entry replaces the inherited one is keyed as "[object Object]" all the same.
- Translate.MakeBond: its own contract states the value shape and the call slots of every bond form. The whole node of each form is stated by `Translate.BondShapes` and the node lemmas it names.
- Dock.DockCall: `set-aspect` is lowered by the corrected `Dock.SetAspectIntended` (see Findings). As written, every `set-aspect` call fails, as `Dock.SetAspect` states.
- Dock.DockZone, Dock.DockZones, Dock.MakeDockTask: they lower calls through `Dock.DockCall`, so a `set-aspect` zone is built as intended where the source throws.
- Transpile.DockTaskBond, Transpile.DockTasks, Transpile.DockFile, Transpile.CompileFile, Transpile.Transpile: a native file with a `set-aspect` zone is compiled as intended, where the source throws.
- Make.MakeSift, Make.MakeStatement, Make.MakeCall: saves are built by the corrected `Make.MakeSave` (see Findings). As written, a save into a nest chain inside a hook also fails, as `Make.MakeSaveAsWritten` states.
- LibTranspile.LibTask, LibTranspile.Compile, LibTranspile.MakeDeck: a save into a nest chain is built by the corrected `Make.MakeSave`, where the source throws.
- Native.DockStatement, Native.TopStatement, Native.DockFile, Native.MakeDockTaskFile: a save into a nest chain is built by the corrected `Make.MakeSave`, where the source throws.
- TermStore.TermTree: the name tables are JavaScript objects, so a name such as `constructor` or `toString` finds an inherited member and comes back as that member instead of a mark. Names are modelled as plain map keys with no inherited members.
- Dock.DockCall: a call named after an inherited member of the transform table, such as `constructor`, passes the table check in the source and calls that member. The model only knows the table's own names.
- Native.DockCall: the same holds for the native transform table.
- Transpile.Transpile: the compiled-files map is a JavaScript object, so a road named after an inherited member such as `constructor` reads as already compiled and is skipped. Roads are modelled as plain map keys.
- LibTranspile.MakeDeck: the same holds for the deck's files and compiled files, which the queue reads by road.
- Transpile.MakeTop, Transpile.Tops, Native.TopStatement: a top-level zone is either a `save` or a call. The source hands a zone of any other form to `makeCall`, which fails on the missing call fields. Such a zone cannot be written in the model.

## Findings

| source | as written | input that shows it | evidently intended | confidence | as-written member | corrected member |
|---|---|---|---|---|---|---|
| index.js:742-754 | `set-aspect` reads `object.sift.link`, but bindings in the root compiler carry `bond`, not `sift` | any `set-aspect` call with an `object` binding: reading `link` of `undefined` throws a TypeError | read the bindings' `bond` as `get-aspect` does, and assign the factor link to the plain access `object.aspect` | not executed | Dock.SetAspect | Dock.SetAspectIntended |
| lib/make/index.js:69-73 | `makeSave` calls `makeNest(file, zone.nest)`, but `makeNest` takes the node as its only parameter, so it reads the compiled file as the nest | saving `1` into `a.b` (a nest link over the chain `a`, `b`) fails on destructuring the file's `link` | build the member expression `a.b` and assign the value to it | not executed | Make.MakeSaveAsWritten | Make.MakeSave |

=== FILE: ast.dfy ===
/** The JavaScript syntax tree the compiler emits.  One constructor per
    node-creating helper the compiler calls (`createIdentifier`,
    `createLiteral`, `createCallExpression`, ...), with the fields those
    helpers are given.  Three constructors stand for values that are not
    nodes but that the compiler nevertheless places where a node is
    expected: `Bare` (a plain array), `Raw` (a bare string) and `Undefined`. */
module Ast {
  import opened Wrappers

  /** Values a `Literal` can carry.  Objects handed to `createLiteral` whole
      (stem bonds, lace records) are carried as their JSON text. */
  datatype Value = Str(s: string) | Num(n: real) | Json(text: string)

  datatype Node =
    | Identifier(name: string)
    | Literal(value: Value)
    | MemberExpression(obj: Node, property: Node, computed: bool)
    | CallExpression(callee: Node, arguments: seq<Node>, await: bool)
    | NewExpression(callee: Node, arguments: seq<Node>)
    | FunctionDeclaration(ident: Option<Node>, params: seq<Node>, body: Node, async: bool)
    | FunctionExpression(ident: Option<Node>, params: seq<Node>, body: Node)
    | BlockStatement(statements: seq<Node>)
    | ReturnStatement(argument: Node)
    | Variable(kind: string, target: Node, init: Node)      // createVariable(kind, id, init)
    | VariableDeclaration(kind: string, declarations: seq<Node>)
    | VariableDeclarator(target: Node, init: Node)
    | AssignmentExpression(left: Node, right: Node)
    | UnaryExpression(argument: Node, operator: string, prefix: bool)
    | UpdateExpression(argument: Node, operator: string, prefix: bool)
    | BinaryExpression(left: Node, operator: string, right: Node)
    | ObjectExpression(properties: seq<Node>)
    | Property(key: Node, entry: Node)
    | ArrayExpression(elements: seq<Node>)
    | IfStatement(test: Node, consequent: Node, alternate: Option<Node>)
    | WhileStatement(test: Node, loop: seq<Node>)
    | TryStatement(block: Node, handler: Node)
    | ThrowStatement(argument: Node)
    | DebuggerStatement
    | ClassDeclaration(className: Node, superClass: Option<Node>, classBody: Node)
    | ClassBody(members: seq<Node>)
    | MethodDefinition(key: Node, definition: Node, methodKind: Option<string>)
    | Bare(items: seq<Node>)
    | Raw(text: string)
    | Undefined

  /** The `type` tag a node carries; `None` where reading `type` itself fails
      (on `undefined`).  Arrays and strings have no tag: reading it yields
      `undefined`, printed as "undefined". */
  function TypeName(n: Node): Option<string> {
    match n
    case Identifier(_) => Some("Identifier")
    case Literal(_) => Some("Literal")
    case MemberExpression(_, _, _) => Some("MemberExpression")
    case CallExpression(_, _, _) => Some("CallExpression")
    case NewExpression(_, _) => Some("NewExpression")
    case FunctionDeclaration(_, _, _, _) => Some("FunctionDeclaration")
    case FunctionExpression(_, _, _) => Some("FunctionExpression")
    case BlockStatement(_) => Some("BlockStatement")
    case ReturnStatement(_) => Some("ReturnStatement")
    case Variable(_, _, _) => Some("VariableDeclaration")
    case VariableDeclaration(_, _) => Some("VariableDeclaration")
    case VariableDeclarator(_, _) => Some("VariableDeclarator")
    case AssignmentExpression(_, _) => Some("AssignmentExpression")
    case UnaryExpression(_, _, _) => Some("UnaryExpression")
    case UpdateExpression(_, _, _) => Some("UpdateExpression")
    case BinaryExpression(_, _, _) => Some("BinaryExpression")
    case ObjectExpression(_) => Some("ObjectExpression")
    case Property(_, _) => Some("Property")
    case ArrayExpression(_) => Some("ArrayExpression")
    case IfStatement(_, _, _) => Some("IfStatement")
    case WhileStatement(_, _) => Some("WhileStatement")
    case TryStatement(_, _) => Some("TryStatement")
    case ThrowStatement(_) => Some("ThrowStatement")
    case DebuggerStatement => Some("DebuggerStatement")
    case ClassDeclaration(_, _, _) => Some("ClassDeclaration")
    case ClassBody(_) => Some("ClassBody")
    case MethodDefinition(_, _, _) => Some("MethodDefinition")
    case Bare(_) => Some("undefined")
    case Raw(_) => Some("undefined")
    case Undefined => None
  }

  /** The computed/non-computed flags along a chain of member accesses, the
      innermost access first. */
  function Spine(n: Node): seq<bool> {
    if n.MemberExpression? then Spine(n.obj) + [n.computed] else []
  }

  /** The object at the bottom of a chain of member accesses. */
  function Innermost(n: Node): Node {
    if n.MemberExpression? then Innermost(n.obj) else n
  }
}

=== FILE: decimal.dfy ===
/** Decimal rendering of naturals, as JavaScript template strings print them.
    Generated names (`host_1`, `file_2`, `x3`) embed these digits, so the
    renderer must be injective. */
module Decimal {

  function Digit(d: nat): (c: char)
    requires d < 10
    ensures '0' <= c <= '9'
  {
    ('0' as int + d) as char
  }

  function Show(n: nat): (s: string)
    ensures 1 <= |s|
    ensures n < 10 <==> |s| == 1
    ensures forall i | 0 <= i < |s| :: '0' <= s[i] <= '9'
  {
    if n < 10 then [Digit(n)] else Show(n / 10) + [Digit(n % 10)]
  }

  /** Distinct numbers print differently. */
  lemma {:induction false} ShowInjective(a: nat, b: nat)
    requires Show(a) == Show(b)
    ensures a == b
    decreases a
  {
    if a >= 10 && b >= 10 {
      var sa, sb := Show(a), Show(b);
      assert sa[..|sa| - 1] == Show(a / 10);
      assert sb[..|sb| - 1] == Show(b / 10);
      assert Digit(a % 10) == sa[|sa| - 1] == Digit(b % 10);
      ShowInjective(a / 10, b / 10);
    }
  }

  /** Names built from one prefix and a number are equal only for equal numbers. */
  lemma PrefixedInjective(prefix: string, a: nat, b: nat)
    requires prefix + Show(a) == prefix + Show(b)
    ensures a == b
  {
    assert Show(a) == (prefix + Show(a))[|prefix|..];
    assert Show(b) == (prefix + Show(b))[|prefix|..];
    ShowInjective(a, b);
  }
}

=== FILE: deck_walk.dfy ===
/** The worklist the library compiler drains (lib/transpile/index.js,
    `make`), as values: the files queued, the roads compiled, and what
    holds each time the queue is tested.  The compile step is a parameter,
    so these facts hold whatever a record compiles to. */
module DeckWalk {
  import opened Wrappers
  import opened SiftDeck
  import Make

  /** The roads of the deck's files. */
  function Roads(deck: Deck): set<string> {
    set f | f in deck.load.Values :: f.road
  }

  /** The files an import list names that the deck holds, in order: what
      `make` queues after compiling a record. */
  function Successors(deck: Deck, imports: seq<RoadEntry>): (r: seq<File>)
    ensures forall i | 0 <= i < |r| :: r[i] in deck.load.Values
    decreases |imports|
  {
    if imports == [] then []
    else
      var n := |imports| - 1;
      Successors(deck, imports[..n]) + if imports[n].road in deck.load then [deck.load[imports[n].road]] else []
  }

  /** Everything queued after the lead file, record by record. */
  function Pushed(deck: Deck, recs: seq<Make.Compiled>): (r: seq<File>)
    decreases |recs|
  {
    if recs == [] then []
    else Pushed(deck, recs[..|recs| - 1]) + Successors(deck, recs[|recs| - 1].imports)
  }

  /** The roads of a run of files, in order. */
  function RoadsOf(fs: seq<File>): (r: seq<string>)
    ensures |r| == |fs| && forall i | 0 <= i < |fs| :: r[i] == fs[i].road
  {
    seq(|fs|, i requires 0 <= i < |fs| => fs[i].road)
  }

  /** The first file of each road, in order of first appearance. */
  function FirstFiles(fs: seq<File>): (r: seq<File>)
    decreases |fs|
  {
    if fs == [] then []
    else
      var n := |fs| - 1;
      var d := FirstFiles(fs[..n]);
      if fs[n].road in RoadsOf(d) then d else d + [fs[n]]
  }

  /** A successor of a record appears among the files queued. */
  lemma {:induction false} SuccessorIn(deck: Deck, imports: seq<RoadEntry>, j: nat)
    requires j < |imports| && imports[j].road in deck.load
    ensures deck.load[imports[j].road] in Successors(deck, imports)
    decreases |imports|
  {
    var n := |imports| - 1;
    if j < n {
      assert imports[..n][j] == imports[j];
      SuccessorIn(deck, imports[..n], j);
    }
  }

  /** Every successor of every record is queued. */
  lemma {:induction false} PushedHas(deck: Deck, recs: seq<Make.Compiled>, i: nat, f: File)
    requires i < |recs| && f in Successors(deck, recs[i].imports)
    ensures f in Pushed(deck, recs)
    decreases |recs|
  {
    var n := |recs| - 1;
    if i < n {
      assert recs[..n][i] == recs[i];
      PushedHas(deck, recs[..n], i, f);
    }
  }

  /** The records of `files` in the order of `order`. */
  function Records(files: map<string, Make.Compiled>, order: seq<string>): (r: seq<Make.Compiled>)
    requires forall i | 0 <= i < |order| :: order[i] in files
    ensures |r| == |order| && forall i | 0 <= i < |order| :: r[i] == files[order[i]]
  {
    seq(|order|, i requires 0 <= i < |order| => files[order[i]])
  }

  /** Each road of `order` once, and exactly the keys of `files`. */
  ghost predicate Keyed(files: map<string, Make.Compiled>, order: seq<string>) {
    && (forall i, j | 0 <= i < j < |order| :: order[i] != order[j])
    && (forall k :: k in files <==> k in order)
  }

  /** The records, one per compiled road, in compile order. */
  ghost predicate Filed(files: map<string, Make.Compiled>, order: seq<string>, recs: seq<Make.Compiled>) {
    |recs| == |order| && forall i | 0 <= i < |order| :: order[i] in files && files[order[i]] == recs[i]
  }

  /** FIFO: the files shifted so far, then the queue, are the lead file
      followed by what each record queued, in compile order. */
  ghost predicate Fifo(deck: Deck, recs: seq<Make.Compiled>, visited: seq<File>, list: seq<File>) {
    deck.lead in deck.load && visited + list == [deck.load[deck.lead]] + Pushed(deck, recs)
  }

  /** First occurrence wins: the compiled roads are the roads of the files
      shifted so far, each at its first appearance, and each record is the
      compile of that first file. */
  ghost predicate FirstWins(compile: File -> Result<Make.Compiled>, order: seq<string>, recs: seq<Make.Compiled>, visited: seq<File>) {
    && order == RoadsOf(FirstFiles(visited))
    && |recs| == |order|
    && forall i | 0 <= i < |order| :: compile(FirstFiles(visited)[i]) == Ok(recs[i])
  }

  /** Every file shifted so far has its road compiled. */
  ghost predicate Seen(files: map<string, Make.Compiled>, visited: seq<File>) {
    forall i | 0 <= i < |visited| :: visited[i].road in files
  }

  /** What holds each time `make` tests its queue. */
  ghost predicate Inv(compile: File -> Result<Make.Compiled>, deck: Deck, files: map<string, Make.Compiled>, order: seq<string>,
                      recs: seq<Make.Compiled>, visited: seq<File>, list: seq<File>)
  {
    && (forall i | 0 <= i < |list| :: list[i] in deck.load.Values)
    && files.Keys <= Roads(deck)
    && Keyed(files, order)
    && Filed(files, order, recs)
    && Fifo(deck, recs, visited, list)
    && FirstWins(compile, order, recs, visited)
    && Seen(files, visited)
  }

  /** The queue `make` starts with. */
  lemma InvStart(compile: File -> Result<Make.Compiled>, deck: Deck)
    requires deck.lead in deck.load
    ensures Inv(compile, deck, map[], [], [], [], [deck.load[deck.lead]])
  {
    assert FirstFiles([]) == [];
  }

  /** Shifting a file whose road is already compiled leaves the first
      files as they are. */
  lemma FirstFilesSkip(visited: seq<File>, base: File)
    requires base.road in RoadsOf(FirstFiles(visited))
    ensures FirstFiles(visited + [base]) == FirstFiles(visited)
  {
    assert (visited + [base])[..|visited|] == visited;
  }

  /** Shifting a file of a new road appends it to the first files. */
  lemma FirstFilesNew(visited: seq<File>, base: File)
    requires base.road !in RoadsOf(FirstFiles(visited))
    ensures FirstFiles(visited + [base]) == FirstFiles(visited) + [base]
  {
    assert (visited + [base])[..|visited|] == visited;
  }

  /** Shifting a file whose road is compiled changes nothing else. */
  lemma SkipStep(compile: File -> Result<Make.Compiled>, deck: Deck, files: map<string, Make.Compiled>, order: seq<string>,
                 recs: seq<Make.Compiled>, visited: seq<File>, list: seq<File>)
    requires Inv(compile, deck, files, order, recs, visited, list)
    requires list != [] && list[0].road in files
    ensures Inv(compile, deck, files, order, recs, visited + [list[0]], list[1..])
  {
    var base := list[0];
    assert base.road in order;
    FirstWinsSkip(compile, order, recs, visited, base);
    FifoShift(deck, recs, visited, list);
    SeenShift(files, visited, base);
    QueuedTail(deck, list);
  }

  /** Shifting a file of a compiled road keeps first-occurrence-wins. */
  lemma FirstWinsSkip(compile: File -> Result<Make.Compiled>, order: seq<string>, recs: seq<Make.Compiled>,
                      visited: seq<File>, base: File)
    requires FirstWins(compile, order, recs, visited) && base.road in order
    ensures FirstWins(compile, order, recs, visited + [base])
  {
    FirstFilesSkip(visited, base);
  }

  /** Moving the front of the queue to the shifted files keeps FIFO. */
  lemma FifoShift(deck: Deck, recs: seq<Make.Compiled>, visited: seq<File>, list: seq<File>)
    requires Fifo(deck, recs, visited, list) && list != []
    ensures Fifo(deck, recs, visited + [list[0]], list[1..])
  {
    assert (visited + [list[0]]) + list[1..] == visited + list;
  }

  /** Shifting a file of a compiled road keeps every shifted road compiled. */
  lemma SeenShift(files: map<string, Make.Compiled>, visited: seq<File>, base: File)
    requires Seen(files, visited) && base.road in files
    ensures Seen(files, visited + [base])
  {
    forall i | 0 <= i < |visited| + 1
      ensures (visited + [base])[i].road in files
    {
      if i < |visited| {
        assert (visited + [base])[i] == visited[i];
      }
    }
  }

  /** The rest of a queue of deck files holds deck files. */
  lemma QueuedTail(deck: Deck, list: seq<File>)
    requires list != [] && forall i | 0 <= i < |list| :: list[i] in deck.load.Values
    ensures forall i | 0 <= i < |list| - 1 :: list[1..][i] in deck.load.Values
  {
    forall i | 0 <= i < |list| - 1
      ensures list[1..][i] in deck.load.Values
    {
      assert list[1..][i] == list[i + 1];
    }
  }

  /** FIFO is kept by compiling a new road: what its record queues goes to
      the back. */
  lemma FifoStep(deck: Deck, recs: seq<Make.Compiled>, visited: seq<File>, list: seq<File>, rec: Make.Compiled)
    requires Fifo(deck, recs, visited, list) && list != []
    ensures Fifo(deck, recs + [rec], visited + [list[0]], list[1..] + Successors(deck, rec.imports))
  {
    assert (recs + [rec])[..|recs|] == recs;
    assert (visited + [list[0]]) + (list[1..] + Successors(deck, rec.imports)) == (visited + list) + Successors(deck, rec.imports);
  }

  /** First occurrence wins is kept by compiling a new road. */
  lemma FirstWinsStep(compile: File -> Result<Make.Compiled>, order: seq<string>, recs: seq<Make.Compiled>,
                      visited: seq<File>, base: File, rec: Make.Compiled)
    requires FirstWins(compile, order, recs, visited)
    requires base.road !in order && compile(base) == Ok(rec)
    ensures FirstWins(compile, order + [base.road], recs + [rec], visited + [base])
  {
    FirstFilesNew(visited, base);
    var ff := FirstFiles(visited + [base]);
    assert RoadsOf(ff) == order + [base.road];
    forall i | 0 <= i < |order| + 1
      ensures compile(ff[i]) == Ok((recs + [rec])[i])
    {
      if i < |order| {
        assert ff[i] == FirstFiles(visited)[i];
      }
    }
  }

  /** The records are filed, and every shifted road compiled, after
      compiling a new road. */
  lemma FiledStep(files: map<string, Make.Compiled>, order: seq<string>, recs: seq<Make.Compiled>,
                  visited: seq<File>, base: File, rec: Make.Compiled)
    requires Keyed(files, order) && Filed(files, order, recs) && Seen(files, visited) && base.road !in files
    ensures Keyed(files[base.road := rec], order + [base.road])
    ensures Filed(files[base.road := rec], order + [base.road], recs + [rec])
    ensures Seen(files[base.road := rec], visited + [base])
  {
    var files' := files[base.road := rec];
    forall i | 0 <= i < |order| + 1
      ensures (order + [base.road])[i] in files' && files'[(order + [base.road])[i]] == (recs + [rec])[i]
    {
      if i < |order| {
        assert order[i] in files;
      }
    }
    forall i | 0 <= i < |visited| + 1
      ensures (visited + [base])[i].road in files'
    {
      if i < |visited| {
        assert (visited + [base])[i] == visited[i];
      }
    }
  }

  /** Compiling a file of a new road files its record under the road,
      appends the road, and queues what its imports name. */
  lemma CompileStep(compile: File -> Result<Make.Compiled>, deck: Deck, files: map<string, Make.Compiled>, order: seq<string>,
                    recs: seq<Make.Compiled>, visited: seq<File>, list: seq<File>, rec: Make.Compiled)
    requires Inv(compile, deck, files, order, recs, visited, list)
    requires list != [] && list[0].road !in files && compile(list[0]) == Ok(rec)
    ensures Inv(compile, deck, files[list[0].road := rec], order + [list[0].road], recs + [rec],
                visited + [list[0]], list[1..] + Successors(deck, rec.imports))
  {
    var base := list[0];
    assert base in deck.load.Values;
    FifoStep(deck, recs, visited, list, rec);
    FirstWinsStep(compile, order, recs, visited, base, rec);
    FiledStep(files, order, recs, visited, base, rec);
    QueuedTail(deck, list);
    QueuedAppend(deck, list[1..], rec.imports);
  }

  /** Appending what an import list names keeps a queue of deck files. */
  lemma QueuedAppend(deck: Deck, list: seq<File>, imports: seq<RoadEntry>)
    requires forall i | 0 <= i < |list| :: list[i] in deck.load.Values
    ensures forall i | 0 <= i < |list + Successors(deck, imports)| :: (list + Successors(deck, imports))[i] in deck.load.Values
  {
    var s := Successors(deck, imports);
    forall i | 0 <= i < |list + s|
      ensures (list + s)[i] in deck.load.Values
    {
      if i < |list| {
        assert (list + s)[i] == list[i];
      } else {
        assert (list + s)[i] == s[i - |list|];
      }
    }
  }

  /** Once the queue is empty, every import the deck holds is compiled. */
  lemma Closed(compile: File -> Result<Make.Compiled>, deck: Deck, files: map<string, Make.Compiled>, order: seq<string>,
               recs: seq<Make.Compiled>, visited: seq<File>)
    requires Inv(compile, deck, files, order, recs, visited, [])
    ensures forall k, j | k in files && 0 <= j < |files[k].imports| && files[k].imports[j].road in deck.load ::
      deck.load[files[k].imports[j].road].road in files
  {
    forall k, j | k in files && 0 <= j < |files[k].imports| && files[k].imports[j].road in deck.load
      ensures deck.load[files[k].imports[j].road].road in files
    {
      var i :| 0 <= i < |order| && order[i] == k;
      var f := deck.load[files[k].imports[j].road];
      SuccessorIn(deck, recs[i].imports, j);
      PushedHas(deck, recs, i, f);
      assert visited + [] == visited;
      assert f in visited;
      var m :| 0 <= m < |visited| && visited[m] == f;
    }
  }


  /** What a drained queue leaves: each compiled road once; the files
      shifted off the queue are the lead file, then what each record
      queued, in compile order; the roads were compiled in order of first
      appearance, each from its first file; and every import the deck
      holds is compiled. */
  ghost predicate Drained(compile: File -> Result<Make.Compiled>, deck: Deck, files: map<string, Make.Compiled>,
                          order: seq<string>, visited: seq<File>)
  {
    && deck.lead in deck.load
    && Keyed(files, order)
    && visited == [deck.load[deck.lead]] + Pushed(deck, Records(files, order))
    && order == RoadsOf(FirstFiles(visited))
    && (forall i | 0 <= i < |order| :: compile(FirstFiles(visited)[i]) == Ok(files[order[i]]))
    && (forall k, j | k in files && 0 <= j < |files[k].imports| && files[k].imports[j].road in deck.load ::
          deck.load[files[k].imports[j].road].road in files)
  }

  /** The invariant with an empty queue is a drained walk. */
  lemma Finish(compile: File -> Result<Make.Compiled>, deck: Deck, files: map<string, Make.Compiled>, order: seq<string>,
               recs: seq<Make.Compiled>, visited: seq<File>)
    requires Inv(compile, deck, files, order, recs, visited, [])
    ensures Drained(compile, deck, files, order, visited)
  {
    Closed(compile, deck, files, order, recs, visited);
    assert Records(files, order) == recs;
    assert visited + [] == visited;
  }
}

=== FILE: dock.dfy ===
/** Native tasks of the root compiler (index.js `makeDockTask`,
    `makeDockCall` and its transform table): a call inside a native task is
    not a call but a named lowering into a JavaScript construct.  A
    transform reads its inputs from the call's bindings, by name (the first
    binding with that name) or by position; a binding it needs that is
    absent, or that is not text where text is read, stops the compiler. */
module Dock {
  import opened Wrappers
  import opened Ast
  import opened Paths
  import opened Deck
  import opened TermStore
  import opened Translate
  import Decimal

  /** The position of the first binding with the given name. */
  function RoleIndex(binds: seq<Bind>, role: string): (r: Option<nat>)
    ensures r.Some? ==>
      && r.value < |binds| && binds[r.value].name == role
      && (forall j | 0 <= j < r.value :: binds[j].name != role)
    ensures r.None? <==> forall j | 0 <= j < |binds| :: binds[j].name != role
  {
    if binds == [] then None
    else if binds[0].name == role then Some(0)
    else match RoleIndex(binds[1..], role)
      case None => None
      case Some(i) => Some(i + 1)
  }

  predicate Has(binds: seq<Bind>, role: string) {
    RoleIndex(binds, role).Some?
  }

  /** The first binding with the given name. */
  function Role(binds: seq<Bind>, role: string): (r: Result<Bind>)
    ensures r.Ok? <==> Has(binds, role)
    ensures r.Ok? ==> r.value in binds && r.value.name == role
    ensures r.Err? ==> r.error == MissingRole(role)
  {
    match RoleIndex(binds, role)
    case None => Err(MissingRole(role))
    case Some(i) => Ok(binds[i])
  }

  /** The binding at a position. */
  function Position(binds: seq<Bind>, i: nat): (r: Result<Bind>)
    ensures r.Ok? <==> i < |binds|
    ensures r.Ok? ==> r.value == binds[i]
  {
    if i < |binds| then Ok(binds[i]) else Err(MissingPosition(i))
  }

  /** A binding read as text: its fragments joined. */
  function TextOf(b: Bind): (r: Result<string>)
    ensures r.Ok? <==> b.bond.Text?
    ensures r.Ok? ==> r.value == Cord(b.bond.text)
  {
    if b.bond.Text? then Ok(Cord(b.bond.text)) else Err(NotText(b.name))
  }

  /** The text of an integral number used as a property key: its decimal
      digits, with a minus sign when it is negative. */
  function NumberKey(n: real): (r: string)
    ensures n == n.Floor as real && n >= 0.0 ==> r == Decimal.Show(n.Floor)
    ensures n == n.Floor as real && n < 0.0 ==> r == "-" + Decimal.Show(-n.Floor)
  {
    var k := n.Floor;
    if k < 0 then "-" + Decimal.Show(-k) else Decimal.Show(k)
  }

  /** The text of a bond object used as a property key: an array joins its
      elements' texts with commas, and any other object is
      "[object Object]". */
  function ObjectKey(b: Bond): (r: string)
    ensures !b.Items? ==> r == "[object Object]"
    ensures b.Items? && |b.items| == 1 ==> r == ObjectKey(b.items[0])
    decreases b, 1
  {
    if b.Items? then ItemsKey(b.items) else "[object Object]"
  }

  /** `Array.prototype.join(",")` over bond objects. */
  function ItemsKey(items: seq<Bond>): (r: string)
    ensures items == [] ==> r == ""
    ensures |items| > 1 ==> exists i | 0 <= i < |r| :: r[i] == ','
    decreases items, 0
  {
    if items == [] then ""
    else if |items| == 1 then ObjectKey(items[0])
    else
      var head := ObjectKey(items[0]);
      assert (head + "," + ItemsKey(items[1..]))[|head|] == ',';
      head + "," + ItemsKey(items[1..])
  }

  /** The text of a record's entry value used as a property key: a string
      as it is, a number in decimal, an object as `ObjectKey` gives it. */
  function FieldKey(v: Field): (r: string)
    ensures v.Scalar? && v.value.Str? ==> r == v.value.s
    ensures v.Nested? ==> r == ObjectKey(v.bond)
  {
    match v
    case Nested(b) => ObjectKey(b)
    case Scalar(Str(t)) => t
    case Scalar(Num(n)) => NumberKey(n)
    case Scalar(Json(_)) => "[object Object]"
  }

  /** The `name` property of a plain object: the value of its first entry
      keyed `name`, as a property key, or "undefined" when it has none. */
  function RecordName(es: seq<Entry>): (r: string)
    ensures (forall i | 0 <= i < |es| :: es[i].key != "name") ==> r == "undefined"
    ensures forall i | 0 <= i < |es| && es[i].key == "name" && (forall j | 0 <= j < i :: es[j].key != "name") ::
      r == FieldKey(es[i].field)
  {
    if es == [] then "undefined"
    else if es[0].key == "name" then FieldKey(es[0].field)
    else
      var r := RecordName(es[1..]);
      assert forall i | 1 <= i < |es| :: es[i] == es[1..][i - 1];
      r
  }

  /** The `name` property of a bond, as a property key: a loan's name, a
      task's name, a call's target key, a plain object's `name` entry;
      "undefined" for the bonds that carry no `name`. */
  function BondName(b: Bond): (r: string)
    ensures b.Loan? ==> r == b.name
    ensures b.TaskBond? ==> r == b.task.name
    ensures b.CallBond? && b.call.name.SlotCallee? ==> r == b.call.name.key
    ensures b.CallBond? && b.call.name.NestCallee? ==> r == "[object Object]"
    ensures b.Record? ==> r == RecordName(b.entries)
    ensures b.Text? || b.Size? || b.LinkBond? || b.Make? || b.LoanNest? || b.ReadNest? || b.Items? ==> r == "undefined"
  {
    match b
    case Loan(name) => name
    case TaskBond(t) => t.name
    case CallBond(c) => (match c.name case SlotCallee(k) => k case NestCallee(_) => "[object Object]")
    case Record(es) => RecordName(es)
    case _ => "undefined"
  }

  /** A `loop` whose check is a plain object with a string `name` entry
      calls the host name that string resolves to. */
  lemma LoopRecordCheck(fs: Forks, f: nat, binds: seq<Bind>, name: string)
    requires Ready(fs, f) && Has(binds, "check") && Has(binds, "block")
    requires Role(binds, "check").value.bond == Record([Entry("name", Scalar(Str(name)))])
    ensures Loop(fs, f, binds).Ok?
    ensures var r := Loop(fs, f, binds).value;
      Lookup(r.0, f, HostSpace, name).Some? &&
      r.1.test == Invoke(Identifier(HostTerm(Lookup(r.0, f, HostSpace, name).value)))
  {
  }

  /** A call expression built from a callee alone. */
  function Invoke(callee: Node): Node {
    CallExpression(callee, [], false)
  }

  predicate IsInvoke(n: Node) {
    n.CallExpression? && n.arguments == [] && IsValue(n.callee)
  }

  /** A block that only calls one value. */
  predicate CallsOne(n: Node) {
    n.BlockStatement? && |n.statements| == 1 && IsInvoke(n.statements[0])
  }

  /** Every transform keeps the arena valid and only grows it. */
  ghost predicate Fine(fs: Forks, f: nat, r: Result<(Forks, Node)>) {
    && (r.Ok? ==> Ready(r.value.0, f) && |fs| <= |r.value.0|)
    && (r.Err? ==> !r.error.MissingImplementation?)
  }

  /** The names of the transform table. */
  const TransformNames: set<string> := {
    "make", "test", "call-base", "call-function", "call-head", "call-twin",
    "call-try", "test-else", "loop", "debug", "call-keyword", "call-keyword-2",
    "set-aspect", "get-aspect", "set-dynamic-aspect", "get-dynamic-aspect",
    "delete", "create-literal", "throw-error" }

  /** The name a native call is dispatched on; a nest target is an object
      and reads as "[object Object]". */
  function OpName(c: Call): string {
    match c.name
    case SlotCallee(k) => k
    case NestCallee(_) => "[object Object]"
  }

  /** The entries of the transform table. */
  datatype Op =
    | OpMake
    | OpTest
    | OpCallBase
    | OpCallFunction
    | OpCallHead
    | OpCallTwin
    | OpCallTry
    | OpTestElse
    | OpLoop
    | OpDebug
    | OpCallKeyword
    | OpCallKeyword2
    | OpSetAspect
    | OpGetAspect
    | OpSetDynamicAspect
    | OpGetDynamicAspect
    | OpDelete
    | OpCreateLiteral
    | OpThrowError

  /** The transform table: the entry a name selects, if any. */
  function Transform(name: string): (r: Option<Op>)
    ensures r.Some? <==> name in TransformNames
  {
    match name
    case "make" => Some(OpMake)
    case "test" => Some(OpTest)
    case "call-base" => Some(OpCallBase)
    case "call-function" => Some(OpCallFunction)
    case "call-head" => Some(OpCallHead)
    case "call-twin" => Some(OpCallTwin)
    case "call-try" => Some(OpCallTry)
    case "test-else" => Some(OpTestElse)
    case "loop" => Some(OpLoop)
    case "debug" => Some(OpDebug)
    case "call-keyword" => Some(OpCallKeyword)
    case "call-keyword-2" => Some(OpCallKeyword2)
    case "set-aspect" => Some(OpSetAspect)
    case "get-aspect" => Some(OpGetAspect)
    case "set-dynamic-aspect" => Some(OpSetDynamicAspect)
    case "get-dynamic-aspect" => Some(OpGetDynamicAspect)
    case "delete" => Some(OpDelete)
    case "create-literal" => Some(OpCreateLiteral)
    case "throw-error" => Some(OpThrowError)
    case _ => None
  }

  /** Each name of the table selects its own entry. */
  lemma TransformTable()
    ensures Transform("make") == Some(OpMake)
    ensures Transform("test") == Some(OpTest)
    ensures Transform("call-base") == Some(OpCallBase)
    ensures Transform("call-function") == Some(OpCallFunction)
    ensures Transform("call-head") == Some(OpCallHead)
    ensures Transform("call-twin") == Some(OpCallTwin)
    ensures Transform("call-try") == Some(OpCallTry)
    ensures Transform("test-else") == Some(OpTestElse)
    ensures Transform("loop") == Some(OpLoop)
    ensures Transform("debug") == Some(OpDebug)
    ensures Transform("call-keyword") == Some(OpCallKeyword)
    ensures Transform("call-keyword-2") == Some(OpCallKeyword2)
    ensures Transform("set-aspect") == Some(OpSetAspect)
    ensures Transform("get-aspect") == Some(OpGetAspect)
    ensures Transform("set-dynamic-aspect") == Some(OpSetDynamicAspect)
    ensures Transform("get-dynamic-aspect") == Some(OpGetDynamicAspect)
    ensures Transform("delete") == Some(OpDelete)
    ensures Transform("create-literal") == Some(OpCreateLiteral)
    ensures Transform("throw-error") == Some(OpThrowError)
  {
  }

  /** `makeDockCall`: dispatch on the call's name; a name without a
      transform stops the compiler with "Missing implementation of <name>". */
  function DockCall(fs: Forks, f: nat, c: Call): (r: Result<(Forks, Node)>)
    requires Ready(fs, f)
    ensures r.Ok? ==> Ready(r.value.0, f) && |fs| <= |r.value.0|
    ensures (r.Err? && r.error == MissingImplementation(OpName(c))) <==> OpName(c) !in TransformNames
    ensures Transform(OpName(c)) == Some(OpMake) ==> r == CallMake(fs, f, c.bind)
    ensures Transform(OpName(c)) == Some(OpTest) ==> r == CallTest(fs, f, c.bind)
    ensures Transform(OpName(c)) == Some(OpCallBase) ==> r == CallBase(fs, f, c.bind)
    ensures Transform(OpName(c)) == Some(OpCallFunction) ==> r == CallFunction(fs, f, c.bind)
    ensures Transform(OpName(c)) == Some(OpCallHead) ==> r == CallHead(fs, f, c.bind)
    ensures Transform(OpName(c)) == Some(OpCallTwin) ==> r == CallTwin(fs, f, c.bind)
    ensures Transform(OpName(c)) == Some(OpCallTry) ==> r == CallTry(fs, f, c.bind)
    ensures Transform(OpName(c)) == Some(OpTestElse) ==> r == TestElse(fs, f, c.bind)
    ensures Transform(OpName(c)) == Some(OpLoop) ==> r == Loop(fs, f, c.bind)
    ensures Transform(OpName(c)) == Some(OpDebug) ==> r == Ok((fs, DebuggerStatement))
    ensures Transform(OpName(c)) == Some(OpCallKeyword) ==> r == CallKeyword(fs, f, c.bind)
    ensures Transform(OpName(c)) == Some(OpCallKeyword2) ==> r == CallKeyword2(fs, f, c.bind)
    ensures Transform(OpName(c)) == Some(OpSetAspect) ==> r == SetAspectIntended(fs, f, c.bind)
    ensures Transform(OpName(c)) == Some(OpGetAspect) ==> r == GetAspect(fs, f, c.bind)
    ensures Transform(OpName(c)) == Some(OpSetDynamicAspect) ==> r == SetDynamicAspect(fs, f, c.bind)
    ensures Transform(OpName(c)) == Some(OpGetDynamicAspect) ==> r == GetDynamicAspect(fs, f, c.bind)
    ensures Transform(OpName(c)) == Some(OpDelete) ==> r == Delete(fs, f, c.bind)
    ensures Transform(OpName(c)) == Some(OpCreateLiteral) ==> r == CreateLiteral(fs, f, c.bind)
    ensures Transform(OpName(c)) == Some(OpThrowError) ==> r == ThrowError(fs, f, c.bind)
  {
    match Transform(OpName(c))
    case None => Err(MissingImplementation(OpName(c)))
    case Some(op) =>
      match op
      case OpMake => CallMake(fs, f, c.bind)
      case OpTest => CallTest(fs, f, c.bind)
      case OpCallBase => CallBase(fs, f, c.bind)
      case OpCallFunction => CallFunction(fs, f, c.bind)
      case OpCallHead => CallHead(fs, f, c.bind)
      case OpCallTwin => CallTwin(fs, f, c.bind)
      case OpCallTry => CallTry(fs, f, c.bind)
      case OpTestElse => TestElse(fs, f, c.bind)
      case OpLoop => Loop(fs, f, c.bind)
      case OpDebug => Ok((fs, DebuggerStatement))
      case OpCallKeyword => CallKeyword(fs, f, c.bind)
      case OpCallKeyword2 => CallKeyword2(fs, f, c.bind)
      case OpSetAspect => SetAspectIntended(fs, f, c.bind)
      case OpGetAspect => GetAspect(fs, f, c.bind)
      case OpSetDynamicAspect => SetDynamicAspect(fs, f, c.bind)
      case OpGetDynamicAspect => GetDynamicAspect(fs, f, c.bind)
      case OpDelete => Delete(fs, f, c.bind)
      case OpCreateLiteral => CreateLiteral(fs, f, c.bind)
      case OpThrowError => ThrowError(fs, f, c.bind)
  }

  /** `create-literal`: returns the literal's text; allocates nothing. */
  function CreateLiteral(fs: Forks, f: nat, binds: seq<Bind>): (r: Result<(Forks, Node)>)
    requires Ready(fs, f)
    ensures Fine(fs, f, r)
    ensures r.Ok? <==> Has(binds, "literal") && Role(binds, "literal").value.bond.Text?
    ensures r.Ok? ==> r.value == (fs, ReturnStatement(Literal(Str(Cord(Role(binds, "literal").value.bond.text)))))
  {
    var literal :- Role(binds, "literal");
    var text :- TextOf(literal);
    Ok((fs, ReturnStatement(Literal(Str(text)))))
  }

  /** `delete`: the unary `delete` of the computed access object[aspect]. */
  function Delete(fs: Forks, f: nat, binds: seq<Bind>): (r: Result<(Forks, Node)>)
    requires Ready(fs, f)
    ensures Fine(fs, f, r)
    ensures r.Ok? <==> Has(binds, "object") && Has(binds, "aspect")
    ensures r.Ok? ==> match r.value.1
      case UnaryExpression(arg, op, prefix) =>
        op == "delete" && prefix && arg.MemberExpression? && arg.computed && IsValue(arg.obj) && IsValue(arg.property)
      case _ => false
  {
    var obj :- Role(binds, "object");
    var aspect :- Role(binds, "aspect");
    var (fs1, o) := MakeBond(fs, f, obj.bond);
    var (fs2, a) := MakeBond(fs1, f, aspect.bond);
    Ok((fs2, UnaryExpression(MemberExpression(o, a, true), "delete", true)))
  }

  /** `get-aspect`: returns the plain access object.aspect, the aspect's
      text naming the property. */
  function GetAspect(fs: Forks, f: nat, binds: seq<Bind>): (r: Result<(Forks, Node)>)
    requires Ready(fs, f)
    ensures Fine(fs, f, r)
    ensures r.Ok? <==> Has(binds, "object") && Has(binds, "aspect") && Role(binds, "aspect").value.bond.Text?
    ensures r.Ok? ==> match r.value.1
      case ReturnStatement(MemberExpression(o, p, computed)) =>
        !computed && IsValue(o) && p == Identifier(Cord(Role(binds, "aspect").value.bond.text))
      case _ => false
  {
    var obj :- Role(binds, "object");
    var aspect :- Role(binds, "aspect");
    var (fs1, o) := MakeBond(fs, f, obj.bond);
    var name :- TextOf(aspect);
    Ok((fs1, ReturnStatement(MemberExpression(o, Identifier(name), false))))
  }

  /** `set-aspect` as the source has it: it reads each binding's `sift`,
      which bindings of this form never have, so it always stops. */
  function SetAspect(fs: Forks, f: nat, binds: seq<Bind>): (r: Result<(Forks, Node)>)
    requires Ready(fs, f)
    ensures Fine(fs, f, r)
    ensures r.Err?
    ensures Has(binds, "object") ==> r == Err(NotANode("sift"))
  {
    var obj :- Role(binds, "object");
    Err(NotANode("sift"))
  }

  /** `set-aspect` as the other setters suggest it was meant: assigns the
      factor link to the plain access object.aspect. */
  function SetAspectIntended(fs: Forks, f: nat, binds: seq<Bind>): (r: Result<(Forks, Node)>)
    requires Ready(fs, f)
    ensures Fine(fs, f, r)
    ensures r.Ok? <==>
      && Has(binds, "object") && Role(binds, "object").value.bond.LinkBond?
      && Has(binds, "aspect") && Role(binds, "aspect").value.bond.Text?
      && Has(binds, "factor") && Role(binds, "factor").value.bond.LinkBond?
    ensures r.Ok? ==> match r.value.1
      case AssignmentExpression(MemberExpression(o, p, computed), v) =>
        !computed && IsValue(o) && IsValue(v) && p == Identifier(Cord(Role(binds, "aspect").value.bond.text))
      case _ => false
  {
    var obj :- Role(binds, "object");
    var aspect :- Role(binds, "aspect");
    var factor :- Role(binds, "factor");
    var _ :- LinkOf(obj);
    var (fs1, o) := MakeLink(fs, f, obj.bond.link);
    var name :- TextOf(aspect);
    var _ :- LinkOf(factor);
    var (fs2, v) := MakeLink(fs1, f, factor.bond.link);
    Ok((fs2, AssignmentExpression(MemberExpression(o, Identifier(name), false), v)))
  }

  /** A binding read as a link. */
  function LinkOf(b: Bind): (r: Result<Link>)
    ensures r.Ok? <==> b.bond.LinkBond?
  {
    if b.bond.LinkBond? then Ok(b.bond.link) else Err(NotLink(b.name))
  }

  /** `get-dynamic-aspect`: returns the computed access object[aspect]. */
  function GetDynamicAspect(fs: Forks, f: nat, binds: seq<Bind>): (r: Result<(Forks, Node)>)
    requires Ready(fs, f)
    ensures Fine(fs, f, r)
    ensures r.Ok? <==> Has(binds, "object") && Has(binds, "aspect")
    ensures r.Ok? ==> match r.value.1
      case ReturnStatement(MemberExpression(o, p, computed)) => computed && IsValue(o) && IsValue(p)
      case _ => false
  {
    var obj :- Role(binds, "object");
    var aspect :- Role(binds, "aspect");
    var (fs1, o) := MakeBond(fs, f, obj.bond);
    var (fs2, a) := MakeBond(fs1, f, aspect.bond);
    Ok((fs2, ReturnStatement(MemberExpression(o, a, true))))
  }

  /** `set-dynamic-aspect`: assigns the factor to object[aspect]. */
  function SetDynamicAspect(fs: Forks, f: nat, binds: seq<Bind>): (r: Result<(Forks, Node)>)
    requires Ready(fs, f)
    ensures Fine(fs, f, r)
    ensures r.Ok? <==> Has(binds, "object") && Has(binds, "aspect") && Has(binds, "factor")
    ensures r.Ok? ==> match r.value.1
      case AssignmentExpression(MemberExpression(o, p, computed), v) => computed && IsValue(o) && IsValue(p) && IsValue(v)
      case _ => false
  {
    var obj :- Role(binds, "object");
    var aspect :- Role(binds, "aspect");
    var factor :- Role(binds, "factor");
    var (fs1, o) := MakeBond(fs, f, obj.bond);
    var (fs2, a) := MakeBond(fs1, f, aspect.bond);
    var (fs3, v) := MakeBond(fs2, f, factor.bond);
    Ok((fs3, AssignmentExpression(MemberExpression(o, a, true), v)))
  }

  /** `call-keyword-2`: returns left <keyword> right. */
  function CallKeyword2(fs: Forks, f: nat, binds: seq<Bind>): (r: Result<(Forks, Node)>)
    requires Ready(fs, f)
    ensures Fine(fs, f, r)
    ensures r.Ok? <==> Has(binds, "left") && Has(binds, "keyword") && Role(binds, "keyword").value.bond.Text? && Has(binds, "right")
    ensures r.Ok? ==> match r.value.1
      case ReturnStatement(BinaryExpression(left, op, right)) =>
        op == Cord(Role(binds, "keyword").value.bond.text) && IsValue(left) && IsValue(right)
      case _ => false
  {
    var left :- Role(binds, "left");
    var keyword :- Role(binds, "keyword");
    var right :- Role(binds, "right");
    var (fs1, l) := MakeBond(fs, f, left.bond);
    var op :- TextOf(keyword);
    var (fs2, rv) := MakeBond(fs1, f, right.bond);
    Ok((fs2, ReturnStatement(BinaryExpression(l, op, rv))))
  }

  /** `call-keyword`: returns the prefix unary <keyword> value. */
  function CallKeyword(fs: Forks, f: nat, binds: seq<Bind>): (r: Result<(Forks, Node)>)
    requires Ready(fs, f)
    ensures Fine(fs, f, r)
    ensures r.Ok? <==> Has(binds, "value") && Has(binds, "keyword") && Role(binds, "keyword").value.bond.Text?
    ensures r.Ok? ==> match r.value.1
      case ReturnStatement(UnaryExpression(v, op, prefix)) =>
        prefix && op == Cord(Role(binds, "keyword").value.bond.text) && IsValue(v)
      case _ => false
  {
    var keyword :- Role(binds, "keyword");
    var value :- Role(binds, "value");
    var (fs1, v) := MakeBond(fs, f, value.bond);
    var op :- TextOf(keyword);
    Ok((fs1, ReturnStatement(UnaryExpression(v, op, true))))
  }

  /** `loop`: a while loop calling the check and the block, both named by
      the host names their bindings' names resolve to. */
  function Loop(fs: Forks, f: nat, binds: seq<Bind>): (r: Result<(Forks, Node)>)
    requires Ready(fs, f)
    ensures Fine(fs, f, r)
    ensures r.Ok? <==> Has(binds, "check") && Has(binds, "block")
    ensures r.Ok? ==>
      var check := BondName(Role(binds, "check").value.bond);
      var block := BondName(Role(binds, "block").value.bond);
      var gs := r.value.0;
      && Lookup(gs, f, HostSpace, check).Some? && Lookup(gs, f, HostSpace, block).Some?
      && r.value.1 == WhileStatement(
           Invoke(Identifier(HostTerm(Lookup(gs, f, HostSpace, check).value))),
           [Invoke(Identifier(HostTerm(Lookup(gs, f, HostSpace, block).value)))])
  {
    var check :- Role(binds, "check");
    var block :- Role(binds, "block");
    var (fs1, c) := MakeTerm(fs, f, BondName(check.bond));
    var (fs2, b) := MakeTerm(fs1, f, BondName(block.bond));
    Ok((fs2, WhileStatement(Invoke(c), [Invoke(b)])))
  }

  /** `test-else`: if the check holds call the block, else the other. */
  function TestElse(fs: Forks, f: nat, binds: seq<Bind>): (r: Result<(Forks, Node)>)
    requires Ready(fs, f)
    ensures Fine(fs, f, r)
    ensures r.Ok? <==> Has(binds, "check") && Has(binds, "block") && Has(binds, "else")
    ensures r.Ok? ==> match r.value.1
      case IfStatement(test, consequent, Some(alternate)) =>
        IsInvoke(test) && CallsOne(consequent) && CallsOne(alternate)
      case _ => false
  {
    var check :- Role(binds, "check");
    var block :- Role(binds, "block");
    var other :- Role(binds, "else");
    var (fs1, c) := MakeBond(fs, f, check.bond);
    var (fs2, b) := MakeBond(fs1, f, block.bond);
    var (fs3, e) := MakeBond(fs2, f, other.bond);
    Ok((fs3, IfStatement(Invoke(c), BlockStatement([Invoke(b)]), Some(BlockStatement([Invoke(e)])))))
  }

  /** `call-try`: try calling the block, handled by calling the error. */
  function CallTry(fs: Forks, f: nat, binds: seq<Bind>): (r: Result<(Forks, Node)>)
    requires Ready(fs, f)
    ensures Fine(fs, f, r)
    ensures r.Ok? <==> Has(binds, "block") && Has(binds, "error")
    ensures r.Ok? ==> match r.value.1
      case TryStatement(block, handler) => IsInvoke(block) && IsInvoke(handler)
      case _ => false
  {
    var block :- Role(binds, "block");
    var error :- Role(binds, "error");
    var (fs1, b) := MakeBond(fs, f, block.bond);
    var (fs2, e) := MakeBond(fs1, f, error.bond);
    Ok((fs2, TryStatement(Invoke(b), Invoke(e))))
  }

  /** `call-head`: returns the prefix update <operation> value. */
  function CallHead(fs: Forks, f: nat, binds: seq<Bind>): (r: Result<(Forks, Node)>)
    requires Ready(fs, f)
    ensures Fine(fs, f, r)
    ensures r.Ok? <==> Has(binds, "value") && Has(binds, "operation") && Role(binds, "operation").value.bond.Text?
    ensures r.Ok? ==> match r.value.1
      case ReturnStatement(UpdateExpression(v, op, prefix)) =>
        prefix && op == Cord(Role(binds, "operation").value.bond.text) && IsValue(v)
      case _ => false
  {
    var value :- Role(binds, "value");
    var operation :- Role(binds, "operation");
    var (fs1, v) := MakeBond(fs, f, value.bond);
    var op :- TextOf(operation);
    Ok((fs1, ReturnStatement(UpdateExpression(v, op, true))))
  }

  /** `call-twin`: returns left <operation> right; a text right operand is
      its literal text (which is also what translating it gives). */
  function CallTwin(fs: Forks, f: nat, binds: seq<Bind>): (r: Result<(Forks, Node)>)
    requires Ready(fs, f)
    ensures Fine(fs, f, r)
    ensures r.Ok? <==> Has(binds, "left") && Has(binds, "right") && Has(binds, "operation") && Role(binds, "operation").value.bond.Text?
    ensures r.Ok? ==> match r.value.1
      case ReturnStatement(BinaryExpression(left, op, right)) =>
        && op == Cord(Role(binds, "operation").value.bond.text) && IsValue(left)
        && (Role(binds, "right").value.bond.Text? ==> right == Literal(Str(Cord(Role(binds, "right").value.bond.text))))
      case _ => false
  {
    var left :- Role(binds, "left");
    var right :- Role(binds, "right");
    var operation :- Role(binds, "operation");
    var (fs1, l) := MakeBond(fs, f, left.bond);
    var op :- TextOf(operation);
    var (fs2, rv) := if right.bond.Text? then (fs1, Literal(Str(Cord(right.bond.text)))) else MakeBond(fs1, f, right.bond);
    Ok((fs2, ReturnStatement(BinaryExpression(l, op, rv))))
  }

  /** `make`: returns `new` of the class named by the first binding, given
      the remaining bindings' values. */
  function CallMake(fs: Forks, f: nat, binds: seq<Bind>): (r: Result<(Forks, Node)>)
    requires Ready(fs, f)
    ensures Fine(fs, f, r)
    ensures r.Ok? <==> |binds| > 0 && binds[0].bond.Text?
    ensures r.Ok? ==> match r.value.1
      case ReturnStatement(NewExpression(ctor, args)) =>
        ctor == Identifier(Cord(binds[0].bond.text)) && |args| == |binds| - 1
      case _ => false
  {
    var ctor :- Position(binds, 0);
    var (fs1, args) := MakeArgs(fs, f, binds[1..]);
    var name :- TextOf(ctor);
    Ok((fs1, ReturnStatement(NewExpression(Identifier(name), args))))
  }

  /** The names of a run of bindings' bonds. */
  function BondNames(binds: seq<Bind>): seq<string> {
    seq(|binds|, i requires 0 <= i < |binds| => BondName(binds[i].bond))
  }

  /** The host names of a run of bindings' names, in order. */
  function NameTerms(fs: Forks, f: nat, binds: seq<Bind>): (r: (Forks, seq<Node>))
    requires Ready(fs, f)
    ensures Ready(r.0, f) && |r.0| == |fs|
    ensures Preserves(fs, r.0, f)
    ensures |r.1| == |binds|
    ensures forall i | 0 <= i < |binds| :: Named(r.0, f, BondName(binds[i].bond), r.1[i])
  {
    MakeParams(fs, f, BondNames(binds))
  }

  /** The bindings after the first `k` (`slice(k)`). */
  function Drop(binds: seq<Bind>, k: nat): (r: seq<Bind>)
    ensures |r| == if k <= |binds| then |binds| - k else 0
  {
    if k <= |binds| then binds[k..] else []
  }

  /** A non-computed method call `receiver.name(args)`, returned. */
  predicate ReturnsMethodCall(n: Node, name: string) {
    && n.ReturnStatement? && n.argument.CallExpression?
    && n.argument.callee.MemberExpression? && !n.argument.callee.computed
    && n.argument.callee.property == Identifier(name)
  }

  /** `call-base`: a method call.  On a loan object the receiver is the
      loan's host name and the object is passed first; otherwise the object
      and method are names given as text. */
  function CallBase(fs: Forks, f: nat, binds: seq<Bind>): (r: Result<(Forks, Node)>)
    requires Ready(fs, f)
    ensures Fine(fs, f, r)
    ensures r.Ok? <==>
      && |binds| > 1 && binds[1].bond.Text?
      && (binds[0].bond.Loan? || binds[0].bond.Text?)
    ensures r.Ok? ==> ReturnsMethodCall(r.value.1, Cord(binds[1].bond.text))
  {
    var obj :- Position(binds, 0);
    if obj.bond.Loan? then CallBaseLoan(fs, f, binds) else CallBaseText(fs, f, binds)
  }

  /** `call-base` on a loan object: the receiver is the loan's host name,
      and the object is also passed as the first argument. */
  function CallBaseLoan(fs: Forks, f: nat, binds: seq<Bind>): (r: Result<(Forks, Node)>)
    requires Ready(fs, f) && |binds| > 0 && binds[0].bond.Loan?
    ensures Fine(fs, f, r)
    ensures r.Ok? <==> |binds| > 1 && binds[1].bond.Text?
    ensures r.Ok? ==> ReturnsMethodCall(r.value.1, Cord(binds[1].bond.text))
    ensures r.Ok? ==> var call := r.value.1.argument;
      |call.arguments| == |binds| - 1 && call.arguments[0] == call.callee.obj
  {
    var obj := binds[0];
    var (fs1, args) := NameTerms(fs, f, [obj] + Drop(binds, 2));
    var (fs2, receiver) := MakeTerm(fs1, f, obj.bond.name);
    ReceiverIsFirst(fs, f, [obj] + Drop(binds, 2));
    var meth :- Position(binds, 1);
    var name :- TextOf(meth);
    Ok((fs2, ReturnStatement(CallExpression(MemberExpression(receiver, Identifier(name), false), args, false))))
  }

  /** Naming a loan again gives the name its first argument already has. */
  lemma ReceiverIsFirst(fs: Forks, f: nat, binds: seq<Bind>)
    requires Ready(fs, f) && |binds| > 0 && binds[0].bond.Loan?
    ensures var (fs1, args) := NameTerms(fs, f, binds);
      args[0] == MakeTerm(fs1, f, binds[0].bond.name).1
  {
    var (fs1, args) := NameTerms(fs, f, binds);
    var name := binds[0].bond.name;
    assert Named(fs1, f, name, args[0]);
    var (fs2, receiver) := MakeTerm(fs1, f, name);
    assert Lookup(fs2, f, HostSpace, name) == Lookup(fs1, f, HostSpace, name);
  }

  /** `call-base` on any other object: the object and the method are names
      given as text, and the remaining bindings are the arguments. */
  function CallBaseText(fs: Forks, f: nat, binds: seq<Bind>): (r: Result<(Forks, Node)>)
    requires Ready(fs, f) && |binds| > 0 && !binds[0].bond.Loan?
    ensures Fine(fs, f, r)
    ensures r.Ok? <==> |binds| > 1 && binds[1].bond.Text? && binds[0].bond.Text?
    ensures r.Ok? ==> ReturnsMethodCall(r.value.1, Cord(binds[1].bond.text))
    ensures r.Ok? ==> var call := r.value.1.argument;
      |call.arguments| == |binds| - 2 && call.callee.obj == Identifier(Cord(binds[0].bond.text))
  {
    var obj := binds[0];
    var (fs1, args) := NameTerms(fs, f, Drop(binds, 2));
    var objectName :- TextOf(obj);
    var meth :- Position(binds, 1);
    var name :- TextOf(meth);
    Ok((fs1, ReturnStatement(CallExpression(MemberExpression(Identifier(objectName), Identifier(name), false), args, false))))
  }

  /** `call-base`: on a loan the receiver is named after the arguments, the
      loan first among them; on text the object and method are identifiers
      of their text and the remaining bindings are named as arguments. */
  lemma CallBaseNode(fs: Forks, f: nat, binds: seq<Bind>)
    requires Ready(fs, f)
    ensures |binds| > 1 && binds[1].bond.Text? && binds[0].bond.Loan? ==>
      var args := NameTerms(fs, f, [binds[0]] + Drop(binds, 2));
      var receiver := MakeTerm(args.0, f, binds[0].bond.name);
      CallBase(fs, f, binds) ==
        Ok((receiver.0, ReturnStatement(CallExpression(MemberExpression(receiver.1, Identifier(Cord(binds[1].bond.text)), false), args.1, false))))
    ensures |binds| > 1 && binds[1].bond.Text? && binds[0].bond.Text? ==>
      var args := NameTerms(fs, f, Drop(binds, 2));
      CallBase(fs, f, binds) ==
        Ok((args.0, ReturnStatement(CallExpression(MemberExpression(Identifier(Cord(binds[0].bond.text)), Identifier(Cord(binds[1].bond.text)), false), args.1, false))))
  {
  }

  /** `call-function`: returns a call of the function named by the first
      binding, given the remaining bindings' values. */
  function CallFunction(fs: Forks, f: nat, binds: seq<Bind>): (r: Result<(Forks, Node)>)
    requires Ready(fs, f)
    ensures Fine(fs, f, r)
    ensures r.Ok? <==> |binds| > 0 && binds[0].bond.Text?
    ensures r.Ok? ==> match r.value.1
      case ReturnStatement(CallExpression(callee, args, _)) =>
        callee == Identifier(Cord(binds[0].bond.text)) && |args| == |binds| - 1
      case _ => false
  {
    var func :- Position(binds, 0);
    var (fs1, args) := MakeArgs(fs, f, binds[1..]);
    var name :- TextOf(func);
    Ok((fs1, ReturnStatement(CallExpression(Identifier(name), args, false))))
  }

  /** `test`: if calling the first binding holds, call the second. */
  function CallTest(fs: Forks, f: nat, binds: seq<Bind>): (r: Result<(Forks, Node)>)
    requires Ready(fs, f)
    ensures Fine(fs, f, r)
    ensures r.Ok? <==> |binds| > 1
    ensures r.Ok? ==> match r.value.1
      case IfStatement(test, consequent, None) => IsInvoke(test) && CallsOne(consequent)
      case _ => false
  {
    var test :- Position(binds, 0);
    var make :- Position(binds, 1);
    var (fs1, t) := MakeBond(fs, f, test.bond);
    var (fs2, m) := MakeBond(fs1, f, make.bond);
    Ok((fs2, IfStatement(Invoke(t), BlockStatement([Invoke(m)]), None)))
  }

  /** `throw-error`: throws a new Error of the factor.  A text factor goes
      through a helper that only logs it, so the Error gets `undefined`. */
  function ThrowError(fs: Forks, f: nat, binds: seq<Bind>): (r: Result<(Forks, Node)>)
    requires Ready(fs, f)
    ensures Fine(fs, f, r)
    ensures r.Ok? <==> Has(binds, "factor")
    ensures r.Ok? ==> match r.value.1
      case ThrowStatement(NewExpression(callee, args)) =>
        && callee == Identifier("Error") && |args| == 1
        && (args[0].Undefined? <==> Role(binds, "factor").value.bond.Text?)
      case _ => false
  {
    var factor :- Role(binds, "factor");
    var (fs1, arg) := if factor.bond.Text? then (fs, Undefined) else MakeBond(fs, f, factor.bond);
    Ok((fs1, ThrowStatement(NewExpression(Identifier("Error"), [arg]))))
  }

  // The node each transform builds, in terms of the bindings it reads:
  // each operand is the translation of its role's binding, made in the
  // arena the operands before it left, in the order the source reads them.

  /** `delete`: object first, then aspect. */
  lemma DeleteNode(fs: Forks, f: nat, binds: seq<Bind>)
    requires Ready(fs, f)
    ensures Has(binds, "object") && Has(binds, "aspect") ==>
      var o := MakeBond(fs, f, Role(binds, "object").value.bond);
      var a := MakeBond(o.0, f, Role(binds, "aspect").value.bond);
      Delete(fs, f, binds) == Ok((a.0, UnaryExpression(MemberExpression(o.1, a.1, true), "delete", true)))
  {
  }

  /** `get-aspect`: the object's translation, accessed by the aspect's text. */
  lemma GetAspectNode(fs: Forks, f: nat, binds: seq<Bind>)
    requires Ready(fs, f)
    ensures Has(binds, "object") && Has(binds, "aspect") && Role(binds, "aspect").value.bond.Text? ==>
      var o := MakeBond(fs, f, Role(binds, "object").value.bond);
      GetAspect(fs, f, binds) == Ok((o.0, ReturnStatement(MemberExpression(o.1, Identifier(Cord(Role(binds, "aspect").value.bond.text)), false))))
  {
  }

  /** `set-aspect` as meant: the object link, then the factor link. */
  lemma SetAspectIntendedNode(fs: Forks, f: nat, binds: seq<Bind>)
    requires Ready(fs, f)
    ensures SetAspectIntended(fs, f, binds).Ok? ==>
      var o := MakeLink(fs, f, Role(binds, "object").value.bond.link);
      var v := MakeLink(o.0, f, Role(binds, "factor").value.bond.link);
      SetAspectIntended(fs, f, binds).value ==
        (v.0, AssignmentExpression(MemberExpression(o.1, Identifier(Cord(Role(binds, "aspect").value.bond.text)), false), v.1))
  {
  }

  /** `get-dynamic-aspect`: object first, then aspect. */
  lemma GetDynamicAspectNode(fs: Forks, f: nat, binds: seq<Bind>)
    requires Ready(fs, f)
    ensures Has(binds, "object") && Has(binds, "aspect") ==>
      var o := MakeBond(fs, f, Role(binds, "object").value.bond);
      var a := MakeBond(o.0, f, Role(binds, "aspect").value.bond);
      GetDynamicAspect(fs, f, binds) == Ok((a.0, ReturnStatement(MemberExpression(o.1, a.1, true))))
  {
  }

  /** `set-dynamic-aspect`: object, aspect, then factor. */
  lemma SetDynamicAspectNode(fs: Forks, f: nat, binds: seq<Bind>)
    requires Ready(fs, f)
    ensures Has(binds, "object") && Has(binds, "aspect") && Has(binds, "factor") ==>
      var o := MakeBond(fs, f, Role(binds, "object").value.bond);
      var a := MakeBond(o.0, f, Role(binds, "aspect").value.bond);
      var v := MakeBond(a.0, f, Role(binds, "factor").value.bond);
      SetDynamicAspect(fs, f, binds) == Ok((v.0, AssignmentExpression(MemberExpression(o.1, a.1, true), v.1)))
  {
  }

  /** `call-keyword-2`: left, then right, joined by the keyword's text. */
  lemma CallKeyword2Node(fs: Forks, f: nat, binds: seq<Bind>)
    requires Ready(fs, f)
    ensures Has(binds, "left") && Has(binds, "keyword") && Role(binds, "keyword").value.bond.Text? && Has(binds, "right") ==>
      var l := MakeBond(fs, f, Role(binds, "left").value.bond);
      var rv := MakeBond(l.0, f, Role(binds, "right").value.bond);
      CallKeyword2(fs, f, binds) == Ok((rv.0, ReturnStatement(BinaryExpression(l.1, Cord(Role(binds, "keyword").value.bond.text), rv.1))))
  {
  }

  /** `call-keyword`: the value under the keyword's text. */
  lemma CallKeywordNode(fs: Forks, f: nat, binds: seq<Bind>)
    requires Ready(fs, f)
    ensures Has(binds, "value") && Has(binds, "keyword") && Role(binds, "keyword").value.bond.Text? ==>
      var v := MakeBond(fs, f, Role(binds, "value").value.bond);
      CallKeyword(fs, f, binds) == Ok((v.0, ReturnStatement(UnaryExpression(v.1, Cord(Role(binds, "keyword").value.bond.text), true))))
  {
  }

  /** `test-else`: check, block, then else, each called. */
  lemma TestElseNode(fs: Forks, f: nat, binds: seq<Bind>)
    requires Ready(fs, f)
    ensures Has(binds, "check") && Has(binds, "block") && Has(binds, "else") ==>
      var c := MakeBond(fs, f, Role(binds, "check").value.bond);
      var b := MakeBond(c.0, f, Role(binds, "block").value.bond);
      var e := MakeBond(b.0, f, Role(binds, "else").value.bond);
      TestElse(fs, f, binds) == Ok((e.0, IfStatement(Invoke(c.1), BlockStatement([Invoke(b.1)]), Some(BlockStatement([Invoke(e.1)])))))
  {
  }

  /** `call-try`: block, then error, each called. */
  lemma CallTryNode(fs: Forks, f: nat, binds: seq<Bind>)
    requires Ready(fs, f)
    ensures Has(binds, "block") && Has(binds, "error") ==>
      var b := MakeBond(fs, f, Role(binds, "block").value.bond);
      var e := MakeBond(b.0, f, Role(binds, "error").value.bond);
      CallTry(fs, f, binds) == Ok((e.0, TryStatement(Invoke(b.1), Invoke(e.1))))
  {
  }

  /** `call-head`: the value under the operation's text. */
  lemma CallHeadNode(fs: Forks, f: nat, binds: seq<Bind>)
    requires Ready(fs, f)
    ensures Has(binds, "value") && Has(binds, "operation") && Role(binds, "operation").value.bond.Text? ==>
      var v := MakeBond(fs, f, Role(binds, "value").value.bond);
      CallHead(fs, f, binds) == Ok((v.0, ReturnStatement(UpdateExpression(v.1, Cord(Role(binds, "operation").value.bond.text), true))))
  {
  }

  /** `call-twin`: left, then right (a text right is its literal), joined
      by the operation's text. */
  lemma CallTwinNode(fs: Forks, f: nat, binds: seq<Bind>)
    requires Ready(fs, f)
    ensures Has(binds, "left") && Has(binds, "right") && Has(binds, "operation") && Role(binds, "operation").value.bond.Text? ==>
      var l := MakeBond(fs, f, Role(binds, "left").value.bond);
      var right := Role(binds, "right").value.bond;
      var rv := if right.Text? then (l.0, Literal(Str(Cord(right.text)))) else MakeBond(l.0, f, right);
      CallTwin(fs, f, binds) == Ok((rv.0, ReturnStatement(BinaryExpression(l.1, Cord(Role(binds, "operation").value.bond.text), rv.1))))
  {
  }

  /** `make`: `new` of the first binding's text, given the values of the
      rest as `makeCall` would pass them. */
  lemma CallMakeNode(fs: Forks, f: nat, binds: seq<Bind>)
    requires Ready(fs, f)
    ensures |binds| > 0 && binds[0].bond.Text? ==>
      var args := MakeArgs(fs, f, binds[1..]);
      CallMake(fs, f, binds) == Ok((args.0, ReturnStatement(NewExpression(Identifier(Cord(binds[0].bond.text)), args.1))))
  {
  }

  /** `call-function`: a call of the first binding's text, given the values
      of the rest. */
  lemma CallFunctionNode(fs: Forks, f: nat, binds: seq<Bind>)
    requires Ready(fs, f)
    ensures |binds| > 0 && binds[0].bond.Text? ==>
      var args := MakeArgs(fs, f, binds[1..]);
      CallFunction(fs, f, binds) == Ok((args.0, ReturnStatement(CallExpression(Identifier(Cord(binds[0].bond.text)), args.1, false))))
  {
  }

  /** `test`: the first binding called as the test, the second called in
      the block. */
  lemma CallTestNode(fs: Forks, f: nat, binds: seq<Bind>)
    requires Ready(fs, f)
    ensures |binds| > 1 ==>
      var t := MakeBond(fs, f, binds[0].bond);
      var m := MakeBond(t.0, f, binds[1].bond);
      CallTest(fs, f, binds) == Ok((m.0, IfStatement(Invoke(t.1), BlockStatement([Invoke(m.1)]), None)))
  {
  }

  /** `throw-error`: a new Error of the factor's translation, or of
      `undefined` for a text factor. */
  lemma ThrowErrorNode(fs: Forks, f: nat, binds: seq<Bind>)
    requires Ready(fs, f)
    ensures Has(binds, "factor") ==>
      var factor := Role(binds, "factor").value.bond;
      var arg := if factor.Text? then (fs, Undefined) else MakeBond(fs, f, factor);
      ThrowError(fs, f, binds) == Ok((arg.0, ThrowStatement(NewExpression(Identifier("Error"), [arg.1]))))
  {
  }

  /** The statement a zone of a native task produces. */
  ghost predicate DockShape(z: Zone, s: Option<Node>) {
    if z.CallZone? then s.Some? else ZoneShape(z, s)
  }

  /** The statement one zone of a native task produces. */
  function DockZone(fs: Forks, f: nat, z: Zone): (r: Result<(Forks, Option<Node>)>)
    requires Ready(fs, f)
    ensures r.Ok? ==> Ready(r.value.0, f) && |fs| <= |r.value.0| && DockShape(z, r.value.1)
    ensures r.Err? ==> z.CallZone?
  {
    match z
    case HostZone(_, _) => var (g, n) := MakeHost(fs, f, z); Ok((g, Some(n)))
    case SaveZone(_, _) => var (g, n) := MakeSave(fs, f, z); Ok((g, Some(n)))
    case TurnZone(_) => var (g, n) := MakeTurn(fs, f, z); Ok((g, Some(n)))
    case CallZone(call) => (var (g, n) :- DockCall(fs, f, call); Ok((g, Some(n))))
    case OtherZone(_) => Ok((fs, None))
  }

  /** The statements of a native task body, one per zone in order: calls
      are lowered by their transform, and nothing is wrapped in a return. */
  function DockZones(fs: Forks, f: nat, zones: seq<Zone>): (r: Result<(Forks, seq<Option<Node>>)>)
    requires Ready(fs, f)
    ensures r.Ok? ==> Ready(r.value.0, f) && |fs| <= |r.value.0|
    ensures r.Ok? ==> |r.value.1| == |zones| && forall i | 0 <= i < |zones| :: DockShape(zones[i], r.value.1[i])
    ensures r.Err? ==> exists i | 0 <= i < |zones| :: zones[i].CallZone?
    decreases zones
  {
    if zones == [] then Ok((fs, []))
    else
      var head := DockZone(fs, f, zones[0]);
      if head.Err? then Err(head.error)
      else
        var tail := DockZones(head.value.0, f, zones[1..]);
        if tail.Err? then
          CallInTail(zones);
          Err(tail.error)
        else
          assert forall i | 1 <= i < |zones| :: zones[i] == zones[1..][i - 1];
          Ok((tail.value.0, [head.value.1] + tail.value.1))
  }

  /** A native zone: hosts, saves and turns as in any task, a call lowered
      by its transform (whose failure is the zone's), nothing for any other
      form. */
  lemma DockZoneNode(fs: Forks, f: nat, z: Zone)
    requires Ready(fs, f)
    ensures z.HostZone? ==> DockZone(fs, f, z) == Ok((MakeHost(fs, f, z).0, Some(MakeHost(fs, f, z).1)))
    ensures z.SaveZone? ==> DockZone(fs, f, z) == Ok((MakeSave(fs, f, z).0, Some(MakeSave(fs, f, z).1)))
    ensures z.TurnZone? ==> DockZone(fs, f, z) == Ok((MakeTurn(fs, f, z).0, Some(MakeTurn(fs, f, z).1)))
    ensures z.CallZone? ==> var d := DockCall(fs, f, z.call);
      DockZone(fs, f, z) == if d.Err? then Err(d.error) else Ok((d.value.0, Some(d.value.1)))
    ensures z.OtherZone? ==> DockZone(fs, f, z) == Ok((fs, None))
  {
  }

  /** A non-empty run of native zones: the first zone, then the rest in the
      arena it left; the first failure is the run's. */
  lemma DockZonesCons(fs: Forks, f: nat, zones: seq<Zone>)
    requires Ready(fs, f) && zones != []
    ensures var head := DockZone(fs, f, zones[0]);
      DockZones(fs, f, zones) ==
        if head.Err? then Err(head.error)
        else
          var tail := DockZones(head.value.0, f, zones[1..]);
          if tail.Err? then Err(tail.error) else Ok((tail.value.0, [head.value.1] + tail.value.1))
  {
  }

  /** One more native zone: a run that failed stays failed with the same
      error; otherwise the zone's statement is added, or its failure is the
      run's. */
  lemma {:induction false} DockZonesSnoc(fs: Forks, f: nat, zones: seq<Zone>, x: Zone)
    requires Ready(fs, f)
    ensures var a := DockZones(fs, f, zones);
      DockZones(fs, f, zones + [x]) ==
        if a.Err? then Err(a.error)
        else
          var v := DockZone(a.value.0, f, x);
          if v.Err? then Err(v.error) else Ok((v.value.0, a.value.1 + [v.value.1]))
    decreases |zones|
  {
    DockZonesCons(fs, f, zones + [x]);
    SnocSplit(zones, x);
    if zones == [] {
      var v := DockZone(fs, f, x);
      assert DockZones(fs, f, zones) == Ok((fs, []));
      if v.Ok? {
        assert DockZones(v.value.0, f, []) == Ok((v.value.0, []));
        ConsSnoc(v.value.1, [], v.value.1);
      }
    } else {
      DockZonesCons(fs, f, zones);
      var head := DockZone(fs, f, zones[0]);
      if head.Ok? {
        DockZonesSnoc(head.value.0, f, zones[1..], x);
        var rest := DockZones(head.value.0, f, zones[1..]);
        if rest.Ok? {
          var w := DockZone(rest.value.0, f, x);
          if w.Ok? {
            ConsSnoc(head.value.1, rest.value.1, w.value.1);
          }
        }
      }
    }
  }

  /** A call zone among the later zones is a call zone among all of them. */
  lemma CallInTail(zones: seq<Zone>)
    requires zones != [] && exists i | 0 <= i < |zones[1..]| :: zones[1..][i].CallZone?
    ensures exists i | 0 <= i < |zones| :: zones[i].CallZone?
  {
    var i :| 0 <= i < |zones[1..]| && zones[1..][i].CallZone?;
    assert zones[i + 1].CallZone?;
  }

  /** `makeDockTask`: an anonymous function whose parameters are the host
      names of the task's parameters and whose body is the lowered zones. */
  function MakeDockTask(fs: Forks, f: nat, t: Task): (r: Result<(Forks, Node)>)
    requires Ready(fs, f)
    ensures r.Ok? ==> Ready(r.value.0, f) && |fs| <= |r.value.0|
    ensures r.Ok? ==> match r.value.1
      case FunctionDeclaration(None, params, BlockStatement(body), async) =>
        async == t.wait && |params| == |t.link| && |body| <= |t.zone|
      case _ => false
    ensures r.Err? ==> exists i | 0 <= i < |t.zone| :: t.zone[i].CallZone?
  {
    var (fs1, params) := MakeParams(fs, f, t.link);
    var (fs2, raw) :- DockZones(fs1, f, t.zone);
    Ok((fs2, FunctionDeclaration(None, params, BlockStatement(Compact(raw)), t.wait)))
  }

  /** `makeDockTask` exactly: the parameters first, then the lowered zones,
      whose failure is the task's; the body keeps every statement made, in
      order, with no return added. */
  lemma DockTaskNode(fs: Forks, f: nat, t: Task)
    requires Ready(fs, f)
    ensures var params := MakeParams(fs, f, t.link);
      var body := DockZones(params.0, f, t.zone);
      MakeDockTask(fs, f, t) ==
        if body.Err? then Err(body.error)
        else Ok((body.value.0, FunctionDeclaration(None, params.1, BlockStatement(Compact(body.value.1)), t.wait)))
  {
  }

  /** Native tasks add no implicit return: a body ending in an assignment
      ends in that assignment. */
  lemma DockTaskNoTailReturn(fs: Forks, f: nat, t: Task)
    requires Ready(fs, f) && t.zone != [] && t.zone[|t.zone| - 1].SaveZone?
    requires MakeDockTask(fs, f, t).Ok?
    ensures var body := MakeDockTask(fs, f, t).value.1.body.statements;
      body != [] && body[|body| - 1].AssignmentExpression?
  {
    var (fs1, params) := MakeParams(fs, f, t.link);
    var raw := DockZones(fs1, f, t.zone).value.1;
    assert MakeDockTask(fs, f, t).value.1.body.statements == Compact(raw);
    assert DockShape(t.zone[|t.zone| - 1], raw[|raw| - 1]);
    TailRule(raw, false);
  }

  /** A native `delete` of object r with the text aspect "key", at a fresh
      file root, lowers to `delete host_1["key"]`. */
  lemma DeleteExample()
    ensures Delete([RootFork], 0, [Bind("object", Loan("r")), Bind("aspect", Text(["key"]))])
      == Ok(([RootFork.(host := Table(map["r" := 0], 1))],
             UnaryExpression(MemberExpression(Identifier("host_1"), Literal(Str("key")), true), "delete", true)))
  {
    var fs1 := [RootFork.(host := Table(map["r" := 0], 1))];
    LoanAtRoot();
    assert Cord(["key"]) == "key";
    assert MakeBond(fs1, 0, Text(["key"])) == (fs1, Literal(Str("key")));
  }

  /** The first loan of a fresh file root names host term 0. */
  lemma LoanAtRoot()
    ensures MakeBond([RootFork], 0, Loan("r")) == ([RootFork.(host := Table(map["r" := 0], 1))], Identifier("host_1"))
  {
    assert Decimal.Digit(1) == '1';
    assert HostTerm(0) == "host_1";
    assert Lookup([RootFork], 0, HostSpace, "r").None?;
    var fs1 := [RootFork.(host := Table(map["r" := 0], 1))];
    var t := TermTree([RootFork], 0, HostSpace, "r");
    assert map[]["r" := 0] == map["r" := 0];
    assert t.0[0] == fs1[0];
    assert t.0 == fs1;
  }
}

=== FILE: ir.dfy ===
/** Paths into values, shared by both revisions of the intermediate form: a
    nest is either a single name (`site`) or a base followed by property
    steps, where a step that is itself a nest is read as a computed access. */
module Paths {
  datatype Nest = Site(name: string) | Chain(base: Nest, steps: seq<Nest>)

  /** A reference: a bare host name, or a nested path. */
  datatype Link = HostLink(name: string) | NestLink(nest: Nest)

  /** Which steps of a chain are computed accesses (those that are nests). */
  function Flags(steps: seq<Nest>): (r: seq<bool>)
    ensures |r| == |steps|
    ensures forall i | 0 <= i < |steps| :: r[i] == steps[i].Chain?
  {
    seq(|steps|, i requires 0 <= i < |steps| => steps[i].Chain?)
  }
}

/** The intermediate form the root compiler (index.js) reads: one record per
    source file, with tasks, forms, top-level zones, stems and laces. */
module Deck {
  import opened Wrappers
  import opened Paths
  import Ast

  /** A bond as `makeBond` switches on its `form` (index.js:274-320).  An
      object tagged with a handled form is always written as that
      constructor; `Items` is an array and `Record` any other plain object. */
  datatype Bond =
    | Text(text: seq<string>)         // a cord: fragments joined without separator
    | Size(size: real)
    | LinkBond(link: Link)
    | CallBond(call: Call)
    | TaskBond(task: Task)
    | Make(binds: seq<Bind>)          // an object built from named bindings
    | Loan(name: string)
    | LoanNest(nest: Nest)            // a `loan` whose path is a nest
    | ReadNest(nest: Nest)            // a `read` whose path is a nest
    | Items(items: seq<Bond>)         // a plain array of bonds
    | Record(entries: seq<Entry>)     // a plain object whose `form` is none of the tags above

  datatype Entry = Entry(key: string, field: Field)
  datatype Field = Nested(bond: Bond) | Scalar(value: Ast.Value)

  datatype Bind = Bind(name: string, bond: Bond)

  /** A call's target: a nest, or a name resolved through the file's call slots. */
  datatype Callee = NestCallee(nest: Nest) | SlotCallee(key: string)

  datatype Call = Call(name: Callee, bind: seq<Bind>, hook: seq<Hook>, wait: bool)

  /** A callback: parameter names and a body of zones. */
  datatype Hook = Hook(link: seq<string>, zone: seq<Zone>)

  datatype Zone =
    | HostZone(name: string, init: Option<Bond>)
    | SaveZone(nest: Link, sift: Bond)
    | TurnZone(sift: Bond)
    | CallZone(call: Call)
    | OtherZone(form: string)         // any form the compiler does not handle

  datatype Task = Task(name: string, link: seq<string>, zone: seq<Zone>, wait: bool)

  /** A file-level statement. */
  datatype TopZone = TopSave(nest: Link, sift: Bond) | TopCall(call: Call)

  datatype FormTask = FormTask(name: string, loan: bool)
  datatype Form = Form(name: string, link: seq<string>, task: seq<FormTask>)
  datatype Stem = Stem(name: string, bond: Ast.Value)
  datatype Lace = Lace(name: string, json: string)

  /** The kind of a file.  `Absent` kinds (form, mine, mill, call, feed)
      are dispatched to handlers that are never defined; any other kind is
      `Unhandled` and compiles to nothing. */
  datatype Mint = Base | Dock | LaceMint | TestMint | Absent(kind: string) | Unhandled

  datatype File = File(
    road: string, mint: Mint, load: seq<string>, task: seq<Task>,
    form: seq<Form>, zone: seq<TopZone>, stem: seq<Stem>, lace: seq<Lace>)
}

/** The intermediate form the library compiler (lib/) reads, where values
    are called `sift` and parameters `base`. */
module SiftDeck {
  import opened Wrappers
  import opened Paths

  datatype Sift =
    | SiftText(text: string)
    | TextSift(text: string)
    | SizeSift(size: real)
    | LinkSift(link: Link)
    | CallSift(call: Call)
    | TaskSift(task: Task)
    | OtherSift(form: string)

  datatype Bind = Bind(name: string, sift: Sift)
  datatype Call = Call(name: string, bind: seq<Bind>, hook: seq<Hook>, wait: bool)
  datatype Hook = Hook(base: seq<string>, zone: seq<Zone>)

  datatype Zone =
    | HostZone(name: string, init: Option<Sift>)
    | SaveZone(nest: Link, sift: Sift)
    | TurnZone(sift: Sift)
    | CallZone(call: Call)
    | OtherZone(form: string)

  datatype Task = Task(name: string, base: seq<string>, zone: seq<Zone>, wait: bool)
  datatype TopZone = TopSave(nest: Link, sift: Sift) | TopCall(call: Call)

  /** An import: what is taken (optionally renamed) from which road, and
      nested imports whose roads are relative to this one. */
  datatype Take = Take(host: string, base: string, save: Option<string>)
  datatype Load = Load(road: string, take: seq<Take>, load: seq<Load>)

  /** A flattened import: a resolved road and a non-empty take list. */
  datatype RoadEntry = RoadEntry(road: string, take: seq<Take>)

  /** The kind of a file.  `Absent` kinds (form, mine, mill, call, feed)
      are dispatched to handlers that are never defined; any other kind is
      `Unhandled` and compiles to nothing. */
  datatype Mint = TaskFile | DockTaskFile | TestFile | Absent(kind: string) | Unhandled

  datatype File = File(road: string, mint: Mint, load: seq<Load>, task: seq<Task>, call: seq<TopZone>)

  /** The lead road and every file keyed by road. */
  datatype Deck = Deck(lead: string, load: map<string, File>)
}

=== FILE: lib_transpile.dfy ===
/** The library compiler's driver (lib/transpile/index.js): a FIFO worklist
    over roads that opens one compiled record per road, compiles it by the
    kind of its file, and queues the files its imports name. */
module LibTranspile {
  import opened Wrappers
  import opened Ast
  import opened SiftDeck
  import Make
  import Native
  import opened DeckWalk

  // ---------------------------------------------------------------------
  // Tasks of a task file

  /** `makeTask` as a value: a function named after the task, of its
      parameter names as written, whose block holds one statement per known
      zone; async iff the task waits. */
  function LibTask(t: Task): (r: Result<Node>)
    ensures r.Ok? <==> Make.MakeStatements(t.zone).Ok?
    ensures r.Err? ==> r.error == Make.NoTask
  {
    var body :- Make.MakeStatements(t.zone);
    Ok(FunctionDeclaration(Some(Identifier(t.name)), Make.Params(t.base), BlockStatement(body), t.wait))
  }

  /** The function of a task: named after it, its parameters as written and
      in order, async iff it waits, and a body that holds its known zones'
      statements in order and returns only where a zone is a `turn`:
      nothing is returned implicitly. */
  lemma LibTaskShape(t: Task)
    requires LibTask(t).Ok?
    ensures var fn := LibTask(t).value;
      && fn.FunctionDeclaration? && fn.ident == Some(Identifier(t.name)) && fn.async == t.wait
      && |fn.params| == |t.base| && (forall i | 0 <= i < |t.base| :: fn.params[i] == Identifier(t.base[i]))
      && fn.body.BlockStatement? && |fn.body.statements| == |Make.Known(t.zone)|
      && forall i | 0 <= i < |fn.body.statements| ::
           && Make.MakeStatement(Make.Known(t.zone)[i]) == Ok(Some(fn.body.statements[i]))
           && (fn.body.statements[i].ReturnStatement? <==> Make.Known(t.zone)[i].TurnZone?)
  {
    var body := Make.MakeStatements(t.zone).value;
    Make.StatementsOfKnown(t.zone);
    forall i | 0 <= i < |body|
      ensures body[i].ReturnStatement? <==> Make.Known(t.zone)[i].TurnZone?
    {
      var z := Make.Known(t.zone)[i];
      assert Make.MakeStatement(z) == Ok(Some(body[i]));
      match z
      case HostZone(name, init) => assert body[i] == Make.MakeHost(name, init).value;
      case SaveZone(nest, sift) => assert body[i] == Make.MakeSave(nest, sift).value;
      case TurnZone(sift) => assert body[i] == Make.MakeTurn(sift).value;
      case CallZone(c) => assert body[i] == Make.MakeCall(c).value;
      case OtherZone(_) => assert false;
    }
  }

  /** `makeTask`: the parameters, then the body, pushed one by one. */
  method MakeTask(t: Task) returns (r: Result<Node>)
    ensures r == LibTask(t)
  {
    var params: seq<Node> := [];
    var i := 0;
    while i < |t.base|
      invariant 0 <= i <= |t.base|
      invariant params == Make.Params(t.base[..i])
    {
      params := params + [Identifier(t.base[i])];
      i := i + 1;
    }
    assert t.base[..i] == t.base;
    var body := Make.BuildStatements(t.zone);
    if body.Err? {
      return Err(body.error);
    }
    r := Ok(FunctionDeclaration(Some(Identifier(t.name)), params, BlockStatement(body.value), t.wait));
  }

  /** The functions of a task file's tasks, in order. */
  function TaskFunctions(tasks: seq<Task>): Result<seq<Node>> {
    Collect(LibTask, tasks)
  }

  // ---------------------------------------------------------------------
  // Compiling one record

  /** The record `make` opens for a file: index 1, no names, bindings or
      requires, nothing emitted yet. */
  function Fresh(f: File, imports: seq<RoadEntry>): (r: Make.Compiled)
    ensures r.original == f && r.imports == imports && r.index == 1
    ensures r.names == map[] && r.bindings == map[] && r.required == map[]
    ensures r.output.None? && r.bound.None?
  {
    Make.Compiled(f, map[], 1, imports, map[], map[], None, None)
  }

  /** The handler `makeFile` names for a kind whose handler is never
      defined (`makeFormFile`, `makeMineFile`, ...). */
  function Handler(kind: string): string {
    "make" + kind + "File"
  }

  /** `makeFile` on a record: a task file loads its flattened imports and
      emits its tasks; a native file is compiled by the native compiler;
      a test file returns at once; a kind whose handler is never defined
      stops the compiler; any other kind compiles to nothing. */
  function Compile(c: Make.Compiled): (r: Result<Make.Compiled>)
    ensures c.original.mint.Absent? ==> r == Err(UndefinedFunction(Handler(c.original.mint.kind)))
    ensures c.original.mint.TestFile? || c.original.mint.Unhandled? ==> r == Ok(c)
    ensures r.Ok? ==> r.value.original == c.original && r.value.imports == c.imports
  {
    var f := c.original;
    match f.mint
    case TaskFile =>
      var fns :- TaskFunctions(f.task);
      Make.LoadedAllFrame(c, c.imports);
      Ok(Make.LoadedAll(c, c.imports).(output := Some(Make.Output(fns, None))))
    case DockTaskFile =>
      var out :- Native.DockFile(f);
      Make.LoadedAllFrame(c, Native.RawEntries(f.load));
      Ok(Make.LoadedAll(c, Native.RawEntries(f.load)).(
        output := Some(Make.Output(out.0, Some(out.1))),
        bound := Some(Native.DockBound(f.road, out.1, f.task, out.0))))
    case TestFile => Ok(c)
    case Absent(kind) => Err(UndefinedFunction(Handler(kind)))
    case Unhandled => Ok(c)
  }

  /** A file compiled from a fresh record whose imports are its flattened
      loads. */
  function CompileFile(join: Make.Join, f: File): Result<Make.Compiled> {
    Compile(Fresh(f, Make.FlattenAll(join, f.road, f.load)))
  }

  /** Compiling keeps the file and its imports; a task file's imports are
      loaded in order under `x1`, `x2`, ... and its output holds one
      function per task, with no top-level statements and no registration. */
  lemma {:induction false} CompiledTaskFile(join: Make.Join, f: File, i: nat)
    requires f.mint.TaskFile? && CompileFile(join, f).Ok?
    requires i < |Make.FlattenAll(join, f.road, f.load)|
    ensures var c := CompileFile(join, f).value;
      var entries := Make.FlattenAll(join, f.road, f.load);
      && c.original == f && c.imports == entries
      && c.index == 1 + |entries|
      && Make.Tag(1 + i) in c.required && c.required[Make.Tag(1 + i)] == entries[i].road
      && c.output.Some? && |c.output.value.task| == |f.task| && c.output.value.call.None?
      && c.bound.None?
  {
    var entries := Make.FlattenAll(join, f.road, f.load);
    var c0 := Fresh(f, entries);
    Make.LoadedAllFrame(c0, entries);
    Make.LoadedAllRoads(c0, entries, i);
    CollectOk(LibTask, f.task);
  }

  /** The `makeFile` dispatch over the record's kind. */
  method MakeFile(file: Make.CompiledFile) returns (r: Result<()>)
    modifies file
    ensures r.Ok? <==> Compile(old(file.Snapshot())).Ok?
    ensures r.Err? ==> r.error == Compile(old(file.Snapshot())).error
    ensures r.Ok? ==> file.Snapshot() == Compile(old(file.Snapshot())).value
  {
    match file.original.mint
    case TaskFile => r := MakeTaskFile(file);
    case DockTaskFile => r := Native.MakeDockTaskFile(file);
    case TestFile => r := Ok(());
    case Absent(kind) => r := Err(UndefinedFunction(Handler(kind)));
    case Unhandled => r := Ok(());
  }

  /** One more task adds its function. */
  method PushTasks(tasks: seq<Task>) returns (r: Result<seq<Node>>)
    ensures r == TaskFunctions(tasks)
  {
    var fns: seq<Node> := [];
    var i := 0;
    while i < |tasks|
      invariant 0 <= i <= |tasks|
      invariant Collect(LibTask, tasks[..i]) == Ok(fns)
    {
      var fn := MakeTask(tasks[i]);
      if fn.Err? {
        CollectStop(LibTask, tasks, i);
        return Err(fn.error);
      }
      CollectSnoc(LibTask, tasks, i, fns, fn.value);
      fns := fns + [fn.value];
      i := i + 1;
    }
    assert tasks[..i] == tasks;
    r := Ok(fns);
  }

  /** `makeTaskFile`: loads every flattened import in order, then emits one
      function per task. */
  method MakeTaskFile(file: Make.CompiledFile) returns (r: Result<()>)
    requires file.original.mint.TaskFile?
    modifies file
    ensures r.Ok? <==> Compile(old(file.Snapshot())).Ok?
    ensures r.Err? ==> r.error == Compile(old(file.Snapshot())).error
    ensures r.Ok? ==> file.Snapshot() == Compile(old(file.Snapshot())).value
  {
    Make.LoadedAllFrame(file.Snapshot(), file.imports);
    file.MakeLoads(file.imports);
    ghost var loaded := file.Snapshot();
    file.output := Some(Make.Output([], None));
    var fns := PushTasks(file.original.task);
    if fns.Err? {
      return Err(fns.error);
    }
    file.output := Some(Make.Output(fns.value, None));
    assert file.Snapshot() == loaded.(output := file.output);
    r := Ok(());
  }

  /** `getImportPaths`: the flattening of each load, in order. */
  method GetImportPaths(join: Make.Join, f: File) returns (r: seq<RoadEntry>)
    ensures r == Make.FlattenAll(join, f.road, f.load)
    ensures forall i | 0 <= i < |r| :: r[i].take != []
  {
    var list := new Make.RoadList();
    list.MakeRoad(join, f);
    r := list.list;
    Make.FlattenAllTakes(join, f.road, f.load);
  }

  // ---------------------------------------------------------------------
  // The worklist

  /** The compiled deck `make` returns. */
  class CompiledDeck {
    var originalDeck: Deck
    var files: map<string, Make.Compiled>
    var order: seq<string>   // the keys of `files` in insertion order

    constructor (deck: Deck, files: map<string, Make.Compiled>, order: seq<string>)
      ensures originalDeck == deck && this.files == files && this.order == order
    {
      originalDeck := deck;
      this.files := files;
      this.order := order;
    }
  }

  /** `compile` is the compile step of a run that joins roads with `join`:
      a fresh record per file, its imports flattened, compiled by its kind. */
  ghost predicate CompilesWith(join: Make.Join, compile: File -> Result<Make.Compiled>) {
    forall f {:trigger CompileFile(join, f)} :: compile(f) == CompileFile(join, f)
  }

  /** The compile step of a run. */
  lemma CompileStepOf(join: Make.Join) returns (compile: File -> Result<Make.Compiled>)
    ensures CompilesWith(join, compile)
  {
    compile := (f: File) => CompileFile(join, f);
  }

  /** A record opened for a file and compiled: its imports flattened, then
      `makeFile`. */
  method OpenRecord(join: Make.Join, base: File, ghost compile: File -> Result<Make.Compiled>) returns (r: Result<Make.Compiled>)
    requires CompilesWith(join, compile)
    ensures r == compile(base)
  {
    var imports := GetImportPaths(join, base);
    var file := new Make.CompiledFile(base, imports);
    assert file.Snapshot() == Fresh(base, imports);
    var made := MakeFile(file);
    if made.Err? {
      r := Err(made.error);
    } else {
      r := Ok(file.Snapshot());
    }
    assert r == CompileFile(join, base);
  }

  /** Appends the deck's files the imports name to the back of the queue,
      in import order; imports the deck does not hold are passed over. */
  method QueueImports(deck: Deck, list: seq<File>, imports: seq<RoadEntry>) returns (r: seq<File>)
    ensures r == list + Successors(deck, imports)
  {
    r := list;
    var i := 0;
    while i < |imports|
      invariant 0 <= i <= |imports|
      invariant r == list + Successors(deck, imports[..i])
    {
      assert imports[..i + 1][..i] == imports[..i];
      if imports[i].road in deck.load {
        r := r + [deck.load[imports[i].road]];
      }
      i := i + 1;
    }
    assert imports[..i] == imports;
  }

  /** The turn of `make` on a front file whose road is new: opens and
      compiles a record for it, and queues what its imports name. */
  method Admit(join: Make.Join, deck: Deck, files: map<string, Make.Compiled>, order: seq<string>, list: seq<File>,
               ghost compile: File -> Result<Make.Compiled>, ghost recs: seq<Make.Compiled>, ghost visited: seq<File>)
    returns (r: Result<Make.Compiled>, next: seq<File>)
    requires CompilesWith(join, compile)
    requires Inv(compile, deck, files, order, recs, visited, list)
    requires list != [] && list[0].road !in files
    ensures list[0] in deck.load.Values && r == compile(list[0])
    ensures r.Ok? ==>
      && next == list[1..] + Successors(deck, r.value.imports)
      && Inv(compile, deck, files[list[0].road := r.value], order + [list[0].road], recs + [r.value], visited + [list[0]], next)
  {
    assert list[0] in deck.load.Values;
    r := OpenRecord(join, list[0], compile);
    if r.Err? {
      return r, [];
    }
    CompileStep(compile, deck, files, order, recs, visited, list, r.value);
    next := QueueImports(deck, list[1..], r.value.imports);
  }

  /** `make`: starting from the lead file, shifts files off the front of
      the queue, skips a road already compiled, otherwise opens a fresh
      record for it (its imports flattened), compiles it, and appends the
      deck's files its imports name to the back of the queue.  `visited`
      is the run of files shifted off the queue. */
  method MakeDeck(join: Make.Join, deck: Deck) returns (r: Result<CompiledDeck>, ghost visited: seq<File>,
                                                       ghost compile: File -> Result<Make.Compiled>)
    ensures CompilesWith(join, compile)
    ensures deck.lead !in deck.load ==> r == Err(NotANode("road"))
    ensures r.Err? && deck.lead in deck.load ==> exists f | f in deck.load.Values :: compile(f) == Err(r.error)
    ensures r.Ok? ==>
      && fresh(r.value) && r.value.originalDeck == deck
      && Drained(compile, deck, r.value.files, r.value.order, visited)
  {
    compile := CompileStepOf(join);
    if deck.lead !in deck.load {
      return Err(NotANode("road")), [], compile;
    }
    var files: map<string, Make.Compiled> := map[];
    var order: seq<string> := [];
    var list := [deck.load[deck.lead]];
    visited := [];
    ghost var recs: seq<Make.Compiled> := [];
    InvStart(compile, deck);
    while list != []
      invariant Inv(compile, deck, files, order, recs, visited, list)
      decreases Roads(deck) - files.Keys, |list|
    {
      var base := list[0];
      if base.road in files {
        SkipStep(compile, deck, files, order, recs, visited, list);
        list := list[1..];
        visited := visited + [base];
        continue;
      }
      var made, next := Admit(join, deck, files, order, list, compile, recs, visited);
      if made.Err? {
        return Err(made.error), visited, compile;
      }
      var rec := made.value;
      list := next;
      visited := visited + [base];
      files := files[base.road := rec];
      order := order + [base.road];
      recs := recs + [rec];
    }
    Finish(compile, deck, files, order, recs, visited);
    var d := new CompiledDeck(deck, files, order);
    r := Ok(d);
  }
}

=== FILE: make.dfy ===
/** The library compiler's shared builders (lib/make/index.js): imports
    flattened into a road list, import names allocated in a compiled file,
    and the expression builders, which need no scope: names are emitted as
    written. */
module Make {
  import opened Wrappers
  import opened Paths
  import opened Ast
  import opened SiftDeck
  import Decimal

  /** `path.join`, which is not part of this model. */
  type Join = (string, string) -> string

  /** The generated name `x<n>`. */
  function Tag(n: nat): string {
    "x" + Decimal.Show(n)
  }

  /** Generated names of distinct numbers differ. */
  lemma TagInjective(a: nat, b: nat)
    requires Tag(a) == Tag(b)
    ensures a == b
  {
    Decimal.PrefixedInjective("x", a, b);
  }

  lemma TagDistinct(a: nat, b: nat)
    requires a != b
    ensures Tag(a) != Tag(b)
  {
    if Tag(a) == Tag(b) {
      TagInjective(a, b);
    }
  }

  // ---------------------------------------------------------------------
  // Import flattening (`makeRoad`, `makeLoadRoad`)

  /** A road that names a package (`@scope/...`) rather than a relative path. */
  predicate Scoped(road: string) {
    |road| > 0 && road[0] == '@'
  }

  /** The road a load resolves to from the road of the file importing it. */
  function Resolved(join: Join, base: string, load: Load): string {
    if Scoped(load.road) then load.road else join(base, load.road)
  }

  /** The entries a load contributes: a load that takes names is one entry
      at its resolved road; one that takes nothing stands for its own loads,
      resolved against its own road, depth first. */
  function Flatten(join: Join, base: string, load: Load): seq<RoadEntry>
    decreases load
  {
    var road := Resolved(join, base, load);
    if load.take != [] then [RoadEntry(road, load.take)]
    else FlattenAll(join, road, load.load)
  }

  /** The entries of several loads, in order. */
  function FlattenAll(join: Join, base: string, loads: seq<Load>): seq<RoadEntry>
    decreases loads
  {
    if loads == [] then []
    else Flatten(join, base, loads[0]) + FlattenAll(join, base, loads[1..])
  }

  /** Flattening distributes over concatenation of the load list. */
  lemma {:induction false} FlattenAllAppend(join: Join, base: string, a: seq<Load>, b: seq<Load>)
    ensures FlattenAll(join, base, a + b) == FlattenAll(join, base, a) + FlattenAll(join, base, b)
    decreases a
  {
    if a == [] {
      assert a + b == b;
    } else {
      assert (a + b)[0] == a[0];
      assert (a + b)[1..] == a[1..] + b;
      FlattenAllAppend(join, base, a[1..], b);
    }
  }

  /** One more load appends its own entries. */
  lemma FlattenAllSnoc(join: Join, base: string, loads: seq<Load>, i: nat)
    requires i < |loads|
    ensures FlattenAll(join, base, loads[..i + 1]) == FlattenAll(join, base, loads[..i]) + Flatten(join, base, loads[i])
  {
    assert loads[..i + 1] == loads[..i] + [loads[i]];
    FlattenAllAppend(join, base, loads[..i], [loads[i]]);
    assert [loads[i]][1..] == [];
  }

  /** Every flattened entry takes at least one name. */
  lemma {:induction false} FlattenTakes(join: Join, base: string, load: Load)
    ensures forall e | e in Flatten(join, base, load) :: e.take != []
    decreases load
  {
    if load.take == [] {
      FlattenAllTakes(join, Resolved(join, base, load), load.load);
    }
  }

  /** Every entry of a load list takes at least one name. */
  lemma {:induction false} FlattenAllTakes(join: Join, base: string, loads: seq<Load>)
    ensures forall e | e in FlattenAll(join, base, loads) :: e.take != []
    decreases loads
  {
    if loads != [] {
      FlattenTakes(join, base, loads[0]);
      FlattenAllTakes(join, base, loads[1..]);
    }
  }

  /** A package road is used as written: where a load is read from does not
      change what a package load contributes. */
  lemma {:induction false} ScopedIgnoresBase(join: Join, b1: string, b2: string, loads: seq<Load>)
    requires forall i | 0 <= i < |loads| :: Scoped(loads[i].road)
    ensures FlattenAll(join, b1, loads) == FlattenAll(join, b2, loads)
    decreases loads
  {
    if loads != [] {
      assert Flatten(join, b1, loads[0]) == Flatten(join, b2, loads[0]);
      assert forall i | 0 <= i < |loads[1..]| :: loads[1..][i] == loads[i + 1];
      ScopedIgnoresBase(join, b1, b2, loads[1..]);
    }
  }

  /** The shared list `makeLoadRoad` appends to. */
  class RoadList {
    var list: seq<RoadEntry>

    constructor ()
      ensures list == []
    {
      list := [];
    }

    /** `makeLoadRoad`: appends the load's entries, depth first; the list
        only grows at its end. */
    method MakeLoadRoad(join: Join, base: string, load: Load)
      modifies this
      ensures list == old(list) + Flatten(join, base, load)
      decreases load
    {
      var road := if Scoped(load.road) then load.road else join(base, load.road);
      if load.take != [] {
        list := list + [RoadEntry(road, load.take)];
      } else {
        var i := 0;
        while i < |load.load|
          invariant 0 <= i <= |load.load|
          invariant list == old(list) + FlattenAll(join, road, load.load[..i])
        {
          FlattenAllSnoc(join, road, load.load, i);
          MakeLoadRoad(join, road, load.load[i]);
          i := i + 1;
        }
        assert load.load[..i] == load.load;
      }
    }

    /** `makeRoad`: appends the entries of every load of a file, read from
        the file's own road. */
    method MakeRoad(join: Join, file: File)
      modifies this
      ensures list == old(list) + FlattenAll(join, file.road, file.load)
    {
      var i := 0;
      while i < |file.load|
        invariant 0 <= i <= |file.load|
        invariant list == old(list) + FlattenAll(join, file.road, file.load[..i])
      {
        FlattenAllSnoc(join, file.road, file.load, i);
        MakeLoadRoad(join, file.road, file.load[i]);
        i := i + 1;
      }
      assert file.load[..i] == file.load;
    }
  }

  // ---------------------------------------------------------------------
  // Compiled files and `makeLoad`

  /** The key a taken name is filed under: its namespace, a slash, and the
      name it is saved as (its own name unless it is renamed). */
  function TakeKey(t: Take): string {
    t.host + "/" + (match t.save case Some(saved) => saved case None => t.base)
  }

  function TakeKeys(take: seq<Take>): set<string> {
    set t | t in take :: TakeKey(t)
  }

  /** The names map once every taken name is filed under `name`, in order. */
  function Taken(names: map<string, string>, take: seq<Take>, name: string): map<string, string>
    decreases |take|
  {
    if take == [] then names
    else
      var n := |take| - 1;
      Taken(names, take[..n], name)[TakeKey(take[n]) := name]
  }

  /** Filing taken names adds exactly their keys, all naming the load, and
      keeps every other entry. */
  lemma {:induction false} TakenSpec(names: map<string, string>, take: seq<Take>, name: string)
    ensures var r := Taken(names, take, name);
      && r.Keys == names.Keys + TakeKeys(take)
      && forall k | k in r :: r[k] == if k in TakeKeys(take) then name else names[k]
    decreases |take|
  {
    if take == [] {
      assert TakeKeys(take) == {};
    } else {
      var n := |take| - 1;
      assert take == take[..n] + [take[n]];
      assert TakeKeys(take) == TakeKeys(take[..n]) + {TakeKey(take[n])};
      TakenSpec(names, take[..n], name);
    }
  }

  /** What a compiled file emits: its task functions and, for native files,
      its top-level statements (absent for task files). */
  datatype Output = Output(task: seq<Node>, call: Option<seq<Node>>)

  /** A compiled file as a value: the state of a `CompiledFile`. */
  datatype Compiled = Compiled(
    original: File, names: map<string, string>, index: nat, imports: seq<RoadEntry>,
    bindings: map<string, string>, required: map<string, string>,
    output: Option<Output>, bound: Option<Node>)

  /** `makeLoad` on a value. */
  function Loaded(c: Compiled, road: string, take: seq<Take>): Compiled {
    var name := Tag(c.index);
    c.(names := Taken(c.names, take, name), index := c.index + 1, required := c.required[name := road])
  }

  /** Several loads in order. */
  function LoadedAll(c: Compiled, entries: seq<RoadEntry>): Compiled
    decreases |entries|
  {
    if entries == [] then c
    else
      var n := |entries| - 1;
      Loaded(LoadedAll(c, entries[..n]), entries[n].road, entries[n].take)
  }

  /** Loading advances the index by one per entry and changes nothing but
      the names, the index and the requires. */
  lemma {:induction false} LoadedAllFrame(c: Compiled, entries: seq<RoadEntry>)
    ensures var r := LoadedAll(c, entries);
      && r.index == c.index + |entries|
      && r.original == c.original && r.imports == c.imports && r.bindings == c.bindings
      && r.output == c.output && r.bound == c.bound
    decreases |entries|
  {
    if entries != [] {
      LoadedAllFrame(c, entries[..|entries| - 1]);
    }
  }

  /** The requires once `entries` are filed from `index` on, in order. */
  function Requires(required: map<string, string>, index: nat, entries: seq<RoadEntry>): map<string, string>
    decreases |entries|
  {
    if entries == [] then required
    else
      var n := |entries| - 1;
      Requires(required, index, entries[..n])[Tag(index + n) := entries[n].road]
  }

  /** Entry `i` is required under `x<index+i>`: no later entry overwrites it. */
  lemma {:induction false} RequiresRoads(required: map<string, string>, index: nat, entries: seq<RoadEntry>, i: nat)
    requires i < |entries|
    ensures Tag(index + i) in Requires(required, index, entries)
    ensures Requires(required, index, entries)[Tag(index + i)] == entries[i].road
    decreases |entries|
  {
    var n := |entries| - 1;
    if i < n {
      RequiresRoads(required, index, entries[..n], i);
      TagDistinct(index + i, index + n);
    }
  }

  /** Loading files the roads of the entries under consecutive names. */
  lemma {:induction false} LoadedAllRequires(c: Compiled, entries: seq<RoadEntry>)
    ensures LoadedAll(c, entries).required == Requires(c.required, c.index, entries)
    decreases |entries|
  {
    if entries != [] {
      var n := |entries| - 1;
      LoadedAllRequires(c, entries[..n]);
      LoadedAllFrame(c, entries[..n]);
    }
  }

  /** Loading `k` entries allocates `x<i>` .. `x<i+k-1>`, one per entry in
      order: entry `i` is required under `x<index+i>`, and no later load
      overwrites it. */
  lemma LoadedAllRoads(c: Compiled, entries: seq<RoadEntry>, i: nat)
    requires i < |entries|
    ensures Tag(c.index + i) in LoadedAll(c, entries).required
    ensures LoadedAll(c, entries).required[Tag(c.index + i)] == entries[i].road
  {
    LoadedAllRequires(c, entries);
    RequiresRoads(c.required, c.index, entries, i);
  }

  /** A compiled file whose fields the compiler updates in place. */
  class CompiledFile {
    var original: File
    var names: map<string, string>
    var index: nat
    var imports: seq<RoadEntry>
    var bindings: map<string, string>
    var required: map<string, string>   // `requires`: generated name -> road
    var output: Option<Output>
    var bound: Option<Node>

    function Snapshot(): Compiled
      reads this
    {
      Compiled(original, names, index, imports, bindings, required, output, bound)
    }

    /** The record `make` opens for a file: index 1, no names, bindings or
        requires, and nothing emitted yet. */
    constructor (original: File, imports: seq<RoadEntry>)
      ensures this.original == original && this.imports == imports
      ensures index == 1 && names == map[] && bindings == map[] && required == map[]
      ensures output.None? && bound.None?
    {
      this.original := original;
      this.imports := imports;
      index := 1;
      names := map[];
      bindings := map[];
      required := map[];
      output := None;
      bound := None;
    }

    /** `makeLoad`: allocates `x<index>`, raises the index by exactly one,
        files the load's road under the new name and every taken name under
        `host/savedName`; nothing else changes. */
    method MakeLoad(road: string, take: seq<Take>)
      modifies this
      ensures index == old(index) + 1
      ensures required == old(required)[Tag(old(index)) := road]
      ensures names == Taken(old(names), take, Tag(old(index)))
      ensures original == old(original) && imports == old(imports) && bindings == old(bindings)
      ensures output == old(output) && bound == old(bound)
      ensures Snapshot() == Loaded(old(Snapshot()), road, take)
    {
      var name := "x" + Decimal.Show(index);
      index := index + 1;
      required := required[name := road];
      var i := 0;
      while i < |take|
        invariant 0 <= i <= |take|
        invariant names == Taken(old(names), take[..i], name)
        invariant index == old(index) + 1 && required == old(required)[name := road]
        invariant original == old(original) && imports == old(imports) && bindings == old(bindings)
        invariant output == old(output) && bound == old(bound)
      {
        assert take[..i + 1][..i] == take[..i];
        var t := take[i];
        var saved := if t.save.Some? then t.save.value else t.base;
        names := names[t.host + "/" + saved := name];
        i := i + 1;
      }
      assert take[..i] == take;
    }

    /** Every entry loaded in order. */
    method MakeLoads(entries: seq<RoadEntry>)
      modifies this
      ensures Snapshot() == LoadedAll(old(Snapshot()), entries)
    {
      var i := 0;
      while i < |entries|
        invariant 0 <= i <= |entries|
        invariant Snapshot() == LoadedAll(old(Snapshot()), entries[..i])
      {
        assert entries[..i + 1][..i] == entries[..i];
        MakeLoad(entries[i].road, entries[i].take);
        i := i + 1;
      }
      assert entries[..i] == entries;
    }
  }

  // ---------------------------------------------------------------------
  // Paths

  /** The name at the root of a nest. */
  function SiteName(n: Nest): string {
    match n
    case Site(name) => name
    case Chain(base, _) => SiteName(base)
  }

  /** The name at the root of a link. */
  function RootName(link: Link): string {
    match link
    case HostLink(name) => name
    case NestLink(n) => SiteName(n)
  }

  /** `makeNest`: a site is the identifier of its name as written; a chain
      folds its steps left over its base, one member access per step,
      computed exactly for the steps that are chains themselves. */
  function MakeNest(n: Nest): (r: Node)
    ensures n.Site? ==> r == Identifier(n.name)
    ensures Innermost(r) == Identifier(SiteName(n))
    ensures n.Chain? ==> |Spine(r)| >= |n.steps| && Spine(r)[|Spine(r)| - |n.steps|..] == Flags(n.steps)
    decreases n
  {
    match n
    case Site(name) => Identifier(name)
    case Chain(base, steps) =>
      var props := seq(|steps|, i requires 0 <= i < |steps| => (MakeNest(steps[i]), steps[i].Chain?));
      var r := FoldNest(MakeNest(base), props);
      assert Spine(r)[|Spine(r)| - |steps|..] == Flags(steps);
      r
  }

  lemma Associative(a: seq<bool>, b: seq<bool>, c: seq<bool>)
    ensures a + b + c == a + (b + c)
  {
  }

  /** The flags of property accesses, in order. */
  function Computed(props: seq<(Node, bool)>): (r: seq<bool>)
    ensures |r| == |props| && forall i | 0 <= i < |props| :: r[i] == props[i].1
  {
    seq(|props|, i requires 0 <= i < |props| => props[i].1)
  }

  /** The reduce step of `makeNest`: each property becomes a member access
      around everything before it. */
  function FoldNest(acc: Node, props: seq<(Node, bool)>): (r: Node)
    ensures Innermost(r) == Innermost(acc)
    ensures Spine(r) == Spine(acc) + Computed(props)
    decreases |props|
  {
    if props == [] then acc
    else
      var flag := props[0].1;
      var r := FoldNest(MemberExpression(acc, props[0].0, flag), props[1..]);
      assert Computed(props) == [flag] + Computed(props[1..]);
      Associative(Spine(acc), [flag], Computed(props[1..]));
      r
  }

  /** `makeLink`: a host link is the identifier of its name as written; any
      other link is a nest, rooted at its site. */
  function MakeLink(link: Link): (r: Node)
    ensures Innermost(r) == Identifier(RootName(link))
    ensures link.HostLink? ==> r == Identifier(link.name)
  {
    match link
    case HostLink(name) => Identifier(name)
    case NestLink(n) => MakeNest(n)
  }

  // ---------------------------------------------------------------------
  // Values and statements

  /** A binding the builders can translate: not a task (bindings of that
      form are handed to a `makeTask` this module never defines). */
  predicate BindFree(b: Bind)
    decreases b
  {
    !b.sift.TaskSift? && SiftFree(b.sift)
  }

  predicate SiftFree(s: Sift)
    decreases s
  {
    s.CallSift? ==> CallFree(s.call)
  }

  predicate HookFree(h: Hook)
    decreases h
  {
    forall i | 0 <= i < |h.zone| :: ZoneFree(h.zone[i])
  }

  /** A call whose bindings, hooks and nested calls hold no task binding. */
  predicate CallFree(c: Call)
    decreases c
  {
    && (forall i | 0 <= i < |c.bind| :: BindFree(c.bind[i]))
    && (forall j | 0 <= j < |c.hook| :: HookFree(c.hook[j]))
  }

  predicate ZoneFree(z: Zone)
    decreases z
  {
    match z
    case HostZone(_, init) => init.Some? ==> SiftFree(init.value)
    case SaveZone(_, sift) => SiftFree(sift)
    case TurnZone(sift) => SiftFree(sift)
    case CallZone(c) => CallFree(c)
    case OtherZone(_) => true
  }

  /** The error every builder stops with. */
  const NoTask := UndefinedFunction("makeTask")

  /** `makeSift`: text and size are literals, a link is its path, a call is
      built, and any other form yields `undefined`. */
  function MakeSift(s: Sift): (r: Result<Node>)
    ensures r.Ok? <==> SiftFree(s)
    ensures r.Err? ==> r.error == NoTask
    ensures s.SiftText? || s.TextSift? ==> r == Ok(Literal(Str(s.text)))
    ensures s.SizeSift? ==> r == Ok(Literal(Num(s.size)))
    ensures s.LinkSift? ==> r == Ok(MakeLink(s.link))
    ensures s.TaskSift? || s.OtherSift? ==> r == Ok(Undefined)
    ensures s.CallSift? ==> r == MakeCall(s.call)
    ensures s.CallSift? && r.Ok? ==> CallShaped(r.value, s.call)
    decreases s, 1
  {
    match s
    case SiftText(text) => Ok(Literal(Str(text)))
    case TextSift(text) => Ok(Literal(Str(text)))
    case SizeSift(size) => Ok(Literal(Num(size)))
    case LinkSift(link) => Ok(MakeLink(link))
    case CallSift(c) => MakeCall(c)
    case TaskSift(_) => Ok(Undefined)
    case OtherSift(_) => Ok(Undefined)
  }

  /** The argument of one binding. */
  function BindArg(b: Bind): (r: Result<Node>)
    ensures r.Ok? <==> BindFree(b)
    ensures r.Err? ==> r.error == NoTask
    decreases b, 1
  {
    if b.sift.TaskSift? then Err(NoTask) else MakeSift(b.sift)
  }

  /** The arguments of the bindings, in order. */
  function MakeArgs(binds: seq<Bind>): (r: Result<seq<Node>>)
    ensures r.Ok? <==> forall i | 0 <= i < |binds| :: BindFree(binds[i])
    ensures r.Err? ==> r.error == NoTask
    ensures r.Ok? ==> |r.value| == |binds| && forall i | 0 <= i < |binds| :: BindArg(binds[i]) == Ok(r.value[i])
    decreases binds, 0
  {
    if binds == [] then Ok([])
    else
      var n := |binds| - 1;
      assert binds == binds[..n] + [binds[n]];
      var front :- MakeArgs(binds[..n]);
      var arg :- BindArg(binds[n]);
      Ok(front + [arg])
  }

  /** Parameter identifiers, as written and in order. */
  function Params(names: seq<string>): (r: seq<Node>)
    ensures |r| == |names| && forall i | 0 <= i < |names| :: r[i] == Identifier(names[i])
  {
    seq(|names|, i requires 0 <= i < |names| => Identifier(names[i]))
  }

  /** The zones a body keeps a statement for, in order. */
  function Known(zones: seq<Zone>): (r: seq<Zone>)
    ensures |r| <= |zones|
    ensures forall z | z in r :: z in zones && !z.OtherZone?
  {
    if zones == [] then []
    else
      var n := |zones| - 1;
      Known(zones[..n]) + (if zones[n].OtherZone? then [] else [zones[n]])
  }

  /** The statements of a body of zones: one per known zone, in order. */
  function MakeStatements(zones: seq<Zone>): (r: Result<seq<Node>>)
    ensures r.Ok? <==> forall i | 0 <= i < |zones| :: ZoneFree(zones[i])
    ensures r.Err? ==> r.error == NoTask
    ensures r.Ok? ==> |r.value| == |Known(zones)|
    decreases zones, 0
  {
    if zones == [] then Ok([])
    else
      var n := |zones| - 1;
      assert zones == zones[..n] + [zones[n]];
      var front :- MakeStatements(zones[..n]);
      var s :- MakeStatement(zones[n]);
      Ok(front + (if s.Some? then [s.value] else []))
  }

  /** A body holds, in order, exactly the statements of its known zones. */
  lemma {:induction false} StatementsOfKnown(zones: seq<Zone>)
    requires MakeStatements(zones).Ok?
    ensures var body := MakeStatements(zones).value;
      forall i | 0 <= i < |body| :: MakeStatement(Known(zones)[i]) == Ok(Some(body[i]))
    decreases |zones|
  {
    if zones != [] {
      var n := |zones| - 1;
      FrontLast(zones);
      StatementsOfKnown(zones[..n]);
      var front := MakeStatements(zones[..n]).value;
      var s := MakeStatement(zones[n]).value;
      assert MakeStatements(zones).value == front + (if s.Some? then [s.value] else []);
      assert Known(zones) == Known(zones[..n]) + (if zones[n].OtherZone? then [] else [zones[n]]);
    }
  }

  /** One zone of a body: `host`, `save`, `turn` and `call` zones give a
      statement; a zone of any other form gives none. */
  function MakeStatement(z: Zone): (r: Result<Option<Node>>)
    ensures r.Ok? <==> ZoneFree(z)
    ensures r.Err? ==> r.error == NoTask
    ensures r.Ok? ==> (r.value.None? <==> z.OtherZone?)
    ensures z.HostZone? ==> r == Lift(MakeHost(z.name, z.init))
    ensures z.SaveZone? ==> r == Lift(MakeSave(z.nest, z.sift))
    ensures z.TurnZone? ==> r == Lift(MakeTurn(z.sift))
    ensures z.CallZone? ==> r == Lift(MakeCall(z.call))
    decreases z, 1
  {
    match z
    case HostZone(name, init) => var s :- MakeHost(name, init); Ok(Some(s))
    case SaveZone(nest, sift) => var s :- MakeSave(nest, sift); Ok(Some(s))
    case TurnZone(sift) => var s :- MakeTurn(sift); Ok(Some(s))
    case CallZone(c) => var s :- MakeCall(c); Ok(Some(s))
    case OtherZone(_) => Ok(None)
  }

  /** A statement that is always kept: its failure, or the statement. */
  function Lift(r: Result<Node>): Result<Option<Node>> {
    if r.Err? then Err(r.error) else Ok(Some(r.value))
  }

  /** `makeHost`: a `let` declaration of the name as written, initialised by
      the value when there is one and by `undefined` otherwise. */
  function MakeHost(name: string, init: Option<Sift>): (r: Result<Node>)
    ensures r.Ok? <==> (init.Some? ==> SiftFree(init.value))
    ensures r.Err? ==> r.error == NoTask
    ensures r.Ok? ==> r.value.Variable? && r.value.kind == "let" && r.value.target == Identifier(name)
    ensures r.Ok? ==> r.value.init == if init.Some? then MakeSift(init.value).value else Undefined
    decreases init, 2
  {
    match init
    case None => Ok(Variable("let", Identifier(name), Undefined))
    case Some(sift) => var right :- MakeSift(sift); Ok(Variable("let", Identifier(name), right))
  }

  /** `makeSave` as evidently intended: the assignment of the value to the
      link's path. */
  function MakeSave(nest: Link, sift: Sift): (r: Result<Node>)
    ensures r.Ok? <==> SiftFree(sift)
    ensures r.Err? ==> r.error == NoTask
    ensures r.Ok? ==> r.value == AssignmentExpression(MakeLink(nest), MakeSift(sift).value)
    decreases sift, 2
  {
    var right :- MakeSift(sift);
    Ok(AssignmentExpression(MakeLink(nest), right))
  }

  /** `makeSave` as written: a target of the `nest` form is handed to
      `makeNest` together with the compiled file, so `makeNest` reads the
      file as the path and fails destructuring the file's missing `link`. */
  function MakeSaveAsWritten(nest: Link, sift: Sift): (r: Result<Node>)
    ensures nest.NestLink? && nest.nest.Chain? ==> r == Err(NotIterable("node.link"))
    ensures !(nest.NestLink? && nest.nest.Chain?) ==> r == MakeSave(nest, sift)
  {
    if nest.NestLink? && nest.nest.Chain? then Err(NotIterable("node.link"))
    else MakeSave(nest, sift)
  }

  /** Saving into a chain fails as written, while the intended builder
      assigns to `a.b`. */
  lemma SaveIntoChain()
    ensures var target := NestLink(Chain(Site("a"), [Site("b")]));
      && MakeSaveAsWritten(target, SizeSift(1.0)).Err?
      && MakeSave(target, SizeSift(1.0)) == Ok(AssignmentExpression(MemberExpression(Identifier("a"), Identifier("b"), false), Literal(Num(1.0))))
  {
    ChainPath();
    assert MakeSift(SizeSift(1.0)) == Ok(Literal(Num(1.0)));
  }

  /** The path of the chain `a`, `b` is `a.b`. */
  lemma ChainPath()
    ensures MakeLink(NestLink(Chain(Site("a"), [Site("b")]))) == MemberExpression(Identifier("a"), Identifier("b"), false)
  {
    var props := [(Identifier("b"), false)];
    assert MakeNest(Chain(Site("a"), [Site("b")])) == FoldNest(Identifier("a"), props);
    assert FoldNest(MemberExpression(Identifier("a"), Identifier("b"), false), props[1..]) == MemberExpression(Identifier("a"), Identifier("b"), false) by {
      assert props[1..] == [];
    }
  }

  /** `makeTurn`: the return of the value. */
  function MakeTurn(sift: Sift): (r: Result<Node>)
    ensures r.Ok? <==> SiftFree(sift)
    ensures r.Err? ==> r.error == NoTask
    ensures r.Ok? ==> r.value == ReturnStatement(MakeSift(sift).value)
    decreases sift, 2
  {
    var argument :- MakeSift(sift);
    Ok(ReturnStatement(argument))
  }

  /** A hook: an anonymous function of its parameter names, as written,
      whose body is the plain list of its statements: nothing is returned
      implicitly. */
  function MakeHook(h: Hook): (r: Result<Node>)
    ensures r.Ok? <==> HookFree(h)
    ensures r.Err? ==> r.error == NoTask
    ensures r.Ok? ==> r.value == FunctionDeclaration(None, Params(h.base), Bare(MakeStatements(h.zone).value), false)
    decreases h, 1
  {
    var body :- MakeStatements(h.zone);
    Ok(FunctionDeclaration(None, Params(h.base), Bare(body), false))
  }

  /** The functions of the hooks, in order. */
  function MakeHooks(hooks: seq<Hook>): (r: Result<seq<Node>>)
    ensures r.Ok? <==> forall j | 0 <= j < |hooks| :: HookFree(hooks[j])
    ensures r.Err? ==> r.error == NoTask
    ensures r.Ok? ==> |r.value| == |hooks| && forall j | 0 <= j < |hooks| :: MakeHook(hooks[j]) == Ok(r.value[j])
    decreases hooks, 0
  {
    if hooks == [] then Ok([])
    else
      var n := |hooks| - 1;
      assert hooks == hooks[..n] + [hooks[n]];
      var front :- MakeHooks(hooks[..n]);
      var fn :- MakeHook(hooks[n]);
      Ok(front + [fn])
  }

  /** The shape `makeCall` promises: a call of the name as written, awaited
      iff the call waits, whose arguments are the bindings' values in order
      followed by one function per hook. */
  ghost predicate CallShaped(n: Node, c: Call)
    decreases c, 3
  {
    && n.CallExpression? && n.callee == Identifier(c.name) && n.await == c.wait
    && |n.arguments| == |c.bind| + |c.hook|
    && (forall i | 0 <= i < |c.bind| :: BindArg(c.bind[i]) == Ok(n.arguments[i]))
    && (forall j | 0 <= j < |c.hook| :: MakeHook(c.hook[j]) == Ok(n.arguments[|c.bind| + j]))
  }

  /** `makeCall`. */
  function MakeCall(c: Call): (r: Result<Node>)
    ensures r.Ok? <==> CallFree(c)
    ensures r.Err? ==> r.error == NoTask
    ensures r.Ok? ==> CallShaped(r.value, c)
    ensures r.Ok? ==> r.value == CallExpression(Identifier(c.name), MakeArgs(c.bind).value + MakeHooks(c.hook).value, c.wait)
    decreases c, 4
  {
    var args :- MakeArgs(c.bind);
    var fns :- MakeHooks(c.hook);
    Ok(CallExpression(Identifier(c.name), args + fns, c.wait))
  }

  /** One more binding adds its argument. */
  lemma ArgsSnoc(binds: seq<Bind>, i: nat, args: seq<Node>, arg: Node)
    requires i < |binds| && MakeArgs(binds[..i]) == Ok(args) && BindArg(binds[i]) == Ok(arg)
    ensures MakeArgs(binds[..i + 1]) == Ok(args + [arg])
  {
    assert binds[..i + 1][..i] == binds[..i];
  }

  /** One more hook adds its function. */
  lemma HooksSnoc(hooks: seq<Hook>, j: nat, fns: seq<Node>, fn: Node)
    requires j < |hooks| && MakeHooks(hooks[..j]) == Ok(fns) && MakeHook(hooks[j]) == Ok(fn)
    ensures MakeHooks(hooks[..j + 1]) == Ok(fns + [fn])
  {
    assert hooks[..j + 1][..j] == hooks[..j];
  }

  /** One more zone adds its statement, if it has one. */
  lemma StatementsSnoc(zones: seq<Zone>, i: nat, body: seq<Node>, s: Option<Node>)
    requires i < |zones| && MakeStatements(zones[..i]) == Ok(body) && MakeStatement(zones[i]) == Ok(s)
    ensures MakeStatements(zones[..i + 1]) == Ok(body + if s.Some? then [s.value] else [])
  {
    assert zones[..i + 1][..i] == zones[..i];
  }

  /** `makeCall` with its loops: the arguments are pushed binding by
      binding, then one function per hook. */
  method BuildCall(c: Call) returns (r: Result<Node>)
    ensures r == MakeCall(c)
  {
    var args: seq<Node> := [];
    var i := 0;
    while i < |c.bind|
      invariant 0 <= i <= |c.bind|
      invariant MakeArgs(c.bind[..i]) == Ok(args)
    {
      var b := c.bind[i];
      var arg := if b.sift.TaskSift? then Err(NoTask) else MakeSift(b.sift);
      if arg.Err? {
        assert !BindFree(c.bind[i]);
        return Err(NoTask);
      }
      ArgsSnoc(c.bind, i, args, arg.value);
      args := args + [arg.value];
      i := i + 1;
    }
    assert c.bind[..i] == c.bind;
    var fns: seq<Node> := [];
    var j := 0;
    while j < |c.hook|
      invariant 0 <= j <= |c.hook|
      invariant MakeHooks(c.hook[..j]) == Ok(fns)
    {
      var fn := BuildHook(c.hook[j]);
      if fn.Err? {
        assert !HookFree(c.hook[j]);
        return Err(NoTask);
      }
      HooksSnoc(c.hook, j, fns, fn.value);
      fns := fns + [fn.value];
      j := j + 1;
    }
    assert c.hook[..j] == c.hook;
    r := Ok(CallExpression(Identifier(c.name), args + fns, c.wait));
  }

  /** One hook of `makeCall`: its parameters, then its statements. */
  method BuildHook(h: Hook) returns (r: Result<Node>)
    ensures r == MakeHook(h)
  {
    var params: seq<Node> := [];
    var i := 0;
    while i < |h.base|
      invariant 0 <= i <= |h.base|
      invariant params == Params(h.base[..i])
    {
      params := params + [Identifier(h.base[i])];
      i := i + 1;
    }
    assert h.base[..i] == h.base;
    var body := BuildStatements(h.zone);
    if body.Err? {
      return Err(NoTask);
    }
    r := Ok(FunctionDeclaration(None, params, Bare(body.value), false));
  }

  /** The statements of a body, pushed zone by zone. */
  method BuildStatements(zones: seq<Zone>) returns (r: Result<seq<Node>>)
    ensures r == MakeStatements(zones)
  {
    var body: seq<Node> := [];
    var i := 0;
    while i < |zones|
      invariant 0 <= i <= |zones|
      invariant MakeStatements(zones[..i]) == Ok(body)
    {
      var s := MakeStatement(zones[i]);
      if s.Err? {
        assert !ZoneFree(zones[i]);
        return Err(NoTask);
      }
      StatementsSnoc(zones, i, body, s.value);
      if s.value.Some? {
        body := body + [s.value.value];
      } else {
        assert body + [] == body;
      }
      i := i + 1;
    }
    assert zones[..i] == zones;
    r := Ok(body);
  }

  /** `makeBaseBindExpression`: `base.bind(road, bind)`. */
  function MakeBaseBind(road: string, bind: Node): (r: Node)
    ensures r.CallExpression? && r.arguments == [Literal(Str(road)), bind]
    ensures r.callee == MemberExpression(Identifier("base"), Identifier("bind"), false)
  {
    CallExpression(MemberExpression(Identifier("base"), Identifier("bind"), false), [Literal(Str(road)), bind], false)
  }
}

=== FILE: native.dfy ===
/** Native task files of the library compiler (lib/transpile/native/index.js):
    a native call is a named lowering into a JavaScript construct, chosen
    from a fixed table.  A lowering reads its inputs from the call's
    bindings, by name (the first binding with that name) or by position;
    a binding it reads that is absent, or that lacks the link it needs,
    stops the compiler, in the order the source evaluates its reads. */
module Native {
  import opened Wrappers
  import opened Ast
  import opened Paths
  import opened SiftDeck
  import Make

  // ---------------------------------------------------------------------
  // Reading bindings

  /** The position of the first binding with the given name. */
  function RoleIndex(binds: seq<Bind>, role: string): (r: Option<nat>)
    ensures r.Some? ==>
      && r.value < |binds| && binds[r.value].name == role
      && (forall j | 0 <= j < r.value :: binds[j].name != role)
    ensures r.None? <==> forall j | 0 <= j < |binds| :: binds[j].name != role
  {
    if binds == [] then None
    else if binds[0].name == role then Some(0)
    else match RoleIndex(binds[1..], role)
      case None => None
      case Some(i) => Some(i + 1)
  }

  predicate Has(binds: seq<Bind>, role: string) {
    RoleIndex(binds, role).Some?
  }

  /** The first binding with the given name; reading its `sift` when there
      is none fails. */
  function Role(binds: seq<Bind>, role: string): (r: Result<Bind>)
    ensures r.Ok? <==> Has(binds, role)
    ensures r.Ok? ==> r.value in binds && r.value.name == role
    ensures r.Err? ==> r.error == MissingRole(role)
  {
    match RoleIndex(binds, role)
    case None => Err(MissingRole(role))
    case Some(i) => Ok(binds[i])
  }

  /** The binding at a position. */
  function Position(binds: seq<Bind>, i: nat): (r: Result<Bind>)
    ensures r.Ok? <==> i < |binds|
    ensures r.Ok? ==> r.value == binds[i]
    ensures r.Err? ==> r.error == MissingPosition(i)
  {
    if i < |binds| then Ok(binds[i]) else Err(MissingPosition(i))
  }

  /** A binding's link, built by `makeLink`; a binding without a link
      stops `makeLink` as it reads the link's form. */
  function LinkOf(b: Bind): (r: Result<Node>)
    ensures r.Ok? <==> b.sift.LinkSift?
    ensures r.Ok? ==> r.value == Make.MakeLink(b.sift.link) && Innermost(r.value) == Identifier(Make.RootName(b.sift.link))
    ensures r.Err? ==> r.error == NotLink(b.name)
  {
    if b.sift.LinkSift? then Ok(Make.MakeLink(b.sift.link)) else Err(NotLink(b.name))
  }

  /** A binding's text. */
  function TextOf(b: Bind): (r: Result<string>)
    ensures r.Ok? <==> b.sift.SiftText? || b.sift.TextSift?
    ensures r.Ok? ==> r.value == b.sift.text
    ensures r.Err? ==> r.error == NotText(b.name)
  {
    if b.sift.SiftText? || b.sift.TextSift? then Ok(b.sift.text) else Err(NotText(b.name))
  }

  /** The link of the first binding with the given name. */
  function LinkRole(binds: seq<Bind>, role: string): (r: Result<Node>)
    ensures r.Ok? <==> Has(binds, role) && Role(binds, role).value.sift.LinkSift?
    ensures r.Ok? ==> r.value == Make.MakeLink(Role(binds, role).value.sift.link)
    ensures r.Err? ==> r.error == if Has(binds, role) then NotLink(role) else MissingRole(role)
  {
    var b :- Role(binds, role);
    LinkOf(b)
  }

  /** The text of the first binding with the given name. */
  predicate TextAt(binds: seq<Bind>, role: string) {
    Has(binds, role) && (Role(binds, role).value.sift.SiftText? || Role(binds, role).value.sift.TextSift?)
  }

  function TextRole(binds: seq<Bind>, role: string): (r: Result<string>)
    ensures r.Ok? <==> TextAt(binds, role)
    ensures r.Ok? ==> r.value == Role(binds, role).value.sift.text
    ensures r.Err? ==> r.error == if Has(binds, role) then NotText(role) else MissingRole(role)
  {
    var b :- Role(binds, role);
    TextOf(b)
  }

  /** The faults a lowering can stop with: each names the binding it read. */
  predicate ReadFault(e: Fault) {
    e.MissingRole? || e.MissingPosition? || e.NotLink? || e.NotText?
  }

  /** The bindings after the first `k` (`slice(k)`). */
  function Drop(binds: seq<Bind>, k: nat): (r: seq<Bind>)
    ensures |r| == if k <= |binds| then |binds| - k else 0
    ensures forall i | 0 <= i < |r| :: r[i] == binds[k + i]
  {
    if k <= |binds| then binds[k..] else []
  }

  /** Every binding holds a link. */
  predicate AllLinks(binds: seq<Bind>) {
    forall i | 0 <= i < |binds| :: binds[i].sift.LinkSift?
  }

  /** The links of a run of bindings, in order: the arguments of the
      positional lowerings. */
  function Factors(binds: seq<Bind>): (r: Result<seq<Node>>)
    ensures r.Ok? <==> AllLinks(binds)
    ensures r.Ok? ==> |r.value| == |binds| && forall i | 0 <= i < |binds| :: r.value[i] == Make.MakeLink(binds[i].sift.link)
    ensures r.Err? ==> r.error.NotLink?
    decreases |binds|
  {
    if binds == [] then Ok([])
    else
      var n := |binds| - 1;
      assert binds == binds[..n] + [binds[n]];
      var front :- Factors(binds[..n]);
      var last :- LinkOf(binds[n]);
      Ok(front + [last])
  }

  /** A failure among the first `k` bindings is the failure of them all. */
  lemma {:induction false} FactorsPrefixErr(binds: seq<Bind>, k: nat)
    requires k <= |binds| && Factors(binds[..k]).Err?
    ensures Factors(binds) == Factors(binds[..k])
    decreases |binds|
  {
    if k < |binds| {
      var n := |binds| - 1;
      assert binds[..n][..k] == binds[..k];
      FactorsPrefixErr(binds[..n], k);
      assert binds == binds[..n] + [binds[n]];
    } else {
      assert binds[..k] == binds;
    }
  }

  /** One more factor adds its link. */
  lemma FactorsSnoc(binds: seq<Bind>, i: nat, args: seq<Node>, arg: Node)
    requires i < |binds| && Factors(binds[..i]) == Ok(args) && LinkOf(binds[i]) == Ok(arg)
    ensures Factors(binds[..i + 1]) == Ok(args + [arg])
  {
    assert binds[..i + 1][..i] == binds[..i];
  }

  /** The `forEach` that pushes the factors' links. */
  method PushFactors(binds: seq<Bind>) returns (r: Result<seq<Node>>)
    ensures r == Factors(binds)
  {
    var args: seq<Node> := [];
    var i := 0;
    while i < |binds|
      invariant 0 <= i <= |binds|
      invariant Factors(binds[..i]) == Ok(args)
    {
      var arg := LinkOf(binds[i]);
      if arg.Err? {
        assert binds[..i + 1][..i] == binds[..i];
        FactorsPrefixErr(binds, i + 1);
        return Err(arg.error);
      }
      FactorsSnoc(binds, i, args, arg.value);
      args := args + [arg.value];
      i := i + 1;
    }
    assert binds[..i] == binds;
    r := Ok(args);
  }

  // ---------------------------------------------------------------------
  // The transform table

  /** The names of the transform table. */
  const Transforms: set<string> := {
    "make", "test", "look", "call-base", "call-function", "call-head",
    "call-twin", "call-try", "test-else", "loop", "debug", "call-keyword",
    "call-keyword-2", "set-dynamic-aspect", "get-dynamic-aspect", "delete",
    "create-literal" }

  /** `makeDockCall`: the table entry of the call's name, applied to the
      call; a name without an entry is not a function. */
  function DockCall(c: Call): (r: Result<Node>)
    ensures (r.Err? && r.error == NotAFunction(c.name)) <==> c.name !in Transforms
  {
    match c.name
    case "make" => CallMake(c.bind)
    case "test" => CallTest(c.bind)
    case "look" => Ok(Raw("debugger"))
    case "call-base" => CallBase(c.bind)
    case "call-function" => CallFunction(c.bind)
    case "call-head" => CallHead(c.bind)
    case "call-twin" => CallTwin(c.bind)
    case "call-try" => CallTry(c.bind)
    case "test-else" => TestElse(c.bind)
    case "loop" => Loop(c.bind)
    case "debug" => Ok(DebuggerStatement)
    case "call-keyword" => CallKeyword(c.bind)
    case "call-keyword-2" => CallKeyword2(c.bind)
    case "set-dynamic-aspect" => SetDynamicAspect(c.bind)
    case "get-dynamic-aspect" => GetDynamicAspect(c.bind)
    case "delete" => Delete(c.bind)
    case "create-literal" => CreateLiteral(c.bind)
    case name => Err(NotAFunction(name))
  }

  /** A table entry fails only on a binding it reads, and never lowers a
      call into a `return`. */
  lemma DockCallShape(c: Call)
    ensures DockCall(c).Err? && c.name in Transforms ==> ReadFault(DockCall(c).error)
    ensures DockCall(c).Ok? ==> !DockCall(c).value.ReturnStatement?
  {
  }

  /** This revision of the table has no `get-aspect`, `set-aspect` or
      `throw-error`: a call of any of them stops the compiler. */
  lemma RetiredTransforms(binds: seq<Bind>, hook: seq<Hook>, wait: bool)
    ensures DockCall(Call("get-aspect", binds, hook, wait)) == Err(NotAFunction("get-aspect"))
    ensures DockCall(Call("set-aspect", binds, hook, wait)) == Err(NotAFunction("set-aspect"))
    ensures DockCall(Call("throw-error", binds, hook, wait)) == Err(NotAFunction("throw-error"))
  {
    assert "get-aspect" !in Transforms;
    assert "set-aspect" !in Transforms;
    assert "throw-error" !in Transforms;
  }

  /** `create-literal`: the literal of the text, bare: not returned. */
  function CreateLiteral(binds: seq<Bind>): (r: Result<Node>)
    ensures r.Ok? <==> TextAt(binds, "literal")
    ensures r.Ok? ==> r.value == Literal(Str(Role(binds, "literal").value.sift.text))
    ensures r.Err? ==> ReadFault(r.error)
  {
    var text :- TextRole(binds, "literal");
    Ok(Literal(Str(text)))
  }

  /** `delete`: the prefix unary `delete` of the computed access
      object[aspect]. */
  function Delete(binds: seq<Bind>): (r: Result<Node>)
    ensures r.Ok? <==> LinkRole(binds, "object").Ok? && LinkRole(binds, "aspect").Ok?
    ensures r.Ok? ==> r.value == UnaryExpression(
      MemberExpression(LinkRole(binds, "object").value, LinkRole(binds, "aspect").value, true), "delete", true)
    ensures r.Err? ==> r.error == if LinkRole(binds, "object").Err? then LinkRole(binds, "object").error else LinkRole(binds, "aspect").error
  {
    var o :- LinkRole(binds, "object");
    var a :- LinkRole(binds, "aspect");
    Ok(UnaryExpression(MemberExpression(o, a, true), "delete", true))
  }

  /** `get-dynamic-aspect`: the computed access object[aspect], bare. */
  function GetDynamicAspect(binds: seq<Bind>): (r: Result<Node>)
    ensures r.Ok? <==> LinkRole(binds, "object").Ok? && LinkRole(binds, "aspect").Ok?
    ensures r.Ok? ==> r.value == MemberExpression(LinkRole(binds, "object").value, LinkRole(binds, "aspect").value, true)
    ensures r.Err? ==> ReadFault(r.error)
  {
    var o :- LinkRole(binds, "object");
    var a :- LinkRole(binds, "aspect");
    Ok(MemberExpression(o, a, true))
  }

  /** `set-dynamic-aspect`: the assignment of the factor to object[aspect]. */
  function SetDynamicAspect(binds: seq<Bind>): (r: Result<Node>)
    ensures r.Ok? <==> LinkRole(binds, "object").Ok? && LinkRole(binds, "aspect").Ok? && LinkRole(binds, "factor").Ok?
    ensures r.Ok? ==> r.value == AssignmentExpression(
      MemberExpression(LinkRole(binds, "object").value, LinkRole(binds, "aspect").value, true), LinkRole(binds, "factor").value)
    ensures r.Err? ==> ReadFault(r.error)
  {
    var o :- LinkRole(binds, "object");
    var a :- LinkRole(binds, "aspect");
    var v :- LinkRole(binds, "factor");
    Ok(AssignmentExpression(MemberExpression(o, a, true), v))
  }

  /** `call-keyword-2`: left <keyword> right. */
  function CallKeyword2(binds: seq<Bind>): (r: Result<Node>)
    ensures r.Ok? <==> LinkRole(binds, "left").Ok? && TextAt(binds, "keyword") && LinkRole(binds, "right").Ok?
    ensures r.Ok? ==> r.value == BinaryExpression(
      LinkRole(binds, "left").value, Role(binds, "keyword").value.sift.text, LinkRole(binds, "right").value)
    ensures r.Err? ==> ReadFault(r.error)
  {
    var left :- LinkRole(binds, "left");
    var op :- TextRole(binds, "keyword");
    var right :- LinkRole(binds, "right");
    Ok(BinaryExpression(left, op, right))
  }

  /** `call-keyword`: the unary <keyword> value; the prefix flag is not
      given, so it is unset. */
  function CallKeyword(binds: seq<Bind>): (r: Result<Node>)
    ensures r.Ok? <==> LinkRole(binds, "value").Ok? && TextAt(binds, "keyword")
    ensures r.Ok? ==> r.value == UnaryExpression(LinkRole(binds, "value").value, Role(binds, "keyword").value.sift.text, false)
    ensures r.Err? ==> ReadFault(r.error)
  {
    var v :- LinkRole(binds, "value");
    var op :- TextRole(binds, "keyword");
    Ok(UnaryExpression(v, op, false))
  }

  /** `loop`: while the check holds, the block. */
  function Loop(binds: seq<Bind>): (r: Result<Node>)
    ensures r.Ok? <==> LinkRole(binds, "check").Ok? && LinkRole(binds, "block").Ok?
    ensures r.Ok? ==> r.value == WhileStatement(LinkRole(binds, "check").value, [LinkRole(binds, "block").value])
    ensures r.Err? ==> ReadFault(r.error)
  {
    var check :- LinkRole(binds, "check");
    var block :- LinkRole(binds, "block");
    Ok(WhileStatement(check, [block]))
  }

  /** `test-else`: if the check holds the block, otherwise the `else`
      binding; both branches are plain one-element arrays. */
  function TestElse(binds: seq<Bind>): (r: Result<Node>)
    ensures r.Ok? <==> LinkRole(binds, "check").Ok? && LinkRole(binds, "block").Ok? && LinkRole(binds, "else").Ok?
    ensures r.Ok? ==> r.value == IfStatement(LinkRole(binds, "check").value,
      Bare([LinkRole(binds, "block").value]), Some(Bare([LinkRole(binds, "else").value])))
    ensures r.Err? ==> ReadFault(r.error)
  {
    var check :- LinkRole(binds, "check");
    var block :- LinkRole(binds, "block");
    var other :- LinkRole(binds, "else");
    Ok(IfStatement(check, Bare([block]), Some(Bare([other]))))
  }

  /** `call-try`: try the block, handled by the error binding. */
  function CallTry(binds: seq<Bind>): (r: Result<Node>)
    ensures r.Ok? <==> LinkRole(binds, "block").Ok? && LinkRole(binds, "error").Ok?
    ensures r.Ok? ==> r.value == TryStatement(LinkRole(binds, "block").value, LinkRole(binds, "error").value)
    ensures r.Err? ==> ReadFault(r.error)
  {
    var block :- LinkRole(binds, "block");
    var error :- LinkRole(binds, "error");
    Ok(TryStatement(block, error))
  }

  /** `call-head`: the prefix update <operation> value. */
  function CallHead(binds: seq<Bind>): (r: Result<Node>)
    ensures r.Ok? <==> LinkRole(binds, "value").Ok? && TextAt(binds, "operation")
    ensures r.Ok? ==> r.value == UpdateExpression(LinkRole(binds, "value").value, Role(binds, "operation").value.sift.text, true)
    ensures r.Err? ==> ReadFault(r.error)
  {
    var v :- LinkRole(binds, "value");
    var op :- TextRole(binds, "operation");
    Ok(UpdateExpression(v, op, true))
  }

  /** `call-twin`: left <operation> right. */
  function CallTwin(binds: seq<Bind>): (r: Result<Node>)
    ensures r.Ok? <==> LinkRole(binds, "left").Ok? && TextAt(binds, "operation") && LinkRole(binds, "right").Ok?
    ensures r.Ok? ==> r.value == BinaryExpression(
      LinkRole(binds, "left").value, Role(binds, "operation").value.sift.text, LinkRole(binds, "right").value)
    ensures r.Err? ==> ReadFault(r.error)
  {
    var left :- LinkRole(binds, "left");
    var op :- TextRole(binds, "operation");
    var right :- LinkRole(binds, "right");
    Ok(BinaryExpression(left, op, right))
  }

  /** `make`: `new` of the class whose name is the first binding's text (a
      bare string where the callee goes), given the other bindings' links.
      The arguments are built before the class name is read. */
  function CallMake(binds: seq<Bind>): (r: Result<Node>)
    ensures r.Ok? <==> AllLinks(Drop(binds, 1)) && |binds| > 0 && (binds[0].sift.SiftText? || binds[0].sift.TextSift?)
    ensures r.Ok? ==> r.value == NewExpression(Raw(binds[0].sift.text), Factors(Drop(binds, 1)).value)
    ensures |binds| == 0 ==> r == Err(MissingPosition(0))
    ensures r.Err? ==> ReadFault(r.error)
  {
    var args :- Factors(Drop(binds, 1));
    var ctor :- Position(binds, 0);
    var name :- TextOf(ctor);
    Ok(NewExpression(Raw(name), args))
  }

  /** A method call `receiver.name(args)`, not awaited. */
  predicate MethodCall(n: Node, receiver: Node, name: string, args: seq<Node>) {
    n == CallExpression(MemberExpression(receiver, Identifier(name), false), args, false)
  }

  /** The receiver of `call-base`: a link object is built by `makeLink`;
      any other object is the identifier of its text. */
  function Receiver(obj: Bind): (r: Result<Node>)
    ensures r.Ok? <==> obj.sift.LinkSift? || obj.sift.SiftText? || obj.sift.TextSift?
    ensures obj.sift.LinkSift? ==> r == Ok(Make.MakeLink(obj.sift.link))
    ensures r.Ok? && !obj.sift.LinkSift? ==> r.value == Identifier(obj.sift.text)
  {
    if obj.sift.LinkSift? then Ok(Make.MakeLink(obj.sift.link))
    else var name :- TextOf(obj); Ok(Identifier(name))
  }

  /** `call-base`: the method named by the second binding, called on the
      first, given the links of the rest. */
  function CallBase(binds: seq<Bind>): (r: Result<Node>)
    ensures r.Ok? <==>
      && AllLinks(Drop(binds, 2)) && |binds| > 1 && Receiver(binds[0]).Ok?
      && (binds[1].sift.SiftText? || binds[1].sift.TextSift?)
    ensures r.Ok? ==> MethodCall(r.value, Receiver(binds[0]).value, binds[1].sift.text, Factors(Drop(binds, 2)).value)
    ensures r.Err? ==> ReadFault(r.error)
  {
    var args :- Factors(Drop(binds, 2));
    var obj :- Position(binds, 0);
    var receiver :- Receiver(obj);
    var meth :- Position(binds, 1);
    var name :- TextOf(meth);
    Ok(CallExpression(MemberExpression(receiver, Identifier(name), false), args, false))
  }

  /** `call-function`: a call of the function named by the first binding's
      text, given the other bindings' links. */
  function CallFunction(binds: seq<Bind>): (r: Result<Node>)
    ensures r.Ok? <==> AllLinks(Drop(binds, 1)) && |binds| > 0 && (binds[0].sift.SiftText? || binds[0].sift.TextSift?)
    ensures r.Ok? ==> r.value == CallExpression(Identifier(binds[0].sift.text), Factors(Drop(binds, 1)).value, false)
    ensures r.Err? ==> ReadFault(r.error)
  {
    var args :- Factors(Drop(binds, 1));
    var func :- Position(binds, 0);
    var name :- TextOf(func);
    Ok(CallExpression(Identifier(name), args, false))
  }

  /** `test`: if the first binding holds, the second; no `else`. */
  function CallTest(binds: seq<Bind>): (r: Result<Node>)
    ensures r.Ok? <==> |binds| > 1 && binds[0].sift.LinkSift? && binds[1].sift.LinkSift?
    ensures r.Ok? ==> r.value == IfStatement(Make.MakeLink(binds[0].sift.link), Bare([Make.MakeLink(binds[1].sift.link)]), None)
    ensures r.Err? ==> ReadFault(r.error)
  {
    var test :- Position(binds, 0);
    var t :- LinkOf(test);
    var make :- Position(binds, 1);
    var m :- LinkOf(make);
    Ok(IfStatement(t, Bare([m]), None))
  }

  /** The role read first decides the fault: `delete` of an object that is
      missing fails on the object, even when the aspect is missing too. */
  lemma DeleteReadsObjectFirst()
    ensures Delete([]) == Err(MissingRole("object"))
    ensures Delete([Bind("object", SizeSift(1.0))]) == Err(NotLink("object"))
  {
  }

  // ---------------------------------------------------------------------
  // Native tasks

  /** The native `makeSift`: like the library's, but a call is lowered
      through the transform table. */
  function DockSift(s: Sift): (r: Result<Node>)
    ensures !s.CallSift? ==> r.Ok?
    ensures s.CallSift? ==> r == DockCall(s.call)
    ensures s.SiftText? || s.TextSift? ==> r == Ok(Literal(Str(s.text)))
    ensures s.SizeSift? ==> r == Ok(Literal(Num(s.size)))
    ensures s.LinkSift? ==> r == Ok(Make.MakeLink(s.link))
    ensures s.TaskSift? || s.OtherSift? ==> r == Ok(Undefined)
  {
    match s
    case SiftText(text) => Ok(Literal(Str(text)))
    case TextSift(text) => Ok(Literal(Str(text)))
    case SizeSift(size) => Ok(Literal(Num(size)))
    case LinkSift(link) => Ok(Make.MakeLink(link))
    case CallSift(c) => DockCall(c)
    case TaskSift(_) => Ok(Undefined)
    case OtherSift(_) => Ok(Undefined)
  }

  /** One zone of a native task: `host` and `save` as in the library, `turn`
      through the native `makeSift`, `call` through the transform table;
      a zone of any other form gives no statement. */
  function DockStatement(z: Zone): (r: Result<Option<Node>>)
    ensures r.Ok? ==> (r.value.None? <==> z.OtherZone?)
    ensures r.Ok? && r.value.Some? ==> (r.value.value.ReturnStatement? <==> z.TurnZone?)
    ensures z.TurnZone? && r.Ok? ==> DockSift(z.sift).Ok? && r.value == Some(ReturnStatement(DockSift(z.sift).value))
    ensures z.CallZone? ==> r.Ok? == DockCall(z.call).Ok?
    ensures z.HostZone? ==> r == Make.Lift(Make.MakeHost(z.name, z.init))
    ensures z.SaveZone? ==> r == Make.Lift(Make.MakeSave(z.nest, z.sift))
    ensures z.CallZone? ==> r == Make.Lift(DockCall(z.call))
    ensures z.TurnZone? && DockSift(z.sift).Err? ==> r == Err(DockSift(z.sift).error)
    ensures z.OtherZone? ==> r == Ok(None)
  {
    match z
    case HostZone(name, init) => var s :- Make.MakeHost(name, init); Ok(Some(s))
    case SaveZone(nest, sift) => var s :- Make.MakeSave(nest, sift); Ok(Some(s))
    case TurnZone(sift) => var v :- DockSift(sift); Ok(Some(ReturnStatement(v)))
    case CallZone(c) => DockCallShape(c); var s :- DockCall(c); Ok(Some(s))
    case OtherZone(_) => Ok(None)
  }

  /** The statements of a native task's zones, in order; the first zone
      that fails stops the task. */
  function DockStatements(zones: seq<Zone>): Result<seq<Node>> {
    Gather(DockStatement, zones)
  }

  /** A native body holds, in order, exactly the statements of its known
      zones: one per zone that is not of an unknown form. */
  lemma {:induction false} DockStatementsOfKnown(zones: seq<Zone>)
    requires DockStatements(zones).Ok?
    ensures var body := DockStatements(zones).value;
      && |body| == |Make.Known(zones)|
      && forall i | 0 <= i < |body| :: DockStatement(Make.Known(zones)[i]) == Ok(Some(body[i]))
    decreases |zones|
  {
    if zones != [] {
      var n := |zones| - 1;
      assert zones[..n] + [zones[n]] == zones;
      DockStatementsOfKnown(zones[..n]);
    }
  }

  /** A native body returns only where a zone is a `turn`: nothing is
      returned implicitly. */
  lemma NoImplicitReturn(zones: seq<Zone>)
    requires DockStatements(zones).Ok?
    ensures var body := DockStatements(zones).value;
      && |body| == |Make.Known(zones)|
      && forall i | 0 <= i < |body| :: body[i].ReturnStatement? <==> Make.Known(zones)[i].TurnZone?
  {
    DockStatementsOfKnown(zones);
  }

  /** `makeDockTask` as a value: an anonymous function of the parameter
      names, as written, whose block holds the zones' statements, async iff
      the task waits. */
  function DockTask(t: Task): (r: Result<Node>)
    ensures r.Ok? <==> DockStatements(t.zone).Ok?
    ensures r.Ok? ==> r.value == FunctionDeclaration(None, Make.Params(t.base), BlockStatement(DockStatements(t.zone).value), t.wait)
  {
    var body :- DockStatements(t.zone);
    Ok(FunctionDeclaration(None, Make.Params(t.base), BlockStatement(body), t.wait))
  }

  /** `makeDockTask`: the parameters, then the body, pushed one by one. */
  method MakeDockTask(t: Task) returns (r: Result<Node>)
    ensures r == DockTask(t)
  {
    var params: seq<Node> := [];
    var i := 0;
    while i < |t.base|
      invariant 0 <= i <= |t.base|
      invariant params == Make.Params(t.base[..i])
    {
      params := params + [Identifier(t.base[i])];
      i := i + 1;
    }
    assert t.base[..i] == t.base;
    var body := PushDockStatements(t.zone);
    if body.Err? {
      return Err(body.error);
    }
    r := Ok(FunctionDeclaration(None, params, BlockStatement(body.value), t.wait));
  }

  /** The zones' statements, pushed one by one. */
  method PushDockStatements(zones: seq<Zone>) returns (r: Result<seq<Node>>)
    ensures r == DockStatements(zones)
  {
    var body: seq<Node> := [];
    var j := 0;
    while j < |zones|
      invariant 0 <= j <= |zones|
      invariant DockStatements(zones[..j]) == Ok(body)
    {
      var s := DockStatement(zones[j]);
      if s.Err? {
        GatherStop(DockStatement, zones, j);
        return Err(s.error);
      }
      GatherSnoc(DockStatement, zones, j, body, s.value);
      if s.value.Some? {
        body := body + [s.value.value];
      } else {
        assert body + [] == body;
      }
      j := j + 1;
    }
    assert zones[..j] == zones;
    r := Ok(body);
  }

  // ---------------------------------------------------------------------
  // Native task files

  /** The tasks of a native file, in order. */
  function DockTasks(tasks: seq<Task>): Result<seq<Node>> {
    Collect(DockTask, tasks)
  }

  /** One top-level statement of a native file: a `save` through the
      library's `makeSave`, anything else through the library's `makeCall`
      (not the transform table). */
  function TopStatement(z: TopZone): (r: Result<Node>)
    ensures z.TopSave? ==> r == Make.MakeSave(z.nest, z.sift)
    ensures z.TopCall? ==> r == Make.MakeCall(z.call)
  {
    match z
    case TopSave(nest, sift) => Make.MakeSave(nest, sift)
    case TopCall(c) => Make.MakeCall(c)
  }

  /** The top-level statements of a native file, in order. */
  function TopStatements(calls: seq<TopZone>): Result<seq<Node>> {
    Collect(TopStatement, calls)
  }

  /** `makeFileObject`: `file.<name> = {}`. */
  function FileObject(name: string): (r: Node)
    ensures r.AssignmentExpression? && r.right == ObjectExpression([])
    ensures r.left == MemberExpression(Identifier("file"), Identifier(name), false)
  {
    AssignmentExpression(MemberExpression(Identifier("file"), Identifier(name), false), ObjectExpression([]))
  }

  /** `makeFileTask`: `file.task[<name>] = <task>`, the name a string key. */
  function FileTask(name: string, task: Node): (r: Node)
    ensures r.AssignmentExpression? && r.right == task
    ensures r.left == MemberExpression(MemberExpression(Identifier("file"), Identifier("task"), false), Literal(Str(name)), true)
  {
    AssignmentExpression(MemberExpression(MemberExpression(Identifier("file"), Identifier("task"), false), Literal(Str(name)), true), task)
  }

  /** One `file.task[name] = fn` per task, in order. */
  function FileTasks(tasks: seq<Task>, fns: seq<Node>): (r: seq<Node>)
    requires |tasks| == |fns|
    ensures |r| == |tasks| && forall i | 0 <= i < |tasks| :: r[i] == FileTask(tasks[i].name, fns[i])
  {
    seq(|tasks|, i requires 0 <= i < |tasks| => FileTask(tasks[i].name, fns[i]))
  }

  /** The statements of the bound function. */
  function BoundBody(calls: seq<Node>, tasks: seq<Task>, fns: seq<Node>): seq<Node>
    requires |tasks| == |fns|
  {
    calls + [FileObject("task")] + FileTasks(tasks, fns)
  }

  /** The registration of a native file: `base.bind(road, function (file)
      { ...calls; file.task = {}; file.task[name] = fn; ... })`. */
  function DockBound(road: string, calls: seq<Node>, tasks: seq<Task>, fns: seq<Node>): (r: Node)
    requires |tasks| == |fns|
    ensures r.CallExpression? && !r.await
    ensures r.callee == MemberExpression(Identifier("base"), Identifier("bind"), false)
    ensures r.arguments == [Literal(Str(road)), FunctionDeclaration(None, [Identifier("file")], BlockStatement(BoundBody(calls, tasks, fns)), false)]
  {
    Make.MakeBaseBind(road, FunctionDeclaration(None, [Identifier("file")], BlockStatement(BoundBody(calls, tasks, fns)), false))
  }

  /** The bound body is the top-level statements, then `file.task = {}`,
      then one `file.task[name] = fn` per task in source order. */
  lemma BoundLayout(calls: seq<Node>, tasks: seq<Task>, fns: seq<Node>)
    requires |tasks| == |fns|
    ensures var body := BoundBody(calls, tasks, fns);
      && |body| == |calls| + 1 + |tasks|
      && body[..|calls|] == calls
      && body[|calls|] == FileObject("task")
      && forall i | 0 <= i < |tasks| :: body[|calls| + 1 + i] == FileTask(tasks[i].name, fns[i])
  {
    var pre := calls + [FileObject("task")];
    var post := FileTasks(tasks, fns);
    assert BoundBody(calls, tasks, fns) == pre + post;
    assert (pre + post)[..|calls|] == calls;
    forall i | 0 <= i < |tasks|
      ensures (pre + post)[|calls| + 1 + i] == FileTask(tasks[i].name, fns[i])
    {
      assert (pre + post)[|pre| + i] == post[i];
    }
  }

  /** A native file's loads, taken as they are written: their roads are
      neither resolved nor flattened. */
  function RawEntries(loads: seq<Load>): (r: seq<RoadEntry>)
    ensures |r| == |loads| && forall i | 0 <= i < |loads| :: r[i] == RoadEntry(loads[i].road, loads[i].take)
  {
    seq(|loads|, i requires 0 <= i < |loads| => RoadEntry(loads[i].road, loads[i].take))
  }

  /** `makeDockTaskFile` as a value: the tasks, then the top-level
      statements; the first failure stops the file. */
  function DockFile(f: File): (r: Result<(seq<Node>, seq<Node>)>)
    ensures r.Ok? <==> DockTasks(f.task).Ok? && TopStatements(f.call).Ok?
    ensures r.Ok? ==> r.value == (DockTasks(f.task).value, TopStatements(f.call).value)
    ensures r.Ok? ==> |r.value.0| == |f.task|
  {
    var fns :- DockTasks(f.task);
    var calls :- TopStatements(f.call);
    Ok((fns, calls))
  }

  /** The tasks of a file, pushed one by one. */
  method PushDockTasks(tasks: seq<Task>) returns (r: Result<seq<Node>>)
    ensures r == DockTasks(tasks)
  {
    var fns: seq<Node> := [];
    var i := 0;
    while i < |tasks|
      invariant 0 <= i <= |tasks|
      invariant DockTasks(tasks[..i]) == Ok(fns)
    {
      var fn := MakeDockTask(tasks[i]);
      if fn.Err? {
        CollectStop(DockTask, tasks, i);
        return Err(fn.error);
      }
      CollectSnoc(DockTask, tasks, i, fns, fn.value);
      fns := fns + [fn.value];
      i := i + 1;
    }
    assert tasks[..i] == tasks;
    r := Ok(fns);
  }

  /** The top-level statements of a file, pushed one by one. */
  method PushTopStatements(calls: seq<TopZone>) returns (r: Result<seq<Node>>)
    ensures r == TopStatements(calls)
  {
    var body: seq<Node> := [];
    var i := 0;
    while i < |calls|
      invariant 0 <= i <= |calls|
      invariant TopStatements(calls[..i]) == Ok(body)
    {
      var s := TopStatement(calls[i]);
      if s.Err? {
        CollectStop(TopStatement, calls, i);
        return Err(s.error);
      }
      CollectSnoc(TopStatement, calls, i, body, s.value);
      body := body + [s.value];
      i := i + 1;
    }
    assert calls[..i] == calls;
    r := Ok(body);
  }

  /** `makeDockTaskFile`: loads every written load, then emits the tasks and
      the top-level statements and registers the file; on success the
      record's output and bound are exactly those of `DockFile`, and the
      loads are allocated in order as `makeLoad` does. */
  method MakeDockTaskFile(file: Make.CompiledFile) returns (r: Result<()>)
    modifies file
    ensures r.Ok? <==> DockFile(old(file.original)).Ok?
    ensures r.Err? ==> r.error == DockFile(old(file.original)).error
    ensures r.Ok? ==>
      var f := old(file.original);
      var (fns, calls) := DockFile(f).value;
      && file.Snapshot() == Make.LoadedAll(old(file.Snapshot()), RawEntries(f.load)).(
           output := Some(Make.Output(fns, Some(calls))),
           bound := Some(DockBound(f.road, calls, f.task, fns)))
  {
    var f := file.original;
    Make.LoadedAllFrame(file.Snapshot(), RawEntries(f.load));
    file.MakeLoads(RawEntries(f.load));
    ghost var loaded := file.Snapshot();
    file.output := Some(Make.Output([], None));
    var fns := PushDockTasks(f.task);
    if fns.Err? {
      assert DockFile(f) == Err(fns.error);
      return Err(fns.error);
    }
    file.output := Some(Make.Output(fns.value, None));
    var calls := PushTopStatements(f.call);
    if calls.Err? {
      assert DockFile(f) == Err(calls.error);
      return Err(calls.error);
    }
    assert DockFile(f) == Ok((fns.value, calls.value));
    file.output := Some(Make.Output(fns.value, Some(calls.value)));
    file.bound := Some(DockBound(f.road, calls.value, f.task, fns.value));
    assert file.Snapshot() == loaded.(output := file.output, bound := file.bound);
    r := Ok(());
  }
}

=== FILE: resolve.dfy ===
/** The identifier normalizer (lib/resolve/index.js): after compilation,
    every compiled file's output is walked and the names it binds are
    replaced by short generated names `x1`, `x2`, ...  The scope of a file
    is a counter and a map from old names to new names; the top-level
    statements share one scope and every task works on its own copy of it.

    Nodes are values here: a walk returns the rewritten node instead of
    rewriting it in place.  The scope is an object the walk updates. */
module Resolve {
  import opened Wrappers
  import opened Ast
  import opened SiftDeck
  import Make
  import Native
  import DeckWalk
  import LibTranspile

  // ---------------------------------------------------------------------
  // Scopes

  /** The names a scope object cannot hold as its own entries: the counter
      field, the members every object inherits, and `undefined`, which is
      the key a missing name is looked up under. */
  const HostKeys: set<string> := {
    "index", "undefined", "constructor", "hasOwnProperty", "isPrototypeOf",
    "propertyIsEnumerable", "toLocaleString", "toString", "valueOf", "__proto__",
    "__defineGetter__", "__defineSetter__", "__lookupGetter__", "__lookupSetter__"}

  /** A name the scope object keeps as an entry of its own. */
  predicate Plain(name: string) {
    name !in HostKeys
  }

  /** The state of a scope: the next number to hand out and the names
      handed out so far. */
  datatype Table = Table(index: nat, names: map<string, string>)

  /** A fresh file scope, `{ index: 1 }`. */
  const Start := Table(1, map[])

  /** Every name maps to a generated name of a number already handed out,
      and no two names share a generated name. */
  ghost predicate Valid(t: Table) {
    && 1 <= t.index
    && (forall k | k in t.names :: Plain(k) && exists j :: 1 <= j < t.index && t.names[k] == Make.Tag(j))
    && (forall a, b | a in t.names && b in t.names && a != b :: t.names[a] != t.names[b])
  }

  /** `u` is `t` after more names were handed out: the counter never goes
      back and a name, once mapped, keeps its mapping. */
  ghost predicate Extends(t: Table, u: Table) {
    && t.index <= u.index
    && (forall k | k in t.names :: k in u.names && u.names[k] == t.names[k])
  }

  lemma StartValid()
    ensures Valid(Start)
  {
  }

  lemma ExtendsTrans(t: Table, u: Table, w: Table)
    requires Extends(t, u) && Extends(u, w)
    ensures Extends(t, w)
  {
  }

  /** `replaceName` on a value: the mapped name if there is one, otherwise
      `x<index>`, recorded in the scope, with the counter raised by one. */
  function Replace(t: Table, name: string): (r: (string, Table))
    ensures name in r.1.names && r.1.names[name] == r.0
    ensures r.1.names.Keys == t.names.Keys + {name}
    ensures Extends(t, r.1)
    ensures name in t.names ==> r.1 == t
    ensures name !in t.names ==> r.0 == Make.Tag(t.index) && r.1.index == t.index + 1
    ensures Valid(t) && Plain(name) ==> Valid(r.1)
  {
    if name in t.names then (t.names[name], t)
    else
      var x := Make.Tag(t.index);
      TagUnused(t);
      (x, Table(t.index + 1, t.names[name := x]))
  }

  /** The next generated name of a valid scope is not yet in use. */
  lemma TagUnused(t: Table)
    ensures Valid(t) ==> forall k | k in t.names :: t.names[k] != Make.Tag(t.index)
  {
    if Valid(t) {
      forall k | k in t.names
        ensures t.names[k] != Make.Tag(t.index)
      {
        var j :| 1 <= j < t.index && t.names[k] == Make.Tag(j);
        Make.TagDistinct(j, t.index);
      }
    }
  }

  /** Replacing the same name twice gives the same new name and leaves the
      scope as the first replacement left it. */
  lemma ReplaceStable(t: Table, name: string)
    ensures Replace(Replace(t, name).1, name) == Replace(t, name)
  {
  }

  /** In a valid scope, two different names get two different new names. */
  lemma ReplaceDistinct(t: Table, a: string, b: string)
    requires Valid(t) && Plain(a) && Plain(b) && a != b
    ensures var u := Replace(Replace(t, a).1, b).1; Replace(t, a).0 != Replace(u, b).0
  {
  }

  /** `optionallyReplaceName` on a value: the mapped name if there is one,
      otherwise the name as it was. */
  function OptionalName(names: map<string, string>, name: string): (r: string)
    ensures name in names ==> r == names[name]
    ensures name !in names ==> r == name
  {
    if name in names then names[name] else name
  }

  /** Optional renaming agrees with replacing where a mapping exists, and
      otherwise keeps the name that replacing would have allocated for. */
  lemma OptionalAgrees(t: Table, name: string)
    ensures name in t.names ==> OptionalName(t.names, name) == Replace(t, name).0
    ensures name !in t.names ==> OptionalName(t.names, name) == name && Replace(t, name).1 != t
  {
  }

  // ---------------------------------------------------------------------
  // The walk, as values

  /** The node types the resolvers table has an entry for. */
  const Handled: set<string> := {
    "FunctionDeclaration", "VariableDeclaration", "CallExpression", "ReturnStatement", "AssignmentExpression"}

  /** The nodes of a walk's result, without the scope it ends in. */
  function Nodes<T>(r: Result<(T, Table)>): (s: Result<T>)
    ensures s.Ok? <==> r.Ok?
    ensures s.Ok? ==> s.value == r.value.0
    ensures s.Err? ==> s.error == r.error
  {
    match r
    case Ok(v) => Ok(v.0)
    case Err(e) => Err(e)
  }

  /** The names `replaceName` is applied to anywhere the walk goes are
      names the scope can hold. */
  predicate Renamable(n: Node)
    decreases n
  {
    match n
    case FunctionDeclaration(_, ps, body, _) =>
      && (forall p | p in ps && p.Identifier? :: Plain(p.name))
      && (body.BlockStatement? ==> forall s | s in body.statements :: Renamable(s))
    case ReturnStatement(a) => Renamable(a)
    case AssignmentExpression(left, _) => left.Identifier? ==> Plain(left.name)
    case _ => true
  }

  /** The parameters of a function, in order: an identifier is replaced,
      `undefined` fails on reading its type, anything else stays. */
  function Params(t: Table, ps: seq<Node>): (r: Result<(seq<Node>, Table)>)
    ensures r.Ok? ==> |r.value.0| == |ps|
    ensures r.Ok? <== forall i | 0 <= i < |ps| :: !ps[i].Undefined?
    ensures r.Err? ==> r.error == NotANode("type")
    decreases |ps|
  {
    if ps == [] then Ok(([], t))
    else
      var n := |ps| - 1;
      var front :- Params(t, ps[..n]);
      var p := ps[n];
      if p.Undefined? then Err(NotANode("type"))
      else if p.Identifier? then
        var (x, u) := Replace(front.1, p.name);
        Ok((front.0 + [Identifier(x)], u))
      else Ok((front.0 + [p], front.1))
  }

  /** An identifier under its mapping, if it has one; any other node as
      it is. */
  function Renamed(names: map<string, string>, a: Node): (r: Node)
    ensures r.Identifier? <==> a.Identifier?
    ensures !a.Identifier? ==> r == a
  {
    if a.Identifier? then Identifier(OptionalName(names, a.name)) else a
  }

  /** An argument of a call: an identifier takes its mapping if it has
      one. */
  function Arg(names: map<string, string>, a: Node): (r: Result<Node>)
    ensures r.Err? <==> a.Undefined?
    ensures r.Ok? && !a.Identifier? ==> r.value == a
  {
    if a.Undefined? then Err(NotANode("type")) else Ok(Renamed(names, a))
  }

  /** The callee of a call: the object of a member access takes its
      mapping if it is an identifier that has one. */
  function Callee(names: map<string, string>, c: Node): (r: Result<Node>)
    ensures r.Ok? ==> TypeName(r.value) == TypeName(c)
    ensures r.Ok? && !c.MemberExpression? ==> r.value == c
  {
    match c
    case Undefined => Err(NotANode("type"))
    case MemberExpression(obj, property, computed) =>
      if obj.Undefined? then Err(NotANode("name"))
      else if obj.Identifier? then Ok(MemberExpression(Identifier(OptionalName(names, obj.name)), property, computed))
      else Ok(c)
    case _ => Ok(c)
  }

  /** The step applied to every argument. */
  function ArgOf(names: map<string, string>): Node -> Result<Node> {
    (a: Node) => Arg(names, a)
  }

  /** A call expression: arguments first, then the callee; the scope is
      only read, and the only failure is a read on `undefined`. */
  function Call(names: map<string, string>, n: Node): (r: Result<Node>)
    requires n.CallExpression?
    ensures r.Ok? ==> r.value.CallExpression? && |r.value.arguments| == |n.arguments| && r.value.await == n.await
    ensures r.Err? ==> r.error.NotANode?
  {
    CollectFails(ArgOf(names), n.arguments);
    var args :- Collect(ArgOf(names), n.arguments);
    var callee :- Callee(names, n.callee);
    Ok(CallExpression(callee, args, n.await))
  }

  /** `call(resolvers, node.type, node, scope)`: the handler for the node's
      type, or `Missing method <type>`. */
  function Resolve(t: Table, n: Node): (r: Result<(Node, Table)>)
    ensures r.Ok? ==> TypeName(r.value.0) == TypeName(n)
    decreases n, 1
  {
    match TypeName(n)
    case None => Err(NotANode("type"))
    case Some(ty) => if ty in Handled then Handle(t, n) else Err(MissingMethod(ty))
  }

  /** The resolvers: a function renames its parameters and walks its body,
      a call reads the scope, a return walks its argument, an assignment
      to an identifier renames it, and a declaration changes nothing. */
  function Handle(t: Table, n: Node): (r: Result<(Node, Table)>)
    ensures r.Ok? ==> TypeName(r.value.0) == TypeName(n)
    decreases n, 0
  {
    if n.FunctionDeclaration? then
      var params :- Params(t, n.params);
      if !n.body.BlockStatement? then Err(NotANode("body"))
      else
        var stmts :- Run(params.1, n.body.statements);
        Ok((FunctionDeclaration(n.ident, params.0, BlockStatement(stmts.0), n.async), stmts.1))
    else if n.CallExpression? then
      var call :- Call(t.names, n);
      Ok((call, t))
    else if n.ReturnStatement? then
      var a :- Resolve(t, n.argument);
      Ok((ReturnStatement(a.0), a.1))
    else if n.AssignmentExpression? then
      if n.left.Undefined? then Err(NotANode("type"))
      else if n.left.Identifier? then
        var (x, u) := Replace(t, n.left.name);
        Ok((AssignmentExpression(Identifier(x), n.right), u))
      else Ok((n, t))
    else Ok((n, t))
  }

  /** Statements visited in order in one shared scope. */
  function Run(t: Table, ss: seq<Node>): (r: Result<(seq<Node>, Table)>)
    ensures r.Ok? ==> |r.value.0| == |ss|
    decreases ss
  {
    if ss == [] then Ok(([], t))
    else
      var n := |ss| - 1;
      var front :- Run(t, ss[..n]);
      var last :- Resolve(front.1, ss[n]);
      Ok((front.0 + [last.0], last.1))
  }

  /** Every identifier parameter ends up under the name the final scope
      maps it to, every other parameter stays, and the scope only grows. */
  lemma {:induction false} ParamsRenamed(t: Table, ps: seq<Node>)
    requires Params(t, ps).Ok?
    ensures var (qs, u) := Params(t, ps).value;
      && Extends(t, u)
      && forall i | 0 <= i < |ps| ::
        if ps[i].Identifier? then ps[i].name in u.names && qs[i] == Identifier(u.names[ps[i].name])
        else qs[i] == ps[i]
    decreases |ps|
  {
    if ps != [] {
      var n := |ps| - 1;
      ParamsRenamed(t, ps[..n]);
      var (front, v) := Params(t, ps[..n]).value;
      var (qs, u) := Params(t, ps).value;
      assert Extends(v, u);
      assert qs[..n] == front;
      forall i | 0 <= i < n
        ensures if ps[i].Identifier? then ps[i].name in u.names && qs[i] == Identifier(u.names[ps[i].name]) else qs[i] == ps[i]
      {
        assert ps[..n][i] == ps[i] && qs[i] == front[i];
      }
    }
  }

  /** Renaming parameters keeps a scope valid. */
  lemma {:induction false} ParamsValid(t: Table, ps: seq<Node>)
    requires Valid(t) && forall p | p in ps && p.Identifier? :: Plain(p.name)
    ensures Params(t, ps).Ok? ==> Valid(Params(t, ps).value.1)
    decreases |ps|
  {
    if ps != [] {
      var n := |ps| - 1;
      assert forall p | p in ps[..n] :: p in ps;
      ParamsValid(t, ps[..n]);
    }
  }

  /** A walk only adds to its scope; from a valid scope, over names the
      scope can hold, it ends in a valid scope: one name, one new name,
      and no new name shared. */
  lemma {:induction false} ResolveKeeps(t: Table, n: Node)
    ensures Resolve(t, n).Ok? ==> Extends(t, Resolve(t, n).value.1)
    ensures Resolve(t, n).Ok? && Valid(t) && Renamable(n) ==> Valid(Resolve(t, n).value.1)
    decreases n
  {
    if n.FunctionDeclaration? && Params(t, n.params).Ok? && n.body.BlockStatement? {
      var u := Params(t, n.params).value.1;
      ParamsRenamed(t, n.params);
      if Valid(t) && Renamable(n) {
        ParamsValid(t, n.params);
      }
      RunKeeps(u, n.body.statements);
      if Run(u, n.body.statements).Ok? {
        ExtendsTrans(t, u, Run(u, n.body.statements).value.1);
      }
    } else if n.ReturnStatement? {
      ResolveKeeps(t, n.argument);
    }
  }

  /** `ResolveKeeps` over statements visited in order. */
  lemma {:induction false} RunKeeps(t: Table, ss: seq<Node>)
    ensures Run(t, ss).Ok? ==> Extends(t, Run(t, ss).value.1)
    ensures Run(t, ss).Ok? && Valid(t) && (forall s | s in ss :: Renamable(s)) ==> Valid(Run(t, ss).value.1)
    decreases ss
  {
    if ss != [] {
      var n := |ss| - 1;
      RunKeeps(t, ss[..n]);
      if Run(t, ss[..n]).Ok? {
        var u := Run(t, ss[..n]).value.1;
        ResolveKeeps(u, ss[n]);
        if Resolve(u, ss[n]).Ok? {
          var w := Resolve(u, ss[n]).value.1;
          assert Run(t, ss).value.1 == w;
          ExtendsTrans(t, u, w);
          if Valid(t) && forall s | s in ss :: Renamable(s) {
            assert forall s | s in ss[..n] :: s in ss;
            assert ss[n] in ss;
          }
        }
      }
    }
  }

  /** `Missing method <type>` only ever names a node type that has no
      resolver, however deep the node that carries it. */
  lemma {:induction false} MissingOnlyUnhandled(t: Table, n: Node)
    ensures Resolve(t, n).Err? && Resolve(t, n).error.MissingMethod? ==> Resolve(t, n).error.nodeType !in Handled
    decreases n
  {
    if n.FunctionDeclaration? && Params(t, n.params).Ok? && n.body.BlockStatement? {
      RunMissingOnlyUnhandled(Params(t, n.params).value.1, n.body.statements);
    } else if n.ReturnStatement? {
      MissingOnlyUnhandled(t, n.argument);
    }
  }

  /** `MissingOnlyUnhandled` over statements visited in order. */
  lemma {:induction false} RunMissingOnlyUnhandled(t: Table, ss: seq<Node>)
    ensures Run(t, ss).Err? && Run(t, ss).error.MissingMethod? ==> Run(t, ss).error.nodeType !in Handled
    decreases ss
  {
    if ss != [] {
      var n := |ss| - 1;
      RunMissingOnlyUnhandled(t, ss[..n]);
      if Run(t, ss[..n]).Ok? {
        MissingOnlyUnhandled(Run(t, ss[..n]).value.1, ss[n]);
      }
    }
  }

  /** A function that returns a literal cannot be resolved. */
  lemma ReturnLiteral(t: Table, v: Value)
    ensures Resolve(t, ReturnStatement(Literal(v))) == Err(MissingMethod("Literal"))
  {
    assert Resolve(t, Literal(v)) == Err(MissingMethod("Literal"));
  }

  /** Calls and declarations leave the scope as it was. */
  lemma ReadOnlyNodes(t: Table, n: Node)
    requires n.CallExpression? || n.Variable? || n.VariableDeclaration?
    ensures Resolve(t, n).Ok? ==> Resolve(t, n).value.1 == t
    ensures n.Variable? || n.VariableDeclaration? ==> Resolve(t, n) == Ok((n, t))
  {
  }

  /** A call renames only its identifier arguments and the identifier
      object of a member callee, each to its mapping if it has one. */
  lemma CallRenames(names: map<string, string>, n: Node)
    requires n.CallExpression? && Call(names, n).Ok?
    ensures forall i | 0 <= i < |n.arguments| ::
      Call(names, n).value.arguments[i] == Renamed(names, n.arguments[i])
    ensures Call(names, n).value.callee ==
      if n.callee.MemberExpression? && n.callee.obj.Identifier? then
        MemberExpression(Identifier(OptionalName(names, n.callee.obj.name)), n.callee.property, n.callee.computed)
      else n.callee
  {
    CollectOk(ArgOf(names), n.arguments);
  }

  /** An assignment to an identifier renames it as `replaceName` does,
      allocating if the name is new. */
  lemma AssignmentRenames(t: Table, n: Node)
    requires n.AssignmentExpression? && n.left.Identifier?
    ensures var (x, u) := Replace(t, n.left.name);
      Resolve(t, n) == Ok((AssignmentExpression(Identifier(x), n.right), u))
  {
  }

  /** A function's parameters are renamed first, in a scope extended only
      by them, and its body statements are then visited in that scope. */
  lemma FunctionOrder(t: Table, n: Node)
    requires n.FunctionDeclaration? && n.body.BlockStatement? && Resolve(t, n).Ok?
    ensures Params(t, n.params).Ok?
    ensures var p := Params(t, n.params).value;
      && Run(p.1, n.body.statements).Ok?
      && Resolve(t, n).value.0.params == p.0
      && Resolve(t, n).value.0.body == BlockStatement(Run(p.1, n.body.statements).value.0)
  {
  }

  /** Visiting one more statement adds its result. */
  lemma RunSnoc(t: Table, ss: seq<Node>, i: nat, done: seq<Node>, u: Table, s: Node, w: Table)
    requires i < |ss| && Run(t, ss[..i]) == Ok((done, u)) && Resolve(u, ss[i]) == Ok((s, w))
    ensures Run(t, ss[..i + 1]) == Ok((done + [s], w))
  {
    assert ss[..i + 1][..i] == ss[..i];
  }

  /** A failure among the first `k` statements is the failure of them all. */
  lemma {:induction false} RunPrefixErr(t: Table, ss: seq<Node>, k: nat)
    requires k <= |ss| && Run(t, ss[..k]).Err?
    ensures Run(t, ss) == Run(t, ss[..k])
    decreases |ss|
  {
    if k < |ss| {
      var n := |ss| - 1;
      assert ss[..n][..k] == ss[..k];
      RunPrefixErr(t, ss[..n], k);
    } else {
      assert ss[..k] == ss;
    }
  }

  /** The first statement that fails decides the failure of the run. */
  lemma RunStop(t: Table, ss: seq<Node>, i: nat, u: Table)
    requires i < |ss| && Run(t, ss[..i]).Ok? && Run(t, ss[..i]).value.1 == u && Resolve(u, ss[i]).Err?
    ensures Run(t, ss) == Err(Resolve(u, ss[i]).error)
  {
    assert ss[..i + 1][..i] == ss[..i];
    RunPrefixErr(t, ss, i + 1);
  }

  /** One more parameter adds its result. */
  lemma ParamsSnoc(t: Table, ps: seq<Node>, i: nat)
    requires i < |ps|
    ensures Params(t, ps[..i + 1]) ==
      var front :- Params(t, ps[..i]);
      if ps[i].Undefined? then Err(NotANode("type"))
      else if ps[i].Identifier? then
        var (x, u) := Replace(front.1, ps[i].name);
        Ok((front.0 + [Identifier(x)], u))
      else Ok((front.0 + [ps[i]], front.1))
  {
    assert ps[..i + 1][..i] == ps[..i];
  }

  /** A failure among the first `k` parameters is the failure of them all. */
  lemma {:induction false} ParamsPrefixErr(t: Table, ps: seq<Node>, k: nat)
    requires k <= |ps| && Params(t, ps[..k]).Err?
    ensures Params(t, ps) == Params(t, ps[..k])
    decreases |ps|
  {
    if k < |ps| {
      var n := |ps| - 1;
      assert ps[..n][..k] == ps[..k];
      ParamsPrefixErr(t, ps[..n], k);
    } else {
      assert ps[..k] == ps;
    }
  }

  // ---------------------------------------------------------------------
  // Files and decks, as values

  /** `(output ?? {}).task || []`. */
  function TasksOf(c: Make.Compiled): seq<Node> {
    if c.output.Some? then c.output.value.task else []
  }

  /** `(output ?? {}).call || []`. */
  function CallsOf(c: Make.Compiled): seq<Node> {
    if c.output.Some? && c.output.value.call.Some? then c.output.value.call.value else []
  }

  /** A task, walked in its own copy of the scope. */
  function Task(t: Table, n: Node): Result<Node> {
    Nodes(Resolve(t, n))
  }

  /** A native file's registration holds the very nodes of its output, so
      renaming the output renames the registration too. */
  predicate Aliased(c: Make.Compiled) {
    && c.output.Some? && c.output.value.call.Some?
    && |c.output.value.task| == |c.original.task|
    && c.bound == Some(Native.DockBound(c.original.road, c.output.value.call.value, c.original.task, c.output.value.task))
  }

  /** The record with its output's nodes replaced by their walked forms. */
  function Rewrite(c: Make.Compiled, calls: seq<Node>, tasks: seq<Node>): (r: Make.Compiled)
    requires c.output.Some? ==> |tasks| == |c.output.value.task|
    ensures r.original == c.original && r.imports == c.imports && r.names == c.names && r.index == c.index
    ensures r.bindings == c.bindings && r.required == c.required
    ensures r.output.Some? <==> c.output.Some?
    ensures c.output.Some? ==> TasksOf(r) == tasks
    ensures c.output.Some? && c.output.value.call.Some? ==> CallsOf(r) == calls
    ensures Aliased(c) ==> Aliased(r)
    ensures !Aliased(c) ==> r.bound == c.bound
  {
    if c.output.None? then c
    else
      var call := if c.output.value.call.Some? then Some(calls) else None;
      var bound := if Aliased(c) then Some(Native.DockBound(c.original.road, calls, c.original.task, tasks)) else c.bound;
      c.(output := Some(Make.Output(tasks, call)), bound := bound)
  }

  /** One file: its top-level statements in one scope starting at 1, then
      each task in a copy of the scope the statements leave. */
  function ResolvedFile(c: Make.Compiled): (r: Result<Make.Compiled>)
    ensures r.Ok? ==> r.value.original == c.original && r.value.imports == c.imports
    ensures r.Ok? ==> (r.value.output.Some? <==> c.output.Some?)
  {
    var calls :- Run(Start, CallsOf(c));
    var tasks :- Collect((n: Node) => Task(calls.1, n), TasksOf(c));
    Ok(Rewrite(c, calls.0, tasks))
  }

  /** Each task is walked from the scope the top-level statements leave,
      whatever its sibling tasks allocate: task `i` of the result depends
      only on that scope and task `i` of the input. */
  lemma {:induction false} TasksIsolated(c: Make.Compiled, i: nat)
    requires c.output.Some? && ResolvedFile(c).Ok? && i < |TasksOf(c)|
    ensures Run(Start, CallsOf(c)).Ok?
    ensures var post := Run(Start, CallsOf(c)).value.1;
      Resolve(post, TasksOf(c)[i]).Ok? && TasksOf(ResolvedFile(c).value)[i] == Resolve(post, TasksOf(c)[i]).value.0
  {
    var post := Run(Start, CallsOf(c)).value.1;
    CollectOk((n: Node) => Task(post, n), TasksOf(c));
  }

  /** Every scope a file's walk reaches is valid: the top-level scope and
      each task's copy map distinct names to distinct generated names. */
  lemma {:induction false} FileScopesValid(c: Make.Compiled, i: nat)
    requires forall s | s in CallsOf(c) :: Renamable(s)
    requires i < |TasksOf(c)| && Renamable(TasksOf(c)[i])
    requires Run(Start, CallsOf(c)).Ok?
    ensures var post := Run(Start, CallsOf(c)).value.1;
      && Valid(post)
      && (Resolve(post, TasksOf(c)[i]).Ok? ==> Valid(Resolve(post, TasksOf(c)[i]).value.1))
  {
    StartValid();
    RunKeeps(Start, CallsOf(c));
    ResolveKeeps(Run(Start, CallsOf(c)).value.1, TasksOf(c)[i]);
  }

  /** Every file named in `order`, in that order; the first failure stops
      the walk. */
  function ResolvedFiles(files: map<string, Make.Compiled>, order: seq<string>): (r: Result<map<string, Make.Compiled>>)
    ensures r.Ok? ==> r.value.Keys == files.Keys
    decreases |order|
  {
    if order == [] then Ok(files)
    else
      var n := |order| - 1;
      var front :- ResolvedFiles(files, order[..n]);
      var k := order[n];
      if k !in front then Ok(front)
      else
        var c :- ResolvedFile(front[k]);
        Ok(front[k := c])
  }

  /** With the order listing every file once, the files are walked
      independently: the walk succeeds exactly when every file does, and
      each file ends as its own walk leaves it. */
  lemma {:induction false} FilesIndependent(files: map<string, Make.Compiled>, order: seq<string>)
    requires forall i, j | 0 <= i < j < |order| :: order[i] != order[j]
    requires forall k | k in order :: k in files
    ensures ResolvedFiles(files, order).Ok? <==> forall k | k in order :: ResolvedFile(files[k]).Ok?
    ensures ResolvedFiles(files, order).Ok? ==> forall k | k in files ::
      ResolvedFiles(files, order).value[k] == if k in order then ResolvedFile(files[k]).value else files[k]
    decreases |order|
  {
    if order != [] {
      var n := |order| - 1;
      var pre, k := order[..n], order[n];
      assert order == pre + [k];
      assert forall x :: x in order <==> x in pre || x == k;
      FilesIndependent(files, pre);
      forall i | 0 <= i < n ensures pre[i] != k {
        assert pre[i] == order[i];
      }
      var front := ResolvedFiles(files, pre);
      if front.Ok? {
        assert front.value[k] == files[k];
        if ResolvedFile(files[k]).Ok? {
          assert ResolvedFiles(files, order) == Ok(front.value[k := ResolvedFile(files[k]).value]);
        } else {
          assert ResolvedFiles(files, order).Err?;
        }
      } else {
        var x :| x in pre && ResolvedFile(files[x]).Err?;
        assert ResolvedFiles(files, order).Err?;
      }
    }
  }

  // ---------------------------------------------------------------------
  // The walk on a scope object

  /** A scope object: the counter and the names handed out. */
  class Scope {
    var index: nat
    var names: map<string, string>

    function State(): Table
      reads this
    {
      Table(index, names)
    }

    /** `{ index: 1 }`. */
    constructor ()
      ensures State() == Start
    {
      index := 1;
      names := map[];
    }

    /** `{ ...scope }`: a copy that later changes do not share. */
    constructor Copy(s: Scope)
      ensures State() == s.State()
    {
      index := s.index;
      names := s.names;
    }
  }

  /** `replaceName`: the new name of `name` in the scope, allocating one if
      there is none. */
  method ReplaceName(name: string, scope: Scope) returns (newName: string)
    modifies scope
    ensures (newName, scope.State()) == Replace(old(scope.State()), name)
  {
    if name in scope.names {
      newName := scope.names[name];
    } else {
      newName := Make.Tag(scope.index);
      scope.names := scope.names[name := newName];
      scope.index := scope.index + 1;
    }
  }

  /** `optionallyReplaceName`: the scope is only read. */
  method OptionallyReplaceName(name: string, scope: Scope) returns (newName: string)
    ensures newName == OptionalName(scope.names, name)
  {
    newName := name;
    if name in scope.names {
      newName := scope.names[name];
    }
  }

  /** `resolve_FunctionDeclaration`'s parameter loop. */
  method ResolveParams(ps: seq<Node>, scope: Scope) returns (r: Result<seq<Node>>)
    modifies scope
    ensures r == Nodes(Params(old(scope.State()), ps))
    ensures r.Ok? ==> scope.State() == Params(old(scope.State()), ps).value.1
  {
    ghost var t := scope.State();
    var done: seq<Node> := [];
    var i := 0;
    while i < |ps|
      invariant i <= |ps|
      invariant Params(t, ps[..i]) == Ok((done, scope.State()))
    {
      ParamsSnoc(t, ps, i);
      var p := ps[i];
      if p.Undefined? {
        ParamsPrefixErr(t, ps, i + 1);
        return Err(NotANode("type"));
      }
      if p.Identifier? {
        var x := ReplaceName(p.name, scope);
        done := done + [Identifier(x)];
      } else {
        done := done + [p];
      }
      i := i + 1;
    }
    assert ps[..i] == ps;
    r := Ok(done);
  }

  /** `resolve_CallExpression`: it has no way to change the scope. */
  method ResolveCall(n: Node, scope: Scope) returns (r: Result<Node>)
    requires n.CallExpression?
    ensures r == Call(scope.names, n)
  {
    ghost var arg := ArgOf(scope.names);
    var args: seq<Node> := [];
    var i := 0;
    while i < |n.arguments|
      invariant i <= |n.arguments|
      invariant Collect(arg, n.arguments[..i]) == Ok(args)
    {
      var a := n.arguments[i];
      if a.Undefined? {
        CollectStop(arg, n.arguments, i);
        return Err(NotANode("type"));
      }
      var b := a;
      if a.Identifier? {
        var x := OptionallyReplaceName(a.name, scope);
        b := Identifier(x);
      }
      CollectSnoc(arg, n.arguments, i, args, b);
      args := args + [b];
      i := i + 1;
    }
    assert n.arguments[..i] == n.arguments;
    var callee := n.callee;
    if callee.Undefined? {
      return Err(NotANode("type"));
    }
    if callee.MemberExpression? {
      if callee.obj.Undefined? {
        return Err(NotANode("name"));
      }
      if callee.obj.Identifier? {
        var x := OptionallyReplaceName(callee.obj.name, scope);
        callee := MemberExpression(Identifier(x), callee.property, callee.computed);
      }
    }
    r := Ok(CallExpression(callee, args, n.await));
  }

  /** `resolve_FunctionDeclaration`: the parameters, then the body. */
  method ResolveFunction(n: Node, scope: Scope) returns (r: Result<Node>)
    requires n.FunctionDeclaration?
    modifies scope
    ensures r == Nodes(Handle(old(scope.State()), n))
    ensures r.Ok? ==> scope.State() == Handle(old(scope.State()), n).value.1
    decreases n, 0
  {
    var params := ResolveParams(n.params, scope);
    if params.Err? {
      return Err(params.error);
    }
    if !n.body.BlockStatement? {
      return Err(NotANode("body"));
    }
    var stmts := ResolveRun(n.body.statements, scope);
    if stmts.Err? {
      return Err(stmts.error);
    }
    r := Ok(FunctionDeclaration(n.ident, params.value, BlockStatement(stmts.value), n.async));
  }

  /** `call(resolvers, node.type, node, scope)`: the resolver for the
      node's type, if the table has one. */
  method ResolveNode(n: Node, scope: Scope) returns (r: Result<Node>)
    modifies scope
    ensures r == Nodes(Resolve(old(scope.State()), n))
    ensures r.Ok? ==> scope.State() == Resolve(old(scope.State()), n).value.1
    decreases n, 2
  {
    var ty := TypeName(n);
    if ty.None? {
      return Err(NotANode("type"));
    }
    if ty.value !in Handled {
      return Err(MissingMethod(ty.value));
    }
    r := HandleNode(n, scope);
  }

  /** The resolvers table. */
  method HandleNode(n: Node, scope: Scope) returns (r: Result<Node>)
    modifies scope
    ensures r == Nodes(Handle(old(scope.State()), n))
    ensures r.Ok? ==> scope.State() == Handle(old(scope.State()), n).value.1
    decreases n, 1
  {
    if n.FunctionDeclaration? {
      r := ResolveFunction(n, scope);
    } else if n.CallExpression? {
      r := ResolveCall(n, scope);
    } else if n.ReturnStatement? {
      var a := ResolveNode(n.argument, scope);
      if a.Err? {
        return Err(a.error);
      }
      r := Ok(ReturnStatement(a.value));
    } else if n.AssignmentExpression? {
      if n.left.Undefined? {
        return Err(NotANode("type"));
      }
      r := Ok(n);
      if n.left.Identifier? {
        var x := ReplaceName(n.left.name, scope);
        r := Ok(AssignmentExpression(Identifier(x), n.right));
      }
    } else {
      r := Ok(n);
    }
  }

  /** Statements visited in order with one scope. */
  method ResolveRun(ss: seq<Node>, scope: Scope) returns (r: Result<seq<Node>>)
    modifies scope
    ensures r == Nodes(Run(old(scope.State()), ss))
    ensures r.Ok? ==> scope.State() == Run(old(scope.State()), ss).value.1
    decreases ss, 0
  {
    ghost var t := scope.State();
    var done: seq<Node> := [];
    var i := 0;
    while i < |ss|
      invariant i <= |ss|
      invariant Run(t, ss[..i]) == Ok((done, scope.State()))
    {
      ghost var u := scope.State();
      var s := ResolveNode(ss[i], scope);
      if s.Err? {
        RunStop(t, ss, i, u);
        return Err(s.error);
      }
      RunSnoc(t, ss, i, done, u, s.value, scope.State());
      done := done + [s.value];
      i := i + 1;
    }
    assert ss[..i] == ss;
    r := Ok(done);
  }

  /** The body of `resolve`'s per-file callback. */
  method ResolveFile(c: Make.Compiled) returns (r: Result<Make.Compiled>)
    ensures r == ResolvedFile(c)
  {
    var tasks := TasksOf(c);
    var scope := new Scope();
    var calls := ResolveRun(CallsOf(c), scope);
    if calls.Err? {
      return Err(calls.error);
    }
    ghost var post := scope.State();
    ghost var task := (n: Node) => Task(post, n);
    var done: seq<Node> := [];
    var i := 0;
    while i < |tasks|
      invariant i <= |tasks|
      invariant scope.State() == post
      invariant Collect(task, tasks[..i]) == Ok(done)
    {
      var copy := new Scope.Copy(scope);
      var t := ResolveNode(tasks[i], copy);
      if t.Err? {
        CollectStop(task, tasks, i);
        return Err(t.error);
      }
      CollectSnoc(task, tasks, i, done, t.value);
      done := done + [t.value];
      i := i + 1;
    }
    assert tasks[..i] == tasks;
    r := Ok(Rewrite(c, calls.value, done));
  }

  /** One more file adds its walked form. */
  lemma FilesAdd(files: map<string, Make.Compiled>, order: seq<string>, i: nat, m: map<string, Make.Compiled>, c: Make.Compiled)
    requires i < |order| && ResolvedFiles(files, order[..i]) == Ok(m)
    requires order[i] in m && ResolvedFile(m[order[i]]) == Ok(c)
    ensures ResolvedFiles(files, order[..i + 1]) == Ok(m[order[i] := c])
  {
    assert order[..i + 1][..i] == order[..i];
  }

  /** A failure among the first `k` files is the failure of them all. */
  lemma {:induction false} FilesPrefixErr(files: map<string, Make.Compiled>, order: seq<string>, k: nat)
    requires k <= |order| && ResolvedFiles(files, order[..k]).Err?
    ensures ResolvedFiles(files, order) == ResolvedFiles(files, order[..k])
    decreases |order|
  {
    if k < |order| {
      var n := |order| - 1;
      assert order[..n][..k] == order[..k];
      FilesPrefixErr(files, order[..n], k);
    } else {
      assert order[..k] == order;
    }
  }

  /** The first file that fails decides the failure of the walk. */
  lemma FilesStop(files: map<string, Make.Compiled>, order: seq<string>, i: nat, m: map<string, Make.Compiled>)
    requires i < |order| && ResolvedFiles(files, order[..i]) == Ok(m)
    requires order[i] in m && ResolvedFile(m[order[i]]).Err?
    ensures ResolvedFiles(files, order) == Err(ResolvedFile(m[order[i]]).error)
  {
    assert order[..i + 1][..i] == order[..i];
    FilesPrefixErr(files, order, i + 1);
  }

  /** `resolve(compiledDeck)`: every compiled file, in the order the files
      were compiled. */
  method ResolveDeck(d: LibTranspile.CompiledDeck) returns (r: Result<()>)
    requires DeckWalk.Keyed(d.files, d.order)
    modifies d
    ensures d.order == old(d.order) && d.originalDeck == old(d.originalDeck)
    ensures r.Ok? <==> ResolvedFiles(old(d.files), d.order).Ok?
    ensures r.Err? ==> r.error == ResolvedFiles(old(d.files), d.order).error
    ensures r.Ok? ==> d.files == ResolvedFiles(old(d.files), d.order).value
  {
    var order := d.order;
    var files := d.files;
    var i := 0;
    while i < |order|
      invariant unchanged(d) && i <= |order| && files.Keys == d.files.Keys
      invariant ResolvedFiles(d.files, order[..i]) == Ok(files)
    {
      var k := order[i];
      assert k in order;
      var c := ResolveFile(files[k]);
      if c.Err? {
        FilesStop(d.files, order, i, files);
        return Err(c.error);
      }
      FilesAdd(d.files, order, i, files, c.value);
      files := files[k := c.value];
      i := i + 1;
    }
    assert order[..i] == order;
    d.files := files;
    r := Ok(());
  }

  /** A deck the library compiler produced lists each file once, so
      walking it resolves every file on its own. */
  lemma CompiledDeckIndependent(files: map<string, Make.Compiled>, order: seq<string>)
    requires DeckWalk.Keyed(files, order)
    ensures ResolvedFiles(files, order).Ok? ==> forall k | k in files ::
      ResolvedFile(files[k]).Ok? && ResolvedFiles(files, order).value[k] == ResolvedFile(files[k]).value
  {
    FilesIndependent(files, order);
  }

  /** A compiled native file's registration holds its output's nodes. */
  lemma CompiledDockAliased(join: Make.Join, f: File)
    requires f.mint.DockTaskFile? && LibTranspile.CompileFile(join, f).Ok?
    ensures Aliased(LibTranspile.CompileFile(join, f).value)
  {
  }
}

=== FILE: term_store.dfy ===
/** The fork tree the root compiler (index.js) allocates generated names
    from.  A fork is a scope: it points at its parent (`base`), remembers its
    latest child (`head`), owns a host-name table, and - only at the root of
    a file - a file-import table and a call-slot table.  Each table maps a
    source name to a mark and keeps the counter (`mark`) the next mark comes
    from.  Forks live in an arena; a fork's id is its position. */
module TermStore {
  import opened Wrappers
  import Decimal
  import Deck

  datatype Table = Table(term: map<string, nat>, mark: nat)

  /** What a fork can hold under a key (`setForkBond`). */
  datatype Slot = TaskSlot(task: Deck.Task) | FormSlot(form: Deck.Form) | FileSlot(file: Deck.File) | UndefinedSlot

  datatype Fork = Fork(
    base: Option<nat>, head: Option<nat>,
    host: Table, file: Option<Table>, call: Option<Table>,
    own: map<string, Slot>)

  type Forks = seq<Fork>

  /** The two tables names are looked up in along the parent chain. */
  datatype Space = HostSpace | FileSpace

  const EmptyTable := Table(map[], 0)

  /** Every mark below the counter, and no two names share a mark. */
  ghost predicate Sane(t: Table) {
    && (forall k | k in t.term :: t.term[k] < t.mark)
    && (forall a, b | a in t.term && b in t.term && a != b :: t.term[a] != t.term[b])
  }

  ghost predicate ForkOk(fs: Forks, i: nat)
    requires i < |fs|
  {
    var k := fs[i];
    && (k.base.Some? ==> k.base.value < i)
    && (k.base.None? <==> k.file.Some?)
    && (k.base.None? <==> k.call.Some?)
    && (k.head.Some? ==> k.head.value < |fs|)
    && Sane(k.host)
    && (k.file.Some? ==> Sane(k.file.value))
    && (k.call.Some? ==> Sane(k.call.value))
  }

  /** Parents precede children, exactly the roots own file and call tables,
      and every table is sane. */
  ghost predicate Valid(fs: Forks) {
    forall i | 0 <= i < |fs| :: ForkOk(fs, i)
  }

  ghost predicate Ready(fs: Forks, f: nat) {
    Valid(fs) && f < |fs|
  }

  /** Growth that keeps every existing fork's parent and whether it owns a
      call table. */
  ghost predicate Keeps(fs: Forks, gs: Forks) {
    && |fs| <= |gs|
    && forall j | 0 <= j < |fs| :: gs[j].base == fs[j].base && (gs[j].call.Some? <==> fs[j].call.Some?)
  }

  /** File names are only ever requested at a root. */
  ghost predicate Walkable(fs: Forks, f: nat, sp: Space)
    requires f < |fs|
  {
    sp == HostSpace || (fs[f].base.None? && fs[f].file.Some?)
  }

  function TableOf(k: Fork, sp: Space): Option<Table> {
    match sp
    case HostSpace => Some(k.host)
    case FileSpace => k.file
  }

  function WithTable(k: Fork, sp: Space, t: Table): (r: Fork)
    ensures TableOf(r, sp) == Some(t)
    ensures r.base == k.base && r.head == k.head && r.call == k.call && r.own == k.own
    ensures sp == HostSpace ==> r.file == k.file
    ensures sp == FileSpace ==> r.host == k.host
  {
    match sp
    case HostSpace => k.(host := t)
    case FileSpace => k.(file := Some(t))
  }

  /** A name's mark as seen from fork `f`: the first table along the parent
      chain that has it. */
  function Lookup(fs: Forks, f: nat, sp: Space, name: string): Option<nat>
    requires Ready(fs, f) && Walkable(fs, f, sp)
    decreases f
  {
    assert ForkOk(fs, f);
    var t := TableOf(fs[f], sp).value;
    if name in t.term then Some(t.term[name])
    else if fs[f].base.None? then None
    else Lookup(fs, fs[f].base.value, sp, name)
  }

  /** The root a fork's chain ends at, which owns the call-slot table. */
  function Owner(fs: Forks, f: nat): (o: nat)
    requires Ready(fs, f)
    ensures o <= f && fs[o].base.None? && fs[o].call.Some?
    decreases f
  {
    assert ForkOk(fs, f);
    if fs[f].call.Some? then f else Owner(fs, fs[f].base.value)
  }

  /** The number of call slots handed out so far in `f`'s file. */
  function CallCount(fs: Forks, f: nat): nat
    requires Ready(fs, f)
    decreases f
  {
    assert ForkOk(fs, f);
    if fs[f].call.Some? then fs[f].call.value.mark else CallCount(fs, fs[f].base.value)
  }

  /** The call count is the counter of the owning root's call table. */
  lemma {:induction false} CallCountOwner(fs: Forks, f: nat)
    requires Ready(fs, f)
    ensures CallCount(fs, f) == fs[Owner(fs, f)].call.value.mark
    decreases f
  {
    assert ForkOk(fs, f);
    if fs[f].call.None? {
      CallCountOwner(fs, fs[f].base.value);
    }
  }

  lemma InsertFresh(t: Table, name: string)
    requires Sane(t)
    ensures Sane(Table(t.term[name := t.mark], t.mark + 1))
  {
  }

  /** `getForkTermTree`: a name already visible keeps its mark and nothing
      changes; a new name gets the requesting fork's counter, in the
      requesting fork's own table only. */
  function TermTree(fs: Forks, f: nat, sp: Space, name: string): (r: (Forks, nat))
    requires Ready(fs, f) && Walkable(fs, f, sp)
    ensures Valid(r.0) && |r.0| == |fs| && Keeps(fs, r.0)
    ensures forall j | 0 <= j < |fs| :: r.0[j].call == fs[j].call
    ensures Lookup(fs, f, sp, name).Some? ==> r == (fs, Lookup(fs, f, sp, name).value)
    ensures Lookup(fs, f, sp, name).None? ==>
      var t := TableOf(fs[f], sp).value;
      && r.1 == t.mark
      && r.0[f] == WithTable(fs[f], sp, Table(t.term[name := t.mark], t.mark + 1))
      && (forall j | 0 <= j < |fs| && j != f :: r.0[j] == fs[j])
    ensures Lookup(r.0, f, sp, name) == Some(r.1)
  {
    match Lookup(fs, f, sp, name)
    case Some(m) => (fs, m)
    case None =>
      assert ForkOk(fs, f);
      var t := TableOf(fs[f], sp).value;
      InsertFresh(t, name);
      var fs' := fs[f := WithTable(fs[f], sp, Table(t.term[name := t.mark], t.mark + 1))];
      assert ForkOk(fs', f);
      assert forall i | 0 <= i < |fs'| :: ForkOk(fs', i) by {
        forall i | 0 <= i < |fs'| ensures ForkOk(fs', i) {
          if i != f { assert ForkOk(fs, i); }
        }
      }
      (fs', t.mark)
  }

  /** `getForkTermBase`: every request takes the next call slot of the
      file's root, even for a name that already has one. */
  function TermBase(fs: Forks, f: nat, name: string): (r: (Forks, nat))
    requires Ready(fs, f)
    ensures Valid(r.0) && |r.0| == |fs| && Keeps(fs, r.0)
    ensures r.1 == CallCount(fs, f)
    ensures var o := Owner(fs, f);
      && r.0[o] == fs[o].(call := Some(Table(fs[o].call.value.term[name := r.1], r.1 + 1)))
      && (forall j | 0 <= j < |fs| && j != o :: r.0[j] == fs[j])
  {
    var o := Owner(fs, f);
    CallCountOwner(fs, f);
    assert ForkOk(fs, o);
    var t := fs[o].call.value;
    InsertFresh(t, name);
    var fs' := fs[o := fs[o].(call := Some(Table(t.term[name := t.mark], t.mark + 1)))];
    assert ForkOk(fs', o);
    assert forall i | 0 <= i < |fs'| :: ForkOk(fs', i) by {
      forall i | 0 <= i < |fs'| ensures ForkOk(fs', i) {
        if i != o { assert ForkOk(fs, i); }
      }
    }
    (fs', t.mark)
  }

  const RootFork := Fork(None, None, EmptyTable, Some(EmptyTable), Some(EmptyTable), map[])

  /** `createNewFork`: a root starts with empty tables and zero counters; a
      child copies its parent's host table and counter, and becomes the
      parent's `head`. */
  function NewFork(fs: Forks, parent: Option<nat>): (r: (Forks, nat))
    requires Valid(fs) && (parent.Some? ==> parent.value < |fs|)
    ensures Valid(r.0) && r.1 == |fs| && |r.0| == |fs| + 1 && Keeps(fs, r.0)
    ensures forall j | 0 <= j < |fs| :: r.0[j].call == fs[j].call
    ensures r.0[r.1].call.None? <==> parent.Some?
    ensures r.0[r.1].base == parent && r.0[r.1].own == map[] && r.0[r.1].head.None?
    ensures parent.None? ==> r.0 == fs + [RootFork]
    ensures parent.Some? ==>
      var p := parent.value;
      && r.0[r.1].host == fs[p].host
      && r.0[p] == fs[p].(head := Some(r.1))
      && (forall j | 0 <= j < |fs| && j != p :: r.0[j] == fs[j])
  {
    match parent
    case None =>
      var fs' := fs + [RootFork];
      assert forall i | 0 <= i < |fs'| :: ForkOk(fs', i) by {
        forall i | 0 <= i < |fs'| ensures ForkOk(fs', i) {
          if i < |fs| { assert ForkOk(fs, i); }
        }
      }
      (fs', |fs|)
    case Some(p) =>
      assert ForkOk(fs, p);
      var child := Fork(Some(p), None, fs[p].host, None, None, map[]);
      var fs' := fs[p := fs[p].(head := Some(|fs|))] + [child];
      assert forall i | 0 <= i < |fs'| :: ForkOk(fs', i) by {
        forall i | 0 <= i < |fs'| ensures ForkOk(fs', i) {
          if i < |fs| { assert ForkOk(fs, i); }
        }
      }
      (fs', |fs|)
  }

  /** `getForkBond`: the nearest fork along the chain that owns the key. */
  function BondOf(fs: Forks, f: nat, key: string): Option<Slot>
    requires Ready(fs, f)
    decreases f
  {
    assert ForkOk(fs, f);
    if key in fs[f].own then Some(fs[f].own[key])
    else if fs[f].base.None? then None
    else BondOf(fs, fs[f].base.value, key)
  }

  /** `setForkBond`: stores under the fork's own key. */
  function SetBond(fs: Forks, f: nat, key: string, s: Slot): (r: Forks)
    requires Ready(fs, f)
    ensures Valid(r) && |r| == |fs| && Keeps(fs, r)
    ensures forall j | 0 <= j < |fs| :: r[j].call == fs[j].call
    ensures BondOf(r, f, key) == Some(s)
    ensures r[f] == fs[f].(own := fs[f].own[key := s])
    ensures forall j | 0 <= j < |fs| && j != f :: r[j] == fs[j]
  {
    var fs' := fs[f := fs[f].(own := fs[f].own[key := s])];
    assert forall i | 0 <= i < |fs'| :: ForkOk(fs', i) by {
      forall i | 0 <= i < |fs'| ensures ForkOk(fs', i) {
        assert ForkOk(fs, i);
      }
    }
    fs'
  }

  /** At a root, distinct names that are both present never share a mark. */
  lemma RootLookupInjective(fs: Forks, f: nat, sp: Space, a: string, b: string)
    requires Ready(fs, f) && Walkable(fs, f, sp) && fs[f].base.None?
    requires Lookup(fs, f, sp, a).Some? && Lookup(fs, f, sp, a) == Lookup(fs, f, sp, b)
    ensures a == b
  {
    assert ForkOk(fs, f);
  }

  /** Generated identifiers: host names start at `host_1`, file names at
      `file_2` (the source adds one and two to the mark). */
  function HostTerm(mark: nat): string { "host_" + Decimal.Show(mark + 1) }
  function FileTerm(mark: nat): string { "file_" + Decimal.Show(mark + 2) }

  lemma HostTermInjective(a: nat, b: nat)
    ensures HostTerm(a) == HostTerm(b) <==> a == b
  {
    if HostTerm(a) == HostTerm(b) { Decimal.PrefixedInjective("host_", a + 1, b + 1); }
  }

  lemma FileTermInjective(a: nat, b: nat)
    ensures FileTerm(a) == FileTerm(b) <==> a == b
  {
    if FileTerm(a) == FileTerm(b) { Decimal.PrefixedInjective("file_", a + 2, b + 2); }
  }

  /** Asking twice for the same name changes nothing the second time. */
  lemma TermTreeIdempotent(fs: Forks, f: nat, sp: Space, name: string)
    requires Ready(fs, f) && Walkable(fs, f, sp)
    ensures var r := TermTree(fs, f, sp, name); TermTree(r.0, f, sp, name) == r
  {
  }

  /** Allocating a name anywhere never changes what an already resolved
      name resolves to, from any fork. */
  lemma {:induction false} LookupPersists(fs: Forks, f: nat, sp: Space, name: string, k: nat, n: string)
    requires Ready(fs, f) && Walkable(fs, f, sp) && Ready(fs, k) && Walkable(fs, k, sp)
    requires Lookup(fs, k, sp, n).Some?
    ensures Walkable(TermTree(fs, f, sp, name).0, k, sp)
    ensures Lookup(TermTree(fs, f, sp, name).0, k, sp, n) == Lookup(fs, k, sp, n)
    decreases k
  {
    var r := TermTree(fs, f, sp, name).0;
    if Lookup(fs, f, sp, name).None? {
      assert ForkOk(fs, k);
      assert r[k].base == fs[k].base && r[k].file.Some? == fs[k].file.Some?;
      var t := TableOf(fs[k], sp).value;
      var t' := TableOf(r[k], sp).value;
      if n in t.term {
        if k == f { assert n != name; }
      } else {
        if k == f { assert n != name; }
        assert n !in t'.term;
        LookupPersists(fs, f, sp, name, fs[k].base.value, n);
      }
    }
  }

  /** Two lookups agree when every fork keeps its parent and its table;
      forks appended later do not matter. */
  lemma {:induction false} LookupSameTables(fs: Forks, gs: Forks, f: nat, sp: Space, name: string)
    requires Ready(fs, f) && Walkable(fs, f, sp) && Valid(gs) && |fs| <= |gs|
    requires forall j | 0 <= j < |fs| :: gs[j].base == fs[j].base && TableOf(gs[j], sp) == TableOf(fs[j], sp)
    ensures Walkable(gs, f, sp) && Lookup(gs, f, sp, name) == Lookup(fs, f, sp, name)
    decreases f
  {
    assert ForkOk(fs, f);
    if name !in TableOf(fs[f], sp).value.term && fs[f].base.Some? {
      LookupSameTables(fs, gs, fs[f].base.value, sp, name);
    }
  }

  /** A new scope sees every host name exactly as its parent does. */
  lemma ChildSeesParent(fs: Forks, p: nat, name: string)
    requires Ready(fs, p)
    ensures var r := NewFork(fs, Some(p));
      Lookup(r.0, r.1, HostSpace, name) == Lookup(fs, p, HostSpace, name)
  {
    var r := NewFork(fs, Some(p));
    assert ForkOk(fs, p);
    if name !in fs[p].host.term {
      LookupSameTables(fs, r.0, p, HostSpace, name);
    }
  }

  /** The root a fork belongs to depends only on the parent links and on
      which forks own call tables. */
  lemma {:induction false} OwnerKept(fs: Forks, gs: Forks, f: nat)
    requires Ready(fs, f) && Valid(gs) && Keeps(fs, gs)
    ensures Owner(gs, f) == Owner(fs, f)
    decreases f
  {
    assert ForkOk(fs, f);
    if fs[f].call.None? {
      OwnerKept(fs, gs, fs[f].base.value);
    }
  }

  /** The call count is unchanged by growth that leaves call tables alone. */
  lemma CallCountSame(fs: Forks, gs: Forks, f: nat)
    requires Ready(fs, f) && Valid(gs) && Keeps(fs, gs)
    requires forall j | 0 <= j < |fs| :: gs[j].call == fs[j].call
    ensures CallCount(gs, f) == CallCount(fs, f)
  {
    OwnerKept(fs, gs, f);
    CallCountOwner(fs, f);
    CallCountOwner(gs, f);
  }

  /** A fork without a call table shares its parent's call count. */
  lemma ChildCallCount(fs: Forks, child: nat, f: nat)
    requires Ready(fs, child) && fs[child].base == Some(f) && fs[child].call.None?
    ensures f < |fs| && CallCount(fs, child) == CallCount(fs, f)
  {
    assert ForkOk(fs, child);
  }

  /** Call slots are never reused: asking again for the same name yields the
      next slot. */
  lemma CallSlotsNeverReused(fs: Forks, f: nat, name: string)
    requires Ready(fs, f)
    ensures var (fs1, m1) := TermBase(fs, f, name);
      TermBase(fs1, f, name).1 == m1 + 1
  {
    var (fs1, m1) := TermBase(fs, f, name);
    OwnerKept(fs, fs1, f);
    CallCountOwner(fs1, f);
  }

  /** A child's counter is a copy, not a share: after the child allocates a
      name, its parent can hand the same mark to another name, and from the
      child both names then resolve to the same mark. */
  lemma CopiedCounterAliases()
    ensures var (fs1, c) := NewFork([RootFork], Some(0));
      var (fs2, m1) := TermTree(fs1, c, HostSpace, "a");
      var (fs3, m2) := TermTree(fs2, 0, HostSpace, "b");
      && m1 == m2 == 0
      && Lookup(fs3, c, HostSpace, "a") == Lookup(fs3, c, HostSpace, "b") == Some(0)
  {
    var (fs1, c) := NewFork([RootFork], Some(0));
    assert fs1[c].host == EmptyTable;
    assert Lookup(fs1, 0, HostSpace, "a") == None;
    assert Lookup(fs1, c, HostSpace, "a") == None;
    var (fs2, m1) := TermTree(fs1, c, HostSpace, "a");
    assert fs2[0] == fs1[0];
    assert Lookup(fs2, 0, HostSpace, "b") == None;
    var (fs3, m2) := TermTree(fs2, 0, HostSpace, "b");
    assert fs3[c] == fs2[c];
    assert "b" !in fs3[c].host.term;
    assert Lookup(fs3, 0, HostSpace, "b") == Some(0);
  }

  /** The fork arena as the compiler mutates it. */
  class Store {
    var forks: Forks

    constructor ()
      ensures forks == []
    {
      forks := [];
    }

    /** `createNewFork` */
    method CreateNewFork(parent: Option<nat>) returns (id: nat)
      requires Valid(forks) && (parent.Some? ==> parent.value < |forks|)
      modifies this
      ensures (forks, id) == NewFork(old(forks), parent)
    {
      id := |forks|;
      match parent {
        case None =>
          forks := forks + [RootFork];
        case Some(p) =>
          var child := Fork(Some(p), None, forks[p].host, None, None, map[]);
          forks := forks[p := forks[p].(head := Some(id))] + [child];
      }
    }

    /** `createBaseFork`: a root holding the file and an undefined `base`. */
    method CreateBaseFork(file: Deck.File) returns (id: nat)
      requires Valid(forks)
      modifies this
      ensures var (fs, r) := NewFork(old(forks), None);
        id == r && forks == SetBond(SetBond(fs, r, "file", FileSlot(file)), r, "base", UndefinedSlot)
      ensures BondOf(forks, id, "file") == Some(FileSlot(file))
      ensures Ready(forks, id) && Walkable(forks, id, FileSpace) && CallCount(forks, id) == 0
    {
      id := CreateNewFork(None);
      SetForkBond(id, "file", FileSlot(file));
      SetForkBond(id, "base", UndefinedSlot);
    }

    /** `setForkBond` */
    method SetForkBond(f: nat, key: string, s: Slot)
      requires Ready(forks, f)
      modifies this
      ensures forks == SetBond(old(forks), f, key, s)
    {
      forks := forks[f := forks[f].(own := forks[f].own[key := s])];
    }

    /** `getForkBond`: walks the parent chain. */
    method GetForkBond(f: nat, key: string) returns (r: Option<Slot>)
      requires Ready(forks, f)
      ensures r == BondOf(forks, f, key)
    {
      var b: Option<nat> := Some(f);
      while b.Some?
        invariant b.Some? ==> b.value < |forks| && BondOf(forks, b.value, key) == BondOf(forks, f, key)
        invariant b.None? ==> BondOf(forks, f, key).None?
        decreases if b.Some? then b.value + 1 else 0
      {
        assert ForkOk(forks, b.value);
        if key in forks[b.value].own {
          return Some(forks[b.value].own[key]);
        }
        b := forks[b.value].base;
      }
      return None;
    }

    /** `getForkTermTree`: walks the parent chain for the name, and on a
        miss allocates in the requesting fork. */
    method GetForkTermTree(f: nat, sp: Space, name: string) returns (mark: nat)
      requires Ready(forks, f) && Walkable(forks, f, sp)
      modifies this
      ensures (forks, mark) == TermTree(old(forks), f, sp, name)
    {
      var b: Option<nat> := Some(f);
      while b.Some?
        invariant b.Some? ==> b.value < |forks| && Walkable(forks, b.value, sp)
        invariant b.Some? ==> Lookup(forks, b.value, sp, name) == Lookup(forks, f, sp, name)
        invariant b.None? ==> Lookup(forks, f, sp, name).None?
        decreases if b.Some? then b.value + 1 else 0
      {
        assert ForkOk(forks, b.value);
        var t := TableOf(forks[b.value], sp).value;
        if name in t.term {
          return t.term[name];
        }
        b := forks[b.value].base;
      }
      var t := TableOf(forks[f], sp).value;
      mark := t.mark;
      forks := forks[f := WithTable(forks[f], sp, Table(t.term[name := mark], mark + 1))];
    }

    /** `getForkTermBase`: walks to the nearest fork with a call table and
        takes its next slot. */
    method GetForkTermBase(f: nat, name: string) returns (mark: nat)
      requires Ready(forks, f)
      modifies this
      ensures (forks, mark) == TermBase(old(forks), f, name)
    {
      var b: nat := f;
      while forks[b].call.None?
        invariant b < |forks| && Owner(forks, b) == Owner(forks, f)
        decreases b
      {
        assert ForkOk(forks, b);
        b := forks[b].base.value;
      }
      var t := forks[b].call.value;
      mark := t.mark;
      forks := forks[b := forks[b].(call := Some(Table(t.term[name := mark], mark + 1)))];
    }

    /** `getForkCallMark` */
    method GetForkCallMark(f: nat, name: string) returns (mark: nat)
      requires Ready(forks, f)
      modifies this
      ensures mark == CallCount(old(forks), f)
      ensures (forks, mark) == TermBase(old(forks), f, name)
    {
      mark := GetForkTermBase(f, name);
    }

    /** `getForkHostTerm` */
    method GetForkHostTerm(f: nat, name: string) returns (term: string)
      requires Ready(forks, f)
      modifies this
      ensures var r := TermTree(old(forks), f, HostSpace, name);
        forks == r.0 && term == HostTerm(r.1)
      ensures Lookup(forks, f, HostSpace, name).Some?
      ensures term == HostTerm(Lookup(forks, f, HostSpace, name).value)
    {
      var mark := GetForkTermTree(f, HostSpace, name);
      term := HostTerm(mark);
    }

    /** `getForkFileTerm`: file names are requested at a file's root. */
    method GetForkFileTerm(f: nat, name: string) returns (term: string)
      requires Ready(forks, f) && Walkable(forks, f, FileSpace)
      modifies this
      ensures var r := TermTree(old(forks), f, FileSpace, name);
        forks == r.0 && term == FileTerm(r.1)
      ensures Lookup(forks, f, FileSpace, name).Some?
      ensures term == FileTerm(Lookup(forks, f, FileSpace, name).value)
    {
      var mark := GetForkTermTree(f, FileSpace, name);
      term := FileTerm(mark);
    }
  }
}

=== FILE: translate.dfy ===
/** The root compiler's translation of values, calls and tasks into syntax
    (index.js `makeBond` .. `makeTask`).  Every function threads the fork
    arena: it takes the arena and the current fork, and returns the arena
    after the names it allocated, together with the node it built.
    Sub-parts are translated in the order the source visits them, because
    that order decides which name gets which mark. */
module Translate {
  import opened Wrappers
  import opened Ast
  import opened Paths
  import opened Deck
  import opened TermStore
  import Decimal

  /** `makeCord`: a text's fragments joined without separator. */
  function Cord(list: seq<string>): (s: string)
    ensures |s| == Length(list)
  {
    if list == [] then "" else list[0] + Cord(list[1..])
  }

  function Length(list: seq<string>): nat {
    if list == [] then 0 else |list[0]| + Length(list[1..])
  }

  /** Joining distributes over concatenation of fragment lists. */
  lemma {:induction false} CordConcat(a: seq<string>, b: seq<string>)
    ensures Cord(a + b) == Cord(a) + Cord(b)
    decreases |a|
  {
    if a != [] {
      assert (a + b)[1..] == a[1..] + b;
      CordConcat(a[1..], b);
    } else {
      assert a + b == b;
    }
  }

  /** The number of calls in a bond that go through a call slot of the
      file, counting nested tasks and hooks. */
  function BondSlots(b: Bond): nat
    decreases b
  {
    match b
    case CallBond(call) => CallSlots(call)
    case TaskBond(task) => ZonesSlots(task.zone)
    case Make(binds) => BindsSlots(binds)
    case Items(items) => ItemsSlots(items)
    case Record(entries) => EntriesSlots(entries)
    case _ => 0
  }

  function BindsSlots(binds: seq<Bind>): nat
    decreases binds
  {
    if binds == [] then 0 else BondSlots(binds[0].bond) + BindsSlots(binds[1..])
  }

  function ItemsSlots(items: seq<Bond>): nat
    decreases items
  {
    if items == [] then 0 else BondSlots(items[0]) + ItemsSlots(items[1..])
  }

  function EntriesSlots(entries: seq<Entry>): nat
    decreases entries
  {
    if entries == [] then 0
    else (match entries[0].field
          case Nested(bond) => BondSlots(bond)
          case Scalar(_) => 0) + EntriesSlots(entries[1..])
  }

  function ZoneSlots(z: Zone): nat
    decreases z
  {
    match z
    case HostZone(_, init) => if init.Some? then BondSlots(init.value) else 0
    case SaveZone(_, sift) => BondSlots(sift)
    case TurnZone(sift) => BondSlots(sift)
    case CallZone(call) => CallSlots(call)
    case OtherZone(_) => 0
  }

  function ZonesSlots(zones: seq<Zone>): nat
    decreases zones
  {
    if zones == [] then 0 else ZoneSlots(zones[0]) + ZonesSlots(zones[1..])
  }

  function HooksSlots(hooks: seq<Hook>): nat
    decreases hooks
  {
    if hooks == [] then 0 else ZonesSlots(hooks[0].zone) + HooksSlots(hooks[1..])
  }

  function CallSlots(c: Call): nat
    decreases c
  {
    BindsSlots(c.bind) + HooksSlots(c.hook) + (if c.name.SlotCallee? then 1 else 0)
  }

  /** `child` is a new fork under `f` without a call table of its own, so
      it draws call slots from `f`'s file. */
  ghost predicate ChildOf(fs: Forks, fs1: Forks, f: nat, child: nat) {
    && Ready(fs, f) && Ready(fs1, child) && Keeps(fs, fs1)
    && fs1[child].base == Some(f) && fs1[child].call.None?
    && CallCount(fs1, child) == CallCount(fs, f)
  }

  lemma NewChild(fs: Forks, f: nat)
    requires Ready(fs, f)
    ensures var (fs1, child) := NewFork(fs, Some(f)); ChildOf(fs, fs1, f, child)
  {
    var (fs1, child) := NewFork(fs, Some(f));
    CallCountSame(fs, fs1, f);
    ChildCallCount(fs1, child, f);
  }

  /** Slots taken in a child fork are taken from its parent's file. */
  lemma ChildWork(fs: Forks, f: nat, fs1: Forks, child: nat, gs: Forks, k: nat)
    requires ChildOf(fs, fs1, f, child)
    requires Ready(gs, child) && Keeps(fs1, gs) && CallCount(gs, child) == CallCount(fs1, child) + k
    ensures Ready(gs, f) && Keeps(fs, gs) && CallCount(gs, f) == CallCount(fs, f) + k
  {
    ChildCallCount(gs, child, f);
  }

  /** A new child fork holding the task it translates. */
  function TaskFork(fs: Forks, f: nat, task: Task): (r: (Forks, nat))
    requires Ready(fs, f)
    ensures ChildOf(fs, r.0, f, r.1)
    ensures BondOf(r.0, r.1, "task") == Some(TaskSlot(task))
  {
    var (fs1, child) := NewFork(fs, Some(f));
    NewChild(fs, f);
    var fs2 := SetBond(fs1, child, "task", TaskSlot(task));
    CallCountSame(fs1, fs2, child);
    (fs2, child)
  }

  /** `makeTerm`: the generated host name a source name resolves to. */
  function MakeTerm(fs: Forks, f: nat, name: string): (r: (Forks, Node))
    requires Ready(fs, f)
    ensures Ready(r.0, f) && |r.0| == |fs| && Keeps(fs, r.0)
    ensures CallCount(r.0, f) == CallCount(fs, f)
    ensures Lookup(r.0, f, HostSpace, name).Some?
    ensures r.1 == Identifier(HostTerm(Lookup(r.0, f, HostSpace, name).value))
    ensures Preserves(fs, r.0, f)
  {
    var (fs1, mark) := TermTree(fs, f, HostSpace, name);
    CallCountSame(fs, fs1, f);
    assert Preserves(fs, fs1, f) by {
      forall n | Lookup(fs, f, HostSpace, n).Some?
        ensures Lookup(fs1, f, HostSpace, n) == Lookup(fs, f, HostSpace, n)
      {
        LookupPersists(fs, f, HostSpace, name, f, n);
      }
    }
    (fs1, Identifier(HostTerm(mark)))
  }

  /** Every host name visible from `f` before is still visible, with the
      same mark. */
  ghost predicate Preserves(fs: Forks, gs: Forks, f: nat)
    requires Ready(fs, f) && Ready(gs, f)
  {
    forall n | Lookup(fs, f, HostSpace, n).Some? :: Lookup(gs, f, HostSpace, n) == Lookup(fs, f, HostSpace, n)
  }

  /** What a value translates to: never a statement and never `undefined`. */
  predicate IsValue(n: Node) {
    !n.ReturnStatement? && !n.Undefined?
  }

  /** `makeCallMark`: the slot `call[mark]` of the file's dispatch array. */
  function CallMark(mark: nat): Node {
    MemberExpression(Identifier("call"), Literal(Num(mark as real)), true)
  }

  /** `makeCallTerm`: a call target read through the next call slot. */
  function MakeCallTerm(fs: Forks, f: nat, key: string): (r: (Forks, Node))
    requires Ready(fs, f)
    ensures Ready(r.0, f) && |r.0| == |fs| && Keeps(fs, r.0)
    ensures r.1 == CallMark(CallCount(fs, f))
    ensures CallCount(r.0, f) == CallCount(fs, f) + 1
  {
    var (fs1, mark) := TermBase(fs, f, key);
    OwnerKept(fs, fs1, f);
    CallCountOwner(fs1, f);
    (fs1, CallMark(mark))
  }

  /** `makeNest`: a site at the base of a path is a resolved host name; any
      other site is the name verbatim; a chain is a left fold of member
      accesses over its steps, starting from its base. */
  function MakeNest(fs: Forks, f: nat, n: Nest, isBase: bool): (r: (Forks, Node))
    requires Ready(fs, f)
    ensures Ready(r.0, f) && |r.0| == |fs| && Keeps(fs, r.0)
    ensures CallCount(r.0, f) == CallCount(fs, f)
    ensures IsValue(r.1)
    ensures n.Site? && !isBase ==> r == (fs, Identifier(n.name))
    ensures n.Site? && isBase ==>
      && Lookup(r.0, f, HostSpace, n.name).Some?
      && r.1 == Identifier(HostTerm(Lookup(r.0, f, HostSpace, n.name).value))
    decreases n
  {
    match n
    case Site(name) =>
      if isBase then MakeTerm(fs, f, name) else (fs, Identifier(name))
    case Chain(base, steps) =>
      var (fs1, start) := MakeNest(fs, f, base, true);
      FoldSteps(fs1, f, start, steps)
  }

  /** A chain is translated by resolving its base as a host name, then
      folding its steps over it in the arena that left. */
  lemma NestChain(fs: Forks, f: nat, n: Nest, isBase: bool)
    requires Ready(fs, f) && n.Chain?
    ensures var start := MakeNest(fs, f, n.base, true);
      MakeNest(fs, f, n, isBase) == FoldSteps(start.0, f, start.1, n.steps)
  {
  }

  /** The reduce step of `makeNest`: each step becomes the property of a
      member access around what is built so far; a step that is itself a
      nest makes the access computed. */
  function FoldSteps(fs: Forks, f: nat, acc: Node, steps: seq<Nest>): (r: (Forks, Node))
    requires Ready(fs, f) && IsValue(acc)
    ensures Ready(r.0, f) && |r.0| == |fs| && Keeps(fs, r.0)
    ensures CallCount(r.0, f) == CallCount(fs, f)
    ensures IsValue(r.1)
    ensures Spine(r.1) == Spine(acc) + Flags(steps)
    ensures Innermost(r.1) == Innermost(acc)
    decreases steps
  {
    if steps == [] then (fs, acc)
    else
      var (fs1, prop) := MakeNest(fs, f, steps[0], false);
      var r := FoldSteps(fs1, f, MemberExpression(acc, prop, steps[0].Chain?), steps[1..]);
      assert Flags(steps) == [steps[0].Chain?] + Flags(steps[1..]);
      r
  }

  /** The reduce is a left fold: one more step wraps what the earlier steps
      built in an access whose property is that step's own translation,
      made in the arena the earlier steps left. */
  lemma {:induction false} FoldStepsSnoc(fs: Forks, f: nat, acc: Node, steps: seq<Nest>, s: Nest)
    requires Ready(fs, f) && IsValue(acc)
    ensures var (fs1, built) := FoldSteps(fs, f, acc, steps);
      var (fs2, prop) := MakeNest(fs1, f, s, false);
      FoldSteps(fs, f, acc, steps + [s]) == (fs2, MemberExpression(built, prop, s.Chain?))
    decreases |steps|
  {
    if steps == [] {
      assert steps + [s] == [s];
      assert [s][1..] == [];
    } else {
      var (fs1, prop) := MakeNest(fs, f, steps[0], false);
      assert (steps + [s])[0] == steps[0];
      assert (steps + [s])[1..] == steps[1..] + [s];
      FoldStepsSnoc(fs1, f, MemberExpression(acc, prop, steps[0].Chain?), steps[1..], s);
    }
  }

  /** `makeLink`: a host link is a resolved host name, any other link a nest. */
  function MakeLink(fs: Forks, f: nat, link: Link): (r: (Forks, Node))
    requires Ready(fs, f)
    ensures Ready(r.0, f) && |r.0| == |fs| && Keeps(fs, r.0)
    ensures CallCount(r.0, f) == CallCount(fs, f)
    ensures IsValue(r.1)
    ensures link.HostLink? ==>
      && Lookup(r.0, f, HostSpace, link.name).Some?
      && r.1 == Identifier(HostTerm(Lookup(r.0, f, HostSpace, link.name).value))
  {
    match link
    case HostLink(name) => MakeTerm(fs, f, name)
    case NestLink(n) => MakeNest(fs, f, n, true)
  }

  /** `makeBond` */
  function MakeBond(fs: Forks, f: nat, b: Bond): (r: (Forks, Node))
    requires Ready(fs, f)
    ensures Ready(r.0, f) && Keeps(fs, r.0)
    ensures CallCount(r.0, f) == CallCount(fs, f) + BondSlots(b)
    ensures IsValue(r.1)
    decreases b, 2
  {
    match b
    case Text(text) => (fs, Literal(Str(Cord(text))))
    case Size(size) => (fs, Literal(Num(size)))
    case CallBond(call) => MakeCall(fs, f, call)
    case TaskBond(task) => MakeTaskBond(fs, f, task)
    case Loan(name) => MakeTerm(fs, f, name)
    case LinkBond(_) => MakeReach(fs, f, b)
    case LoanNest(_) => MakeReach(fs, f, b)
    case ReadNest(_) => MakeReach(fs, f, b)
    case Make(_) => MakeCollection(fs, f, b)
    case Items(_) => MakeCollection(fs, f, b)
    case Record(_) => MakeCollection(fs, f, b)
  }

  /** A link or a nest: a name reached through a chain of accesses. */
  function MakeReach(fs: Forks, f: nat, b: Bond): (r: (Forks, Node))
    requires Ready(fs, f) && (b.LinkBond? || b.LoanNest? || b.ReadNest?)
    ensures Ready(r.0, f) && Keeps(fs, r.0)
    ensures CallCount(r.0, f) == CallCount(fs, f) + BondSlots(b)
    ensures IsValue(r.1)
    decreases b, 1
  {
    match b
    case LinkBond(link) => MakeLink(fs, f, link)
    case LoanNest(n) => MakeNest(fs, f, n, true)
    case ReadNest(n) => MakeNest(fs, f, n, true)
  }

  /** The collection cases of `makeBond`: objects and arrays. */
  function MakeCollection(fs: Forks, f: nat, b: Bond): (r: (Forks, Node))
    requires Ready(fs, f) && (b.Make? || b.Items? || b.Record?)
    ensures Ready(r.0, f) && Keeps(fs, r.0)
    ensures CallCount(r.0, f) == CallCount(fs, f) + BondSlots(b)
    ensures IsValue(r.1)
    decreases b, 1
  {
    match b
    case Make(binds) => MakeObject(fs, f, binds)
    case Items(items) => MakeArray(fs, f, items)
    case Record(entries) => MakeRecord(fs, f, entries)
  }

  /** What each kind of bond translates to: text and sizes to literals
      without touching the forks, composite bonds to objects and arrays of
      one member per part, calls to calls, tasks to functions in a new
      fork. */
  lemma BondShapes(fs: Forks, f: nat, b: Bond)
    requires Ready(fs, f)
    ensures var r := MakeBond(fs, f, b);
      && (b.Text? ==> r == (fs, Literal(Str(Cord(b.text)))))
      && (b.Size? ==> r == (fs, Literal(Num(b.size))))
      && (b.Make? ==> r.1.ObjectExpression? && |r.1.properties| == |b.binds|)
      && (b.Items? ==> r.1.ArrayExpression? && |r.1.elements| == |b.items|)
      && (b.Record? ==> r.1.ObjectExpression? && |r.1.properties| == |b.entries|)
      && (b.CallBond? ==> r.1.CallExpression?)
      && (b.TaskBond? ==> r.1.FunctionDeclaration? && |r.0| > |fs|)
      && (b.Loan? ==> r == MakeTerm(fs, f, b.name))
      && (b.LinkBond? ==> r == MakeLink(fs, f, b.link))
      && (b.LoanNest? ==> r == MakeNest(fs, f, b.nest, true))
      && (b.ReadNest? ==> r == MakeNest(fs, f, b.nest, true))
      && (b.Make? ==> r == MakeObject(fs, f, b.binds))
      && (b.Items? ==> r == MakeArray(fs, f, b.items))
      && (b.Record? ==> r == MakeRecord(fs, f, b.entries))
      && (b.CallBond? ==> r == MakeCall(fs, f, b.call))
      && (b.TaskBond? ==> r == MakeTaskBond(fs, f, b.task))
  {
  }

  /** The `make` case of `makeBond`: an object of the bindings. */
  function MakeObject(fs: Forks, f: nat, binds: seq<Bind>): (r: (Forks, Node))
    requires Ready(fs, f)
    ensures Ready(r.0, f) && Keeps(fs, r.0)
    ensures CallCount(r.0, f) == CallCount(fs, f) + BindsSlots(binds)
    ensures r.1.ObjectExpression? && |r.1.properties| == |binds|
    decreases binds, 1
  {
    var (fs1, props) := MakeProps(fs, f, binds);
    (fs1, ObjectExpression(props))
  }

  /** The list case of `makeBond`: an array of the items. */
  function MakeArray(fs: Forks, f: nat, items: seq<Bond>): (r: (Forks, Node))
    requires Ready(fs, f)
    ensures Ready(r.0, f) && Keeps(fs, r.0)
    ensures CallCount(r.0, f) == CallCount(fs, f) + ItemsSlots(items)
    ensures r.1.ArrayExpression? && |r.1.elements| == |items|
    decreases items, 1
  {
    var (fs1, elements) := MakeItems(fs, f, items);
    (fs1, ArrayExpression(elements))
  }

  /** The record case of `makeBond`: an object of the entries. */
  function MakeRecord(fs: Forks, f: nat, entries: seq<Entry>): (r: (Forks, Node))
    requires Ready(fs, f)
    ensures Ready(r.0, f) && Keeps(fs, r.0)
    ensures CallCount(r.0, f) == CallCount(fs, f) + EntriesSlots(entries)
    ensures r.1.ObjectExpression? && |r.1.properties| == |entries|
    decreases entries, 1
  {
    var (fs1, props) := MakeEntries(fs, f, entries);
    (fs1, ObjectExpression(props))
  }

  /** The task case of `makeBond`: the task is translated in a new child
      fork that records the task it belongs to. */
  function MakeTaskBond(fs: Forks, f: nat, task: Task): (r: (Forks, Node))
    requires Ready(fs, f)
    ensures Ready(r.0, f) && Keeps(fs, r.0) && |r.0| > |fs|
    ensures CallCount(r.0, f) == CallCount(fs, f) + ZonesSlots(task.zone)
    ensures r.1.FunctionDeclaration? && r.1.async == task.wait
    ensures |r.1.params| == |task.link| && r.1.ident.Some? && r.1.body.BlockStatement?
    decreases task, 1
  {
    var (fs1, child) := TaskFork(fs, f, task);
    var r := MakeTask(fs1, child, task);
    ChildWork(fs, f, fs1, child, r.0, ZonesSlots(task.zone));
    r
  }

  /** The `make` case of `makeBond`: a property per binding, keyed by name. */
  function MakeProps(fs: Forks, f: nat, binds: seq<Bind>): (r: (Forks, seq<Node>))
    requires Ready(fs, f)
    ensures Ready(r.0, f) && Keeps(fs, r.0)
    ensures CallCount(r.0, f) == CallCount(fs, f) + BindsSlots(binds)
    ensures |r.1| == |binds|
    ensures forall i | 0 <= i < |binds| :: r.1[i].Property? && r.1[i].key == Literal(Str(binds[i].name))
    decreases binds, 0
  {
    if binds == [] then (fs, [])
    else
      var v := MakeBond(fs, f, binds[0].bond);
      var rest := MakeProps(v.0, f, binds[1..]);
      (rest.0, [Property(Literal(Str(binds[0].name)), v.1)] + rest.1)
  }

  /** The array case of `makeBond`. */
  function MakeItems(fs: Forks, f: nat, items: seq<Bond>): (r: (Forks, seq<Node>))
    requires Ready(fs, f)
    ensures Ready(r.0, f) && Keeps(fs, r.0)
    ensures CallCount(r.0, f) == CallCount(fs, f) + ItemsSlots(items)
    ensures |r.1| == |items|
    decreases items, 0
  {
    if items == [] then (fs, [])
    else
      var v := MakeBond(fs, f, items[0]);
      var rest := MakeItems(v.0, f, items[1..]);
      (rest.0, [v.1] + rest.1)
  }

  /** The plain-object case of `makeBond`: nested bonds are translated,
      scalars become literals. */
  function MakeEntries(fs: Forks, f: nat, entries: seq<Entry>): (r: (Forks, seq<Node>))
    requires Ready(fs, f)
    ensures Ready(r.0, f) && Keeps(fs, r.0)
    ensures CallCount(r.0, f) == CallCount(fs, f) + EntriesSlots(entries)
    ensures |r.1| == |entries|
    ensures forall i | 0 <= i < |entries| :: r.1[i].Property? && r.1[i].key == Literal(Str(entries[i].key))
    ensures forall i | 0 <= i < |entries| :: entries[i].field.Scalar? ==> r.1[i].entry == Literal(entries[i].field.value)
    decreases entries, 0
  {
    if entries == [] then (fs, [])
    else
      var e := entries[0];
      var v := if e.field.Nested? then MakeBond(fs, f, e.field.bond) else (fs, Literal(e.field.value));
      var rest := MakeEntries(v.0, f, entries[1..]);
      (rest.0, [Property(Literal(Str(e.key)), v.1)] + rest.1)
  }

  /** A call's positional arguments: its bindings' values, in order. */
  function MakeArgs(fs: Forks, f: nat, binds: seq<Bind>): (r: (Forks, seq<Node>))
    requires Ready(fs, f)
    ensures Ready(r.0, f) && Keeps(fs, r.0)
    ensures CallCount(r.0, f) == CallCount(fs, f) + BindsSlots(binds)
    ensures |r.1| == |binds|
    decreases binds
  {
    if binds == [] then (fs, [])
    else
      var v := MakeBond(fs, f, binds[0].bond);
      var rest := MakeArgs(v.0, f, binds[1..]);
      (rest.0, [v.1] + rest.1)
  }

  /** Parameters: each source name becomes the host name it resolves to
      once all parameters are allocated. */
  function MakeParams(fs: Forks, f: nat, names: seq<string>): (r: (Forks, seq<Node>))
    requires Ready(fs, f)
    ensures Ready(r.0, f) && |r.0| == |fs| && Keeps(fs, r.0)
    ensures CallCount(r.0, f) == CallCount(fs, f)
    ensures Preserves(fs, r.0, f)
    ensures |r.1| == |names|
    ensures forall i | 0 <= i < |names| :: Named(r.0, f, names[i], r.1[i])
    decreases names
  {
    if names == [] then (fs, [])
    else
      var (fs1, p) := MakeTerm(fs, f, names[0]);
      var (fs2, rest) := MakeParams(fs1, f, names[1..]);
      NamesKept(fs, fs1, fs2, f, names, p, rest);
      (fs2, [p] + rest)
  }

  /** The host name a source name resolves to, as an identifier. */
  ghost predicate Named(fs: Forks, f: nat, name: string, n: Node)
    requires Ready(fs, f)
  {
    Lookup(fs, f, HostSpace, name).Some? && n == Identifier(HostTerm(Lookup(fs, f, HostSpace, name).value))
  }

  /** Names that stay visible keep the identifiers they resolve to. */
  lemma NamesKept(fs: Forks, gs: Forks, hs: Forks, f: nat, names: seq<string>, p: Node, rest: seq<Node>)
    requires Ready(fs, f) && Ready(gs, f) && Ready(hs, f)
    requires Preserves(fs, gs, f) && Preserves(gs, hs, f)
    requires |names| == |rest| + 1
    requires Named(gs, f, names[0], p)
    requires forall i | 0 <= i < |rest| :: Named(hs, f, names[1..][i], rest[i])
    ensures Preserves(fs, hs, f)
    ensures forall i | 0 <= i < |names| :: Named(hs, f, names[i], ([p] + rest)[i])
  {
    forall i | 0 <= i < |names| ensures Named(hs, f, names[i], ([p] + rest)[i]) {
      if i > 0 {
        assert names[i] == names[1..][i - 1];
        assert ([p] + rest)[i] == rest[i - 1];
      }
    }
  }

  /** `makeHost`: `let` of the name's host term, initialised by the bond
      when there is one (the name is allocated before the bond is read). */
  function MakeHost(fs: Forks, f: nat, z: Zone): (r: (Forks, Node))
    requires Ready(fs, f) && z.HostZone?
    ensures Ready(r.0, f) && Keeps(fs, r.0)
    ensures CallCount(r.0, f) == CallCount(fs, f) + ZoneSlots(z)
    ensures r.1.Variable? && r.1.kind == "let" && r.1.target.Identifier?
    ensures z.init.None? <==> r.1.init == Undefined
    decreases z, 0
  {
    var (fs1, term) := MakeTerm(fs, f, z.name);
    match z.init
    case None => (fs1, Variable("let", term, Undefined))
    case Some(bond) =>
      var (fs2, init) := MakeBond(fs1, f, bond);
      (fs2, Variable("let", term, init))
  }

  /** `makeSave`: an assignment to the link (the source's separate nest
      branch is the nest case of `makeLink`). */
  function MakeSave(fs: Forks, f: nat, z: Zone): (r: (Forks, Node))
    requires Ready(fs, f) && z.SaveZone?
    ensures Ready(r.0, f) && Keeps(fs, r.0)
    ensures CallCount(r.0, f) == CallCount(fs, f) + ZoneSlots(z)
    ensures r.1.AssignmentExpression? && IsValue(r.1.left)
    decreases z, 0
  {
    var (fs1, left) := MakeLink(fs, f, z.nest);
    var (fs2, right) := MakeBond(fs1, f, z.sift);
    (fs2, AssignmentExpression(left, right))
  }

  /** `makeTurn`: a return of the value. */
  function MakeTurn(fs: Forks, f: nat, z: Zone): (r: (Forks, Node))
    requires Ready(fs, f) && z.TurnZone?
    ensures Ready(r.0, f) && Keeps(fs, r.0)
    ensures CallCount(r.0, f) == CallCount(fs, f) + ZoneSlots(z)
    ensures r.1.ReturnStatement? && IsValue(r.1.argument)
    decreases z, 0
  {
    var (fs1, v) := MakeBond(fs, f, z.sift);
    (fs1, ReturnStatement(v))
  }

  /** The statement a zone of a known form produces. */
  ghost predicate ZoneShape(z: Zone, s: Option<Node>) {
    match z
    case HostZone(_, _) => s.Some? && s.value.Variable?
    case SaveZone(_, _) => s.Some? && s.value.AssignmentExpression?
    case TurnZone(_) => s.Some? && s.value.ReturnStatement? && IsValue(s.value.argument)
    case CallZone(_) => s.Some? && s.value.CallExpression?
    case OtherZone(_) => s.None?
  }

  /** The statements of a body, one per zone in order; a zone of any other
      form yields none. */
  function MakeZones(fs: Forks, f: nat, zones: seq<Zone>): (r: (Forks, seq<Option<Node>>))
    requires Ready(fs, f)
    ensures Ready(r.0, f) && Keeps(fs, r.0)
    ensures CallCount(r.0, f) == CallCount(fs, f) + ZonesSlots(zones)
    ensures |r.1| == |zones|
    ensures forall i | 0 <= i < |zones| :: ZoneShape(zones[i], r.1[i])
    decreases zones
  {
    if zones == [] then (fs, [])
    else
      var v := MakeZone(fs, f, zones[0]);
      var rest := MakeZones(v.0, f, zones[1..]);
      assert forall i | 1 <= i < |zones| :: zones[i] == zones[1..][i - 1];
      (rest.0, [v.1] + rest.1)
  }

  /** The statement of one zone; a zone of any other form yields none. */
  function MakeZone(fs: Forks, f: nat, z: Zone): (r: (Forks, Option<Node>))
    requires Ready(fs, f)
    ensures Ready(r.0, f) && Keeps(fs, r.0)
    ensures CallCount(r.0, f) == CallCount(fs, f) + ZoneSlots(z)
    ensures ZoneShape(z, r.1)
    decreases z, 1
  {
    match z
    case HostZone(_, _) => var (g, n) := MakeHost(fs, f, z); (g, Some(n))
    case SaveZone(_, _) => var (g, n) := MakeSave(fs, f, z); (g, Some(n))
    case TurnZone(_) => var (g, n) := MakeTurn(fs, f, z); (g, Some(n))
    case CallZone(call) => var (g, n) := MakeCall(fs, f, call); (g, Some(n))
    case OtherZone(_) => (fs, None)
  }

  /** The statements that were produced, in order. */
  function Compact(raw: seq<Option<Node>>): (body: seq<Node>)
    ensures |body| <= |raw|
    ensures forall n | n in body :: Some(n) in raw
  {
    if raw == [] then []
    else (if raw[0].Some? then [raw[0].value] else []) + Compact(raw[1..])
  }

  /** Wraps the last zone's statement in a return when asked to and when
      that zone produced one. */
  function WrapTail(raw: seq<Option<Node>>, wrap: bool): seq<Option<Node>> {
    if raw != [] && raw[|raw| - 1].Some? && wrap
    then raw[..|raw| - 1] + [Some(ReturnStatement(raw[|raw| - 1].value))]
    else raw
  }

  /** A task body: the last statement is returned unless it comes from a
      `turn`, which is a return already. */
  function TaskBody(raw: seq<Option<Node>>, zones: seq<Zone>): seq<Node> {
    Compact(WrapTail(raw, !(zones != [] && zones[|zones| - 1].TurnZone?)))
  }

  /** A hook body: the last statement is always returned. */
  function HookBody(raw: seq<Option<Node>>): seq<Node> {
    Compact(WrapTail(raw, true))
  }

  /** An anonymous, non-async function with the hook's parameters. */
  predicate HookShape(n: Node, h: Hook) {
    && n.FunctionDeclaration? && n.ident.None? && !n.async
    && |n.params| == |h.link| && n.body.BlockStatement?
  }

  /** One hook of a call: in a new child fork, its parameters allocated
      first, then its body. */
  function MakeHook(fs: Forks, f: nat, h: Hook): (r: (Forks, Node))
    requires Ready(fs, f)
    ensures Ready(r.0, f) && Keeps(fs, r.0)
    ensures CallCount(r.0, f) == CallCount(fs, f) + ZonesSlots(h.zone)
    ensures HookShape(r.1, h)
    decreases h
  {
    var (fs1, child) := NewFork(fs, Some(f));
    NewChild(fs, f);
    var (fs2, params) := MakeParams(fs1, child, h.link);
    var (fs3, raw) := MakeZones(fs2, child, h.zone);
    ChildWork(fs, f, fs1, child, fs3, ZonesSlots(h.zone));
    (fs3, FunctionDeclaration(None, params, BlockStatement(HookBody(raw)), false))
  }

  /** The hooks of a call, in order. */
  function MakeHooks(fs: Forks, f: nat, hooks: seq<Hook>): (r: (Forks, seq<Node>))
    requires Ready(fs, f)
    ensures Ready(r.0, f) && Keeps(fs, r.0)
    ensures CallCount(r.0, f) == CallCount(fs, f) + HooksSlots(hooks)
    ensures |r.1| == |hooks|
    ensures forall i | 0 <= i < |hooks| :: HookShape(r.1[i], hooks[i])
    decreases hooks
  {
    if hooks == [] then (fs, [])
    else
      var v := MakeHook(fs, f, hooks[0]);
      var rest := MakeHooks(v.0, f, hooks[1..]);
      assert forall i | 1 <= i < |hooks| :: hooks[i] == hooks[1..][i - 1];
      (rest.0, [v.1] + rest.1)
  }

  /** A non-empty list of bindings: the first binding's property, then the rest made
      in the arena it left. */
  lemma PropsCons(fs: Forks, f: nat, binds: seq<Bind>)
    requires Ready(fs, f) && binds != []
    ensures var v := MakeBond(fs, f, binds[0].bond);
      var rest := MakeProps(v.0, f, binds[1..]);
      MakeProps(fs, f, binds) == (rest.0, [Property(Literal(Str(binds[0].name)), v.1)] + rest.1)
  {
  }

  /** One more binding adds its property, keyed by its name, whose value
      is the bond translated in the arena the earlier bindings left. */
  lemma {:induction false} PropsSnoc(fs: Forks, f: nat, binds: seq<Bind>, x: Bind)
    requires Ready(fs, f)
    ensures var a := MakeProps(fs, f, binds);
      var v := MakeBond(a.0, f, x.bond);
      MakeProps(fs, f, binds + [x]) == (v.0, a.1 + [Property(Literal(Str(x.name)), v.1)])
    decreases |binds|
  {
    PropsCons(fs, f, binds + [x]);
    SnocSplit(binds, x);
    if binds == [] {
      var v := MakeBond(fs, f, x.bond);
      assert MakeProps(v.0, f, []) == (v.0, []);
      assert MakeProps(fs, f, binds) == (fs, []);
      ConsSnoc(Property(Literal(Str(x.name)), v.1), [], Property(Literal(Str(x.name)), v.1));
    } else {
      PropsCons(fs, f, binds);
      var v := MakeBond(fs, f, binds[0].bond);
      var rest := MakeProps(v.0, f, binds[1..]);
      PropsSnoc(v.0, f, binds[1..], x);
      var w := MakeBond(rest.0, f, x.bond);
      ConsSnoc(Property(Literal(Str(binds[0].name)), v.1), rest.1, Property(Literal(Str(x.name)), w.1));
    }
  }

  /** A non-empty list of items: the first item's translation, then the rest made
      in the arena it left. */
  lemma ItemsCons(fs: Forks, f: nat, items: seq<Bond>)
    requires Ready(fs, f) && items != []
    ensures var v := MakeBond(fs, f, items[0]);
      var rest := MakeItems(v.0, f, items[1..]);
      MakeItems(fs, f, items) == (rest.0, [v.1] + rest.1)
  {
  }

  /** One more item adds its translation, made after the earlier items. */
  lemma {:induction false} ItemsSnoc(fs: Forks, f: nat, items: seq<Bond>, x: Bond)
    requires Ready(fs, f)
    ensures var a := MakeItems(fs, f, items);
      var v := MakeBond(a.0, f, x);
      MakeItems(fs, f, items + [x]) == (v.0, a.1 + [v.1])
    decreases |items|
  {
    ItemsCons(fs, f, items + [x]);
    SnocSplit(items, x);
    if items == [] {
      var v := MakeBond(fs, f, x);
      assert MakeItems(v.0, f, []) == (v.0, []);
      assert MakeItems(fs, f, items) == (fs, []);
      ConsSnoc(v.1, [], v.1);
    } else {
      ItemsCons(fs, f, items);
      var v := MakeBond(fs, f, items[0]);
      var rest := MakeItems(v.0, f, items[1..]);
      ItemsSnoc(v.0, f, items[1..], x);
      var w := MakeBond(rest.0, f, x);
      ConsSnoc(v.1, rest.1, w.1);
    }
  }

  /** A non-empty list of entries: the first entry's property, then the rest made
      in the arena it left. */
  lemma EntriesCons(fs: Forks, f: nat, entries: seq<Entry>)
    requires Ready(fs, f) && entries != []
    ensures var v := (if entries[0].field.Nested? then MakeBond(fs, f, entries[0].field.bond) else (fs, Literal(entries[0].field.value)));
      var rest := MakeEntries(v.0, f, entries[1..]);
      MakeEntries(fs, f, entries) == (rest.0, [Property(Literal(Str(entries[0].key)), v.1)] + rest.1)
  {
  }

  /** One more entry adds its property: a nested bond is translated after
      the earlier entries, a scalar becomes a literal and leaves the arena
      alone. */
  lemma {:induction false} EntriesSnoc(fs: Forks, f: nat, entries: seq<Entry>, x: Entry)
    requires Ready(fs, f)
    ensures var a := MakeEntries(fs, f, entries);
      var v := (if x.field.Nested? then MakeBond(a.0, f, x.field.bond) else (a.0, Literal(x.field.value)));
      MakeEntries(fs, f, entries + [x]) == (v.0, a.1 + [Property(Literal(Str(x.key)), v.1)])
    decreases |entries|
  {
    EntriesCons(fs, f, entries + [x]);
    SnocSplit(entries, x);
    if entries == [] {
      var v := (if x.field.Nested? then MakeBond(fs, f, x.field.bond) else (fs, Literal(x.field.value)));
      assert MakeEntries(v.0, f, []) == (v.0, []);
      assert MakeEntries(fs, f, entries) == (fs, []);
      ConsSnoc(Property(Literal(Str(x.key)), v.1), [], Property(Literal(Str(x.key)), v.1));
    } else {
      EntriesCons(fs, f, entries);
      var v := (if entries[0].field.Nested? then MakeBond(fs, f, entries[0].field.bond) else (fs, Literal(entries[0].field.value)));
      var rest := MakeEntries(v.0, f, entries[1..]);
      EntriesSnoc(v.0, f, entries[1..], x);
      var w := (if x.field.Nested? then MakeBond(rest.0, f, x.field.bond) else (rest.0, Literal(x.field.value)));
      ConsSnoc(Property(Literal(Str(entries[0].key)), v.1), rest.1, Property(Literal(Str(x.key)), w.1));
    }
  }

  /** A non-empty list of bindings: the first binding's value, then the rest made
      in the arena it left. */
  lemma ArgsCons(fs: Forks, f: nat, binds: seq<Bind>)
    requires Ready(fs, f) && binds != []
    ensures var v := MakeBond(fs, f, binds[0].bond);
      var rest := MakeArgs(v.0, f, binds[1..]);
      MakeArgs(fs, f, binds) == (rest.0, [v.1] + rest.1)
  {
  }

  /** One more binding adds its value as the next argument. */
  lemma {:induction false} ArgsSnoc(fs: Forks, f: nat, binds: seq<Bind>, x: Bind)
    requires Ready(fs, f)
    ensures var a := MakeArgs(fs, f, binds);
      var v := MakeBond(a.0, f, x.bond);
      MakeArgs(fs, f, binds + [x]) == (v.0, a.1 + [v.1])
    decreases |binds|
  {
    ArgsCons(fs, f, binds + [x]);
    SnocSplit(binds, x);
    if binds == [] {
      var v := MakeBond(fs, f, x.bond);
      assert MakeArgs(v.0, f, []) == (v.0, []);
      assert MakeArgs(fs, f, binds) == (fs, []);
      ConsSnoc(v.1, [], v.1);
    } else {
      ArgsCons(fs, f, binds);
      var v := MakeBond(fs, f, binds[0].bond);
      var rest := MakeArgs(v.0, f, binds[1..]);
      ArgsSnoc(v.0, f, binds[1..], x);
      var w := MakeBond(rest.0, f, x.bond);
      ConsSnoc(v.1, rest.1, w.1);
    }
  }

  /** A non-empty list of zones: the first zone's statement, then the rest made
      in the arena it left. */
  lemma ZonesCons(fs: Forks, f: nat, zones: seq<Zone>)
    requires Ready(fs, f) && zones != []
    ensures var v := MakeZone(fs, f, zones[0]);
      var rest := MakeZones(v.0, f, zones[1..]);
      MakeZones(fs, f, zones) == (rest.0, [v.1] + rest.1)
  {
  }

  /** One more zone adds its statement (or its lack of one), made after the
      earlier zones. */
  lemma {:induction false} ZonesSnoc(fs: Forks, f: nat, zones: seq<Zone>, x: Zone)
    requires Ready(fs, f)
    ensures var a := MakeZones(fs, f, zones);
      var v := MakeZone(a.0, f, x);
      MakeZones(fs, f, zones + [x]) == (v.0, a.1 + [v.1])
    decreases |zones|
  {
    ZonesCons(fs, f, zones + [x]);
    SnocSplit(zones, x);
    if zones == [] {
      var v := MakeZone(fs, f, x);
      assert MakeZones(v.0, f, []) == (v.0, []);
      assert MakeZones(fs, f, zones) == (fs, []);
      ConsSnoc(v.1, [], v.1);
    } else {
      ZonesCons(fs, f, zones);
      var v := MakeZone(fs, f, zones[0]);
      var rest := MakeZones(v.0, f, zones[1..]);
      ZonesSnoc(v.0, f, zones[1..], x);
      var w := MakeZone(rest.0, f, x);
      ConsSnoc(v.1, rest.1, w.1);
    }
  }

  /** A non-empty list of hooks: the first hook's function, then the rest made
      in the arena it left. */
  lemma HooksCons(fs: Forks, f: nat, hooks: seq<Hook>)
    requires Ready(fs, f) && hooks != []
    ensures var v := MakeHook(fs, f, hooks[0]);
      var rest := MakeHooks(v.0, f, hooks[1..]);
      MakeHooks(fs, f, hooks) == (rest.0, [v.1] + rest.1)
  {
  }

  /** One more hook adds its function, made after the earlier hooks. */
  lemma {:induction false} HooksSnoc(fs: Forks, f: nat, hooks: seq<Hook>, x: Hook)
    requires Ready(fs, f)
    ensures var a := MakeHooks(fs, f, hooks);
      var v := MakeHook(a.0, f, x);
      MakeHooks(fs, f, hooks + [x]) == (v.0, a.1 + [v.1])
    decreases |hooks|
  {
    HooksCons(fs, f, hooks + [x]);
    SnocSplit(hooks, x);
    if hooks == [] {
      var v := MakeHook(fs, f, x);
      assert MakeHooks(v.0, f, []) == (v.0, []);
      assert MakeHooks(fs, f, hooks) == (fs, []);
      ConsSnoc(v.1, [], v.1);
    } else {
      HooksCons(fs, f, hooks);
      var v := MakeHook(fs, f, hooks[0]);
      var rest := MakeHooks(v.0, f, hooks[1..]);
      HooksSnoc(v.0, f, hooks[1..], x);
      var w := MakeHook(rest.0, f, x);
      ConsSnoc(v.1, rest.1, w.1);
    }
  }

  /** `makeCall`: the bindings' values, then one function per hook, then
      the callee - a nest, or the next call slot of the file. */
  function MakeCall(fs: Forks, f: nat, c: Call): (r: (Forks, Node))
    requires Ready(fs, f)
    ensures Ready(r.0, f) && Keeps(fs, r.0)
    ensures CallCount(r.0, f) == CallCount(fs, f) + CallSlots(c)
    ensures r.1.CallExpression? && r.1.await == c.wait
    ensures |r.1.arguments| == |c.bind| + |c.hook|
    ensures r.1.arguments[..|c.bind|] == MakeArgs(fs, f, c.bind).1
    ensures forall i | |c.bind| <= i < |r.1.arguments| ::
      r.1.arguments[i].FunctionDeclaration? && |r.1.arguments[i].params| == |c.hook[i - |c.bind|].link|
    decreases c
  {
    var (fs1, args) := MakeArgs(fs, f, c.bind);
    var (fs2, hooks) := MakeHooks(fs1, f, c.hook);
    var (fs3, callee) := match c.name
      case NestCallee(n) => MakeNest(fs2, f, n, true)
      case SlotCallee(key) => MakeCallTerm(fs2, f, key);
    assert (args + hooks)[..|c.bind|] == args;
    (fs3, CallExpression(callee, args + hooks, c.wait))
  }

  /** `makeCall` exactly: the arguments are the bindings' values followed
      by the hooks' functions, and the callee is made last, in the arena
      they left. */
  lemma CallNode(fs: Forks, f: nat, c: Call)
    requires Ready(fs, f)
    ensures var args := MakeArgs(fs, f, c.bind);
      var hooks := MakeHooks(args.0, f, c.hook);
      var callee := if c.name.NestCallee? then MakeNest(hooks.0, f, c.name.nest, true)
        else MakeCallTerm(hooks.0, f, c.name.key);
      MakeCall(fs, f, c) == (callee.0, CallExpression(callee.1, args.1 + hooks.1, c.wait))
  {
  }

  /** A call whose target is a name reads the file's call slot numbered
      by the slots taken before it, including those its own bindings and
      hooks took. */
  lemma SlotCallee(fs: Forks, f: nat, c: Call)
    requires Ready(fs, f) && c.name.SlotCallee?
    ensures MakeCall(fs, f, c).1.callee == CallMark(CallCount(fs, f) + BindsSlots(c.bind) + HooksSlots(c.hook))
  {
    CallNode(fs, f, c);
    var args := MakeArgs(fs, f, c.bind);
    var hooks := MakeHooks(args.0, f, c.hook);
    var callee := MakeCallTerm(hooks.0, f, c.name.key);
    assert MakeCall(fs, f, c).1 == CallExpression(callee.1, args.1 + hooks.1, c.wait);
    assert CallCount(args.0, f) == CallCount(fs, f) + BindsSlots(c.bind);
    assert CallCount(hooks.0, f) == CallCount(args.0, f) + HooksSlots(c.hook);
    assert callee.1 == CallMark(CallCount(hooks.0, f));
  }

  /** `makeTask`: parameters, then the body, then the task's own name, all
      in the task's fork. */
  function MakeTask(fs: Forks, f: nat, t: Task): (r: (Forks, Node))
    requires Ready(fs, f)
    ensures Ready(r.0, f) && Keeps(fs, r.0)
    ensures CallCount(r.0, f) == CallCount(fs, f) + ZonesSlots(t.zone)
    ensures r.1.FunctionDeclaration? && r.1.async == t.wait
    ensures |r.1.params| == |t.link| && r.1.ident.Some? && r.1.body.BlockStatement?
    decreases t, 0
  {
    var (fs1, params) := MakeParams(fs, f, t.link);
    var (fs2, raw) := MakeZones(fs1, f, t.zone);
    var (fs3, name) := MakeTerm(fs2, f, t.name);
    (fs3, FunctionDeclaration(Some(name), params, BlockStatement(TaskBody(raw, t.zone)), t.wait))
  }

  // The node each builder makes, in terms of the parts it threads through
  // the arena.

  /** `makeLink`: a host link is the host name it resolves to, a nest link
      the nest read from its base. */
  lemma LinkNode(fs: Forks, f: nat, link: Link)
    requires Ready(fs, f)
    ensures MakeLink(fs, f, link) ==
      if link.HostLink? then MakeTerm(fs, f, link.name) else MakeNest(fs, f, link.nest, true)
  {
  }

  /** An object with one property per binding. */
  lemma ObjectNode(fs: Forks, f: nat, binds: seq<Bind>)
    requires Ready(fs, f)
    ensures var props := MakeProps(fs, f, binds);
      MakeObject(fs, f, binds) == (props.0, ObjectExpression(props.1))
  {
  }

  /** An array with one element per item. */
  lemma ArrayNode(fs: Forks, f: nat, items: seq<Bond>)
    requires Ready(fs, f)
    ensures var elements := MakeItems(fs, f, items);
      MakeArray(fs, f, items) == (elements.0, ArrayExpression(elements.1))
  {
  }

  /** An object with one property per entry. */
  lemma RecordNode(fs: Forks, f: nat, entries: seq<Entry>)
    requires Ready(fs, f)
    ensures var props := MakeEntries(fs, f, entries);
      MakeRecord(fs, f, entries) == (props.0, ObjectExpression(props.1))
  {
  }

  /** A task value is the task translated in a new child fork that records
      it. */
  lemma TaskBondNode(fs: Forks, f: nat, task: Task)
    requires Ready(fs, f)
    ensures var child := TaskFork(fs, f, task);
      MakeTaskBond(fs, f, task) == MakeTask(child.0, child.1, task)
  {
  }

  /** `let` of the name's host term, allocated first; the bond, if any, is
      translated after it. */
  lemma HostNode(fs: Forks, f: nat, z: Zone)
    requires Ready(fs, f) && z.HostZone?
    ensures var term := MakeTerm(fs, f, z.name);
      MakeHost(fs, f, z) ==
        if z.init.None? then (term.0, Variable("let", term.1, Undefined))
        else (MakeBond(term.0, f, z.init.value).0, Variable("let", term.1, MakeBond(term.0, f, z.init.value).1))
  {
  }

  /** An assignment of the bond to the link, the link translated first. */
  lemma SaveNode(fs: Forks, f: nat, z: Zone)
    requires Ready(fs, f) && z.SaveZone?
    ensures var left := MakeLink(fs, f, z.nest);
      var right := MakeBond(left.0, f, z.sift);
      MakeSave(fs, f, z) == (right.0, AssignmentExpression(left.1, right.1))
  {
  }

  /** A return of the bond's value. */
  lemma TurnNode(fs: Forks, f: nat, z: Zone)
    requires Ready(fs, f) && z.TurnZone?
    ensures var v := MakeBond(fs, f, z.sift);
      MakeTurn(fs, f, z) == (v.0, ReturnStatement(v.1))
  {
  }

  /** Each zone form goes to its own builder; any other form yields no
      statement and leaves the arena alone. */
  lemma ZoneNode(fs: Forks, f: nat, z: Zone)
    requires Ready(fs, f)
    ensures z.HostZone? ==> MakeZone(fs, f, z) == (MakeHost(fs, f, z).0, Some(MakeHost(fs, f, z).1))
    ensures z.SaveZone? ==> MakeZone(fs, f, z) == (MakeSave(fs, f, z).0, Some(MakeSave(fs, f, z).1))
    ensures z.TurnZone? ==> MakeZone(fs, f, z) == (MakeTurn(fs, f, z).0, Some(MakeTurn(fs, f, z).1))
    ensures z.CallZone? ==> MakeZone(fs, f, z) == (MakeCall(fs, f, z.call).0, Some(MakeCall(fs, f, z.call).1))
    ensures z.OtherZone? ==> MakeZone(fs, f, z) == (fs, None)
  {
  }

  /** A hook is an anonymous function made in a new child fork: parameters
      first, then the body, whose last statement is returned. */
  lemma HookNode(fs: Forks, f: nat, h: Hook)
    requires Ready(fs, f)
    ensures var child := NewFork(fs, Some(f));
      var params := MakeParams(child.0, child.1, h.link);
      var body := MakeZones(params.0, child.1, h.zone);
      MakeHook(fs, f, h) == (body.0, FunctionDeclaration(None, params.1, BlockStatement(HookBody(body.1)), false))
  {
  }

  /** A task is a function named by its host name, which is allocated after
      the parameters and the body. */
  lemma TaskNode(fs: Forks, f: nat, t: Task)
    requires Ready(fs, f)
    ensures var params := MakeParams(fs, f, t.link);
      var body := MakeZones(params.0, f, t.zone);
      var name := MakeTerm(body.0, f, t.name);
      MakeTask(fs, f, t) == (name.0, FunctionDeclaration(Some(name.1), params.1, BlockStatement(TaskBody(body.1, t.zone)), t.wait))
  {
  }

  /** Dropping the missing statements commutes with appending one zone. */
  lemma {:induction false} CompactSnoc(raw: seq<Option<Node>>, x: Option<Node>)
    ensures Compact(raw + [x]) == Compact(raw) + (if x.Some? then [x.value] else [])
    decreases |raw|
  {
    var tail := if x.Some? then [x.value] else [];
    if raw == [] {
      assert raw + [x] == [x];
      assert [x][1..] == [];
    } else {
      var head := if raw[0].Some? then [raw[0].value] else [];
      var rest := raw[1..];
      assert (raw + [x])[0] == raw[0];
      assert (raw + [x])[1..] == rest + [x];
      CompactSnoc(rest, x);
      assert Compact(raw + [x]) == head + (Compact(rest) + tail);
      assert head + (Compact(rest) + tail) == (head + Compact(rest)) + tail;
    }
  }

  /** Only the last statement is ever wrapped: everything before it is kept
      as produced, and a last zone that produced nothing adds nothing. */
  lemma TailRule(raw: seq<Option<Node>>, wrap: bool)
    requires raw != []
    ensures var body := Compact(WrapTail(raw, wrap));
      var front := Compact(raw[..|raw| - 1]);
      match raw[|raw| - 1]
      case None => body == front
      case Some(s) => body == front + [if wrap then ReturnStatement(s) else s]
  {
    var n := |raw| - 1;
    assert raw == raw[..n] + [raw[n]];
    CompactSnoc(raw[..n], raw[n]);
    if raw[n].Some? {
      CompactSnoc(raw[..n], Some(ReturnStatement(raw[n].value)));
    }
  }

  /** The tail rule of `makeTask`: every statement but the last is kept as
      produced; the last zone's statement is returned, except that a `turn`
      (already a return) is not wrapped again, and a zone of an unknown form
      adds nothing. */
  lemma TaskTail(fs: Forks, f: nat, t: Task)
    requires Ready(fs, f) && t.zone != []
    ensures var fs1 := MakeParams(fs, f, t.link).0;
      var raw := MakeZones(fs1, f, t.zone).1;
      var body := MakeTask(fs, f, t).1.body.statements;
      var front := Compact(raw[..|raw| - 1]);
      var last := raw[|raw| - 1];
      if t.zone[|t.zone| - 1].TurnZone? then
        last.Some? && body == front + [last.value]
        && last.value.ReturnStatement? && IsValue(last.value.argument)
      else if t.zone[|t.zone| - 1].OtherZone? then body == front
      else last.Some? && body == front + [ReturnStatement(last.value)] && !last.value.ReturnStatement?
  {
    var fs1 := MakeParams(fs, f, t.link).0;
    var raw := MakeZones(fs1, f, t.zone).1;
    TaskBodyOf(fs, f, t);
    assert ZoneShape(t.zone[|t.zone| - 1], raw[|raw| - 1]);
    BodyTail(raw, t.zone);
  }

  /** The body of a task's function is the task body of its zones. */
  lemma TaskBodyOf(fs: Forks, f: nat, t: Task)
    requires Ready(fs, f)
    ensures MakeTask(fs, f, t).1.body.statements
      == TaskBody(MakeZones(MakeParams(fs, f, t.link).0, f, t.zone).1, t.zone)
  {
  }

  /** The tail rule on the statements of the zones, whatever they are. */
  lemma BodyTail(raw: seq<Option<Node>>, zones: seq<Zone>)
    requires |raw| == |zones| > 0 && ZoneShape(zones[|zones| - 1], raw[|raw| - 1])
    ensures var body := TaskBody(raw, zones);
      var front := Compact(raw[..|raw| - 1]);
      var last := raw[|raw| - 1];
      if zones[|zones| - 1].TurnZone? then
        last.Some? && body == front + [last.value]
        && last.value.ReturnStatement? && IsValue(last.value.argument)
      else if zones[|zones| - 1].OtherZone? then body == front
      else last.Some? && body == front + [ReturnStatement(last.value)] && !last.value.ReturnStatement?
  {
    TailRule(raw, !zones[|zones| - 1].TurnZone?);
  }

  /** Hooks wrap their last statement unconditionally: a hook ending in a
      `turn` ends in a return of a return. */
  lemma HookTurnReturnsTwice(fs: Forks, f: nat, zones: seq<Zone>)
    requires Ready(fs, f) && zones != [] && zones[|zones| - 1].TurnZone?
    ensures var body := HookBody(MakeZones(fs, f, zones).1);
      body != [] && body[|body| - 1].ReturnStatement? && body[|body| - 1].argument.ReturnStatement?
  {
    var raw := MakeZones(fs, f, zones).1;
    assert ZoneShape(zones[|zones| - 1], raw[|raw| - 1]);
    TailRule(raw, true);
  }

  /** Returning a text allocates nothing, in any fork. */
  lemma HelloZones(fs: Forks, f: nat)
    requires Ready(fs, f)
    ensures MakeZones(fs, f, [TurnZone(Text(["hello"]))]) == (fs, [Some(ReturnStatement(Literal(Str("hello"))))])
  {
    var z := TurnZone(Text(["hello"]));
    assert Cord(["hello"]) == "hello";
    assert MakeBond(fs, f, z.sift) == (fs, Literal(Str("hello")));
    assert MakeZone(fs, f, z) == (fs, Some(ReturnStatement(Literal(Str("hello")))));
    assert [z][1..] == [];
    assert MakeZones(fs, f, []) == (fs, []);
    assert [Some(ReturnStatement(Literal(Str("hello"))))] + [] == [Some(ReturnStatement(Literal(Str("hello"))))];
  }

  /** A task `greet` whose body is a single `turn` of the text "hello"
      compiles, in a fresh task fork of a fresh file, to a function named
      `host_1` whose body is exactly one return of "hello". */
  lemma GreetExample()
    ensures var (fs1, child) := NewFork([RootFork], Some(0));
      var task := Task("greet", [], [TurnZone(Text(["hello"]))], false);
      MakeTask(SetBond(fs1, child, "task", TaskSlot(task)), child, task).1
        == FunctionDeclaration(Some(Identifier("host_1")), [],
             BlockStatement([ReturnStatement(Literal(Str("hello")))]), false)
  {
    var (fs1, child) := NewFork([RootFork], Some(0));
    var task := Task("greet", [], [TurnZone(Text(["hello"]))], false);
    var fs2 := SetBond(fs1, child, "task", TaskSlot(task));
    HelloZones(fs2, child);
    assert Compact([Some(ReturnStatement(Literal(Str("hello"))))]) == [ReturnStatement(Literal(Str("hello")))];
    assert Lookup(fs2, 0, HostSpace, "greet").None?;
    assert Lookup(fs2, child, HostSpace, "greet").None?;
    assert Decimal.Digit(1) == '1';
    assert Decimal.Show(1) == "1";
    assert HostTerm(0) == "host_1";
    assert MakeTerm(fs2, child, "greet").1 == Identifier("host_1");
  }
}


=== FILE: transpile.dfy ===
/** The root compiler's file level (index.js `makeBaseFile`, `makeDockFile`,
    `makeLaceFile`, `makeLoad`, `makeForm`, `makeFile` and the `transpile`
    worklist).  Each file is compiled by methods that walk the file's lists
    with loops, allocating in a fork store; each method is proved equal to a
    specification function over the fork arena, and the properties of the
    output are proved about those functions. */
module Transpile {
  import opened Wrappers
  import opened Ast
  import opened Deck
  import opened TermStore
  import opened Translate
  import DockCalls = Dock

  /** The case conversions the source takes from a library (`to.camel`,
      `to.pascal`). */
  datatype Casing = Casing(camel: string -> string, pascal: string -> string)

  /** What a compiled file holds: a list of statements (base and native
      files), a single statement (lace files) or nothing. */
  datatype Bound = Statements(nodes: seq<Node>) | Single(node: Node) | NoBound

  /** The plain member `obj.prop`. */
  function Access(obj: string, prop: string): Node {
    MemberExpression(Identifier(obj), Identifier(prop), false)
  }

  /** `makeKnit`: `file.knit(line)`. */
  function Knit(line: string): Node {
    CallExpression(Access("file", "knit"), [Literal(Str(line))], false)
  }

  /** `makeFileSaveExpression`: `file.save(line, e)`. */
  function FileSave(line: string, e: Node): Node {
    CallExpression(Access("file", "save"), [Literal(Str(line)), e], false)
  }

  /** `makeBaseBindExpression`: `base.file(line, bind)`. */
  function BaseBind(line: string, bind: Node): Node {
    CallExpression(Access("base", "file"), [Literal(Str(line)), bind], false)
  }

  /** `makeFileBind`: `base.file(line, function(file) { body })`. */
  function FileBind(line: string, body: seq<Node>): Node {
    BaseBind(line, FunctionDeclaration(None, [Identifier("file")], BlockStatement(body), false))
  }

  /** The statements of a file bind, or none for any other node. */
  function BindBody(n: Node): seq<Node> {
    if n.CallExpression? && |n.arguments| == 2 && n.arguments[1].FunctionDeclaration?
       && n.arguments[1].body.BlockStatement?
    then n.arguments[1].body.statements
    else []
  }

  /** A file bind holds exactly the statements it was made with. */
  lemma BindBodyOf(line: string, body: seq<Node>)
    ensures BindBody(FileBind(line, body)) == body
  {
  }

  /** `makeFileTask`: `file.task(name, fn)`. */
  function FileTask(name: string, task: Node): Node {
    CallExpression(Access("file", "task"), [Literal(Str(name)), task], false)
  }

  /** `makeFileForm`: `file.form(name, cls)`. */
  function FileForm(name: string, form: Node): Node {
    CallExpression(Access("file", "form"), [Literal(Str(name)), form], false)
  }

  /** `makeStem`: the stem's value saved under `~stem/~<name>`. */
  function StemSave(stem: Stem): Node {
    FileSave("~stem/~" + stem.name, Literal(stem.bond))
  }

  /** `makeLace`: the whole lace saved under `~lace/~<name>`. */
  function LaceSave(lace: Lace): Node {
    FileSave("~lace/~" + lace.name, Literal(Json(lace.json)))
  }

  /** `replaceKeywords`: the one reserved word the source renames. */
  function ReplaceKeywords(s: string): (r: string)
    ensures r != "case"
    ensures s != "case" ==> r == s
    ensures s == "case" ==> r == "_case"
  {
    if s == "case" then "_case" else s
  }

  /** The renaming is not injective: `case` and `_case` meet. */
  lemma KeywordsCollide()
    ensures ReplaceKeywords("case") == ReplaceKeywords("_case")
  {
  }

  /** The identifier a form's link or task is given. */
  function FieldName(casing: Casing, name: string): string {
    ReplaceKeywords(casing.camel(name))
  }

  /** The tasks of a form that are not borrowed (`task-loan`), in order. */
  function NonLoan(tasks: seq<FormTask>): (r: seq<FormTask>)
    ensures |r| <= |tasks|
    ensures forall t | t in r :: t in tasks && !t.loan
    ensures forall t | t in tasks && !t.loan :: t in r
  {
    if tasks == [] then []
    else (if tasks[0].loan then [] else [tasks[0]]) + NonLoan(tasks[1..])
  }

  /** `makeForm`: a class named after the form, whose constructor copies
      each link into a field of the same name, with one empty method per
      task the form owns; registered with `file.form`. */
  function MakeForm(form: Form, casing: Casing): Node
  {
    var tasks := NonLoan(form.task);
    var methods := seq(|tasks|, i requires 0 <= i < |tasks| =>
      MethodDefinition(Identifier(FieldName(casing, tasks[i].name)), FunctionExpression(None, [], BlockStatement([])), None));
    var params := seq(|form.link|, i requires 0 <= i < |form.link| => Identifier(FieldName(casing, form.link[i])));
    var body := seq(|form.link|, i requires 0 <= i < |form.link| =>
      AssignmentExpression(MemberExpression(Identifier("this"), params[i], false), params[i]));
    var ctor := MethodDefinition(Identifier("constructor"), FunctionExpression(None, params, BlockStatement(body)), Some("constructor"));
    FileForm(form.name, ClassDeclaration(Identifier(casing.pascal(form.name)), None, ClassBody([ctor] + methods)))
  }

  /** The shape `makeForm` gives a form: the class is registered under the
      form's name and named in Pascal case; the constructor takes one
      parameter per link and stores each in the field of the same name; one
      empty method follows per task the form owns, in order. */
  lemma FormClass(form: Form, casing: Casing)
    ensures MakeForm(form, casing).CallExpression? && MakeForm(form, casing).callee == Access("file", "form") && !MakeForm(form, casing).await
    ensures |MakeForm(form, casing).arguments| == 2 && MakeForm(form, casing).arguments[0] == Literal(Str(form.name))
    ensures var cls := MakeForm(form, casing).arguments[1];
      && cls.ClassDeclaration? && cls.className == Identifier(casing.pascal(form.name))
      && cls.superClass.None? && cls.classBody.ClassBody?
    ensures var members := MakeForm(form, casing).arguments[1].classBody.members;
      var tasks := NonLoan(form.task);
      && |members| == 1 + |tasks|
      && (match members[0]
          case MethodDefinition(Identifier("constructor"), FunctionExpression(None, params, BlockStatement(body)), Some("constructor")) =>
            && |params| == |form.link| && |body| == |form.link|
            && forall i | 0 <= i < |form.link| ::
                 && params[i] == Identifier(FieldName(casing, form.link[i]))
                 && body[i] == AssignmentExpression(MemberExpression(Identifier("this"), params[i], false), params[i])
          case _ => false)
      && forall i | 0 <= i < |tasks| ::
           members[i + 1] == MethodDefinition(Identifier(FieldName(casing, tasks[i].name)),
                                               FunctionExpression(None, [], BlockStatement([])), None)
  {
  }

  /** No generated field or method name is the reserved word `case`. */
  lemma FormAvoidsKeyword(form: Form, casing: Casing)
    ensures var r := MakeForm(form, casing);
      forall m | m in r.arguments[1].classBody.members :: m.key != Identifier("case")
  {
    FormClass(form, casing);
    var r := MakeForm(form, casing);
    var members := r.arguments[1].classBody.members;
    var tasks := NonLoan(form.task);
    forall m | m in members ensures m.key != Identifier("case") {
      var k :| 0 <= k < |members| && members[k] == m;
      if k > 0 {
        assert m.key == Identifier(FieldName(casing, tasks[k - 1].name));
      }
    }
  }

  /** The import `const <term> = base.file(road)`. */
  function LoadNode(term: string, road: string): Node {
    VariableDeclaration("const", [VariableDeclarator(Identifier(term), CallExpression(Access("base", "file"), [Literal(Str(road))], false))])
  }

  /** The name an import declares. */
  function LoadName(n: Node): string {
    if n.VariableDeclaration? && |n.declarations| > 0 && n.declarations[0].VariableDeclarator?
       && n.declarations[0].target.Identifier?
    then n.declarations[0].target.name
    else ""
  }

  /** Every file name visible from the root before is still visible, with
      the same mark. */
  ghost predicate FilesPreserved(fs: Forks, gs: Forks, root: nat)
    requires Ready(fs, root) && Walkable(fs, root, FileSpace)
    requires Ready(gs, root) && Walkable(gs, root, FileSpace)
  {
    forall n | Lookup(fs, root, FileSpace, n).Some? :: Lookup(gs, root, FileSpace, n) == Lookup(fs, root, FileSpace, n)
  }

  /** `makeLoad`: an import of the road under its file name. */
  function MakeLoad(fs: Forks, root: nat, road: string): (r: (Forks, Node))
    requires Ready(fs, root) && Walkable(fs, root, FileSpace)
    ensures Ready(r.0, root) && Walkable(r.0, root, FileSpace) && |r.0| == |fs| && Keeps(fs, r.0)
    ensures forall j | 0 <= j < |fs| :: r.0[j].call == fs[j].call
    ensures FilesPreserved(fs, r.0, root)
    ensures Lookup(r.0, root, FileSpace, road).Some?
    ensures r.1 == LoadNode(FileTerm(Lookup(r.0, root, FileSpace, road).value), road)
  {
    var (fs1, mark) := TermTree(fs, root, FileSpace, road);
    assert FilesPreserved(fs, fs1, root) by {
      forall n | Lookup(fs, root, FileSpace, n).Some?
        ensures Lookup(fs1, root, FileSpace, n) == Lookup(fs, root, FileSpace, n)
      {
        LookupPersists(fs, root, FileSpace, road, root, n);
      }
    }
    (fs1, LoadNode(FileTerm(mark), road))
  }

  /** The imports of a file, in order. */
  function Loads(fs: Forks, root: nat, roads: seq<string>): (r: (Forks, seq<Node>))
    requires Ready(fs, root) && Walkable(fs, root, FileSpace)
    ensures Ready(r.0, root) && Walkable(r.0, root, FileSpace) && |r.0| == |fs| && Keeps(fs, r.0)
    ensures forall j | 0 <= j < |fs| :: r.0[j].call == fs[j].call
    ensures |r.1| == |roads|
    decreases |roads|
  {
    if roads == [] then (fs, [])
    else
      var n := |roads| - 1;
      var (fs1, done) := Loads(fs, root, roads[..n]);
      var (fs2, load) := MakeLoad(fs1, root, roads[n]);
      (fs2, done + [load])
  }

  /** One more import extends the imports before it. */
  lemma LoadsSnoc(fs: Forks, root: nat, roads: seq<string>, i: nat)
    requires Ready(fs, root) && Walkable(fs, root, FileSpace) && i < |roads|
    ensures var (fs1, done) := Loads(fs, root, roads[..i]);
      var (fs2, load) := MakeLoad(fs1, root, roads[i]);
      Loads(fs, root, roads[..i + 1]) == (fs2, done + [load])
  {
    assert roads[..i + 1][..i] == roads[..i];
  }

  /** An import that declares the file name its road resolves to. */
  ghost predicate Resolves(fs: Forks, root: nat, road: string, load: Node)
    requires Ready(fs, root) && Walkable(fs, root, FileSpace)
  {
    Lookup(fs, root, FileSpace, road).Some? && load == LoadNode(FileTerm(Lookup(fs, root, FileSpace, road).value), road)
  }

  /** File names that stay visible keep what imports of them resolve to. */
  lemma ResolvesKept(fs: Forks, gs: Forks, hs: Forks, root: nat, roads: seq<string>, done: seq<Node>, load: Node)
    requires Ready(fs, root) && Walkable(fs, root, FileSpace)
    requires Ready(gs, root) && Walkable(gs, root, FileSpace)
    requires Ready(hs, root) && Walkable(hs, root, FileSpace)
    requires FilesPreserved(fs, gs, root) && FilesPreserved(gs, hs, root)
    requires |roads| == |done| + 1
    requires forall i | 0 <= i < |done| :: Resolves(gs, root, roads[i], done[i])
    requires Resolves(hs, root, roads[|done|], load)
    ensures FilesPreserved(fs, hs, root)
    ensures forall i | 0 <= i < |roads| :: Resolves(hs, root, roads[i], (done + [load])[i])
  {
    forall i | 0 <= i < |roads| ensures Resolves(hs, root, roads[i], (done + [load])[i]) {
      if i < |done| {
        assert Resolves(gs, root, roads[i], done[i]);
      }
    }
  }

  /** Each import declares the file name its road resolves to once all
      imports are allocated, and names allocated before stay put. */
  lemma {:induction false} LoadsResolve(fs: Forks, root: nat, roads: seq<string>)
    requires Ready(fs, root) && Walkable(fs, root, FileSpace)
    ensures var r := Loads(fs, root, roads);
      && FilesPreserved(fs, r.0, root)
      && forall i | 0 <= i < |roads| :: Resolves(r.0, root, roads[i], r.1[i])
    decreases |roads|
  {
    if roads != [] {
      var n := |roads| - 1;
      LoadsResolve(fs, root, roads[..n]);
      var (fs1, done) := Loads(fs, root, roads[..n]);
      var (fs2, load) := MakeLoad(fs1, root, roads[n]);
      LoadsSnoc(fs, root, roads, n);
      assert roads[..n + 1] == roads;
      ResolvesKept(fs, fs1, fs2, root, roads, done, load);
    }
  }

  /** Two imports of a file declare the same name exactly when they import
      the same road. */
  lemma LoadNamesDistinct(fs: Forks, root: nat, roads: seq<string>)
    requires Ready(fs, root) && Walkable(fs, root, FileSpace)
    ensures var r := Loads(fs, root, roads);
      forall i, j | 0 <= i < |roads| && 0 <= j < |roads| ::
        LoadName(r.1[i]) == LoadName(r.1[j]) <==> roads[i] == roads[j]
  {
    var r := Loads(fs, root, roads);
    LoadsResolve(fs, root, roads);
    forall i, j | 0 <= i < |roads| && 0 <= j < |roads| && LoadName(r.1[i]) == LoadName(r.1[j])
      ensures roads[i] == roads[j]
    {
      SameNameSameRoad(r.0, root, roads[i], roads[j], r.1[i], r.1[j]);
    }
  }

  /** Two imports resolved in one arena that declare the same name import
      the same road. */
  lemma SameNameSameRoad(fs: Forks, root: nat, a: string, b: string, la: Node, lb: Node)
    requires Ready(fs, root) && Walkable(fs, root, FileSpace)
    requires Resolves(fs, root, a, la) && Resolves(fs, root, b, lb)
    requires LoadName(la) == LoadName(lb)
    ensures a == b
  {
    var x := Lookup(fs, root, FileSpace, a).value;
    var y := Lookup(fs, root, FileSpace, b).value;
    assert LoadName(la) == FileTerm(x);
    assert LoadName(lb) == FileTerm(y);
    FileTermInjective(x, y);
    RootLookupInjective(fs, root, FileSpace, a, b);
  }

  /** The call slots taken by a list of tasks. */
  function TasksSlots(tasks: seq<Task>): nat
    decreases |tasks|
  {
    if tasks == [] then 0 else TasksSlots(tasks[..|tasks| - 1]) + ZonesSlots(tasks[|tasks| - 1].zone)
  }

  /** The call slots taken by one top-level zone. */
  function TopSlots(z: TopZone): nat {
    match z
    case TopSave(nest, sift) => ZoneSlots(SaveZone(nest, sift))
    case TopCall(call) => CallSlots(call)
  }

  /** The call slots taken by the top-level zones of a file. */
  function TopsSlots(zones: seq<TopZone>): nat
    decreases |zones|
  {
    if zones == [] then 0 else TopsSlots(zones[..|zones| - 1]) + TopSlots(zones[|zones| - 1])
  }

  /** A named function with the task's parameters and its `wait` flag. */
  predicate TaskFunction(n: Node, task: Task) {
    && n.FunctionDeclaration? && n.ident.Some? && n.async == task.wait
    && |n.params| == |task.link|
  }

  /** The tasks of a base file, each in its own child fork of the root. */
  function Tasks(fs: Forks, root: nat, tasks: seq<Task>): (r: (Forks, seq<Node>))
    requires Ready(fs, root)
    ensures Ready(r.0, root) && Keeps(fs, r.0)
    ensures CallCount(r.0, root) == CallCount(fs, root) + TasksSlots(tasks)
    ensures |r.1| == |tasks|
    ensures forall i | 0 <= i < |tasks| :: TaskFunction(r.1[i], tasks[i])
    decreases |tasks|
  {
    if tasks == [] then (fs, [])
    else
      var n := |tasks| - 1;
      var done := Tasks(fs, root, tasks[..n]);
      var fn := MakeTaskBond(done.0, root, tasks[n]);
      (fn.0, done.1 + [fn.1])
  }

  /** One more task extends the translation of the tasks before it. */
  lemma TasksSnoc(fs: Forks, root: nat, tasks: seq<Task>, i: nat)
    requires Ready(fs, root) && i < |tasks|
    ensures var done := Tasks(fs, root, tasks[..i]);
      var fn := MakeTaskBond(done.0, root, tasks[i]);
      Tasks(fs, root, tasks[..i + 1]) == (fn.0, done.1 + [fn.1])
  {
    PrefixAt(tasks, i + 1, i);
  }

  /** The forms of a file, each with its own child fork of the root. */
  function Forms(fs: Forks, root: nat, forms: seq<Form>, casing: Casing): (r: (Forks, seq<Node>))
    requires Ready(fs, root)
    ensures Ready(r.0, root) && Keeps(fs, r.0)
    ensures CallCount(r.0, root) == CallCount(fs, root)
    ensures |r.1| == |forms|
    ensures forall i | 0 <= i < |forms| :: r.1[i] == MakeForm(forms[i], casing)
    decreases |forms|
  {
    if forms == [] then (fs, [])
    else
      var n := |forms| - 1;
      var (fs1, done) := Forms(fs, root, forms[..n], casing);
      var (fs3, child) := FormFork(fs1, root, forms[n]);
      (fs3, done + [MakeForm(forms[n], casing)])
  }

  /** A child fork of the root holding a form; it takes no name. */
  function FormFork(fs: Forks, root: nat, form: Form): (r: (Forks, nat))
    requires Ready(fs, root)
    ensures Ready(r.0, root) && Keeps(fs, r.0)
    ensures CallCount(r.0, root) == CallCount(fs, root)
  {
    var (fs1, child) := NewFork(fs, Some(root));
    var fs2 := SetBond(fs1, child, "form", FormSlot(form));
    CallCountSame(fs, fs1, root);
    CallCountSame(fs1, fs2, root);
    (fs2, child)
  }

  /** One top-level zone: a save, or else a call. */
  function MakeTop(fs: Forks, root: nat, z: TopZone): (r: (Forks, Node))
    requires Ready(fs, root)
    ensures Ready(r.0, root) && Keeps(fs, r.0)
    ensures CallCount(r.0, root) == CallCount(fs, root) + TopSlots(z)
    ensures z.TopSave? ==> r.1.AssignmentExpression?
    ensures z.TopCall? ==> r.1.CallExpression? && r.1.await == z.call.wait
  {
    match z
    case TopSave(nest, sift) => MakeSave(fs, root, SaveZone(nest, sift))
    case TopCall(call) => MakeCall(fs, root, call)
  }

  /** The top-level zones of a file, in the root fork. */
  function Tops(fs: Forks, root: nat, zones: seq<TopZone>): (r: (Forks, seq<Node>))
    requires Ready(fs, root)
    ensures Ready(r.0, root) && Keeps(fs, r.0)
    ensures CallCount(r.0, root) == CallCount(fs, root) + TopsSlots(zones)
    ensures |r.1| == |zones|
    decreases |zones|
  {
    if zones == [] then (fs, [])
    else
      var n := |zones| - 1;
      var done := Tops(fs, root, zones[..n]);
      var s := MakeTop(done.0, root, zones[n]);
      (s.0, done.1 + [s.1])
  }

  /** A top-level save is the save of its nest, a top-level call the call. */
  lemma TopNode(fs: Forks, root: nat, z: TopZone)
    requires Ready(fs, root)
    ensures z.TopSave? ==> MakeTop(fs, root, z) == MakeSave(fs, root, SaveZone(z.nest, z.sift))
    ensures z.TopCall? ==> MakeTop(fs, root, z) == MakeCall(fs, root, z.call)
  {
  }

  /** One more top-level zone adds its statement, made after the others. */
  lemma TopsSnoc(fs: Forks, root: nat, zones: seq<TopZone>, i: nat)
    requires Ready(fs, root) && i < |zones|
    ensures var done := Tops(fs, root, zones[..i]);
      var s := MakeTop(done.0, root, zones[i]);
      Tops(fs, root, zones[..i + 1]) == (s.0, done.1 + [s.1])
  {
    PrefixAt(zones, i + 1, i);
  }


  /** The stems of a file, in order. */
  function Stems(stems: seq<Stem>): (r: seq<Node>)
    ensures |r| == |stems|
    ensures forall i | 0 <= i < |stems| :: r[i] == StemSave(stems[i])
    decreases |stems|
  {
    if stems == [] then [] else Stems(stems[..|stems| - 1]) + [StemSave(stems[|stems| - 1])]
  }

  /** The tasks registered under their source names, in order. */
  function FileTasks(tasks: seq<Task>, fns: seq<Node>): (r: seq<Node>)
    requires |tasks| == |fns|
    ensures |r| == |tasks|
    ensures forall i | 0 <= i < |tasks| :: r[i] == FileTask(tasks[i].name, fns[i])
  {
    seq(|tasks|, i requires 0 <= i < |tasks| => FileTask(tasks[i].name, fns[i]))
  }

  /** `const call = new Array(n)` and `file.save('~call', call)` when the
      file took any call slot, and nothing otherwise. */
  function CallArray(n: nat): (r: seq<Node>)
    ensures n > 0 <==> |r| == 2
    ensures n == 0 <==> r == []
  {
    if n > 0 then
      [Variable("const", Identifier("call"), NewExpression(Identifier("Array"), [Literal(Num(n as real))])),
       FileSave("~call", Identifier("call"))]
    else []
  }

  /** The call slots a whole base file takes. */
  function FileSlots(file: File): nat {
    TasksSlots(file.task) + TopsSlots(file.zone)
  }

  /** The statements of the first bind of a base file, in order. */
  function BaseBody(file: File, n: nat, forms: seq<Node>, fns: seq<Node>): seq<Node>
    requires |fns| == |file.task|
  {
    CallArray(n) + [Knit("~stem"), Knit("~form/~name")] + forms + FileTasks(file.task, fns) + Stems(file.stem)
  }

  /** The output of a base file from its translated parts: the first bind
      holds the base body; a second bind holds the top-level zones when
      there are any. */
  function BaseBound(file: File, n: nat, forms: seq<Node>, fns: seq<Node>, calls: seq<Node>): (r: seq<Node>)
    requires |fns| == |file.task|
    ensures |r| == (if calls == [] then 1 else 2)
    ensures BindBody(r[0]) == BaseBody(file, n, forms, fns)
    ensures calls != [] ==> BindBody(r[1]) == calls
  {
    var body := BaseBody(file, n, forms, fns);
    BindBodyOf(file.road, body);
    BindBodyOf(file.road, calls);
    [FileBind(file.road, body)] + (if calls == [] then [] else [FileBind(file.road, calls)])
  }

  /** The translated parts of a base file: imports are allocated but not
      emitted; tasks, forms and top-level zones are translated in that
      order. */
  function BaseParts(fs: Forks, root: nat, file: File, casing: Casing): (r: (Forks, seq<Node>, seq<Node>, seq<Node>))
    requires Ready(fs, root) && Walkable(fs, root, FileSpace)
    ensures Ready(r.0, root) && Keeps(fs, r.0)
    ensures CallCount(r.0, root) == CallCount(fs, root) + FileSlots(file)
    ensures |r.1| == |file.task| && |r.2| == |file.form| && |r.3| == |file.zone|
    ensures forall j | 0 <= j < |file.form| :: r.2[j] == MakeForm(file.form[j], casing)
    ensures forall i | 0 <= i < |file.task| ::
      r.1[i].FunctionDeclaration? && r.1[i].async == file.task[i].wait
  {
    var (fs1, _) := Loads(fs, root, file.load);
    CallCountSame(fs, fs1, root);
    var (fs2, fns) := Tasks(fs1, root, file.task);
    var (fs3, forms) := Forms(fs2, root, file.form, casing);
    var (fs4, calls) := Tops(fs3, root, file.zone);
    (fs4, fns, forms, calls)
  }

  /** `file.task(name, fn)` where `fn` is a function declaration whose
      `async` flag is the task's `wait`. */
  predicate Registers(n: Node, task: Task) {
    && n.CallExpression? && n.callee == Access("file", "task") && |n.arguments| == 2
    && n.arguments[0] == Literal(Str(task.name))
    && n.arguments[1].FunctionDeclaration? && n.arguments[1].async == task.wait
  }

  /** The statements from `k` on register the tasks, in order. */
  predicate RegistersAll(body: seq<Node>, k: nat, tasks: seq<Task>) {
    k + |tasks| <= |body| && forall i | 0 <= i < |tasks| :: Registers(body[k + i], tasks[i])
  }

  /** The statements from `k` on are the classes of the forms, in order. */
  predicate FormsAll(body: seq<Node>, k: nat, forms: seq<Form>, casing: Casing) {
    k + |forms| <= |body| && forall j | 0 <= j < |forms| :: body[k + j] == MakeForm(forms[j], casing)
  }

  /** The first bind of a base file: the call array for `n` slots, the two
      knits, the class of every form, every task registered under its name
      as a function with its `wait` flag, then the stems. */
  predicate BaseLayout(body: seq<Node>, n: nat, file: File, casing: Casing) {
    var k := |CallArray(n)|;
    && |body| == k + 2 + |file.form| + |file.task| + |file.stem|
    && body[..k] == CallArray(n)
    && body[k] == Knit("~stem") && body[k + 1] == Knit("~form/~name")
    && FormsAll(body, k + 2, file.form, casing)
    && RegistersAll(body, k + 2 + |file.form|, file.task)
    && body[k + 2 + |file.form| + |file.task|..] == Stems(file.stem)
  }

  /** The base body has the base layout once the forms and tasks are
      translated one for one. */
  lemma BodyLayout(file: File, n: nat, forms: seq<Node>, fns: seq<Node>, casing: Casing)
    requires |forms| == |file.form| && |fns| == |file.task|
    requires forall j | 0 <= j < |forms| :: forms[j] == MakeForm(file.form[j], casing)
    requires forall i | 0 <= i < |fns| :: fns[i].FunctionDeclaration? && fns[i].async == file.task[i].wait
    ensures BaseLayout(BaseBody(file, n, forms, fns), n, file, casing)
  {
    var body := BaseBody(file, n, forms, fns);
    var k := |CallArray(n)|;
    BodyHead(file, n, forms, fns);
    BodyForms(file, n, forms, fns, casing);
    BodyTasks(file, n, forms, fns);
    BodyStems(file, n, forms, fns);
  }

  /** The base body starts with the call array and the two knits. */
  lemma BodyHead(file: File, n: nat, forms: seq<Node>, fns: seq<Node>)
    requires |fns| == |file.task|
    ensures var body := BaseBody(file, n, forms, fns); var k := |CallArray(n)|;
      && |body| == k + 2 + |forms| + |fns| + |file.stem|
      && body[..k] == CallArray(n)
      && body[k] == Knit("~stem") && body[k + 1] == Knit("~form/~name")
  {
    var call := CallArray(n);
    var head := call + [Knit("~stem"), Knit("~form/~name")];
    var b2 := head + forms;
    var b3 := b2 + FileTasks(file.task, fns);
    var k := |call|;
    FrontOf(b3, Stems(file.stem), k + 2);
    FrontOf(b2, FileTasks(file.task, fns), k + 2);
    FrontOf(head, forms, k + 2);
    assert head[..k + 2] == head;
    assert head[..k] == call;
  }

  /** A front slice of a concatenation that ends within its first part. */
  lemma FrontOf(x: seq<Node>, y: seq<Node>, k: nat)
    requires k <= |x|
    ensures (x + y)[..k] == x[..k]
  {
  }

  /** An element of the middle part of a three-way concatenation. */
  lemma {:induction false} MiddleAt(x: seq<Node>, y: seq<Node>, z: seq<Node>, i: nat)
    requires i < |y|
    ensures |x| + i < |x + y + z| && (x + y + z)[|x| + i] == y[i]
  {
    assert (x + y + z)[|x| + i] == (x + y)[|x| + i];
  }

  /** After the head come the forms' classes. */
  lemma BodyForms(file: File, n: nat, forms: seq<Node>, fns: seq<Node>, casing: Casing)
    requires |forms| == |file.form| && |fns| == |file.task|
    requires forall j | 0 <= j < |forms| :: forms[j] == MakeForm(file.form[j], casing)
    ensures FormsAll(BaseBody(file, n, forms, fns), |CallArray(n)| + 2, file.form, casing)
  {
    var pre := CallArray(n) + [Knit("~stem"), Knit("~form/~name")];
    var tasks := FileTasks(file.task, fns);
    var body := BaseBody(file, n, forms, fns);
    assert body == pre + forms + tasks + Stems(file.stem);
    forall j | 0 <= j < |forms| ensures body[|pre| + j] == MakeForm(file.form[j], casing) {
      MiddleAt(pre, forms, tasks, j);
      FrontOf(pre + forms + tasks, Stems(file.stem), |pre| + j + 1);
      assert body[|pre| + j] == body[..|pre| + j + 1][|pre| + j];
    }
  }

  /** After the forms come the registered tasks. */
  lemma BodyTasks(file: File, n: nat, forms: seq<Node>, fns: seq<Node>)
    requires |fns| == |file.task|
    requires forall i | 0 <= i < |fns| :: fns[i].FunctionDeclaration? && fns[i].async == file.task[i].wait
    ensures RegistersAll(BaseBody(file, n, forms, fns), |CallArray(n)| + 2 + |forms|, file.task)
  {
    var a := CallArray(n) + [Knit("~stem"), Knit("~form/~name")] + forms;
    var tasks := FileTasks(file.task, fns);
    var body := BaseBody(file, n, forms, fns);
    assert body == a + tasks + Stems(file.stem);
    forall i | 0 <= i < |fns| ensures Registers(body[|a| + i], file.task[i]) {
      MiddleAt(a, tasks, Stems(file.stem), i);
      assert body[|a| + i] == FileTask(file.task[i].name, fns[i]);
    }
  }

  /** The stems close the base body. */
  lemma BodyStems(file: File, n: nat, forms: seq<Node>, fns: seq<Node>)
    requires |fns| == |file.task|
    ensures var body := BaseBody(file, n, forms, fns);
      body[|CallArray(n)| + 2 + |forms| + |fns|..] == Stems(file.stem)
  {
    var b := CallArray(n) + [Knit("~stem"), Knit("~form/~name")] + forms + FileTasks(file.task, fns);
    assert BaseBody(file, n, forms, fns) == b + Stems(file.stem);
  }

  /** `makeBaseFile`: the call array, sized by the file's call counter once
      everything is translated, then the two knits, the forms, every task
      registered under its name as a function with its `wait` flag, and
      the stems; the top-level zones, if any, fill a second bind. */
  function BaseFile(fs: Forks, root: nat, file: File, casing: Casing): (r: (Forks, seq<Node>))
    requires Ready(fs, root) && Walkable(fs, root, FileSpace)
    ensures Ready(r.0, root) && Keeps(fs, r.0)
    ensures CallCount(r.0, root) == CallCount(fs, root) + FileSlots(file)
    ensures |r.1| == (if file.zone == [] then 1 else 2)
    ensures BaseLayout(BindBody(r.1[0]), CallCount(r.0, root), file, casing)
    ensures file.zone != [] ==> |BindBody(r.1[1])| == |file.zone|
  {
    var p := BaseParts(fs, root, file, casing);
    var n := CallCount(p.0, root);
    BodyLayout(file, n, p.2, p.1, casing);
    var bound := BaseBound(file, n, p.2, p.1, p.3);
    (p.0, bound)
  }

  /** In a fresh file the call array is sized by exactly the number of
      calls that go through a slot, and is absent when there are none. */
  lemma CallArraySized(fs: Forks, root: nat, file: File, casing: Casing)
    requires Ready(fs, root) && Walkable(fs, root, FileSpace) && CallCount(fs, root) == 0
    ensures var body := BindBody(BaseFile(fs, root, file, casing).1[0]);
      && (FileSlots(file) > 0 ==>
            body[0] == Variable("const", Identifier("call"), NewExpression(Identifier("Array"), [Literal(Num(FileSlots(file) as real))]))
            && body[1] == FileSave("~call", Identifier("call")))
      && (FileSlots(file) == 0 ==> body[0] == Knit("~stem"))
  {
    var r := BaseFile(fs, root, file, casing);
    var body := BindBody(r.1[0]);
    assert CallCount(r.0, root) == FileSlots(file);
    LayoutHead(body, FileSlots(file), file, casing);
  }

  /** A body with the base layout opens with the call array when there are
      slots and with the stem knit otherwise. */
  lemma LayoutHead(body: seq<Node>, n: nat, file: File, casing: Casing)
    requires BaseLayout(body, n, file, casing)
    ensures n > 0 ==>
      && body[0] == Variable("const", Identifier("call"), NewExpression(Identifier("Array"), [Literal(Num(n as real))]))
      && body[1] == FileSave("~call", Identifier("call"))
    ensures n == 0 ==> body[0] == Knit("~stem")
  {
    if n > 0 {
      assert body[0] == body[..2][0];
      assert body[1] == body[..2][1];
    }
  }

  /** A native task: a child fork holding the task, in which the transform
      table lowers it. */
  function DockTaskBond(fs: Forks, root: nat, task: Task): (r: Result<(Forks, Node)>)
    requires Ready(fs, root)
    ensures r.Ok? ==> Ready(r.value.0, root)
    ensures r.Ok? ==> r.value.1.FunctionDeclaration? && r.value.1.async == task.wait
    ensures r.Err? ==> exists j | 0 <= j < |task.zone| :: task.zone[j].CallZone?
  {
    var (fs1, child) := TaskFork(fs, root, task);
    var (fs2, fn) :- DockCalls.MakeDockTask(fs1, child, task);
    Ok((fs2, fn))
  }

  /** A native task is lowered in a new child fork of the root that records
      it; its failure is the task's. */
  lemma DockTaskBondNode(fs: Forks, root: nat, task: Task)
    requires Ready(fs, root)
    ensures var child := TaskFork(fs, root, task);
      DockTaskBond(fs, root, task) == DockCalls.MakeDockTask(child.0, child.1, task)
  {
  }

  /** The tasks of a native file, in order; the first failure stops the
      file. */
  function DockTasks(fs: Forks, root: nat, tasks: seq<Task>): (r: Result<(Forks, seq<Node>)>)
    requires Ready(fs, root)
    ensures r.Ok? ==> Ready(r.value.0, root) && |r.value.1| == |tasks|
    ensures r.Err? ==> exists i, j | 0 <= i < |tasks| && 0 <= j < |tasks[i].zone| :: tasks[i].zone[j].CallZone?
    decreases |tasks|
  {
    if tasks == [] then Ok((fs, []))
    else
      var n := |tasks| - 1;
      var (fs1, done) :- DockTasks(fs, root, tasks[..n]);
      var (fs2, fn) :- DockTaskBond(fs1, root, tasks[n]);
      Ok((fs2, done + [fn]))
  }

  /** The output of a native file from its translated parts: one bind
      whose body lists the imports, the forms, the registered tasks, then
      the top-level zones. */
  function DockBound(file: File, loads: seq<Node>, forms: seq<Node>, fns: seq<Node>, calls: seq<Node>): (r: seq<Node>)
    requires |fns| == |file.task|
    ensures |r| == 1
    ensures var body := BindBody(r[0]);
      && |body| == |loads| + |forms| + |fns| + |calls|
      && body[..|loads|] == loads
      && body[|loads|..|loads| + |forms|] == forms
      && (forall i | 0 <= i < |fns| :: body[|loads| + |forms| + i] == FileTask(file.task[i].name, fns[i]))
      && body[|loads| + |forms| + |fns|..] == calls
  {
    var body := loads + forms + FileTasks(file.task, fns) + calls;
    assert body[..|loads|] == loads;
    assert body[|loads|..|loads| + |forms|] == forms;
    assert body[|loads| + |forms| + |fns|..] == calls;
    [FileBind(file.road, body)]
  }

  /** `makeDockFile`: imports (emitted), native tasks, forms and top-level
      zones, in that order. */
  function DockFile(fs: Forks, root: nat, file: File, casing: Casing): (r: Result<(Forks, seq<Node>)>)
    requires Ready(fs, root) && Walkable(fs, root, FileSpace)
    ensures r.Ok? ==> Ready(r.value.0, root) && |r.value.1| == 1
    ensures r.Ok? ==> var body := BindBody(r.value.1[0]);
      && |body| == |file.load| + |file.form| + |file.task| + |file.zone|
      && body[..|file.load|] == Loads(fs, root, file.load).1
    ensures r.Err? ==> exists i, j | 0 <= i < |file.task| && 0 <= j < |file.task[i].zone| :: file.task[i].zone[j].CallZone?
  {
    var (fs1, loads) := Loads(fs, root, file.load);
    var (fs2, fns) :- DockTasks(fs1, root, file.task);
    var (fs3, forms) := Forms(fs2, root, file.form, casing);
    var (fs4, calls) := Tops(fs3, root, file.zone);
    Ok((fs4, DockBound(file, loads, forms, fns, calls)))
  }

  /** `makeDockFile` exactly: the imports, registered tasks, forms and
      top-level zones are made in that order, each in the arena the part
      before it left, and laid out by `DockBound` as imports, forms, tasks,
      statements; a task that cannot be lowered stops the file. */
  lemma DockFileNode(fs: Forks, root: nat, file: File, casing: Casing)
    requires Ready(fs, root) && Walkable(fs, root, FileSpace)
    ensures var loads := Loads(fs, root, file.load);
      var fns := DockTasks(loads.0, root, file.task);
      DockFile(fs, root, file, casing) ==
        if fns.Err? then Err(fns.error)
        else
          var forms := Forms(fns.value.0, root, file.form, casing);
          var calls := Tops(forms.0, root, file.zone);
          Ok((calls.0, DockBound(file, loads.1, forms.1, fns.value.1, calls.1)))
  {
  }

  /** The laces of a file, in order. */
  function Laces(laces: seq<Lace>): (r: seq<Node>)
    ensures |r| == |laces|
    ensures forall i | 0 <= i < |laces| :: r[i] == LaceSave(laces[i])
    decreases |laces|
  {
    if laces == [] then [] else Laces(laces[..|laces| - 1]) + [LaceSave(laces[|laces| - 1])]
  }

  /** `makeLaceFile`: one bind holding the two knits and the laces; the
      bind is a single node, not a list. */
  function LaceFile(file: File): (r: Node)
    ensures |BindBody(r)| == 2 + |file.lace|
    ensures BindBody(r)[..2] == [Knit("~lace"), Knit("~form/~name")]
    ensures BindBody(r)[2..] == Laces(file.lace)
  {
    var body := [Knit("~lace"), Knit("~form/~name")] + Laces(file.lace);
    assert body[..2] == [Knit("~lace"), Knit("~form/~name")];
    assert body[2..] == Laces(file.lace);
    FileBind(file.road, body)
  }

  /** `makeFile`: dispatch on the file's kind. */
  function CompileFile(fs: Forks, root: nat, file: File, casing: Casing): (r: Result<(Forks, Bound)>)
    requires Ready(fs, root) && Walkable(fs, root, FileSpace)
    ensures r.Err? <==> file.mint.Absent? || (file.mint.Dock? && DockFile(fs, root, file, casing).Err?)
    ensures r.Ok? ==> (r.value.1.NoBound? <==> file.mint.TestMint? || file.mint.Unhandled?)
    ensures r.Ok? ==> (r.value.1.Single? <==> file.mint.LaceMint?)
  {
    match file.mint
    case Base =>
      var (fs1, bound) := BaseFile(fs, root, file, casing);
      Ok((fs1, Statements(bound)))
    case Dock =>
      var (fs1, bound) :- DockFile(fs, root, file, casing);
      Ok((fs1, Statements(bound)))
    case LaceMint => Ok((fs, Single(LaceFile(file))))
    case TestMint => Ok((fs, NoBound))
    case Absent(kind) => Err(UndefinedFunction(kind))
    case Unhandled => Ok((fs, NoBound))
  }

  /** What each kind of file compiles to. */
  lemma CompileFileNode(fs: Forks, root: nat, file: File, casing: Casing)
    requires Ready(fs, root) && Walkable(fs, root, FileSpace)
    ensures file.mint.Base? ==>
      CompileFile(fs, root, file, casing) == Ok((BaseFile(fs, root, file, casing).0, Statements(BaseFile(fs, root, file, casing).1)))
    ensures file.mint.Dock? ==> var d := DockFile(fs, root, file, casing);
      CompileFile(fs, root, file, casing) == if d.Err? then Err(d.error) else Ok((d.value.0, Statements(d.value.1)))
    ensures file.mint.LaceMint? ==> CompileFile(fs, root, file, casing) == Ok((fs, Single(LaceFile(file))))
    ensures file.mint.TestMint? || file.mint.Unhandled? ==> CompileFile(fs, root, file, casing) == Ok((fs, NoBound))
    ensures file.mint.Absent? ==> CompileFile(fs, root, file, casing) == Err(UndefinedFunction(file.mint.kind))
  {
  }

  /** The arena of a fresh file: one root holding the file. */
  function FreshForks(file: File): (fs: Forks)
    ensures Ready(fs, 0) && Walkable(fs, 0, FileSpace) && CallCount(fs, 0) == 0
  {
    SetBond(SetBond([RootFork], 0, "file", FileSlot(file)), 0, "base", UndefinedSlot)
  }

  /** A file compiled on its own, as `transpile` does with a new root. */
  function Compile(file: File, casing: Casing): Result<Bound>
  {
    var (_, b) :- CompileFile(FreshForks(file), 0, file, casing);
    Ok(b)
  }

  /** The worklist of `transpile` from a given point, for a given way of
      compiling one file: files whose road is already compiled are skipped;
      a failing file stops everything. */
  function Run(list: seq<File>, done: map<string, Bound>, compile: File -> Result<Bound>): Result<map<string, Bound>>
    decreases |list|
  {
    if list == [] then Ok(done)
    else if list[0].road in done then Run(list[1..], done, compile)
    else match compile(list[0])
      case Err(e) => Err(e)
      case Ok(b) => Run(list[1..], done[list[0].road := b], compile)
  }

  /** Whether file `i` is the first in the list with its road. */
  ghost predicate First(list: seq<File>, i: int) {
    0 <= i < |list| && forall j | 0 <= j < i :: list[j].road != list[i].road
  }

  /** Every file after the first is first in the rest exactly when it is
      first in the whole list and differs in road from the head. */
  lemma FirstInRest(list: seq<File>, i: int)
    requires 0 < i < |list|
    ensures First(list[1..], i - 1) && list[0].road != list[i].road <==> First(list, i)
  {
    var rest := list[1..];
    assert rest[i - 1] == list[i];
    assert forall j | 0 <= j < i - 1 :: rest[j] == list[j + 1];
    if First(list, i) {
      forall j | 0 <= j < i - 1 ensures rest[j].road != rest[i - 1].road {
        assert rest[j] == list[j + 1];
      }
    }
    if First(rest, i - 1) && list[0].road != list[i].road {
      forall j | 0 <= j < i ensures list[j].road != list[i].road {
        if j > 0 { assert list[j] == rest[j - 1]; }
      }
    }
  }

  /** The roads of a list of files. */
  function Roads(list: seq<File>): (r: set<string>)
    ensures forall i | 0 <= i < |list| :: list[i].road in r
    ensures forall x | x in r :: exists i | 0 <= i < |list| :: list[i].road == x
    decreases |list|
  {
    if list == [] then {}
    else
      var rest := Roads(list[1..]);
      assert forall i | 1 <= i < |list| :: list[i] == list[1..][i - 1];
      {list[0].road} + rest
  }

  /** What the worklist has compiled after looking at `file`, when that
      does not fail. */
  function Next(file: File, done: map<string, Bound>, compile: File -> Result<Bound>): map<string, Bound>
    requires file.road in done || compile(file).Ok?
  {
    if file.road in done then done else done[file.road := compile(file).value]
  }

  /** A run that succeeds goes on from the next map. */
  lemma RunStep(list: seq<File>, done: map<string, Bound>, compile: File -> Result<Bound>)
    requires list != [] && Run(list, done, compile).Ok?
    ensures list[0].road in done || compile(list[0]).Ok?
    ensures Run(list, done, compile) == Run(list[1..], Next(list[0], done, compile), compile)
  {
  }

  /** A successful run holds exactly the roads already done and those of
      the list. */
  lemma {:induction false} RunKeys(list: seq<File>, done: map<string, Bound>, compile: File -> Result<Bound>)
    requires Run(list, done, compile).Ok?
    ensures Run(list, done, compile).value.Keys == done.Keys + Roads(list)
    decreases |list|
  {
    if list != [] {
      RunStep(list, done, compile);
      RunKeys(list[1..], Next(list[0], done, compile), compile);
    }
  }

  /** A successful run keeps the output of every road already done. */
  lemma {:induction false} RunKeeps(list: seq<File>, done: map<string, Bound>, compile: File -> Result<Bound>)
    requires Run(list, done, compile).Ok?
    ensures var out := Run(list, done, compile).value;
      forall k | k in done :: k in out && out[k] == done[k]
    decreases |list|
  {
    if list != [] {
      RunStep(list, done, compile);
      RunKeeps(list[1..], Next(list[0], done, compile), compile);
    }
  }

  /** In a successful run every road not done before holds the output of
      its first file. */
  lemma {:induction false} RunFirst(list: seq<File>, done: map<string, Bound>, compile: File -> Result<Bound>, i: int)
    requires Run(list, done, compile).Ok? && First(list, i) && list[i].road !in done
    ensures compile(list[i]).Ok?
    ensures var out := Run(list, done, compile).value;
      list[i].road in out && out[list[i].road] == compile(list[i]).value
    decreases |list|
  {
    RunStep(list, done, compile);
    var next := Next(list[0], done, compile);
    if i == 0 {
      RunKeeps(list[1..], next, compile);
    } else {
      FirstInRest(list, i);
      assert list[1..][i - 1] == list[i];
      RunFirst(list[1..], next, compile, i - 1);
    }
  }

  /** Each road is compiled once, from its first file: the result holds
      exactly the roads already done and those of the list, an already
      done road keeps its output, and every other road holds the output of
      its first file. */
  lemma RunFirstWins(list: seq<File>, done: map<string, Bound>, compile: File -> Result<Bound>)
    requires Run(list, done, compile).Ok?
    ensures var out := Run(list, done, compile).value;
      && out.Keys == done.Keys + Roads(list)
      && (forall k | k in done :: out[k] == done[k])
      && (forall i | First(list, i) && list[i].road !in done ::
            compile(list[i]).Ok? && out[list[i].road] == compile(list[i]).value)
  {
    RunKeys(list, done, compile);
    RunKeeps(list, done, compile);
    forall i | First(list, i) && list[i].road !in done
      ensures compile(list[i]).Ok? && Run(list, done, compile).value[list[i].road] == compile(list[i]).value
    {
      RunFirst(list, done, compile, i);
    }
  }

  /** The worklist fails exactly when some file that is first with its
      road, among roads not yet done, fails to compile. */
  lemma {:induction false} RunFails(list: seq<File>, done: map<string, Bound>, compile: File -> Result<Bound>)
    ensures Run(list, done, compile).Err? <==>
      exists i | First(list, i) && list[i].road !in done :: compile(list[i]).Err?
    decreases |list|
  {
    if list != [] {
      var rest := list[1..];
      if list[0].road !in done && compile(list[0]).Err? {
        assert First(list, 0);
      } else {
        var next := if list[0].road in done then done else done[list[0].road := compile(list[0]).value];
        RunFails(rest, next, compile);
        if exists i | First(list, i) && list[i].road !in done :: compile(list[i]).Err? {
          var i :| First(list, i) && list[i].road !in done && compile(list[i]).Err?;
          assert i > 0;
          FirstInRest(list, i);
          assert rest[i - 1] == list[i];
        }
        if exists i | First(rest, i) && rest[i].road !in next :: compile(rest[i]).Err? {
          var i :| First(rest, i) && rest[i].road !in next && compile(rest[i]).Err?;
          FirstInRest(list, i + 1);
          assert list[i + 1] == rest[i];
        }
      }
    }
  }

  /** The import loop: one file name per road, at the root. */
  method MakeLoads(store: Store, root: nat, roads: seq<string>) returns (loads: seq<Node>)
    requires Ready(store.forks, root) && Walkable(store.forks, root, FileSpace)
    modifies store
    ensures (store.forks, loads) == Loads(old(store.forks), root, roads)
  {
    ghost var fs0 := store.forks;
    loads := [];
    var i := 0;
    while i < |roads|
      invariant 0 <= i <= |roads|
      invariant (store.forks, loads) == Loads(fs0, root, roads[..i])
    {
      LoadsSnoc(fs0, root, roads, i);
      var term := store.GetForkFileTerm(root, roads[i]);
      loads := loads + [LoadNode(term, roads[i])];
      i := i + 1;
    }
    assert roads[..i] == roads;
  }

  /** A child fork of the root holding a task. */
  method AddTaskFork(store: Store, root: nat, task: Task) returns (child: nat)
    requires Ready(store.forks, root)
    modifies store
    ensures (store.forks, child) == TaskFork(old(store.forks), root, task)
  {
    child := store.CreateNewFork(Some(root));
    store.SetForkBond(child, "task", TaskSlot(task));
  }

  /** One task of a base file, translated in its own fork. */
  method AddTask(store: Store, root: nat, task: Task) returns (fn: Node)
    requires Ready(store.forks, root)
    modifies store
    ensures (store.forks, fn) == MakeTaskBond(old(store.forks), root, task)
  {
    var child := AddTaskFork(store, root, task);
    var made := MakeTask(store.forks, child, task);
    store.forks := made.0;
    fn := made.1;
  }

  /** The task loop. */
  method MakeTasks(store: Store, root: nat, tasks: seq<Task>) returns (fns: seq<Node>)
    requires Ready(store.forks, root)
    modifies store
    ensures (store.forks, fns) == Tasks(old(store.forks), root, tasks)
  {
    ghost var fs0 := store.forks;
    fns := [];
    var i := 0;
    while i < |tasks|
      invariant 0 <= i <= |tasks|
      invariant (store.forks, fns) == Tasks(fs0, root, tasks[..i])
    {
      TasksSnoc(fs0, root, tasks, i);
      var fn := AddTask(store, root, tasks[i]);
      fns := fns + [fn];
      i := i + 1;
    }
    assert tasks[..i] == tasks;
  }

  /** A child fork of the root holding a form. */
  method AddFormFork(store: Store, root: nat, form: Form) returns (child: nat)
    requires Ready(store.forks, root)
    modifies store
    ensures (store.forks, child) == FormFork(old(store.forks), root, form)
  {
    child := store.CreateNewFork(Some(root));
    store.SetForkBond(child, "form", FormSlot(form));
  }

  /** The form loop. */
  method MakeForms(store: Store, root: nat, forms: seq<Form>, casing: Casing) returns (classes: seq<Node>)
    requires Ready(store.forks, root)
    modifies store
    ensures (store.forks, classes) == Forms(old(store.forks), root, forms, casing)
  {
    ghost var fs0 := store.forks;
    classes := [];
    var i := 0;
    while i < |forms|
      invariant 0 <= i <= |forms|
      invariant (store.forks, classes) == Forms(fs0, root, forms[..i], casing)
    {
      assert forms[..i + 1][..i] == forms[..i];
      var child := AddFormFork(store, root, forms[i]);
      classes := classes + [MakeForm(forms[i], casing)];
      i := i + 1;
    }
    assert forms[..i] == forms;
  }

  /** The top-level loop: saves and calls, in the root fork. */
  method MakeTops(store: Store, root: nat, zones: seq<TopZone>) returns (calls: seq<Node>)
    requires Ready(store.forks, root)
    modifies store
    ensures (store.forks, calls) == Tops(old(store.forks), root, zones)
  {
    ghost var fs0 := store.forks;
    calls := [];
    var i := 0;
    while i < |zones|
      invariant 0 <= i <= |zones|
      invariant (store.forks, calls) == Tops(fs0, root, zones[..i])
    {
      assert zones[..i + 1][..i] == zones[..i];
      var made := MakeTop(store.forks, root, zones[i]);
      store.forks := made.0;
      calls := calls + [made.1];
      i := i + 1;
    }
    assert zones[..i] == zones;
  }

  /** `makeBaseFile`, step by step on a fork store. */
  method MakeBaseFile(store: Store, root: nat, file: File, casing: Casing) returns (bound: seq<Node>)
    requires Ready(store.forks, root) && Walkable(store.forks, root, FileSpace)
    modifies store
    ensures (store.forks, bound) == BaseFile(old(store.forks), root, file, casing)
  {
    ghost var fs0 := store.forks;
    var loads := MakeLoads(store, root, file.load);
    CallCountSame(fs0, store.forks, root);
    var fns := MakeTasks(store, root, file.task);
    var forms := MakeForms(store, root, file.form, casing);
    var calls := MakeTops(store, root, file.zone);
    bound := BaseBound(file, CallCount(store.forks, root), forms, fns, calls);
  }

  /** One native task, lowered in its own fork. */
  method AddDockTask(store: Store, root: nat, task: Task) returns (r: Result<Node>)
    requires Ready(store.forks, root)
    modifies store
    ensures var spec := DockTaskBond(old(store.forks), root, task);
      && (r.Err? <==> spec.Err?)
      && (r.Err? ==> r.error == spec.error)
      && (r.Ok? ==> (store.forks, r.value) == spec.value)
  {
    var child := AddTaskFork(store, root, task);
    var made := DockCalls.MakeDockTask(store.forks, child, task);
    if made.Err? {
      return Err(made.error);
    }
    store.forks := made.value.0;
    return Ok(made.value.1);
  }

  /** One more native task extends the tasks before it, or fails. */
  lemma DockTasksSnoc(fs: Forks, root: nat, tasks: seq<Task>, i: nat)
    requires Ready(fs, root) && i < |tasks|
    ensures var prev := DockTasks(fs, root, tasks[..i]);
      && (prev.Err? ==> DockTasks(fs, root, tasks[..i + 1]) == prev)
      && (prev.Ok? ==>
            var step := DockTaskBond(prev.value.0, root, tasks[i]);
            DockTasks(fs, root, tasks[..i + 1]) ==
              if step.Err? then Err(step.error) else Ok((step.value.0, prev.value.1 + [step.value.1])))
  {
    assert tasks[..i + 1][..i] == tasks[..i];
  }

  /** Once a prefix of the tasks fails, so do all the tasks. */
  lemma {:induction false} DockTasksPrefix(fs: Forks, root: nat, tasks: seq<Task>, k: nat)
    requires Ready(fs, root) && k <= |tasks| && DockTasks(fs, root, tasks[..k]).Err?
    ensures DockTasks(fs, root, tasks) == DockTasks(fs, root, tasks[..k])
    decreases |tasks| - k
  {
    if k < |tasks| {
      DockTasksSnoc(fs, root, tasks, k);
      DockTasksPrefix(fs, root, tasks, k + 1);
    } else {
      assert tasks[..k] == tasks;
    }
  }

  /** The native task loop; stops at the first task the transform table
      cannot lower. */
  method MakeDockTasks(store: Store, root: nat, tasks: seq<Task>) returns (r: Result<seq<Node>>)
    requires Ready(store.forks, root)
    modifies store
    ensures var spec := DockTasks(old(store.forks), root, tasks);
      && (r.Err? <==> spec.Err?)
      && (r.Err? ==> r.error == spec.error)
      && (r.Ok? ==> (store.forks, r.value) == spec.value)
  {
    ghost var fs0 := store.forks;
    var fns: seq<Node> := [];
    var i := 0;
    while i < |tasks|
      invariant 0 <= i <= |tasks|
      invariant DockTasks(fs0, root, tasks[..i]) == Ok((store.forks, fns))
    {
      DockTasksSnoc(fs0, root, tasks, i);
      var made := AddDockTask(store, root, tasks[i]);
      if made.Err? {
        DockTasksPrefix(fs0, root, tasks, i + 1);
        return Err(made.error);
      }
      fns := fns + [made.value];
      i := i + 1;
    }
    assert tasks[..i] == tasks;
    return Ok(fns);
  }

  /** `makeDockFile`, step by step on a fork store. */
  method MakeDockFile(store: Store, root: nat, file: File, casing: Casing) returns (r: Result<seq<Node>>)
    requires Ready(store.forks, root) && Walkable(store.forks, root, FileSpace)
    modifies store
    ensures var spec := DockFile(old(store.forks), root, file, casing);
      && (r.Err? <==> spec.Err?)
      && (r.Err? ==> r.error == spec.error)
      && (r.Ok? ==> (store.forks, r.value) == spec.value)
  {
    var loads := MakeLoads(store, root, file.load);
    var fns := MakeDockTasks(store, root, file.task);
    if fns.Err? {
      return Err(fns.error);
    }
    var forms := MakeForms(store, root, file.form, casing);
    var calls := MakeTops(store, root, file.zone);
    return Ok([FileBind(file.road, loads + forms + FileTasks(file.task, fns.value) + calls)]);
  }

  /** `makeFile` on a fork store. */
  method MakeFile(store: Store, root: nat, file: File, casing: Casing) returns (r: Result<Bound>)
    requires Ready(store.forks, root) && Walkable(store.forks, root, FileSpace)
    modifies store
    ensures var spec := CompileFile(old(store.forks), root, file, casing);
      && (r.Err? <==> spec.Err?)
      && (r.Err? ==> r.error == spec.error)
      && (r.Ok? ==> (store.forks, r.value) == spec.value)
  {
    match file.mint
    case Base =>
      var bound := MakeBaseFile(store, root, file, casing);
      return Ok(Statements(bound));
    case Dock =>
      var bound := MakeDockFile(store, root, file, casing);
      if bound.Err? {
        return Err(bound.error);
      }
      return Ok(Statements(bound.value));
    case LaceMint => return Ok(Single(LaceFile(file)));
    case TestMint => return Ok(NoBound);
    case Absent(kind) => return Err(UndefinedFunction(kind));
    case Unhandled => return Ok(NoBound);
  }

  /** One file of `transpile`, compiled from a new root. */
  method CompileNew(file: File, casing: Casing) returns (r: Result<Bound>)
    ensures r == Compile(file, casing)
  {
    var store := new Store();
    var root := store.CreateBaseFork(file);
    assert store.forks == FreshForks(file) && root == 0;
    r := MakeFile(store, root, file, casing);
  }

  /** `transpile`: the files are taken from the front of the list; a road
      already compiled is skipped, any other file gets a new root and is
      compiled.  Its outcome is the worklist run with `Compile`, so each
      road holds the output of its first file (`RunFirstWins`) and the run
      fails exactly when some first file fails (`RunFails`). */
  method Transpile(deck: seq<File>, casing: Casing) returns (r: Result<map<string, Bound>>)
    ensures r == Run(deck, map[], file => Compile(file, casing))
  {
    var compile := file => Compile(file, casing);
    var list := deck;
    var files: map<string, Bound> := map[];
    while list != []
      invariant Run(list, files, compile) == Run(deck, map[], compile)
      decreases |list|
    {
      var base := list[0];
      assert Run(list, files, compile) == if base.road in files then Run(list[1..], files, compile)
        else match compile(base)
          case Err(e) => Err(e)
          case Ok(b) => Run(list[1..], files[base.road := b], compile);
      list := list[1..];
      if base.road in files {
        continue;
      }
      var made := CompileNew(base, casing);
      if made.Err? {
        return Err(made.error);
      }
      files := files[base.road := made.value];
    }
    return Ok(files);
  }
}

=== FILE: wrappers.dfy ===
/** Failure-compatible wrappers shared by the whole model, and the faults the
    compiler can raise. */
module Wrappers {

  datatype Option<+T> = None | Some(value: T) {
    predicate IsFailure() { None? }

    function PropagateFailure<U>(): Option<U>
      requires None?
    {
      None
    }

    function Extract(): T
      requires Some?
    {
      value
    }
  }

  /** Every way the compiler stops with an exception.  Messages that the
      source spells out are reproduced by `Message`. */
  datatype Fault =
    | MissingImplementation(name: string)  // a native transform that does not exist
    | MissingRole(role: string)            // a named binding the transform reads is absent
    | MissingPosition(position: nat)       // a positional binding the transform reads is absent
    | NotText(role: string)                // a binding read as text holds something else
    | NotLink(role: string)                // a binding read as a link holds something else
    | MissingMethod(nodeType: string)      // the resolver has no handler for a node type
    | UndefinedFunction(name: string)      // a call to a function the module never defines
    | NotANode(place: string)              // a property read on `undefined`
    | NotIterable(place: string)           // array destructuring of `undefined`
    | NotAFunction(place: string)          // a call through a table entry that does not exist

  function Message(f: Fault): string {
    match f
    case MissingImplementation(name) => "Missing implementation of " + name
    case MissingMethod(t) => "Missing method " + t
    case MissingRole(role) => "Cannot read properties of undefined (role " + role + ")"
    case MissingPosition(_) => "Cannot read properties of undefined (positional binding)"
    case NotText(role) => "Binding " + role + " is not text"
    case NotLink(role) => "Binding " + role + " is not a link"
    case UndefinedFunction(name) => name + " is not defined"
    case NotANode(place) => "Cannot read properties of undefined (" + place + ")"
    case NotIterable(place) => place + " is not iterable"
    case NotAFunction(place) => place + " is not a function"
  }

  datatype Result<+T> = Ok(value: T) | Err(error: Fault) {
    predicate IsFailure() { Err? }

    function PropagateFailure<U>(): Result<U>
      requires Err?
    {
      Err(error)
    }

    function Extract(): T
      requires Ok?
    {
      value
    }
  }

  // ---------------------------------------------------------------------
  // Runs: a step applied to each element in order, stopping at the first
  // failure, as the compiler's `forEach` loops do.

  /** Every element's result, in order. */
  function Collect<A, B>(f: A -> Result<B>, xs: seq<A>): (r: Result<seq<B>>)
    ensures r.Ok? ==> |r.value| == |xs|
    decreases |xs|
  {
    if xs == [] then Ok([])
    else
      var n := |xs| - 1;
      var front :- Collect(f, xs[..n]);
      var y :- f(xs[n]);
      Ok(front + [y])
  }

  /** One more element adds its result. */
  lemma CollectSnoc<A, B>(f: A -> Result<B>, xs: seq<A>, i: nat, ys: seq<B>, y: B)
    requires i < |xs| && Collect(f, xs[..i]) == Ok(ys) && f(xs[i]) == Ok(y)
    ensures Collect(f, xs[..i + 1]) == Ok(ys + [y])
  {
    assert xs[..i + 1][..i] == xs[..i];
  }

  /** A failure among the first `k` elements is the failure of them all. */
  lemma {:induction false} CollectPrefixErr<A, B>(f: A -> Result<B>, xs: seq<A>, k: nat)
    requires k <= |xs| && Collect(f, xs[..k]).Err?
    ensures Collect(f, xs) == Collect(f, xs[..k])
    decreases |xs|
  {
    if k < |xs| {
      var n := |xs| - 1;
      assert xs[..n][..k] == xs[..k];
      CollectPrefixErr(f, xs[..n], k);
    } else {
      assert xs[..k] == xs;
    }
  }

  /** The first element that fails decides the failure of the run. */
  lemma CollectStop<A, B>(f: A -> Result<B>, xs: seq<A>, i: nat)
    requires i < |xs| && Collect(f, xs[..i]).Ok? && f(xs[i]).Err?
    ensures Collect(f, xs) == Err(f(xs[i]).error)
  {
    assert xs[..i + 1][..i] == xs[..i];
    CollectPrefixErr(f, xs, i + 1);
  }

  /** A run that fails fails as one of its elements does. */
  lemma {:induction false} CollectFails<A, B>(f: A -> Result<B>, xs: seq<A>)
    ensures Collect(f, xs).Err? ==> exists i | 0 <= i < |xs| :: f(xs[i]) == Err(Collect(f, xs).error)
    decreases |xs|
  {
    if xs != [] {
      var n := |xs| - 1;
      CollectFails(f, xs[..n]);
      if Collect(f, xs[..n]).Err? {
        var i :| 0 <= i < n && f(xs[..n][i]) == Err(Collect(f, xs[..n]).error);
        assert xs[..n][i] == xs[i];
      }
    }
  }

  /** A run succeeds exactly when every element does, and then holds each
      element's result in its own position. */
  lemma {:induction false} CollectOk<A, B>(f: A -> Result<B>, xs: seq<A>)
    ensures Collect(f, xs).Ok? <==> forall i | 0 <= i < |xs| :: f(xs[i]).Ok?
    ensures Collect(f, xs).Ok? ==> forall i | 0 <= i < |xs| :: f(xs[i]) == Ok(Collect(f, xs).value[i])
    decreases |xs|
  {
    if xs != [] {
      var n := |xs| - 1;
      assert xs == xs[..n] + [xs[n]];
      CollectOk(f, xs[..n]);
    }
  }

  /** The results of the elements that give one, in order. */
  function Gather<A, B>(f: A -> Result<Option<B>>, xs: seq<A>): (r: Result<seq<B>>)
    decreases |xs|
  {
    if xs == [] then Ok([])
    else
      var n := |xs| - 1;
      var front :- Gather(f, xs[..n]);
      var y :- f(xs[n]);
      Ok(front + if y.Some? then [y.value] else [])
  }

  /** One more element adds its result, if it gives one. */
  lemma GatherSnoc<A, B>(f: A -> Result<Option<B>>, xs: seq<A>, i: nat, ys: seq<B>, y: Option<B>)
    requires i < |xs| && Gather(f, xs[..i]) == Ok(ys) && f(xs[i]) == Ok(y)
    ensures Gather(f, xs[..i + 1]) == Ok(ys + if y.Some? then [y.value] else [])
  {
    assert xs[..i + 1][..i] == xs[..i];
  }

  /** A failure among the first `k` elements is the failure of them all. */
  lemma {:induction false} GatherPrefixErr<A, B>(f: A -> Result<Option<B>>, xs: seq<A>, k: nat)
    requires k <= |xs| && Gather(f, xs[..k]).Err?
    ensures Gather(f, xs) == Gather(f, xs[..k])
    decreases |xs|
  {
    if k < |xs| {
      var n := |xs| - 1;
      assert xs[..n][..k] == xs[..k];
      GatherPrefixErr(f, xs[..n], k);
    } else {
      assert xs[..k] == xs;
    }
  }

  /** The first element that fails decides the failure of the run. */
  lemma GatherStop<A, B>(f: A -> Result<Option<B>>, xs: seq<A>, i: nat)
    requires i < |xs| && Gather(f, xs[..i]).Ok? && f(xs[i]).Err?
    ensures Gather(f, xs) == Err(f(xs[i]).error)
  {
    assert xs[..i + 1][..i] == xs[..i];
    GatherPrefixErr(f, xs, i + 1);
  }

  /** A run succeeds exactly when every element does. */
  lemma {:induction false} GatherOk<A, B>(f: A -> Result<Option<B>>, xs: seq<A>)
    ensures Gather(f, xs).Ok? <==> forall i | 0 <= i < |xs| :: f(xs[i]).Ok?
    decreases |xs|
  {
    if xs != [] {
      var n := |xs| - 1;
      assert xs == xs[..n] + [xs[n]];
      GatherOk(f, xs[..n]);
    }
  }

  // ---------------------------------------------------------------------
  // Sequence facts the list builders' proofs use, stated once so that they
  // are not re-derived inside large proof contexts.

  /** Appending at either end of a middle part associates. */
  lemma ConsSnoc<T>(h: T, mid: seq<T>, w: T)
    ensures [h] + (mid + [w]) == ([h] + mid) + [w]
    ensures [] + [w] == [w] + []
  {
  }

  /** The head and tail of a list with one more element at its end. */
  lemma SnocSplit<T>(xs: seq<T>, x: T)
    ensures xs == [] ==> (xs + [x])[0] == x && (xs + [x])[1..] == []
    ensures xs != [] ==> (xs + [x])[0] == xs[0] && (xs + [x])[1..] == xs[1..] + [x]
  {
    if xs != [] {
      assert (xs + [x])[1..] == xs[1..] + [x];
    }
  }

  /** Indexing into a prefix of a prefix. */
  lemma PrefixAt<T>(s: seq<T>, n: nat, i: nat)
    requires i < n <= |s|
    ensures s[..n][..i] == s[..i] && s[..n][i] == s[i]
  {
  }

  /** A non-empty sequence is its front and its last element. */
  lemma FrontLast<T>(s: seq<T>)
    requires s != []
    ensures s == s[..|s| - 1] + [s[|s| - 1]]
  {
  }
}
